=== FILE: README.md ===
# GenerativeMarkovChain in Dafny

A model of the three generations of GenerativeMarkovChain, with proofs. Each generation is a feedback-tuned weighted random choice over a finite set of elements. Each next output may depend on the outputs before it.

Every generation is built from these pieces:

- **ProbFun**, the flat weighted choice. It has two generations:
  - the map-based one of `GenerativeMarkovChain/src/markov/ProbFun.java`, modelled as the class `MapProbFun.ProbFun` over the functions of `ProbMaps`, `ProbScans` and `ProbEdits`;
  - the older array-based one of `Markov/src/ProbFun.java`, modelled as the class `ArrayProbFun.ProbFun` over a `real` array.
- **ProbFunTree**, a tree of ProbFun-like nodes. Each node holds:
  - a sorted map from element to probability;
  - a sorted map from element to child;
  - a history cursor;
  - a depth counter.

  Its three variants are `ProbabilityFunctionTree/src/tree`, `ProbabilityFunctionTree/src/main/java/tree` and `GenerativeMarkovChain/src/markov`. Each is modelled as functions on a value datatype (`TreeNodes`, `CountdownTree`, `LayerTree`, `MainTree`, `MarkovTree`). Each Java class becomes a Dafny class (`LayerProbFunTree`, `MainProbFunTree`, `MarkovProbFunTree`) that holds the root. Every one of its methods ensures that the new root is the matching function of the old root.
- **The two-step chains** `MarkovChain` and `NestedProbFun` (`TwoStepChains`). They are classes holding shared ProbFun objects, and their feedback and draw state machines are proved against functions over the maps.
- **The deeper chains.** GenerativeMarkovChain's `NestedMarkovNode` is modelled in `NestedLevels`, `NestedSteps`, `NestedRenaming`, `NestedNodes` and `NestedClone`. It has:
  - a bounded history;
  - a first chain;
  - a list of level maps from node to (element to node).

  Its builder `NLayerMarkovChain` is in `NLayerChains`. The earliest uniform-node classes of `Markov/src/chain` are in `ChainNodes`.

Probabilities are exact `real`s and elements are `int`s. The random draw is a parameter `rnd` in [0, 1). A Java `Set` of choices is a `seq<int>` in ascending order. A `TreeMap` or `HashMap` keyed by element is a sorted association list (`Assoc`). A thrown exception is a `Fail` or `Some` of `Wrappers.Exception`.

## Model

| member | source | states |
|---|---|---|
| ProbMaps.FixProbSum | GenerativeMarkovChain/src/markov/ProbFun.java:117-120 | the first entry in key order absorbs 1 minus the current sum, nothing else changes, the result sums to exactly 1, and a map already summing to 1 is unchanged |
| ProbMaps.ScaleProbs | GenerativeMarkovChain/src/markov/ProbFun.java:93-100 | every value is multiplied by 1/sum and the result sums to 1 over the same keys in the same order |
| ProbMaps.ScaleProbsDistribution | GenerativeMarkovChain/src/markov/ProbFun.java:93-100 | rescaling any positive, ordered, non-empty map gives a distribution over the same keys |
| ProbMaps.Uniform | GenerativeMarkovChain/src/markov/ProbFun.java:35-44 | the constructor's map: a distribution whose keys are exactly the choices, each at 1/n |
| ProbMaps.ClearProbs | GenerativeMarkovChain/src/markov/ProbFun.java:176-178 | a distribution over the same keys, each at 1/n |
| ProbMaps.Sample | GenerativeMarkovChain/src/markov/ProbFun.java:361-373 | the element drawn is a key of the map, and none (Java's null) exactly for a draw of 0 |
| ProbMaps.SampleInterval | GenerativeMarkovChain/src/markov/ProbFun.java:367-371 | for a draw in (0, sum) the i-th key comes out iff the draw lies in the i-th interval of cumulative sums (both directions) |
| ProbMaps.NextValue | GenerativeMarkovChain/src/markov/ProbFun.java:361-373 | the while loop over the entry iterator returns exactly Sample of the map at the draw |
| ProbMaps.ProbSum | GenerativeMarkovChain/src/markov/ProbFun.java:105-112 | the summing loop returns the sum of the values |
| ProbMaps.ScaleInPlace | GenerativeMarkovChain/src/markov/ProbFun.java:96-98 | the setValue loop multiplies every value by c |
| ProbMaps.ScaleProbsLoop | GenerativeMarkovChain/src/markov/ProbFun.java:93-100 | scaleProbs as the loops run it equals ScaleProbs |
| ProbMaps.TargetBounds | GenerativeMarkovChain/src/markov/ProbFun.java:303-312 | with P below 1, the good target lies strictly between P and 1; at P = 1 it reaches 1 (the early return); the bad target lies strictly between 0 and P |
| ProbMaps.ReweightSpec | GenerativeMarkovChain/src/markov/ProbFun.java:313-321 | after good/bad's tail the entry holds the target (1 when alone), every other entry is multiplied by (1 - target)/(sum of the others), and the map is positive and sums to 1 |
| ProbMaps.Good | GenerativeMarkovChain/src/markov/ProbFun.java:297-323 | IllegalArgumentException for a percent outside (0, 1), NullPointerException for an element not held, and otherwise a distribution over the same keys in which the element holds the returned probability |
| ProbMaps.Bad | GenerativeMarkovChain/src/markov/ProbFun.java:333-354 | the same error cases as good; otherwise a distribution over the same keys in which the element holds the returned probability |
| ProbMaps.GoodRule | GenerativeMarkovChain/src/markov/ProbFun.java:297-323 | with two or more entries, the element rises strictly to GoodTarget below 1, that value is returned, and every other entry is multiplied by (1 - new)/(1 - old); a single entry is unchanged, with 1 returned |
| ProbMaps.GoodNoOpIff | GenerativeMarkovChain/src/markov/ProbFun.java:310-311 | good leaves the map unchanged iff it has a single element |
| ProbMaps.BadRule | GenerativeMarkovChain/src/markov/ProbFun.java:339-354 | at or below the floor nothing changes and the old value is returned; otherwise the element falls strictly to BadTarget, the others are scaled by (1 - new)/(1 - old), and a single element is restored to 1 |
| ProbMaps.GoodExample | GenerativeMarkovChain/src/testMarkov/TestProbFun.java:156-190 | good(0, 0.5) on {0: 0.25, 1: 0.75} gives {0: 0.375, 1: 0.625} and returns 0.375 |
| ProbMaps.BadExample | GenerativeMarkovChain/src/testMarkov/TestProbFun.java:120-154 | bad(1, 0.5) on {0: 0.25, 1: 0.75} gives {0: 0.625, 1: 0.375} and returns 0.375, for any floor below 0.375 |
| ProbMaps.MinValueRange | GenerativeMarkovChain/src/markov/ProbFun.java:341 | Double.MIN_VALUE (2^-1074) lies strictly between 0 and 0.375, so it does not stop the bad example |
| MapProbFun.Build | GenerativeMarkovChain/src/markov/ProbFun.java:56-79 | IllegalArgumentException iff there is no choice, the lengths differ, or the probabilities do not sum to 1; otherwise a distribution whose keys are the choices in iteration order and whose values are the probabilities in order |
| MapProbFun.SetProbs | GenerativeMarkovChain/src/markov/ProbFun.java:149-171 | IllegalArgumentException iff the length differs from the size or the sum is not 1; otherwise the same keys, holding the new probabilities in key order |
| MapProbFun.SetProbsRoundTrip | GenerativeMarkovChain/src/markov/ProbFun.java:135-171 | writing back what getProbs returned leaves the map exactly as it was |
| MapProbFun.ClearOutcome | GenerativeMarkovChain/src/markov/ProbFun.java:176-178 | the fresh uniform ProbFun is refused with IllegalArgumentException iff fewer than two keys; otherwise the same keys, each at 1/n |
| MapProbFun.RemoveOutcome | GenerativeMarkovChain/src/markov/ProbFun.java:220-231 | IllegalStateException iff two entries; NoSuchElementException iff the only entry is removed (the map is left empty); false iff the element is absent (map unchanged); true removes exactly that key and rescales to a distribution |
| MapProbFun.RemoveAfterAdd | GenerativeMarkovChain/src/markov/ProbFun.java:185-191 | removing an element that add(element) just added restores the map exactly |
| MapProbFun.RemoveAfterAddPercent | GenerativeMarkovChain/src/markov/ProbFun.java:199-212 | removing an element that add(element, percent) just added restores the map exactly |
| MapProbFun.PurgeOutcome | GenerativeMarkovChain/src/markov/ProbFun.java:237-256 | NoSuchElementException iff one entry; otherwise the result is a distribution of at least two entries over a subset of the keys; at two entries nothing changes |
| MapProbFun.PurgeOutcomeSpec | GenerativeMarkovChain/src/markov/ProbFun.java:244-254 | past two entries exactly one key goes, the first at the minimum, and ConcurrentModificationException is thrown iff more than three entries were there and that entry was not the last |
| MapProbFun.PurgeThrows | GenerativeMarkovChain/src/markov/ProbFun.java:244-253 | on four entries with the minimum first, purge throws ConcurrentModificationException |
| MapProbFun.PurgePercentOutcome | GenerativeMarkovChain/src/markov/ProbFun.java:264-287 | IllegalArgumentException iff the percent is outside (0, 1); otherwise a distribution over a subset of the keys, of at least two entries past two, unchanged at two or fewer, keeping every entry above the percent |
| MapProbFun.AddOutcome | GenerativeMarkovChain/src/markov/ProbFun.java:199-212 | IllegalArgumentException iff the percent is outside (0, 1); otherwise a distribution over the keys plus the element; a new element gets exactly the percent and the others are scaled by 1 - percent |
| MapProbFun.ProbFun.constructor | GenerativeMarkovChain/src/markov/ProbFun.java:35-44 | every choice at exactly 1/n |
| MapProbFun.ProbFun.WithProbs | GenerativeMarkovChain/src/markov/ProbFun.java:56-79 | the map is Build of the choices and probabilities |
| MapProbFun.ProbFun.Copy | GenerativeMarkovChain/src/markov/ProbFun.java:383-387 | the copy holds the same map |
| MapProbFun.ProbFun.GetProb | GenerativeMarkovChain/src/markov/ProbFun.java:127-130 | the element's probability, present iff the element is held, and in (0, 1] |
| MapProbFun.ProbFun.GetProbs | GenerativeMarkovChain/src/markov/ProbFun.java:135-141 | the values in key order, which setProbs accepts and turns back into the same map |
| MapProbFun.ProbFun.SetProbsOf | GenerativeMarkovChain/src/markov/ProbFun.java:149-171 | fails with IllegalArgumentException, nothing changed, exactly when SetProbs refuses; otherwise the map becomes SetProbs of the old one |
| MapProbFun.ProbFun.ClearProbs | GenerativeMarkovChain/src/markov/ProbFun.java:176-178 | fails, nothing changed, exactly when ClearOutcome refuses; otherwise the map becomes uniform over the same keys |
| MapProbFun.ProbFun.Add | GenerativeMarkovChain/src/markov/ProbFun.java:185-191 | the map becomes AddUniform of the old one: the element put at 1/n, then rescaled |
| MapProbFun.ProbFun.AddWithPercent | GenerativeMarkovChain/src/markov/ProbFun.java:199-212 | fails, nothing changed, exactly when AddOutcome refuses; otherwise the map becomes AddOutcome of the old one |
| MapProbFun.ProbFun.Remove | GenerativeMarkovChain/src/markov/ProbFun.java:220-231 | result and new map are exactly RemoveOutcome of the old map |
| MapProbFun.ProbFun.Purge | GenerativeMarkovChain/src/markov/ProbFun.java:237-256 | error and new map are exactly PurgeOutcome of the old map |
| MapProbFun.ProbFun.PurgeWithPercent | GenerativeMarkovChain/src/markov/ProbFun.java:264-287 | fails, nothing changed, exactly when PurgePercentOutcome refuses; otherwise the map becomes its result |
| MapProbFun.ProbFun.Good | GenerativeMarkovChain/src/markov/ProbFun.java:297-323 | fails with the error of ProbMaps.Good (map unchanged) exactly when it fails; otherwise map and returned probability are ProbMaps.Good of the old map |
| MapProbFun.ProbFun.Bad | GenerativeMarkovChain/src/markov/ProbFun.java:333-354 | fails with the error of ProbMaps.Bad (map unchanged) exactly when it fails; otherwise map and returned probability are ProbMaps.Bad of the old map with floor 0 |
| MapProbFun.ProbFun.Fun | GenerativeMarkovChain/src/markov/ProbFun.java:361-373 | the element is Sample of the map at the draw: none exactly for a draw of 0, otherwise a key of the map |
| MapProbFun.ProbFun.Size | GenerativeMarkovChain/src/markov/ProbFun.java:378 | the number of entries, at least 1 |
| MapProbFun.ProbFun.Clone | GenerativeMarkovChain/src/markov/ProbFun.java:383-392 | a fresh valid ProbFun holding the same map |
| MapProbFun.New | GenerativeMarkovChain/src/markov/ProbFun.java:35-44 | IllegalArgumentException iff fewer than two choices; otherwise a fresh node, uniform over the choices |
| MapProbFun.NewWithProbs | GenerativeMarkovChain/src/markov/ProbFun.java:56-79 | IllegalArgumentException exactly when Build refuses; otherwise a fresh node holding Build's map |
| ArrayProbFun.FixLast | Markov/src/ProbFun.java:117-122 | the fix keeps every entry but the last and makes the array sum to exactly 1; an array that already sums to 1 is left unchanged |
| ArrayProbFun.UniformProbs | Markov/src/ProbFun.java:112-122 | with nothing stored there are n entries, each exactly 1/n, positive and summing to 1 |
| ArrayProbFun.CurrentProbs | Markov/src/ProbFun.java:102-129 | what getProbs returns is always n positive entries summing to 1, stored or not |
| ArrayProbFun.ReweightStochastic | Markov/src/ProbFun.java:259-269 | setting the entry at i to t in (0, 1) and scaling the others by (1 - t)/(1 - P) leaves a positive array summing to 1 |
| ArrayProbFun.GoodProbsSpec | Markov/src/ProbFun.java:248-278 | good raises the entry strictly, to its good target, and multiplies every other entry by (1 - new)/(1 - old), so proportions among the rest are kept |
| ArrayProbFun.BadProbsSpec | Markov/src/ProbFun.java:298-324 | bad lowers the entry strictly, to its bad target (still positive), and multiplies every other entry by (1 - new)/(1 - old) |
| ArrayProbFun.ReinforceOutcome | Markov/src/ProbFun.java:238-327 | good/bad with their checks: with one choice nothing changes; a percent outside (0, 1) throws IllegalArgumentException iff there are two or more choices; an index out of range throws IndexOutOfBoundsException after the uniform array is cached; otherwise the stored array becomes GoodProbs/BadProbs of the current one, and what is stored is always stochastic |
| ArrayProbFun.AddAsWrittenShare | Markov/src/ProbFun.java:162-191 | as written, the object added to n entries ends at 1/(n + 2), strictly less than the 1/(n + 1) an equal share would be |
| ArrayProbFun.AddProbsShare | Markov/src/ProbFun.java:162-191 | the corrected add gives the new object exactly 1/(n + 1) and multiplies every old entry by n/(n + 1) |
| ArrayProbFun.AddedProbsSpec | Markov/src/ProbFun.java:170-189 | appending v, rescaling by 1/sum and fixing the last entry gives the new entry v/(1 + v) and every old entry s[i]/(1 + v) |
| ArrayProbFun.RemoveAsWrittenDropsNext | Markov/src/ProbFun.java:205-212 | on [1/4, 1/4, 1/2], removing index 0 as written yields [0, 1]; the intended result is [1/3, 2/3] |
| ArrayProbFun.RemoveAsWrittenAgrees | Markov/src/ProbFun.java:197-229 | for every stochastic array, remove as written equals the intended remove iff the last index is removed or only two entries exist; otherwise the slot at the index is 0 where the intended result is positive |
| ArrayProbFun.RemoveRangeAsWritten | Markov/src/ProbFun.java:199-200 | as written, an index outside the list draws IllegalArgumentException (the `%f` conversion failure), inside it nothing |
| ArrayProbFun.RemoveRangeAsWrittenMinusOne | Markov/src/ProbFun.java:199-200 | `remove(-1)` throws IllegalArgumentException as written where IndexOutOfBoundsException is documented |
| ArrayProbFun.RemoveRange | Markov/src/ProbFun.java:195-200 | the documented check: IndexOutOfBoundsException exactly for an index outside the list |
| ArrayProbFun.RemoveRangeAgrees | Markov/src/ProbFun.java:195-200 | the as-written and documented checks agree iff the index is inside the list; as written the documented exception is never thrown |
| ArrayProbFun.RemoveProbsSpec | Markov/src/ProbFun.java:197-229 | the intended remove leaves the other entries in order, each multiplied by 1/(1 - removed) |
| ArrayProbFun.RemoveTotal | Markov/src/ProbFun.java:205-217 | the entries left by the intended copy are positive, in order, and sum to 1 minus the removed entry |
| ArrayProbFun.ReachInterval | Markov/src/ProbFun.java:336-340 | the summing loop stops at k iff the prefix sum before k is below the draw and the prefix sum through k reaches it (both directions) |
| ArrayProbFun.RoundRange | Markov/src/ProbFun.java:342 | with nothing stored, round(r * (n - 1)) is a valid index for every draw in [0, 1) |
| ArrayProbFun.FunIndex | Markov/src/ProbFun.java:332-343 | the index fun records is in range when nothing is stored or the draw is positive; a draw of 0 with probabilities stored leaves the previous index; a positive draw lands in the interval of cumulative sums that holds it |
| ArrayProbFun.Pick | Markov/src/ProbFun.java:343 | choices.get(k) succeeds iff k is in range, returns the choice at k, and otherwise throws IndexOutOfBoundsException |
| ArrayProbFun.GetAsWritten | Markov/src/ProbFun.java:93-97 | get throws IndexOutOfBoundsException exactly for an index outside [0, n) |
| ArrayProbFun.GetZeroEmpty | Markov/src/ProbFun.java:96-97 | on any non-empty list, get(0) as written returns an empty Optional although index 0 is in range |
| ArrayProbFun.GetChoice | Markov/src/ProbFun.java:93-97 | the corrected get fails exactly out of range, returns the object at every index in range, and agrees with the code as written for every index above 0 |
| ArrayProbFun.SumOf | Markov/src/ProbFun.java:118-121 | the summing loop computes the total of the first n entries |
| ArrayProbFun.FixLastIn | Markov/src/ProbFun.java:117-122 | the fix loop leaves the array equal to FixLast of its old contents |
| ArrayProbFun.ScaleInto | Markov/src/ProbFun.java:267-269 | the loop writes src[i] * c into every slot of dst |
| ArrayProbFun.CopyOf | Markov/src/ProbFun.java:106-110 | a fresh array with the same entries |
| ArrayProbFun.UniformArray | Markov/src/ProbFun.java:106-122 | a fresh array equal to UniformProbs(n) |
| ArrayProbFun.Extended | Markov/src/ProbFun.java:170-175 | a fresh array one longer, holding the old entries then v |
| ArrayProbFun.Without | Markov/src/ProbFun.java:205-212 | the intended copy loop: a fresh array holding every entry except the one at index, in order |
| ArrayProbFun.ScaleIn | Markov/src/ProbFun.java:314-316 | the loop multiplies every entry by c in place |
| ArrayProbFun.GoodIn | Markov/src/ProbFun.java:252-277 | the body of good leaves the copy equal to GoodProbs of the stored array, and unchanged on the early exit |
| ArrayProbFun.BadIn | Markov/src/ProbFun.java:299-323 | the body of bad leaves the copy equal to BadProbs of the stored array, and unchanged on the floor exit |
| ArrayProbFun.Cumulate | Markov/src/ProbFun.java:334-340 | the summing loop returns the previous index for a draw of 0, and otherwise Reach of the array at the draw |
| ArrayProbFun.ProbFun.constructor | Markov/src/ProbFun.java:42-49 | the choices are copied, with no probabilities stored and previousIndex -1 |
| ArrayProbFun.ProbFun.WithProbs | Markov/src/ProbFun.java:58-70 | the choices and a fresh copy of the probabilities are stored |
| ArrayProbFun.ProbFun.Size | Markov/src/ProbFun.java:75 | the number of choices, at least 1 |
| ArrayProbFun.ProbFun.PreviousIndex | Markov/src/ProbFun.java:80 | the index recorded by the last fun, -1 before any |
| ArrayProbFun.ProbFun.Get | Markov/src/ProbFun.java:93-97 | get with index 0 answered as intended: fails exactly out of range and otherwise returns the object at the index |
| ArrayProbFun.ProbFun.GetProbs | Markov/src/ProbFun.java:102-129 | returns a fresh copy equal to CurrentProbs; when nothing was stored, a fresh uniform array is now stored |
| ArrayProbFun.ProbFun.SetProbs | Markov/src/ProbFun.java:135-157 | IllegalArgumentException iff the length differs from the number of choices or the sum is not 1, with nothing changed; otherwise a fresh copy is stored |
| ArrayProbFun.ProbFun.ClearProbs | Markov/src/ProbFun.java:85 | afterwards the stored array is fresh and uniform |
| ArrayProbFun.ProbFun.Add | Markov/src/ProbFun.java:162-191 | the object is appended in every case; with nothing stored NullPointerException follows and the probabilities stay null; otherwise the stored array becomes AddProbs of the old one |
| ArrayProbFun.ProbFun.Remove | Markov/src/ProbFun.java:195-229 | out of range throws the documented IndexOutOfBoundsException (RemoveRange) with nothing changed; otherwise the object leaves the list; then with nothing stored NullPointerException; with the last object gone IndexOutOfBoundsException; otherwise RemoveProbs of the old array is stored |
| ArrayProbFun.ProbFun.Good | Markov/src/ProbFun.java:238-281 | the choices are kept and error and stored array are exactly ReinforceOutcome(..., good) |
| ArrayProbFun.ProbFun.Bad | Markov/src/ProbFun.java:290-327 | the choices are kept and error and stored array are exactly ReinforceOutcome(..., bad) |
| ArrayProbFun.ProbFun.Fun | Markov/src/ProbFun.java:332-345 | the stored probabilities are unchanged, previousIndex becomes FunIndex of the draw, and the result is the choice there or IndexOutOfBoundsException |
| ArrayProbFun.New | Markov/src/ProbFun.java:42-49 | IllegalArgumentException iff the list is empty; otherwise a valid node holding the choices with nothing stored |
| ArrayProbFun.NewWithProbs | Markov/src/ProbFun.java:58-70 | IllegalArgumentException iff either is empty or their lengths differ; otherwise a valid node storing a copy of the probabilities |
| ProbScans.MinProb | ProbabilityFunctionTree/src/main/java/tree/ProbFunTree.java:530 | the stream minimum is at most every value and is one of them |
| ProbScans.MaxProb | ProbabilityFunctionTree/src/main/java/tree/ProbFunTree.java:531 | the stream maximum is at least every value and is one of them |
| ProbScans.DropScanSpec | ProbabilityFunctionTree/src/main/java/tree/ProbFunTree.java:540-553 | the iterator-removal scan removes every entry at or below the limit when enough entries remain, and otherwise stops with exactly floor entries |
| ProbScans.DropScanMembers | ProbabilityFunctionTree/src/main/java/tree/ProbFunTree.java:540-553 | the scan only removes entries, and it keeps every entry above the limit |
| ProbScans.PruneProbs | ProbabilityFunctionTree/src/main/java/tree/ProbFunTree.java:529-556 | prune keeps a distribution over a subset of the keys |
| ProbScans.PruneAbove | ProbabilityFunctionTree/src/main/java/tree/ProbFunTree.java:529-556 | when the values differ, prune is the rescaled map of the entries above the minimum |
| ProbScans.PruneRemovesMinima | ProbabilityFunctionTree/src/main/java/tree/ProbFunTree.java:529-556 | with all values equal prune changes nothing; otherwise a key survives iff its value is above the minimum (both directions) |
| ProbScans.PurgeMin | GenerativeMarkovChain/src/markov/ProbFunTree.java:281-304 | purge of the GenerativeMarkovChain tree keeps a distribution of at least two entries over a subset of the keys |
| ProbScans.PurgeMinSpec | GenerativeMarkovChain/src/markov/ProbFunTree.java:281-304 | with at least two entries above the minimum, a key survives iff its value is above the minimum; otherwise exactly two entries are left |
| ProbScans.PurgeOnce | ProbabilityFunctionTree/src/tree/ProbFunTree.java:550-559 | the for-each loop that calls remove leaves a distribution of at least floor entries |
| ProbScans.PurgeOnceSpec | ProbabilityFunctionTree/src/tree/ProbFunTree.java:550-559 | exactly one entry is removed, the first at or below the limit (none if there is none), and ConcurrentModificationException follows iff later entries remain and the size is still above the floor |
| ProbScans.BeforeTotal | GenerativeMarkovChain/src/markov/ProbFunTree.java:332-335 | comparingByValue with ties in key order is a total order on entries with different keys |
| ProbScans.SortByValue | GenerativeMarkovChain/src/markov/ProbFunTree.java:332-335 | the sorted copy is ordered by value (ties by key) and is a permutation of the entries |
| ProbScans.SortByValueKeys | GenerativeMarkovChain/src/markov/ProbFunTree.java:332-335 | the sorted copy lists each key of the map exactly once |
| ProbScans.SortedPurge | GenerativeMarkovChain/src/markov/ProbFunTree.java:336-345 | the scan over the sorted copy keeps a distribution of at least floor entries over a subset of the keys |
| ProbScans.SortedPurgeSpec | GenerativeMarkovChain/src/markov/ProbFunTree.java:336-344 | the scan removes exactly the first min(Lead, n - floor) keys of the sorted copy, where Lead counts its leading entries at or below the percent |
| ProbScans.PurgePercent | GenerativeMarkovChain/src/markov/ProbFunTree.java:324-347 | purge(percent) past its check keeps a distribution over a subset of the keys, of at least floor entries |
| ProbScans.PurgePercentSpec | GenerativeMarkovChain/src/markov/ProbFunTree.java:324-347 | purge(percent) removes the entries of lowest probability at or below the percent, lowest first and ties in key order, until floor entries would remain; every removed entry is at or below the percent |
| ProbScans.PurgePercentKeepsAbove | GenerativeMarkovChain/src/markov/ProbFun.java:264-287 | an entry above the percent always survives purge(percent) |
| ProbScans.PrunePercent | ProbabilityFunctionTree/src/main/java/tree/ProbFunTree.java:578-604 | prune(percent) past its check keeps a distribution over a subset of the keys |
| ProbScans.PrunePercentSame | ProbabilityFunctionTree/src/main/java/tree/ProbFunTree.java:578-604 | prune(percent) does exactly what prune() does, whatever the percent |
| ProbEdits.AddUniform | ProbabilityFunctionTree/src/main/java/tree/ProbFunTree.java:285-292 | add(element) keeps a distribution whose keys are the old ones plus the element, one entry longer exactly when the element was absent |
| ProbEdits.AddUniformNew | ProbabilityFunctionTree/src/main/java/tree/ProbFunTree.java:285-292 | a new element added at 1/n ends at exactly 1/(n + 1) and every old entry is multiplied by n/(n + 1) |
| ProbEdits.AddUniformPresent | ProbabilityFunctionTree/src/main/java/tree/ProbFunTree.java:289-292 | in the tree variants, adding a present element leaves the map unchanged |
| ProbEdits.AddPercent | ProbabilityFunctionTree/src/main/java/tree/ProbFunTree.java:339-345 | add(element, percent) keeps a distribution over the old keys plus the element |
| ProbEdits.AddPercentNew | ProbabilityFunctionTree/src/main/java/tree/ProbFunTree.java:339-345 | a new element added at percent holds exactly percent and every old entry is multiplied by 1 - percent |
| ProbEdits.RemoveEntry | ProbabilityFunctionTree/src/main/java/tree/ProbFunTree.java:498-503 | the removal leaves a distribution over the other keys, one entry shorter exactly when the element was there |
| ProbEdits.RemoveEntryAbsent | ProbabilityFunctionTree/src/main/java/tree/ProbFunTree.java:498-499 | removing an absent element leaves the map unchanged |
| ProbEdits.RemoveEntryScaled | ProbabilityFunctionTree/src/main/java/tree/ProbFunTree.java:498-503 | the removed value is below 1, the rest sums to 1 minus it, and every remaining entry is multiplied by one over that rest |
| ProbEdits.RemoveUndoesAdd | ProbabilityFunctionTree/src/main/java/tree/ProbFunTree.java:285-292 | removing an element that add(element) just added restores the map exactly |
| ProbEdits.RemoveUndoesAddPercent | ProbabilityFunctionTree/src/main/java/tree/ProbFunTree.java:333-345 | removing an element that add(element, percent) just added restores the map exactly |
| TreeNodes.SizeComplete | ProbabilityFunctionTree/src/main/java/tree/ProbFunTree.java:870-876 | size() of a complete tree of h layers whose nodes hold n entries is n + n^2 + ... + n^h |
| TreeNodes.ClearHistory | ProbabilityFunctionTree/src/main/java/tree/ProbFunTree.java:269-274 | every cursor becomes null and nothing else in the tree changes |
| TreeNodes.ClearAllProbs | ProbabilityFunctionTree/src/main/java/tree/ProbFunTree.java:257-262 | every map of the tree becomes uniform over its own keys; keys, children, cursors and depths are unchanged |
| TreeNodes.RemoveNode | ProbabilityFunctionTree/src/main/java/tree/ProbFunTree.java:492-505 | remove returns true iff the node is above its floor size and holds the key; then the key leaves both the map and the children and the map is RemoveEntry of the old one; otherwise nothing changes |
| TreeNodes.RemoveFromAll | ProbabilityFunctionTree/src/main/java/tree/ProbFunTree.java:512-521 | removeFromAll keeps the invariant and leaves the element only in maps at their floor size |
| TreeNodes.Reinforce | ProbabilityFunctionTree/src/main/java/tree/ProbFunTree.java:725-803 | good/bad on a list keep the invariant and change only probabilities; they succeed iff the percent is in (0, 1) and the list can be followed; IllegalArgumentException (nothing changed) iff the list is empty or the percent is out of range, NullPointerException otherwise |
| TreeNodes.ReinforceHead | ProbabilityFunctionTree/src/main/java/tree/ProbFunTree.java:734-742 | at the node the call starts from: a missing first element throws NullPointerException with nothing changed; otherwise the map becomes the good/bad result; a one-element list stops there; a missing child throws NullPointerException after the edit; otherwise the call goes on in the child, whose result replaces it |
| TreeNodes.NextValue | ProbabilityFunctionTree/src/main/java/tree/ProbFunTree.java:845-858 | the key sampled from the node's map becomes its cursor and is returned; none exactly for a draw of 0; nothing else changes |
| TreeNodes.Collect | ProbabilityFunctionTree/src/main/java/tree/ProbFunTree.java:814-824 | the cursor-collecting loop fails only with NullPointerException |
| TreeNodes.Fun | ProbabilityFunctionTree/src/main/java/tree/ProbFunTree.java:809-840 | fun keeps the invariant, changes only cursors, fails only with NullPointerException, returns none exactly for a draw of 0, and otherwise returns a key of some node |
| TreeNodes.Shift | ProbabilityFunctionTree/src/main/java/tree/ProbFunTree.java:825-833 | the cursor shift keeps the invariant and changes only cursors, with the same result guarantees as fun |
| TreeNodes.ShiftWalk | ProbabilityFunctionTree/src/main/java/tree/ProbFunTree.java:825-833 | along the collected path, a missing child gives NullPointerException; otherwise every node on the way takes the next element as its cursor, the node reached is replaced by its own fun, the result is that fun's result, and a node reached without cursor or children returns a plain sample of its map |
| TreeNodes.FunShifts | ProbabilityFunctionTree/src/main/java/tree/ProbFunTree.java:813-833 | when the child under the cursor yields collected cursors that are accepted, fun is exactly the shift along them from this node |
| TreeNodes.FunFresh | ProbabilityFunctionTree/src/main/java/tree/ProbFunTree.java:811-812 | on a tree without cursors, fun samples the root's map and only the root's cursor changes |
| TreeNodes.FunSecond | ProbabilityFunctionTree/src/main/java/tree/ProbFunTree.java:834-835 | the second draw from a fresh tree is sampled by the child under the first element, and only that child's cursor changes |
| TreeNodes.Clone | ProbabilityFunctionTree/src/main/java/tree/ProbFunTree.java:881-898 | the clone has the same maps and children keys at every node, no cursors, every child's parent set to its copy, and no parent at the root |
| TreeNodes.CloneWellFormed | ProbabilityFunctionTree/src/main/java/tree/ProbFunTree.java:881-898 | a clone keeps the invariant and has the same size |
| CountdownTree.GrowDown | ProbabilityFunctionTree/src/tree/ProbFunTree.java:124-144 | the constructors build a well-formed, complete tree of the given layers, every node holding the map, with counters counting down to 1, no cursors and each child's parent its own parent |
| CountdownTree.Added | ProbabilityFunctionTree/src/tree/ProbFunTree.java:263-315 | the private add(element) and add(element, percent) keep a distribution over the old keys plus the element |
| CountdownTree.Sapling | ProbabilityFunctionTree/src/tree/ProbFunTree.java:283-288 | the child addToAll hangs under the element is well formed and complete with one layer fewer, holds the element at every node, and has fresh counters and no cursors |
| CountdownTree.AddToAllDown | ProbabilityFunctionTree/src/tree/ProbFunTree.java:280-340 | addToAll fails only with IllegalArgumentException; on success the tree is well formed, the element is a key of every node, the root's map is Added of the old one, and the root's children keys gain the element where there were children |
| CountdownTree.AddToAllDownFails | ProbabilityFunctionTree/src/tree/ProbFunTree.java:280-290 | addToAll fails iff some node has children, none under the element, and a counter below 2 (both directions) |
| CountdownTree.AddAtNode | ProbabilityFunctionTree/src/tree/ProbFunTree.java:283-286 | the step at one node keeps the invariant, puts the element into every node below and gives the map Added of the old one |
| CountdownTree.AddAtNodeKeys | ProbabilityFunctionTree/src/tree/ProbFunTree.java:283-285 | the step keeps the children's keys and adds the element where there were children |
| CountdownTree.AddToAllDownUnfold | ProbabilityFunctionTree/src/tree/ProbFunTree.java:283-289 | where addToAll succeeds, every child's visit succeeded and the result is the step applied to the visited children |
| CountdownTree.CountedNotStuck | ProbabilityFunctionTree/src/tree/ProbFunTree.java:283-285 | on a tree whose counters are those the constructors give, addToAll never fails |
| CountdownTree.AddToAllDownCounted | ProbabilityFunctionTree/src/tree/ProbFunTree.java:280-290 | addToAll keeps those counters, so repeated addToAll calls never fail |
| CountdownTree.CountedRemoveFromAll | ProbabilityFunctionTree/src/tree/ProbFunTree.java:474-483 | removeFromAll keeps those counters |
| CountdownTree.FilledHeld | ProbabilityFunctionTree/src/tree/ProbFunTree.java:63-72 | in a tree built from a map, every key of that map is a key of every node |
| LayerTree.Build | ProbabilityFunctionTree/src/tree/ProbFunTree.java:54-73 | the Set constructor fails with IllegalArgumentException iff there is no choice or fewer than one layer (both directions); otherwise a well-formed, complete tree of `layers` layers, every node uniform over the choices, counters counting down from `layers`, no cursors, each child linked to its parent |
| LayerTree.BuildMap | ProbabilityFunctionTree/src/tree/ProbFunTree.java:87-114 | the Map constructor fails with IllegalArgumentException iff the map is empty, the layers fewer than one or the values do not sum to 1 (both directions); otherwise the same complete tree with the given map at every node |
| LayerTree.BuildSize | ProbabilityFunctionTree/src/treeTest/TestProbFunTree.java:196-205 | the size test: a three-layer tree over {0, 1} holds 14 entries |
| LayerTree.IncrementLayer | ProbabilityFunctionTree/src/tree/ProbFunTree.java:358-365 | incrementLayer keeps every map and link and raises the counter of exactly the nodes with children by one |
| LayerTree.AddLayerDown | ProbabilityFunctionTree/src/tree/ProbFunTree.java:377-392 | the private addLayer keeps the tree well formed, the root's map, links and children keys |
| LayerTree.AddLayerDownLeaf | ProbabilityFunctionTree/src/tree/ProbFunTree.java:383-391 | on a single-layer tree addLayer changes nothing: the loop over the root's children has nothing to visit |
| LayerTree.AddLayerDownCounted | ProbabilityFunctionTree/src/tree/ProbFunTree.java:349-365 | addLayer followed by incrementLayer keeps every counter of a node with children at 2 or more |
| LayerTree.AddLayerDownGrows | ProbabilityFunctionTree/src/tree/ProbFunTree.java:349-392 | on a complete tree of h >= 2 layers counting down from h, addLayer gives a complete tree of h + 1 layers counting down from h + 1 |
| LayerTree.AddLayer | ProbabilityFunctionTree/src/tree/ProbFunTree.java:349-356 | addLayer(choices) fails with IllegalArgumentException iff there is no choice (both directions); otherwise the tree stays well formed and keeps its counters |
| LayerTree.AddLayerMap | ProbabilityFunctionTree/src/tree/ProbFunTree.java:401-447 | addLayer(probMap) fails with IllegalArgumentException iff the map is empty or its values do not sum to 1 (both directions); otherwise the tree stays well formed and keeps its counters |
| LayerTree.AddToAll | ProbabilityFunctionTree/src/tree/ProbFunTree.java:280-340 | addToAll fails with IllegalArgumentException iff the percent is outside (0, 1) or some node is stuck (both directions); on success every node holds the element and the root's map is the element added; on a tree with its counters kept it succeeds and keeps them |
| LayerTree.PurgeNode | ProbabilityFunctionTree/src/tree/ProbFunTree.java:540-561 | purge(percent) at one node: nothing happens for equal values; otherwise exactly the first key at the minimum is removed, and ConcurrentModificationException is thrown iff more than two entries remain before the removal and that key is not the last |
| LayerTree.PurgeNodeIgnoresPercent | ProbabilityFunctionTree/src/tree/ProbFunTree.java:545-560 | past its range check purge(percent) does not depend on the percent |
| LayerTree.PurgeDown | ProbabilityFunctionTree/src/tree/ProbFunTree.java:570-581 | purgeAll(percent) past the percent check keeps the tree well formed, only removes entries and keeps the links |
| LayerTree.PurgeAllPercent | ProbabilityFunctionTree/src/tree/ProbFunTree.java:570-581 | purgeAll(percent) throws IllegalArgumentException iff the percent is outside (0, 1), leaving the tree unchanged; its only other exception is ConcurrentModificationException; the tree left is well formed and only shrunk |
| LayerTree.PurgeDownUniform | ProbabilityFunctionTree/src/tree/ProbFunTree.java:545-548 | a tree of uniform maps is left as it is by purgeAll(percent) |
| LayerTree.PurgeAllPercentThrows | ProbabilityFunctionTree/src/tree/ProbFunTree.java:550-559 | over {0 -> 1/4, 1 -> 1/4, 2 -> 1/2} purgeAll(0.5) throws ConcurrentModificationException |
| LayerTree.CloneLayers | ProbabilityFunctionTree/src/tree/ProbFunTree.java:784-800 | the corrected copy: the maps, children and counters of the original, no cursors, every child linked to its parent |
| LayerTree.CloneLayersKeeps | ProbabilityFunctionTree/src/tree/ProbFunTree.java:784-800 | the corrected copy keeps well-formedness, the size and the counters, and addToAll fails on it exactly where it fails on the original |
| LayerTree.CloneLosesLayers | ProbabilityFunctionTree/src/tree/ProbFunTree.java:784-800 | the copy as written leaves the counters at 0: on a two-layer tree over {0, 1} addToAll(5) succeeds on the original and throws on its copy |
| MainTree.Grow | ProbabilityFunctionTree/src/main/java/tree/ProbFunTree.java:86-109 | the private constructors build a well-formed tree complete with layers - cur layers, every node holding the map, each on its own layer, with no cursors, each child linked to its parent |
| MainTree.Build | ProbabilityFunctionTree/src/main/java/tree/ProbFunTree.java:56-75 | the Set constructor fails with IllegalArgumentException iff there is no choice or fewer than one layer (both directions); otherwise a complete tree of `layers` layers, every node uniform over the choices, the root on layer 0 |
| MainTree.BuildMap | ProbabilityFunctionTree/src/main/java/tree/ProbFunTree.java:123-150 | the Map constructor fails with IllegalArgumentException iff the map is empty, the layers fewer than one or the values do not sum to 1 (both directions); otherwise the same complete tree holding the map |
| MainTree.BuildSize | ProbabilityFunctionTree/src/main/java/tree/ProbFunTree.java:870-876 | size() of a three-layer tree over {0, 1} is 14 |
| MainTree.AddNode | ProbabilityFunctionTree/src/main/java/tree/ProbFunTree.java:285-297 | add(element, elements) keeps the tree well formed; the map is the uniform add of the element and the children gain the new single-layer child only when the node has children, none under the element, and elements is not empty |
| MainTree.AddNodeChild | ProbabilityFunctionTree/src/main/java/tree/ProbFunTree.java:293-296 | after add the element has a child iff it had one or the node grows one (both directions), and a grown child is the single-layer node over elements |
| MainTree.AddToAll | ProbabilityFunctionTree/src/main/java/tree/ProbFunTree.java:311-320 | addToAll(element, elements) keeps the tree well formed and makes the element a key of every node not below a child under the element |
| MainTree.AddNodePercent | ProbabilityFunctionTree/src/main/java/tree/ProbFunTree.java:339-353 | add(element, elements, percent) past its check keeps the tree well formed; the map is the percent add of the element and the children grow as with add |
| MainTree.AddNodePercentSpec | ProbabilityFunctionTree/src/main/java/tree/ProbFunTree.java:339-345 | a new element added with a percent holds exactly that percent and every old entry is scaled by 1 - percent |
| MainTree.AddWithPercent | ProbabilityFunctionTree/src/main/java/tree/ProbFunTree.java:333-354 | add with a percent throws IllegalArgumentException iff the percent is outside (0, 1) (both directions); otherwise the element is a key afterwards and a new element holds exactly the percent |
| MainTree.AddToAllPercent | ProbabilityFunctionTree/src/main/java/tree/ProbFunTree.java:375-381 | addToAll with a percent past its check keeps the tree well formed and the element a key of every node not below a child under the element |
| MainTree.AddToAllWithPercent | ProbabilityFunctionTree/src/main/java/tree/ProbFunTree.java:369-382 | addToAll with a percent throws IllegalArgumentException iff the percent is outside (0, 1) (both directions); otherwise as AddToAllPercent |
| MainTree.AddLayerAt | ProbabilityFunctionTree/src/main/java/tree/ProbFunTree.java:409-425 | addLayer(parent, m) keeps the tree well formed, the node's map, links, layer and children keys in order, and changes nothing on a node without children |
| MainTree.AddLayerLeaves | ProbabilityFunctionTree/src/main/java/tree/ProbFunTree.java:415-424 | every node reached by a non-empty path is reached by the same path afterwards with its map, parent link, cursor and layer kept, and a node that was a leaf gets exactly one new leaf child per key of its map, each holding m |
| MainTree.AddLayerComplete | ProbabilityFunctionTree/src/main/java/tree/ProbFunTree.java:409-425 | addLayer makes a complete tree of h >= 2 layers complete with h + 1 layers |
| MainTree.AddLayer | ProbabilityFunctionTree/src/main/java/tree/ProbFunTree.java:391-397 | addLayer(choices) fails with IllegalArgumentException iff there is no choice (both directions); otherwise the tree stays well formed with its root's children keys in order |
| MainTree.AddLayerMap | ProbabilityFunctionTree/src/main/java/tree/ProbFunTree.java:435-448 | addLayer(probMap) fails with IllegalArgumentException iff the map is empty or does not sum to 1 (both directions); otherwise the tree stays well formed |
| MainTree.Prune | ProbabilityFunctionTree/src/main/java/tree/ProbFunTree.java:529-556 | prune() changes nothing when all values are equal; otherwise a key stays iff its value is above the minimum, a child stays iff its key stays, and the tree stays well formed and only shrinks |
| MainTree.PruneAll | ProbabilityFunctionTree/src/main/java/tree/ProbFunTree.java:564-569 | pruneAll() keeps the tree well formed and only shrinks it |
| MainTree.PruneNodePercent | ProbabilityFunctionTree/src/main/java/tree/ProbFunTree.java:583-603 | prune(percent) past its check leaves the same node as prune() |
| MainTree.PruneWithPercent | ProbabilityFunctionTree/src/main/java/tree/ProbFunTree.java:578-604 | prune(percent) throws IllegalArgumentException iff the percent is outside (0, 1) (both directions); otherwise the result is that of prune() |
| MainTree.PruneAllPercent | ProbabilityFunctionTree/src/main/java/tree/ProbFunTree.java:618-623 | pruneAll(percent) past its check leaves the same tree as pruneAll() |
| MainTree.PruneAllWithPercent | ProbabilityFunctionTree/src/main/java/tree/ProbFunTree.java:613-624 | pruneAll(percent) throws IllegalArgumentException iff the percent is outside (0, 1) (both directions); otherwise the result is that of pruneAll() |
| MainTree.AddIfPresentAsWritten | ProbabilityFunctionTree/src/main/java/tree/ProbFunTree.java:634-658 | addIfPresent as written fails with IllegalArgumentException iff the path is empty (both directions) and changes nothing when the first element has no child |
| MainTree.AddIfPresentAddsForeignKey | ProbabilityFunctionTree/src/main/java/tree/ProbFunTree.java:644-656 | on the two-layer tree over {0, 1} the path [0, 7] hangs a child under 7 at a node that does not hold 7, so the tree as written is no longer well formed |
| MainTree.DescendWellFormed | ProbabilityFunctionTree/src/main/java/tree/ProbFunTree.java:644-656 | the corrected walk keeps the tree well formed |
| MainTree.AddIfPresent | ProbabilityFunctionTree/src/main/java/tree/ProbFunTree.java:634-658 | the corrected addIfPresent fails with IllegalArgumentException iff the path is empty (both directions), keeps the tree well formed, and changes nothing when the first element has no child |
| MainTree.AttachAdds | ProbabilityFunctionTree/src/main/java/tree/ProbFunTree.java:651-657 | the last step changes nothing when a child is already under the last element or the node does not hold it; otherwise exactly one child is added under the last element, the leaf holding the element to add, every other child kept |
| MainTree.DescendFinds | ProbabilityFunctionTree/src/main/java/tree/ProbFunTree.java:644-650 | the walk attaches at the end of the path when it can be followed, at the end of all but its last element when only the last step is missing, and nowhere otherwise |
| MainTree.AddIfPresentFinds | ProbabilityFunctionTree/src/main/java/tree/ProbFunTree.java:641-657 | the corrected addIfPresent attaches at the node at the end of the path, or at the end of all but the last element when only the last step is missing, and otherwise changes nothing |
| MainTree.AddIfPresentToAllFuel | ProbabilityFunctionTree/src/main/java/tree/ProbFunTree.java:668-679 | addIfPresentToAll as written fails with IllegalArgumentException on an empty path |
| MainTree.AddIfPresentToAllLoops | ProbabilityFunctionTree/src/main/java/tree/ProbFunTree.java:675-678 | with the path [0], at a node whose child under 0 has no child under 0, addIfPresentToAll as written runs out of any stack |
| MainTree.AddIfPresentToAllNeverEnds | ProbabilityFunctionTree/src/main/java/tree/ProbFunTree.java:668-679 | addIfPresentToAll([0], 5) on the two-layer tree over {0, 1} never finishes, whatever the stack depth |
| MainTree.AddIfPresentToAll | ProbabilityFunctionTree/src/main/java/tree/ProbFunTree.java:668-679 | the corrected addIfPresentToAll fails with IllegalArgumentException iff the path is empty (both directions) and keeps the tree well formed |
| MarkovTree.Build | GenerativeMarkovChain/src/markov/ProbFunTree.java:53-101 | the constructor fails with IllegalArgumentException iff there are fewer than two choices or fewer than one layer (both directions); otherwise a complete tree of `layers` layers, every node uniform over the choices, counters counting down from `layers`, no cursors, each child linked to its parent |
| MarkovTree.BuildExample | GenerativeMarkovChain/src/markov/ProbFunTree.java:43-52 | the documented example: over {0, 1} with two layers the root and its two children each hold keys 0 and 1, and the tree holds 6 entries |
| MarkovTree.AddToAll | GenerativeMarkovChain/src/markov/ProbFunTree.java:168-239 | addToAll fails with IllegalArgumentException iff the percent is outside (0, 1) or some node is stuck (both directions); on success every node holds the element and the root's map is the element put over any present value; on a tree with its counters kept it succeeds and keeps them |
| MarkovTree.PurgeNode | GenerativeMarkovChain/src/markov/ProbFunTree.java:281-304 | purge() keeps the tree well formed with at least two entries per node; the map is the minimum-purge of the old one and a child stays iff its key stays |
| MarkovTree.PurgeAll | GenerativeMarkovChain/src/markov/ProbFunTree.java:310-315 | purgeAll() keeps the tree well formed, only shrinks it and purges the root's map |
| MarkovTree.PurgeNodePercent | GenerativeMarkovChain/src/markov/ProbFunTree.java:329-346 | purge(percent) past its check keeps the tree well formed; the map is the percent-purge of the old one down to two entries and a child stays iff its key stays |
| MarkovTree.PurgeAllPercent | GenerativeMarkovChain/src/markov/ProbFunTree.java:356-367 | purgeAll(percent) fails with IllegalArgumentException iff the percent is outside (0, 1) (both directions); otherwise the tree stays well formed, only shrinks and the root's map is percent-purged |
| MarkovTree.PurgeDownPercent | GenerativeMarkovChain/src/markov/ProbFunTree.java:361-366 | purgeAll(percent) past its check keeps the tree well formed and percent-purges the root's map |
| MarkovTree.PurgeAllPercentRoot | GenerativeMarkovChain/src/markov/ProbFunTree.java:332-344 | at the root an entry above the percent always stays, and a map of two entries is left as it is |
| MarkovTree.CloneLayersKeeps | GenerativeMarkovChain/src/markov/ProbFunTree.java:568-586 | the corrected copy keeps well-formedness, the size and the counters, and addToAll fails on it exactly where it fails on the original |
| MarkovTree.CloneLosesLayers | GenerativeMarkovChain/src/markov/ProbFunTree.java:568-586 | the copy as written leaves the counters at 0: on a two-layer tree over {0, 1} addToAll(5) succeeds on the original and throws on its copy |
| LayerProbFunTree.ReplaceProbs | ProbabilityFunctionTree/src/tree/ProbFunTree.java:591-705 | replacing the root's map by a distribution over the same keys, as good and bad do, keeps the tree well formed and its counters kept |
| LayerProbFunTree.ProbFunTree.constructor | ProbabilityFunctionTree/src/tree/ProbFunTree.java:54-73 | the Set constructor gives a valid object whose tree is the one LayerTree.Build describes |
| LayerProbFunTree.ProbFunTree.FromMap | ProbabilityFunctionTree/src/tree/ProbFunTree.java:87-114 | the Map constructor gives a valid object whose tree is the one LayerTree.BuildMap describes |
| LayerProbFunTree.ProbFunTree.ClearProbs | ProbabilityFunctionTree/src/tree/ProbFunTree.java:239-244 | clearProbs keeps the object valid and makes every map of the tree uniform over its keys |
| LayerProbFunTree.ProbFunTree.ClearHistory | ProbabilityFunctionTree/src/tree/ProbFunTree.java:251-256 | clearHistory keeps the object valid and clears every cursor |
| LayerProbFunTree.ProbFunTree.AddToAll | ProbabilityFunctionTree/src/tree/ProbFunTree.java:280-290 | addToAll(element) never fails on a valid object, keeps it valid, and leaves the tree LayerTree.AddToAll describes |
| LayerProbFunTree.ProbFunTree.AddToAllWithPercent | ProbabilityFunctionTree/src/tree/ProbFunTree.java:326-340 | addToAll(element, percent) throws IllegalArgumentException iff the percent is outside (0, 1) (both directions), then changing nothing; otherwise the tree LayerTree.AddToAll describes, the object kept valid |
| LayerProbFunTree.ProbFunTree.AddLayer | ProbabilityFunctionTree/src/tree/ProbFunTree.java:349-356 | addLayer(choices) throws IllegalArgumentException iff the set is empty (both directions), then changing nothing; otherwise the tree LayerTree.AddLayer describes, the object kept valid |
| LayerProbFunTree.ProbFunTree.AddLayerMap | ProbabilityFunctionTree/src/tree/ProbFunTree.java:401-415 | addLayer(probMap) throws IllegalArgumentException iff the map is empty or does not sum to 1 (both directions), then changing nothing; otherwise the tree LayerTree.AddLayerMap describes |
| LayerProbFunTree.ProbFunTree.RemoveFromAll | ProbabilityFunctionTree/src/tree/ProbFunTree.java:474-483 | removeFromAll keeps the object valid and leaves the tree TreeNodes.RemoveFromAll describes with floor 1 |
| LayerProbFunTree.ProbFunTree.PurgeAll | ProbabilityFunctionTree/src/tree/ProbFunTree.java:526-531 | purgeAll() keeps the object valid and leaves the tree MainTree.PruneAll describes, the two methods being the same code |
| LayerProbFunTree.ProbFunTree.PurgeAllWithPercent | ProbabilityFunctionTree/src/tree/ProbFunTree.java:570-581 | purgeAll(percent) keeps the object valid and leaves the tree and the exception LayerTree.PurgeAllPercent describes, the ConcurrentModificationException included |
| LayerProbFunTree.ProbFunTree.Good | ProbabilityFunctionTree/src/tree/ProbFunTree.java:591-616 | good(element, percent) throws iff the percent is outside (0, 1) or the element is absent (both directions), then changing nothing; otherwise the root's map and the returned probability are those of ProbMaps.Good |
| LayerProbFunTree.ProbFunTree.Bad | ProbabilityFunctionTree/src/tree/ProbFunTree.java:655-676 | bad(element, percent) throws iff the percent is outside (0, 1) or the element is absent (both directions), then changing nothing; otherwise the root's map and the returned probability are those of ProbMaps.Bad |
| LayerProbFunTree.ProbFunTree.GoodPath | ProbabilityFunctionTree/src/tree/ProbFunTree.java:627-645 | good(list, percent) succeeds iff the percent is in (0, 1) and the path can be followed (both directions), and leaves the tree TreeNodes.Reinforce describes |
| LayerProbFunTree.ProbFunTree.BadPath | ProbabilityFunctionTree/src/tree/ProbFunTree.java:687-705 | bad(list, percent) succeeds iff the percent is in (0, 1) and the path can be followed (both directions), and leaves the tree TreeNodes.Reinforce describes |
| LayerProbFunTree.ProbFunTree.Fun | ProbabilityFunctionTree/src/tree/ProbFunTree.java:711-761 | fun() keeps the object valid and returns the element, and leaves the cursors, that TreeNodes.Fun describes for the draw |
| LayerProbFunTree.ProbFunTree.ParentSize | ProbabilityFunctionTree/src/tree/ProbFunTree.java:766 | parentSize() is the number of entries of the root's map |
| LayerProbFunTree.ProbFunTree.Size | ProbabilityFunctionTree/src/tree/ProbFunTree.java:773-779 | the loop of size() returns the number of entries of the whole tree |
| LayerProbFunTree.ProbFunTree.Clone | ProbabilityFunctionTree/src/tree/ProbFunTree.java:784-801 | the corrected clone is a fresh valid object holding LayerTree.CloneLayers of the tree, of the same size |
| LayerProbFunTree.ProbFunTree.FromClone | ProbabilityFunctionTree/src/tree/ProbFunTree.java:784-796 | the copy constructor stores a well-formed counted tree as a valid object |
| LayerProbFunTree.New | ProbabilityFunctionTree/src/tree/ProbFunTree.java:54-73 | the Set constructor throws IllegalArgumentException iff there is no choice or fewer than one layer (both directions); otherwise a fresh valid object holding LayerTree.Build's tree |
| MainProbFunTree.ReplaceProbs | ProbabilityFunctionTree/src/main/java/tree/ProbFunTree.java:689-803 | replacing the root's map by a distribution over the same keys, as good and bad do, keeps the tree well formed |
| MainProbFunTree.ProbFunTree.constructor | ProbabilityFunctionTree/src/main/java/tree/ProbFunTree.java:56-75 | the Set constructor gives a valid object whose tree is the one MainTree.Build describes |
| MainProbFunTree.ProbFunTree.FromMap | ProbabilityFunctionTree/src/main/java/tree/ProbFunTree.java:123-150 | the Map constructor gives a valid object whose tree is the one MainTree.BuildMap describes |
| MainProbFunTree.ProbFunTree.ClearProbs | ProbabilityFunctionTree/src/main/java/tree/ProbFunTree.java:250-252 | clearProbs makes the root's map uniform over its keys and changes nothing else |
| MainProbFunTree.ProbFunTree.ClearAllProbs | ProbabilityFunctionTree/src/main/java/tree/ProbFunTree.java:257-262 | clearAllProbs makes every map of the tree uniform over its keys |
| MainProbFunTree.ProbFunTree.ClearHistory | ProbabilityFunctionTree/src/main/java/tree/ProbFunTree.java:269-274 | clearHistory clears every cursor of the tree |
| MainProbFunTree.ProbFunTree.Add | ProbabilityFunctionTree/src/main/java/tree/ProbFunTree.java:285-297 | add(element, elements) keeps the object valid and leaves the node MainTree.AddNode describes |
| MainProbFunTree.ProbFunTree.AddToAll | ProbabilityFunctionTree/src/main/java/tree/ProbFunTree.java:311-320 | addToAll(element, elements) keeps the object valid and leaves the tree MainTree.AddToAll describes |
| MainProbFunTree.ProbFunTree.AddWithPercent | ProbabilityFunctionTree/src/main/java/tree/ProbFunTree.java:333-354 | add with a percent throws IllegalArgumentException iff the percent is outside (0, 1) (both directions), then changing nothing; otherwise the node MainTree.AddNodePercent describes |
| MainProbFunTree.ProbFunTree.AddToAllWithPercent | ProbabilityFunctionTree/src/main/java/tree/ProbFunTree.java:369-382 | addToAll with a percent throws IllegalArgumentException iff the percent is outside (0, 1) (both directions), then changing nothing; otherwise the tree MainTree.AddToAllPercent describes |
| MainProbFunTree.ProbFunTree.AddLayer | ProbabilityFunctionTree/src/main/java/tree/ProbFunTree.java:391-397 | addLayer(choices) throws IllegalArgumentException iff the set is empty (both directions), then changing nothing; otherwise the tree MainTree.AddLayer describes |
| MainProbFunTree.ProbFunTree.AddLayerMap | ProbabilityFunctionTree/src/main/java/tree/ProbFunTree.java:435-448 | addLayer(probMap) throws IllegalArgumentException iff the map is empty or does not sum to 1 (both directions), then changing nothing; otherwise the tree MainTree.AddLayerMap describes |
| MainProbFunTree.ProbFunTree.Remove | ProbabilityFunctionTree/src/main/java/tree/ProbFunTree.java:492-505 | remove returns true iff the root holds more than one entry and the element (both directions), and leaves the node TreeNodes.RemoveNode describes |
| MainProbFunTree.ProbFunTree.RemoveFromAll | ProbabilityFunctionTree/src/main/java/tree/ProbFunTree.java:512-521 | removeFromAll keeps the object valid and leaves the tree TreeNodes.RemoveFromAll describes |
| MainProbFunTree.ProbFunTree.Prune | ProbabilityFunctionTree/src/main/java/tree/ProbFunTree.java:529-556 | prune() keeps the object valid and leaves the node MainTree.Prune describes |
| MainProbFunTree.ProbFunTree.PruneAll | ProbabilityFunctionTree/src/main/java/tree/ProbFunTree.java:564-569 | pruneAll() keeps the object valid and leaves the tree MainTree.PruneAll describes |
| MainProbFunTree.ProbFunTree.PruneWithPercent | ProbabilityFunctionTree/src/main/java/tree/ProbFunTree.java:578-604 | prune(percent) throws IllegalArgumentException iff the percent is outside (0, 1) (both directions), then changing nothing; otherwise the same node as prune() |
| MainProbFunTree.ProbFunTree.PruneAllWithPercent | ProbabilityFunctionTree/src/main/java/tree/ProbFunTree.java:613-624 | pruneAll(percent) throws IllegalArgumentException iff the percent is outside (0, 1) (both directions), then changing nothing; otherwise the same tree as pruneAll() |
| MainProbFunTree.ProbFunTree.AddIfPresent | ProbabilityFunctionTree/src/main/java/tree/ProbFunTree.java:634-658 | addIfPresent throws IllegalArgumentException iff the path is empty (both directions), then changing nothing; otherwise the tree the corrected MainTree.AddIfPresent describes |
| MainProbFunTree.ProbFunTree.AddIfPresentToAll | ProbabilityFunctionTree/src/main/java/tree/ProbFunTree.java:668-679 | addIfPresentToAll throws IllegalArgumentException iff the path is empty (both directions), then changing nothing; otherwise the tree the corrected MainTree.AddIfPresentToAll describes |
| MainProbFunTree.ProbFunTree.Good | ProbabilityFunctionTree/src/main/java/tree/ProbFunTree.java:689-714 | good(element, percent) throws iff the percent is outside (0, 1) or the element is absent (both directions), then changing nothing; otherwise the root's map and the returned probability are those of ProbMaps.Good |
| MainProbFunTree.ProbFunTree.Bad | ProbabilityFunctionTree/src/main/java/tree/ProbFunTree.java:753-774 | bad(element, percent) throws iff the percent is outside (0, 1) or the element is absent (both directions), then changing nothing; otherwise the root's map and the returned probability are those of ProbMaps.Bad |
| MainProbFunTree.ProbFunTree.GoodPath | ProbabilityFunctionTree/src/main/java/tree/ProbFunTree.java:725-743 | good(list, percent) succeeds iff the percent is in (0, 1) and the path can be followed (both directions), and leaves the tree TreeNodes.Reinforce describes |
| MainProbFunTree.ProbFunTree.BadPath | ProbabilityFunctionTree/src/main/java/tree/ProbFunTree.java:785-803 | bad(list, percent) succeeds iff the percent is in (0, 1) and the path can be followed (both directions), and leaves the tree TreeNodes.Reinforce describes |
| MainProbFunTree.ProbFunTree.NextValue | ProbabilityFunctionTree/src/main/java/tree/ProbFunTree.java:845-858 | nextValue() returns the sample of the root's map for the draw, records it as the root's cursor and changes nothing else |
| MainProbFunTree.ProbFunTree.Fun | ProbabilityFunctionTree/src/main/java/tree/ProbFunTree.java:809-840 | fun() keeps the object valid and returns the element, or the NullPointerException, and leaves the cursors, that TreeNodes.Fun describes |
| MainProbFunTree.ProbFunTree.ParentSize | ProbabilityFunctionTree/src/main/java/tree/ProbFunTree.java:863 | parentSize() is the number of entries of the root's map |
| MainProbFunTree.ProbFunTree.Size | ProbabilityFunctionTree/src/main/java/tree/ProbFunTree.java:870-876 | the loop of size() returns the number of entries of the whole tree |
| MainProbFunTree.ProbFunTree.Clone | ProbabilityFunctionTree/src/main/java/tree/ProbFunTree.java:881-898 | clone() is a fresh valid object holding TreeNodes.Clone of the tree, of the same size |
| MainProbFunTree.ProbFunTree.FromClone | ProbabilityFunctionTree/src/main/java/tree/ProbFunTree.java:881-893 | the copy constructor stores a well-formed tree as a valid object |
| MainProbFunTree.New | ProbabilityFunctionTree/src/main/java/tree/ProbFunTree.java:56-75 | the Set constructor throws IllegalArgumentException iff there is no choice or fewer than one layer (both directions); otherwise a fresh valid object holding MainTree.Build's tree |
| MarkovProbFunTree.ProbFunTree.constructor | GenerativeMarkovChain/src/markov/ProbFunTree.java:53-72 | the constructor gives a valid object, every node holding at least two entries, whose tree is the one MarkovTree.Build describes |
| MarkovProbFunTree.ProbFunTree.ClearProbs | GenerativeMarkovChain/src/markov/ProbFunTree.java:156-161 | clearProbs keeps the object valid and makes every map of the tree uniform over its keys |
| MarkovProbFunTree.ProbFunTree.AddToAll | GenerativeMarkovChain/src/markov/ProbFunTree.java:182-192 | addToAll(element) never fails on a valid object, keeps it valid, and leaves the tree MarkovTree.AddToAll describes |
| MarkovProbFunTree.ProbFunTree.AddToAllWithPercent | GenerativeMarkovChain/src/markov/ProbFunTree.java:225-239 | addToAll(element, percent) throws IllegalArgumentException iff the percent is outside (0, 1) (both directions), then changing nothing; otherwise the tree MarkovTree.AddToAll describes |
| MarkovProbFunTree.ProbFunTree.RemoveFromAll | GenerativeMarkovChain/src/markov/ProbFunTree.java:266-275 | removeFromAll keeps the object valid and leaves the tree TreeNodes.RemoveFromAll describes with floor 2 |
| MarkovProbFunTree.ProbFunTree.PurgeAll | GenerativeMarkovChain/src/markov/ProbFunTree.java:310-315 | purgeAll() keeps the object valid and leaves the tree MarkovTree.PurgeAll describes |
| MarkovProbFunTree.ProbFunTree.PurgeAllWithPercent | GenerativeMarkovChain/src/markov/ProbFunTree.java:356-367 | purgeAll(percent) throws IllegalArgumentException iff the percent is outside (0, 1) (both directions), then changing nothing; otherwise the tree MarkovTree.PurgeAllPercent describes |
| MarkovProbFunTree.ProbFunTree.GoodPath | GenerativeMarkovChain/src/markov/ProbFunTree.java:414-432 | good(list, percent) succeeds iff the percent is in (0, 1) and the path can be followed (both directions), and leaves the tree TreeNodes.Reinforce describes |
| MarkovProbFunTree.ProbFunTree.BadPath | GenerativeMarkovChain/src/markov/ProbFunTree.java:474-492 | bad(list, percent) succeeds iff the percent is in (0, 1) and the path can be followed (both directions), and leaves the tree TreeNodes.Reinforce describes |
| MarkovProbFunTree.ProbFunTree.Fun | GenerativeMarkovChain/src/markov/ProbFunTree.java:498-547 | fun() keeps the object valid and returns the element, and leaves the cursors, that TreeNodes.Fun describes for the draw |
| MarkovProbFunTree.ProbFunTree.ParentSize | GenerativeMarkovChain/src/markov/ProbFunTree.java:552 | parentSize() is the number of entries of the root's map, at least two on a valid object |
| MarkovProbFunTree.ProbFunTree.Size | GenerativeMarkovChain/src/markov/ProbFunTree.java:557-563 | the loop of size() returns the number of entries of the whole tree |
| MarkovProbFunTree.ProbFunTree.Clone | GenerativeMarkovChain/src/markov/ProbFunTree.java:568-586 | the corrected clone is a fresh valid object holding LayerTree.CloneLayers of the tree, of the same size |
| MarkovProbFunTree.ProbFunTree.FromClone | GenerativeMarkovChain/src/markov/ProbFunTree.java:568-580 | the copy constructor stores a well-formed counted tree as a valid object |
| MarkovProbFunTree.New | GenerativeMarkovChain/src/markov/ProbFunTree.java:53-72 | the constructor throws IllegalArgumentException iff there are fewer than two choices or fewer than one layer (both directions); otherwise a fresh valid object holding MarkovTree.Build's tree |
| TwoStepChains.Advance | GenerativeMarkovChain/src/markov/MarkovChain.java:119-131 | after a draw the next draw comes from the link of the element drawn; a null draw leaves the next draw where it was; the drawn element becomes the destination, or the source while there is none |
| TwoStepChains.AdvanceAll | GenerativeMarkovChain/src/markov/MarkovChain.java:119-131 | a run of draws keeps the cursors consistent: a destination only once there is a source |
| TwoStepChains.AdvanceAllLast | GenerativeMarkovChain/src/markov/MarkovChain.java:119-131 | the Markov property: over any run of draws the next draw comes from the link of the last element drawn |
| TwoStepChains.NullsKeepDraw | GenerativeMarkovChain/src/markov/MarkovChain.java:119-131 | a run of null draws never moves the next draw |
| TwoStepChains.Drawn | GenerativeMarkovChain/src/markov/MarkovChain.java:119-131 | fun() returns null exactly for a draw of 0 and otherwise an element of the chain |
| TwoStepChains.Adjust | GenerativeMarkovChain/src/markov/ProbFun.java:297-354 | good/bad on one link fails iff the percent is outside (0, 1), with IllegalArgumentException, or the element is absent, with NullPointerException (both directions); otherwise a distribution over the same keys |
| TwoStepChains.WiredUpdate | GenerativeMarkovChain/src/markov/MarkovChain.java:76-111 | replacing a link and the first link by maps over the same keys keeps the chain's maps consistent |
| TwoStepChains.ChainFeedback | GenerativeMarkovChain/src/markov/MarkovChain.java:76-111 | MarkovChain good/bad succeeds iff the destination is non-null and known, the percent is in (0, 1) and a given source is known (both directions); IllegalArgumentException iff a non-null destination meets a bad percent; a failure changes nothing; without a source no link changes |
| TwoStepChains.NestedFeedback | GenerativeMarkovChain/src/markov/NestedProbFun.java:63-108 | NestedProbFun good/bad succeeds under the same conditions (both directions) and keeps the maps consistent; without a source no link changes |
| TwoStepChains.FeedbackOrders | GenerativeMarkovChain/src/markov/NestedProbFun.java:69-79 | the two classes report the same exception on every call and agree completely except on an unknown destination under a known source, where NestedProbFun has already adjusted the first link |
| TwoStepChains.AdjustEffect | GenerativeMarkovChain/src/markov/ProbFun.java:297-354 | on two or more elements good raises an element strictly to its good target and bad lowers it strictly to its bad target, staying above 0 |
| TwoStepChains.FeedbackEffect | GenerativeMarkovChain/src/markov/MarkovChain.java:76-111 | good raises both the probability that the source is followed by the destination and the probability of starting at the source to their good targets; bad lowers both to their bad targets |
| TwoStepChains.CopyLinks | GenerativeMarkovChain/src/markov/MarkovChain.java:136-142 | the copy loop gives fresh, distinct ProbFuns holding the same maps |
| TwoStepChains.DrawFrom | GenerativeMarkovChain/src/markov/MarkovChain.java:119-131 | the draw of fun() past the cursor update is Drawn of the chain's maps |
| TwoStepChains.AdjustFun | GenerativeMarkovChain/src/markov/ProbFun.java:297-354 | good/bad on a ProbFun object fails exactly as Adjust fails, then changing nothing, and otherwise stores Adjust's map |
| TwoStepChains.AdjustFirst | GenerativeMarkovChain/src/markov/MarkovChain.java:83-86 | adjusting the first link leaves every link's map as it was |
| TwoStepChains.AdjustLink | GenerativeMarkovChain/src/markov/MarkovChain.java:85 | adjusting one link changes that link's map alone |
| TwoStepChains.LinkThenFirst | GenerativeMarkovChain/src/markov/MarkovChain.java:84-87 | MarkovChain's body with a source, its link then the first link, does what ChainFeedback says |
| TwoStepChains.ChainSteps | GenerativeMarkovChain/src/markov/MarkovChain.java:84-87 | an unknown source throws NullPointerException and changes nothing; a failure at the link changes nothing; otherwise both the link and the first link are adjusted |
| TwoStepChains.NestedSteps | GenerativeMarkovChain/src/markov/NestedProbFun.java:72-78 | a failure at the first link changes nothing; otherwise the first link is adjusted, then the link, whose failure leaves the first link adjusted |
| TwoStepChains.FirstThenLink | GenerativeMarkovChain/src/markov/NestedProbFun.java:72-78 | NestedProbFun's body with a source, the first link then its link, does what NestedFeedback says |
| TwoStepChains.UniformLinks | GenerativeMarkovChain/src/markov/MarkovChain.java:48-52 | the constructor's loop gives one fresh, distinct uniform ProbFun per element, keyed by the elements |
| TwoStepChains.ClonedLinks | GenerativeMarkovChain/src/markov/NestedProbFun.java:38-41 | the constructor's loop gives one fresh, distinct copy of the ProbFun per key |
| TwoStepChains.CopyWired | GenerativeMarkovChain/src/markov/MarkovChain.java:136-142 | both copy constructors give fresh ProbFuns with the same maps and keys |
| TwoStepChains.MarkovChain.constructor | GenerativeMarkovChain/src/markov/MarkovChain.java:37-53 | a valid chain with a uniform first link and one uniform link per element, both cursors null |
| TwoStepChains.MarkovChain.Copy | GenerativeMarkovChain/src/markov/MarkovChain.java:136-142 | the copy constructor gives a valid chain with fresh ProbFuns holding the same maps, cursors null |
| TwoStepChains.MarkovChain.Feedback | GenerativeMarkovChain/src/markov/MarkovChain.java:76-111 | good/bad keep the chain valid and leave the exception and the maps ChainFeedback describes |
| TwoStepChains.MarkovChain.Fun | GenerativeMarkovChain/src/markov/MarkovChain.java:119-131 | fun() returns the element Drawn describes and moves the cursors as Advance describes, nothing else changing |
| TwoStepChains.MarkovChain.Clone | GenerativeMarkovChain/src/markov/MarkovChain.java:144-147 | clone() is a fresh valid chain that shares no ProbFun and holds the same maps |
| TwoStepChains.NewMarkovChain | GenerativeMarkovChain/src/markov/MarkovChain.java:37-53 | the constructor throws IllegalArgumentException iff there are fewer than two elements (both directions); otherwise a fresh valid chain over them |
| TwoStepChains.NestedProbFun.constructor | GenerativeMarkovChain/src/markov/NestedProbFun.java:35-43 | a valid chain whose first link and every link are separate copies of the ProbFun, one link per key, cursors null |
| TwoStepChains.NestedProbFun.Copy | GenerativeMarkovChain/src/markov/NestedProbFun.java:130-136 | the copy constructor gives a valid chain with fresh ProbFuns holding the same maps |
| TwoStepChains.NestedProbFun.Feedback | GenerativeMarkovChain/src/markov/NestedProbFun.java:63-108 | good/bad keep the chain valid and leave the exception and the maps NestedFeedback describes |
| TwoStepChains.NestedProbFun.Fun | GenerativeMarkovChain/src/markov/NestedProbFun.java:114-125 | fun() returns the element Drawn describes and moves the cursors as Advance describes |
| TwoStepChains.NestedProbFun.Clone | GenerativeMarkovChain/src/markov/NestedProbFun.java:138-141 | clone() is a fresh valid chain that shares no ProbFun and holds the same maps |
| NestedLevels.Find | GenerativeMarkovChain/src/markov/NestedMarkovNode.java:123 | a level lookup gives a map exactly when the node is non-null and has an entry, and then that entry's map |
| NestedLevels.PutEntry | GenerativeMarkovChain/src/markov/NestedMarkovNode.java:56-70 | a put makes the node's entry the new map, adds no foreign entry, and keeps every other node's entry |
| NestedLevels.PutEntryNodes | GenerativeMarkovChain/src/markov/NestedMarkovNode.java:56-70 | a put adds no key but its node and no target but the new map's |
| NestedLevels.FindFirst | GenerativeMarkovChain/src/markov/NestedMarkovNode.java:123 | with a node that has one entry, the lookup finds that entry |
| NestedLevels.PathAtPrefix | GenerativeMarkovChain/src/markov/NestedMarkovNode.java:119-125 | a prefix of a history leads where the walk over its first elements leads |
| NestedLevels.PathReaches | GenerativeMarkovChain/src/markov/NestedMarkovNode.java:119-125 | on the levels the constructors build, the walk over a history of the chain's elements no longer than the levels plus one always reaches a node: of the first chain for one element, of level k - 2 after k elements |
| NestedLevels.DownFails | GenerativeMarkovChain/src/markov/NestedMarkovNode.java:218-226 | the loop of fun() as written ends at level 0 with a node that is not a node of the first chain, so the lookup there throws NullPointerException |
| NestedLevels.FunAsWrittenFails | GenerativeMarkovChain/src/markov/NestedMarkovNode.java:198-231 | on the levels the constructors build, fun() as written throws NullPointerException for every history of three elements up to the levels plus one, where the walk reaches a node |
| NestedLevels.FunAsWrittenTop | GenerativeMarkovChain/src/markov/NestedMarkovNode.java:208-216 | with as many elements as levels plus one, fun() as written looks level size up with a node of the first chain and throws NullPointerException |
| NestedLevels.FunAsWrittenDeep | GenerativeMarkovChain/src/markov/NestedMarkovNode.java:217-226 | with three elements up to the levels, fun() as written ends its walk at level 0 without an entry and throws NullPointerException |
| NestedLevels.FunAsWrittenShort | GenerativeMarkovChain/src/markov/NestedMarkovNode.java:199-207 | for one or two elements fun() as written samples the node the walk reaches |
| NestedLevels.PlanNodes | GenerativeMarkovChain/src/markov/NestedMarkovNode.java:113-125 | every node good(list) reinforces is the first link, a node of the first chain or a node of the levels |
| NestedLevels.TrailLength | GenerativeMarkovChain/src/markov/NestedMarkovNode.java:122-125 | on shaped levels the loop of good(list) takes one step per further element the levels reach and ends in IndexOutOfBoundsException exactly when the list is shorter than the levels plus two |
| NestedLevels.TrailStep | GenerativeMarkovChain/src/markov/NestedMarkovNode.java:122-125 | step j of the loop reinforces, at the next element, the node the walk over the first k + j elements reaches |
| NestedLevels.TrailHead | GenerativeMarkovChain/src/markov/NestedMarkovNode.java:122-125 | a round of a loop that takes every step it can finds the next node for the elements so far, reinforces it first, and leaves a loop that again takes every step it can |
| NestedLevels.TrailBound | GenerativeMarkovChain/src/markov/NestedMarkovNode.java:122-125 | the loop takes at most one step per element and level left |
| NestedLevels.PlanFollows | GenerativeMarkovChain/src/markov/NestedMarkovNode.java:102-127 | good(list) on shaped levels makes min(length, levels + 2) steps: the first chain's node of the first element at the second, the first link at the first, then each node a prefix leads to at the element that follows it; IndexOutOfBoundsException exactly for a list of three or more shorter than the levels plus two |
| NestedLevels.PlanStepAt | GenerativeMarkovChain/src/markov/NestedMarkovNode.java:119-125 | step j >= 2 of good(list) is the node the first j elements lead to, at element j |
| NestedSteps.Run | GenerativeMarkovChain/src/markov/NestedMarkovNode.java:134-142 | a run of getTypeAndGood/getTypeAndBad steps keeps every object's elements and a distribution in each; a step that throws throws IllegalArgumentException for a bad percent and NullPointerException otherwise |
| NestedSteps.RunAppend | GenerativeMarkovChain/src/markov/NestedMarkovNode.java:113-126 | running two lists of steps is running the first, then the second unless the first threw |
| NestedSteps.OutcomeAppend | GenerativeMarkovChain/src/markov/NestedMarkovNode.java:113-126 | the same for a whole outcome, the exception of the walk included |
| NestedSteps.RunSucceeds | GenerativeMarkovChain/src/markov/ProbFun.java:297-354 | with a percent in (0, 1) and every step for an element its ProbFun holds, no step throws and every map keeps its elements |
| NestedSteps.RunKeys | GenerativeMarkovChain/src/markov/ProbFun.java:297-354 | the steps keep the elements of every map, in order, whatever they throw |
| NestedSteps.RunBadPercent | GenerativeMarkovChain/src/markov/ProbFun.java:297-354 | a percent outside (0, 1) fails the first step with IllegalArgumentException and nothing changes |
| NestedSteps.Checked | GenerativeMarkovChain/src/markov/NestedMarkovNode.java:102-111 | good(list)/bad(list) are refused iff the list is null, empty or holds a null element (both directions): IllegalArgumentException for the empty list, NullPointerException otherwise; accepted lists keep their elements |
| NestedSteps.PlanCovers | GenerativeMarkovChain/src/markov/NestedMarkovNode.java:113-125 | every step of good(list) reaches an object the chain holds |
| NestedSteps.FeedbackOutcome | GenerativeMarkovChain/src/markov/NestedMarkovNode.java:102-127 | on shaped levels of ProbFuns over the chain's elements, with a list of those elements and a percent in (0, 1), no step throws and good(list) ends with IndexOutOfBoundsException exactly when the list is of three or more and shorter than the levels plus two |
| NestedSteps.PlanElements | GenerativeMarkovChain/src/markov/NestedMarkovNode.java:113-125 | on shaped levels every step of good(list) is for an element of the list |
| NestedSteps.FeedbackBadPercent | GenerativeMarkovChain/src/markov/NestedMarkovNode.java:113-125 | a percent outside (0, 1) throws IllegalArgumentException at the first step, before any change |
| NestedSteps.AdjustIn | GenerativeMarkovChain/src/markov/NestedMarkovNode.java:134-142 | getTypeAndGood on a ProbFun of the chain does one step of Run, keeping every object valid |
| NestedSteps.Walk | GenerativeMarkovChain/src/markov/NestedMarkovNode.java:121-125 | the loop of good(list) leaves the maps and the exception that the pending rounds describe |
| NestedSteps.WalkRound | GenerativeMarkovChain/src/markov/NestedMarkovNode.java:123-124 | one round of the loop either stops with the described outcome or leaves the rest of the loop pending from the next round |
| NestedSteps.Reinforce | GenerativeMarkovChain/src/markov/NestedMarkovNode.java:113-126 | the body of good(list)/bad(list) past its checks leaves the maps and the exception Outcome of the plan describes, keeping every object valid |
| NestedRenaming.GetRenamed | GenerativeMarkovChain/src/markov/NestedMarkovNode.java:247-249 | a copied map holds the same elements, each sent to the copy of its node |
| NestedRenaming.FindIndexRenamed | GenerativeMarkovChain/src/markov/NestedMarkovNode.java:245-250 | a copied level has an entry for the copy of a node exactly where the original has one for the node |
| NestedRenaming.PathAtRenamed | GenerativeMarkovChain/src/markov/NestedMarkovNode.java:236-254 | the walk over a copied chain reaches the copy of the node the walk over the original reaches, and fails where it fails |
| NestedRenaming.RenameMapKeys | GenerativeMarkovChain/src/markov/NestedMarkovNode.java:240-242 | copying keeps the elements of a map in order |
| NestedRenaming.ShapedRenamed | GenerativeMarkovChain/src/markov/NestedMarkovNode.java:236-254 | a copy that keeps the objects apart keeps the shape the constructors build |
| NestedRenaming.ApartRenamed | GenerativeMarkovChain/src/markov/NestedMarkovNode.java:236-254 | the same copy keeps level 0 keyed by first-chain nodes and every other key and target apart from them |
| NestedNodes.FirstLevel | GenerativeMarkovChain/src/markov/NestedMarkovNode.java:48-58 | the level the constructor from a NestedProbFun builds has an entry for every node of the first chain, is keyed by those nodes only, and maps them to fresh copies of the first chain, element by element |
| NestedNodes.PutFirst | GenerativeMarkovChain/src/markov/NestedMarkovNode.java:50-57 | one round of that loop adds the i-th node's entry and keeps what the loop keeps |
| NestedNodes.CloneEach | GenerativeMarkovChain/src/markov/NestedMarkovNode.java:66-69 | the inner loop gives one fresh clone of the node per element, keyed by the elements in order |
| NestedNodes.PutCopy | GenerativeMarkovChain/src/markov/NestedMarkovNode.java:63-71 | one round of the outer loop of the constructor from a NestedMarkovNode keeps the level's maps copies, keyed by the elements, and adds the j-th node |
| NestedNodes.AddCopies | GenerativeMarkovChain/src/markov/NestedMarkovNode.java:63-72 | every node of one map of the last level gets an entry mapping every element to a fresh clone of it |
| NestedNodes.NextLevel | GenerativeMarkovChain/src/markov/NestedMarkovNode.java:61-73 | the appended level has an entry for every node the last level maps to, is keyed by those nodes only, keyed by the elements, and maps to fresh copies |
| NestedNodes.FirstLevelSound | GenerativeMarkovChain/src/markov/NestedMarkovNode.java:48-58 | the first level's maps are keyed by the chain's elements and hold what the first chain holds |
| NestedNodes.BuiltFirst | GenerativeMarkovChain/src/markov/NestedMarkovNode.java:42-58 | the first level built from a NestedProbFun gives shaped levels with the objects kept apart, every node holding what the first link or chain held |
| NestedNodes.ShapedFirst | GenerativeMarkovChain/src/markov/NestedMarkovNode.java:48-58 | a single level keyed by the first chain's nodes and mapping to other nodes is shaped |
| NestedNodes.BuiltNext | GenerativeMarkovChain/src/markov/NestedMarkovNode.java:59-74 | appending a level fed by the last level's targets, keyed alike and mapping to new copies, keeps the levels built |
| NestedNodes.ShapedNext | GenerativeMarkovChain/src/markov/NestedMarkovNode.java:59-74 | the same append extends the shape and keeps the objects apart |
| NestedNodes.FunNodeReaches | GenerativeMarkovChain/src/markov/NestedMarkovNode.java:197-231 | on shaped levels every history of the chain's elements no longer than the levels plus one leads the corrected walk to a node of the chain |
| NestedNodes.Dropped | GenerativeMarkovChain/src/markov/NestedMarkovNode.java:208-215 | with a full history the oldest element is dropped, so the history stays within the levels |
| NestedNodes.FunStep | GenerativeMarkovChain/src/markov/NestedMarkovNode.java:197-231 | one call of fun() returns an element of the map it samples, or NullPointerException for a null draw, and leaves the history with the oldest dropped when full and the element appended |
| NestedNodes.WindowPush | GenerativeMarkovChain/src/markov/NestedMarkovNode.java:197-231 | the history is a sliding window: one more call keeps the window of one more element |
| NestedNodes.ReplayWindow | GenerativeMarkovChain/src/markov/NestedMarkovNode.java:197-231 | after any run of calls the history holds exactly the last levels + 1 elements returned, oldest first |
| NestedNodes.Descend | GenerativeMarkovChain/src/markov/NestedMarkovNode.java:217-226 | the loop of fun(), corrected to run down the levels in order, reaches the node the walk over the history reaches |
| NestedNodes.WrapFacts | GenerativeMarkovChain/src/markov/NestedMarkovNode.java:59-76 | a node wrapped from another is built and every node it reaches holds what a node of the original held |
| NestedNodes.FirstFacts | GenerativeMarkovChain/src/markov/NestedMarkovNode.java:42-58 | the parts a node wrapped from a NestedProbFun starts from are built and hold what the NestedProbFun held |
| NestedNodes.FirstParts | GenerativeMarkovChain/src/markov/NestedMarkovNode.java:45-58 | the constructor from a NestedProbFun gives a fresh clone of the first link and a first level of fresh copies |
| NestedNodes.NestedMarkovNode.FromParts | GenerativeMarkovChain/src/markov/NestedMarkovNode.java:75 | the constructors' common end stores the parts, leaves the history empty and sizes the deque at the levels plus two |
| NestedNodes.NestedMarkovNode.Fun | GenerativeMarkovChain/src/markov/NestedMarkovNode.java:197-231 | fun() with the corrected walk samples the node the history leads to, drops the oldest element when the history is full and appends the element; no node changes |
| NestedNodes.NestedMarkovNode.Feedback | GenerativeMarkovChain/src/markov/NestedMarkovNode.java:102-191 | good/bad(list) throw before any change for a null or empty list or a null element; otherwise the steps of the walk are taken in order and the maps and the exception are those Outcome describes, the history untouched |
| NestedNodes.FeedbackOn | GenerativeMarkovChain/src/markov/NestedMarkovNode.java:113-126 | the steps of good(list)/bad(list) on built parts leave the Outcome of the plan and every node a distribution over the elements |
| NestedNodes.KeepsKeys | GenerativeMarkovChain/src/markov/ProbFun.java:297-354 | after the steps every node still holds a distribution over the same elements in the same order |
| NestedNodes.Draw | GenerativeMarkovChain/src/markov/NestedMarkovNode.java:197-231 | the work of fun() reaches a node of the chain, which holds the chain's elements, and returns FunStep's element and history, the history staying within the levels plus one |
| NestedNodes.WrapNested | GenerativeMarkovChain/src/markov/NestedMarkovNode.java:42-58 | new NestedMarkovNode(NestedProbFun) clones the first link, takes the chain as the first chain and builds one level of fresh copies; the history is empty and the deque's capacity 3 |
| NestedNodes.WrapParts | GenerativeMarkovChain/src/markov/NestedMarkovNode.java:45-73 | the allocating part of the constructor from a NestedMarkovNode: a fresh clone of the first link and the levels with one level of fresh copies appended, built |
| NestedNodes.WrapNode | GenerativeMarkovChain/src/markov/NestedMarkovNode.java:59-76 | new NestedMarkovNode(NestedMarkovNode) clones the first link, keeps the first chain and the levels and appends one level of fresh copies; the history is empty and the capacity the levels plus two |
| NestedClone.CloneBuilt | GenerativeMarkovChain/src/markov/NestedMarkovNode.java:236-259 | the corrected clone of a built chain is built, keeps the elements in order, and every copy holds the map of its original |
| NestedClone.TrailRenamed | GenerativeMarkovChain/src/markov/NestedMarkovNode.java:122-125 | the loop of good(list) on the copies reinforces the copies of the nodes the original loop reinforces, in the same order, with the same exception |
| NestedClone.PlanRenamed | GenerativeMarkovChain/src/markov/NestedMarkovNode.java:102-127 | good(list)/bad(list) on the corrected clone takes, step for step, the original's steps on the copies and ends with the same exception |
| NestedClone.CloneFunNode | GenerativeMarkovChain/src/markov/NestedMarkovNode.java:197-231 | on the corrected clone every history leads to the copy of the node it leads to on the original, and fails where that walk fails |
| NestedClone.CloneLevelAsWritten | GenerativeMarkovChain/src/markov/NestedMarkovNode.java:243-253 | the copy constructor as written clones every level key and every target separately, so each new key is a fresh copy |
| NestedClone.PathAtFails | GenerativeMarkovChain/src/markov/NestedMarkovNode.java:119-125 | once the walk fails it fails at every later element |
| NestedClone.CloneAsWrittenLosesWalk | GenerativeMarkovChain/src/markov/NestedMarkovNode.java:236-254 | on a built chain the clone as written loses the walk: where the original finds level 0's entry for the first chain's node, the clone throws NullPointerException |
| ChainNodes.DistinctCard | Markov/src/chain/MarkovNode.java:42-45 | a list has as many distinct elements as entries exactly when no element repeats (both directions) |
| ChainNodes.UniformPairs | Markov/src/chain/MarkovNode.java:40-45 | the loop puts every element of the list at 1/size, keyed once each, and its running sum ends at 1 |
| ChainNodes.PutEach | Markov/src/chain/MarkovNode.java:42-45 | after the loop every element of the list is a key once, in ascending order, at the probability put, and the running sum is size copies of it |
| ChainNodes.PutSize | Markov/src/chain/MarkovNode.java:43 | a put grows the map by one entry exactly when the key is new |
| ChainNodes.SumAllAt | Markov/src/chain/MarkovNode.java:42-45 | a map whose every value is v adds up to its size times v |
| ChainNodes.GetAllAt | Markov/src/chain/MarkovNode.java:47 | in such a map every present key gets v |
| ChainNodes.MarkovNode.constructor | Markov/src/chain/MarkovNode.java:32-48 | the start element is kept, the keys are the list's elements, each at 1/size, and the probabilities add up to 1 exactly when no element repeats (both directions) |
| ChainNodes.UniformSumOne | Markov/src/chain/MarkovNode.java:40-47 | c copies of 1/n add up to c/n, which is 1 exactly when c == n (both directions) |
| ChainNodes.NewMarkovNode | Markov/src/chain/MarkovNode.java:32-48 | a null list throws NullPointerException and an empty one IllegalArgumentException, and only those fail; otherwise a fresh node as the constructor describes |
| ChainNodes.PutShare | Markov/src/chain/NestedMarkovNode.java:44 | a put keyed by node identity overwrites an entry where it is, otherwise adds the node last, and adds no other entry |
| ChainNodes.UniformShares | Markov/src/chain/NestedMarkovNode.java:41-46 | the loop puts every node once at 1/size, in first-put order, the list itself when no node repeats, and its running sum ends at 1 |
| ChainNodes.NestedMarkovNode.constructor | Markov/src/chain/NestedMarkovNode.java:33-49 | the start element is kept, every node of the list is a key once at 1/size, and the probabilities add up to 1 exactly when no node repeats (both directions) |
| ChainNodes.NestedShares | Markov/src/chain/NestedMarkovNode.java:39-48 | the stored map: every node of the list a key once at 1/size (the final put of the first node leaves it there), adding up to the share of distinct nodes, 1 exactly when no node repeats |
| ChainNodes.SharesSum | Markov/src/chain/NestedMarkovNode.java:41-48 | distinct nodes each at 1/size add up to their count over size, which is 1 exactly when no node of the list repeats (both directions) |
| ChainNodes.NewNestedMarkovNode | Markov/src/chain/NestedMarkovNode.java:33-49 | a null list throws NullPointerException and an empty one IllegalArgumentException, and only those fail; otherwise a fresh node as the constructor describes |
| ChainNodes.Leaves | Markov/src/chain/NLayerMarkovChain.java:48-51 | the first loop makes one distinct MarkovNode per element, the i-th starting at element i and uniform over the list |
| ChainNodes.Parents | Markov/src/chain/NLayerMarkovChain.java:56-59 | a level loop makes one distinct NestedMarkovNode per element, each mapping uniformly to every node of the level below, adding up to 1 |
| ChainNodes.LayeredAppend | Markov/src/chain/NLayerMarkovChain.java:61-67 | laying such a level on top keeps the stack layered |
| ChainNodes.LayeredTop | Markov/src/chain/NLayerMarkovChain.java:61-67 | every level of the stack has one distinct node per element |
| ChainNodes.Raise | Markov/src/chain/NLayerMarkovChain.java:62-66 | one turn of the last loop adds a level over the root's keys and a new root with no start element mapping uniformly to it, adding up to 1 |
| ChainNodes.NLayerMarkovChain.constructor | Markov/src/chain/NLayerMarkovChain.java:36-69 | the chain keeps its layers and two empty deques of that capacity, has layers - 1 layered levels, and its root has no start element and maps uniformly, adding up to 1, to the top level |
| ChainNodes.NewNLayerMarkovChain | Markov/src/chain/NLayerMarkovChain.java:36-69 | a null list throws NullPointerException, an empty list or fewer than two layers IllegalArgumentException, and only those fail; otherwise the chain the constructor describes |
| NLayerChains.NewChain | GenerativeMarkovChain/src/markov/NLayerMarkovChain.java:23-43 | a null set throws NullPointerException, fewer than two choices or fewer than one layer IllegalArgumentException, and only those fail; otherwise a ProbFun for one layer, a NestedProbFun for two, and for more a NestedMarkovNode of layers - 2 levels with a history of capacity layers, every node uniform over the choices |
| NLayerChains.DeepChain | GenerativeMarkovChain/src/markov/NLayerMarkovChain.java:37 | wrapping a NestedProbFun whose nodes all hold one map gives a NestedMarkovNode of one level, capacity 3, whose every node holds that map |
| NLayerChains.Wrap | GenerativeMarkovChain/src/markov/NLayerMarkovChain.java:38-40 | each further wrap adds one level, keeps the first chain, and every node still holds the map |
| NLayerChains.HeldByHold | GenerativeMarkovChain/src/markov/NLayerMarkovChain.java:37-40 | nodes that copy nodes all holding a map hold that map |

## Left out

Arithmetic and floating point:
- ProbMaps.FixProbSum: probabilities are exact reals, so the residual `fixProbSum` adds is exactly 1 minus the sum. The `roundingError` of the three ProbFunTree variants is taken as 0, and no double rounding is modelled.
- TreeNodes.Reinforce: takes the `roundingError` floor of the tree `bad` as its `floor` argument, and the three tree classes pass 0.
- TwoStepChains.Adjust: the `Double.MIN_VALUE` floor of `bad` is taken as 0. ProbMaps.Bad takes the floor as a parameter, and ProbMaps.MinValueRange places the constant.
- MapProbFun.ProbFun.Bad: the `Double.MIN_VALUE` floor is taken as 0, as in TwoStepChains.Adjust.
- ArrayProbFun.ProbFun.Bad: the `Double.MIN_VALUE` floor is taken as 0, as in TwoStepChains.Adjust.
- MapProbFun.Build: the bit-exact `sum != 1.0` double test becomes the exact test Sum == 1.

Inputs a caller must supply, although the Java accepts them:
- ArrayProbFun.ProbFun.WithProbs: requires a stochastic array. `ProbFun(List, double[])` checks neither the sum nor the signs, and such an object would break the invariant every other member relies on.
- ArrayProbFun.NewWithProbs: requires a stochastic array whenever the lengths agree, for the reason given for ArrayProbFun.ProbFun.WithProbs. It models the empty and length-mismatch errors.
- ArrayProbFun.ProbFun.SetProbs: requires positive entries. The Java rejects only a sum other than 1 and accepts zero or negative entries.
- MapProbFun.Build: requires every given probability to be positive. The Java checks only the sum, so zero or negative entries are not modelled.
- MapProbFun.SetProbs: requires positive probabilities, for the reason given for MapProbFun.Build.
- MapProbFun.ProbFun.WithProbs: requires positive probabilities, for the reason given for MapProbFun.Build, and the non-failing case of Build. The error path is MapProbFun.NewWithProbs.
- MapProbFun.ProbFun.SetProbsOf: requires positive probabilities, for the reason given for MapProbFun.Build.
- MapProbFun.NewWithProbs: requires positive probabilities, for the reason given for MapProbFun.Build.
- LayerTree.BuildMap: requires a map of positive probabilities. The Java copies any map.
- LayerTree.AddLayerMap: requires a map of positive probabilities, for the reason given for LayerTree.BuildMap.
- MainTree.BuildMap: requires a map of positive probabilities, for the reason given for LayerTree.BuildMap.
- MainTree.AddLayerMap: requires a map of positive probabilities, for the reason given for LayerTree.BuildMap.
- LayerProbFunTree.ProbFunTree.FromMap: requires a positive map summing to 1, at least one entry and at least one layer. The IllegalArgumentException path of the map constructor is not modelled as a class member.
- LayerProbFunTree.ProbFunTree.AddLayerMap: requires a map of positive probabilities, for the reason given for LayerTree.BuildMap.
- MainProbFunTree.ProbFunTree.FromMap: requires a positive map summing to 1, at least one entry and at least one layer, as LayerProbFunTree.ProbFunTree.FromMap does.
- MainProbFunTree.ProbFunTree.AddLayerMap: requires a map of positive probabilities, for the reason given for LayerTree.BuildMap.
- LayerProbFunTree.ProbFunTree.constructor: requires the arguments the constructor accepts. LayerProbFunTree.New models the IllegalArgumentException path.
- MainProbFunTree.ProbFunTree.constructor: requires the arguments the constructor accepts. MainProbFunTree.New models the IllegalArgumentException path.
- MarkovProbFunTree.ProbFunTree.constructor: requires at least two choices and one layer. MarkovProbFunTree.New models the IllegalArgumentException path.
- MapProbFun.ProbFun.constructor: requires at least two choices. MapProbFun.New models the error path.
- ArrayProbFun.ProbFun.constructor: requires a non-empty list. ArrayProbFun.New models the error path.
- TwoStepChains.MarkovChain.constructor: requires at least two choices. TwoStepChains.NewMarkovChain models the error path.
- ChainNodes.MarkovNode.constructor: requires a non-empty list. ChainNodes.NewMarkovNode models the error path, and ChainNodes.NewNestedMarkovNode and ChainNodes.NewNLayerMarkovChain do the same for their classes.
- Choices: a Java `Set` of choices is given as its elements in ascending order (`Increasing`), so no member receives duplicates. A null argument is modelled only where a member takes an `Option` (the `New…` methods of the chain builders).

Form of the model:
- Trees as values: the nodes of all three ProbFunTree variants are values, not objects. The in-place updates of the Java become functions that rebuild the path from the root. These are the `entry.setValue` loops of `good`/`bad`/`scaleProbs`, the iterator removals of `prune`/`purge`, the `put`/`remove` of `add`/`remove`/`addLayer`, and the cursor writes of `fun`/`nextValue`/`clearHistory`. A child's parent back-reference is a relative `Link`, not a pointer. Two trees therefore never share a node, and aliasing between a tree and its clone, or between a parent and its child, is not modelled.
- Tree classes: LayerProbFunTree.ProbFunTree holds the root node's fields, and each method replaces the root with the function of the old root (MainProbFunTree and MarkovProbFunTree likewise). The order in which the Java loops visit and mutate children is not modelled, except where an exception stops a loop part way: that is modelled in TreeNodes.Reinforce, LayerTree.PurgeDown and MapProbFun.PurgeOutcomeSpec.
- Map order: a `TreeMap` is a sorted association list in its own order. A `HashMap` or `HashSet` of elements, whose iteration order Java leaves unspecified, is also taken in ascending key order. In `Markov/src/chain` both classes build a `HashMap`, whose order Java also leaves unspecified. A ChainNodes.MarkovNode's map is taken in ascending key order. A ChainNodes.NestedMarkovNode's map, and the key list each higher level of ChainNodes.Raise is built from, are taken in the order the nodes were first put.
- NestedNodes.WrapNode: `new NestedMarkovNode(nestedMarkovNode)` shares the argument's first chain and ProbFuns, but the level list is a new object. In the Java it is the argument's `chain2` list, grown in place, so the argument does not see the new level here.
- NestedLevels.StepOf: every node the constructors place in a chain is a ProbFun. The `instanceof NestedProbFun` and `instanceof NestedMarkovNode` branches of `getTypeAndGood`/`getTypeAndBad` are therefore never taken and are not modelled. This includes the unbounded self-recursion of `getTypeAndGood` and `getTypeAndBad` calling `getTypeAndGood`.
- NestedClone.CloneBuilt: `clone()` is modelled on values through a renaming of ProbFuns to their copies. The clone's `previousElements` stays empty where the Java leaves it null. The as-written clone is NestedClone.CloneAsWrittenLosesWalk.
- Earliest chain: `Markov/src/chain` elements are ints, and a null element in the list is not modelled. Fields set only by the constructors are `const`. A child is a `Child` datatype that is either a MarkovNode or a NestedMarkovNode.
- MainTree.AddIfPresentToAllFuel: the as-written recursion runs with a fuel bound standing for the Java stack, and running out is StackOverflow. MainTree.AddIfPresentToAllNeverEnds shows that no fuel suffices for the example input.
- GenerativeMarkovChain/src/markov/Node.java and GenerativeMarkovChain/src/markov/MarkovNode.java declare only abstract methods. They are not part of this model beyond the ProbFun, NestedProbFun and NestedMarkovNode classes that implement them.

Members that model the corrected code rather than the code as written (each is a row of "## Findings"):
- ArrayProbFun.ProbFun.Add: stores ArrayProbFun.AddProbs, the equal share 1/(n + 1), not the 1/(n + 2) of the code as written.
- ArrayProbFun.ProbFun.Remove: stores ArrayProbFun.RemoveProbs, not the copy loop as written that leaves a 0; and for an index outside the list it returns the documented IndexOutOfBoundsException (ArrayProbFun.RemoveRange), not the IllegalArgumentException that the `%f` message format throws as written (ArrayProbFun.RemoveRangeAsWritten).
- ArrayProbFun.ProbFun.Get: returns the choice at index 0 too.
- LayerProbFunTree.ProbFunTree.Clone: copies the layer counters (LayerTree.CloneLayers), which the copy constructor as written leaves at 0.
- MarkovProbFunTree.ProbFunTree.Clone: copies the layer counters, as LayerProbFunTree.ProbFunTree.Clone does.
- MainProbFunTree.ProbFunTree.AddIfPresent: follows only keys present at each node (MainTree.AddIfPresent).
- MainProbFunTree.ProbFunTree.AddIfPresentToAll: visits each node of the tree as it was before the call (MainTree.AddIfPresentToAll). The code as written also descends into the leaves it has just added, and never finishes.
- NestedNodes.NestedMarkovNode.Fun: walks the levels in order from level 0 (NestedNodes.Descend), where `fun()` as written throws NullPointerException.

Outside the model:
- ArrayProbFun.ProbFun.Fun: the `ThreadLocalRandom` draws of every `fun()` and `nextValue()` are a parameter `rnd` in [0, 1). Statistical behaviour is not stated.
- ArrayProbFun.ProbFun.Good: `synchronized` blocks and methods are not modelled, nor are the console prints of `good`/`bad` in `Markov/src/ProbFun.java`. The model is sequential.
- ArrayProbFun.ReinforceOutcome: the `&&` index guards of `good`/`bad` in `Markov/src/ProbFun.java` never fire, and the array access then throws IndexOutOfBoundsException. That access is what the model states.
- Rendering and identity: `toString`, `hashCode`, the `id` fields and `Serializable` are not modelled.
- Test drivers: the drivers under `ProbabilityFunctionTree/src/treeTest`, `GenerativeMarkovChain/src/testMarkov` and `Markov/src/testChain` print and count frequencies. They are used only for the example values of lemmas such as ProbMaps.GoodExample and LayerTree.BuildSize.

## Findings

| source | as written | input that shows it | evidently intended | confidence | as-written member | corrected member |
|---|---|---|---|---|---|---|
| Markov/src/ProbFun.java:170-189 | `add` gives the new object 1/(n + 2) of the mass after rescaling | any stochastic array of n entries, e.g. two entries: the new object gets 1/4 | each of the n + 1 objects an equal share, 1/(n + 1) | not executed | ArrayProbFun.AddAsWrittenShare | ArrayProbFun.AddProbsShare |
| Markov/src/ProbFun.java:205-212 | the copy loop of `remove` skips the entry after the removed one and leaves a 0 in the last slot | [1/4, 1/4, 1/2], remove index 0: [0, 1] | the other entries in order, rescaled: [1/3, 2/3] | not executed | ArrayProbFun.RemoveAsWrittenDropsNext | ArrayProbFun.RemoveProbsSpec |
| Markov/src/ProbFun.java:199-200 | `remove` formats its IndexOutOfBoundsException message with `%f` on an int index, so the formatter throws IllegalFormatConversionException, an IllegalArgumentException, first | `remove(-1)`, or `remove(n)` on n objects | the IndexOutOfBoundsException the javadoc at line 195 promises | not executed | ArrayProbFun.RemoveRangeAsWrittenMinusOne | ArrayProbFun.RemoveRange |
| Markov/src/ProbFun.java:96-97 | `get(0)` returns an empty Optional | any non-empty list, index 0 | the first choice | not executed | ArrayProbFun.GetZeroEmpty | ArrayProbFun.GetChoice |
| ProbabilityFunctionTree/src/tree/ProbFunTree.java:784-800 | the copy constructor does not copy the `layers` counters, so the copy has none left | two layers over {0, 1}: `addToAll(5)` succeeds on the tree and throws IllegalArgumentException on its clone | a clone that behaves as the original | not executed | LayerTree.CloneLosesLayers | LayerTree.CloneLayersKeeps |
| GenerativeMarkovChain/src/markov/ProbFunTree.java:568-586 | the copy constructor does not copy the `layers` counters | two layers over {0, 1}: `addToAll(5)` succeeds on the tree and throws IllegalArgumentException on its clone | a clone that behaves as the original | not executed | MarkovTree.CloneLosesLayers | MarkovTree.CloneLayersKeeps |
| ProbabilityFunctionTree/src/main/java/tree/ProbFunTree.java:644-656 | `addIfPresent` follows the path through nodes without checking that the key is present, and hangs a child under a key the node does not hold | two layers over {0, 1}, path [0, 7], element 5 | change nothing where the path leaves the tree, so child keys stay among the probability keys | not executed | MainTree.AddIfPresentAddsForeignKey | MainTree.DescendWellFormed |
| ProbabilityFunctionTree/src/main/java/tree/ProbFunTree.java:668-679 | `addIfPresentToAll` recurses into the leaves each `addIfPresent` has just hung, so it never finishes | two layers over {0, 1}, path [0], element 5 | visit each node of the tree as it was once | not executed | MainTree.AddIfPresentToAllNeverEnds | MainTree.AddIfPresentToAll |
| GenerativeMarkovChain/src/markov/NestedMarkovNode.java:208-226 | `fun()` with three or more elements looks the levels up with a node of the first chain, or walks them from the last level down, and finds no entry | any history of 3 to (levels + 1) elements on a chain the constructors build | walk the levels from level 0, as `good(list)` does, to the node the history leads to | not executed | NestedLevels.FunAsWrittenFails | NestedNodes.FunNodeReaches |
| GenerativeMarkovChain/src/markov/NestedMarkovNode.java:243-253 | the copy constructor clones each level key separately from the first chain's copy, so the keys of the copied levels are not the copied nodes | a built chain and the history the original walks through level 0 | keys of the copied levels are the copies of the original keys | not executed | NestedClone.CloneAsWrittenLosesWalk | NestedClone.CloneFunNode |

=== FILE: array_prob_fun.dfy ===
/**
 * The oldest weighted random choice, Markov/src/ProbFun.java: a list of
 * choices (duplicates allowed) and an array of probabilities indexed like
 * it, left null until first needed. Every update builds a new array in
 * index loops, fixes the last entry so the array sums to 1, and stores it
 * through `setProbs`. The arithmetic of each update is a function on
 * sequences here; the class runs the loops on arrays and is proved against
 * those functions.
 */
module ArrayProbFun {
  import opened Wrappers
  import ProbMaps

  /** The sum of the entries, from the first index up. */
  function Total(s: seq<real>): real {
    if s == [] then 0.0 else s[0] + Total(s[1..])
  }

  predicate Positive(s: seq<real>) {
    forall i :: 0 <= i < |s| ==> s[i] > 0.0
  }

  /** What every stored array is: positive entries summing to 1. */
  predicate Stochastic(s: seq<real>) {
    Positive(s) && Total(s) == 1.0
  }

  lemma {:induction false} TotalConcat(a: seq<real>, b: seq<real>)
    ensures Total(a + b) == Total(a) + Total(b)
  {
    if a == [] {
      assert a + b == b;
    } else {
      assert (a + b)[1..] == a[1..] + b;
      TotalConcat(a[1..], b);
    }
  }

  lemma TotalSplit(s: seq<real>, i: nat)
    requires i < |s|
    ensures Total(s) == Total(s[..i]) + s[i] + Total(s[i + 1..])
  {
    assert s == s[..i] + s[i..];
    TotalConcat(s[..i], s[i..]);
    assert s[i..][1..] == s[i + 1..];
  }

  /** Adding one more entry of a prefix, as the summing loops do. */
  lemma TotalStep(s: seq<real>, i: nat)
    requires i < |s|
    ensures Total(s[..i + 1]) == Total(s[..i]) + s[i]
  {
    assert s[..i + 1] == s[..i] + [s[i]];
    TotalConcat(s[..i], [s[i]]);
  }

  lemma TotalUpdate(s: seq<real>, i: nat, v: real)
    requires i < |s|
    ensures Total(s[i := v]) == Total(s) - s[i] + v
  {
    TotalSplit(s, i);
    TotalSplit(s[i := v], i);
    assert s[i := v][..i] == s[..i] && s[i := v][i + 1..] == s[i + 1..];
  }

  lemma {:induction false} TotalPositive(s: seq<real>)
    requires Positive(s)
    ensures Total(s) >= 0.0
    ensures |s| > 0 ==> Total(s) > 0.0
  {
    if s != [] {
      TotalPositive(s[1..]);
    }
  }

  /** With two or more positive entries each is below the total. */
  lemma EntryBelow(s: seq<real>, i: nat)
    requires Positive(s) && i < |s| && |s| > 1
    ensures s[i] < Total(s)
  {
    TotalSplit(s, i);
    TotalPositive(s[..i]);
    TotalPositive(s[i + 1..]);
    if i > 0 {
      TotalPositive(s[..i]);
      assert s[..i][0] == s[0];
    } else {
      assert s[i + 1..][0] == s[1];
    }
  }

  /** Every entry multiplied by `c`, as the `probabilities[i] *= scale` loops do. */
  function Scaled(s: seq<real>, c: real): (r: seq<real>)
    ensures |r| == |s| && forall i :: 0 <= i < |s| ==> r[i] == s[i] * c
  {
    seq(|s|, i requires 0 <= i < |s| => s[i] * c)
  }

  lemma {:induction false} TotalScaled(s: seq<real>, c: real)
    ensures Total(Scaled(s, c)) == Total(s) * c
  {
    if s != [] {
      var u := Scaled(s, c)[1..];
      assert forall j :: 0 <= j < |u| ==> u[j] == Scaled(s[1..], c)[j];
      assert u == Scaled(s[1..], c);
      TotalScaled(s[1..], c);
      assert (s[0] + Total(s[1..])) * c == s[0] * c + Total(s[1..]) * c;
    }
  }

  lemma {:induction false} TotalConstant(n: nat, v: real)
    ensures Total(seq(n, i => v)) == n as real * v
  {
    if n > 0 {
      var s := seq(n, i => v);
      assert s[1..] == seq(n - 1, i => v);
      TotalConstant(n - 1, v);
      var m := (n - 1) as real;
      assert Total(s) == v + m * v;
      assert n as real * v == (m + 1.0) * v == m * v + v by {}
    }
  }

  /**
   * The fix every update ends with: the last entry becomes 1 minus the sum
   * of the others, so the array sums to exactly 1; an array that already
   * does is left as it is.
   */
  function FixLast(s: seq<real>): (r: seq<real>)
    requires |s| > 0
    ensures |r| == |s| && r[..|s| - 1] == s[..|s| - 1] && Total(r) == 1.0
    ensures r[|s| - 1] == 1.0 - Total(s[..|s| - 1])
    ensures Total(s) == 1.0 ==> r == s
  {
    var n := |s|;
    var r := s[n - 1 := 1.0 - Total(s[..n - 1])];
    TotalSplit(r, n - 1);
    TotalSplit(s, n - 1);
    assert r[..n - 1] == s[..n - 1];
    assert r[n..] == [] && s[n..] == [];
    r
  }

  /**
   * `getProbs()` with nothing stored: n - 1 entries of 1/n and the last one
   * fixed; in exact arithmetic every entry is 1/n.
   */
  function UniformProbs(n: nat): (r: seq<real>)
    requires n >= 1
    ensures |r| == n && Stochastic(r)
    ensures forall i :: 0 <= i < n ==> r[i] == 1.0 / n as real
  {
    var v := 1.0 / n as real;
    TotalConstant(n, v);
    FixLast(seq(n, i => v))
  }

  /** What `getProbs()` returns: the stored array, or the uniform one when none is stored. */
  function CurrentProbs(stored: Option<seq<real>>, n: nat): (r: seq<real>)
    requires n >= 1 && (stored.Some? ==> |stored.value| == n && Stochastic(stored.value))
    ensures |r| == n && Stochastic(r)
  {
    if stored.None? then UniformProbs(n) else stored.value
  }

  /** `(1 - t) / (1 - P)`: what the other entries are multiplied by when the entry at P moves to t. */
  function Share(t: real, P: real): real
    requires P < 1.0
  {
    (1.0 - t) / (1.0 - P)
  }

  lemma ShareArith(t: real, P: real)
    requires 0.0 < P < 1.0 && 0.0 < t < 1.0
    ensures Share(t, P) > 0.0
    ensures Share(t, P) - P * Share(t, P) + t == 1.0
  {
    var c := Share(t, P);
    assert c * (1.0 - P) == 1.0 - t;
    assert c - P * c == c * (1.0 - P);
  }

  /**
   * What `good` adds to P: (1 - P)·p above one half, written out as
   * p - P·p, and P·p otherwise; the value it raises P to is
   * ProbMaps.GoodTarget(P, p).
   */
  function GoodAdd(P: real, p: real): real {
    if P > 0.5 then p - P * p else P * p
  }

  /** What `bad` takes from P, lowering it to ProbMaps.BadTarget(P, p). */
  function BadSub(P: real, p: real): real {
    P * p
  }

  /**
   * The entry at `i` set to `t` and every other entry multiplied by
   * Share(t, P): again positive and summing to 1.
   */
  lemma ReweightStochastic(s: seq<real>, i: nat, t: real)
    requires Stochastic(s) && |s| > 1 && i < |s| && 0.0 < t < 1.0
    ensures s[i] < 1.0
    ensures Stochastic(Scaled(s, Share(t, s[i]))[i := t])
  {
    EntryBelow(s, i);
    var c := Share(t, s[i]);
    ShareArith(t, s[i]);
    var x := Scaled(s, c);
    TotalScaled(s, c);
    TotalUpdate(x, i, t);
    assert Total(x[i := t]) == c - s[i] * c + t;
    var y := x[i := t];
    forall j | 0 <= j < |y| ensures y[j] > 0.0 {
      if j != i {
        assert y[j] == s[j] * c;
      }
    }
  }

  /**
   * The step both updates share, for the new value `t` of the entry at `i`
   * and the array sum `sum` once it is written: the scale the loops compute
   * is Share(t, s[i]), writing `t` before or after scaling makes no
   * difference, and the result is again stochastic.
   */
  lemma Reweight(s: seq<real>, i: nat, t: real, sum: real)
    requires Stochastic(s) && |s| > 1 && i < |s| && 0.0 < t < 1.0 && sum == Total(s[i := t])
    ensures sum - t == 1.0 - s[i] > 0.0
    ensures (1.0 - t) / (sum - t) == Share(t, s[i])
    ensures Stochastic(Scaled(s, Share(t, s[i]))[i := t])
    ensures Scaled(s[i := t], Share(t, s[i]))[i := t] == Scaled(s, Share(t, s[i]))[i := t]
  {
    ReweightSum(s, i, t, sum);
    ReweightStochastic(s, i, t);
    var c := Share(t, s[i]);
    ScaledUpdate(s, i, t, c);
  }

  lemma ReweightSum(s: seq<real>, i: nat, t: real, sum: real)
    requires Stochastic(s) && |s| > 1 && i < |s| && 0.0 < t < 1.0 && sum == Total(s[i := t])
    ensures sum - t == 1.0 - s[i] > 0.0
    ensures (1.0 - t) / (sum - t) == Share(t, s[i])
  {
    EntryBelow(s, i);
    TotalUpdate(s, i, t);
  }

  /** Writing `t` at `i` before scaling or after makes no difference once `t` is written again. */
  lemma ScaledUpdate(s: seq<real>, i: nat, t: real, c: real)
    requires i < |s|
    ensures Scaled(s[i := t], c)[i := t] == Scaled(s, c)[i := t]
  {
    var y1 := Scaled(s[i := t], c)[i := t];
    var y2 := Scaled(s, c)[i := t];
    assert forall j :: 0 <= j < |s| ==> y1[j] == y2[j];
  }

  /**
   * `good(index, percent)` past its checks, on the array `s` that
   * `getProbs()` returned: nothing when the raised value would reach 1;
   * otherwise the entry takes it, every entry of the stored array is
   * multiplied by (1 - raised) / (sum of the others), the entry is set again
   * and the last one fixed.
   */
  function GoodProbs(s: seq<real>, i: nat, p: real): (r: seq<real>)
    requires Stochastic(s) && |s| > 1 && i < |s| && 0.0 < p < 1.0
    ensures |r| == |s| && Stochastic(r)
  {
    var P := s[i];
    var add := GoodAdd(P, p);
    if P + add >= 1.0 then s
    else
      var g := P + add;
      EntryBelow(s, i);
      ProbMaps.TargetBounds(P, p);
      Reweight(s, i, g, Total(s[i := g]));
      FixLast(Scaled(s, (1.0 - g) / (Total(s[i := g]) - g))[i := g])
  }

  /** The update of `good` as its loops compute it, once the early exit is passed. */
  lemma GoodUnfold(s: seq<real>, i: nat, p: real, g: real, sum: real)
    requires Stochastic(s) && |s| > 1 && i < |s| && 0.0 < p < 1.0
    requires g == s[i] + GoodAdd(s[i], p) && g < 1.0
    requires sum == Total(s[i := g])
    ensures sum - g == 1.0 - s[i] > 0.0
    ensures GoodProbs(s, i, p) == FixLast(Scaled(s, (1.0 - g) / (sum - g))[i := g])
  {
    EntryBelow(s, i);
    TotalUpdate(s, i, g);
  }

  /**
   * What `good` does: the entry rises strictly to its good target and every other
   * entry keeps its proportion, multiplied by (1 - new) / (1 - old).
   */
  lemma GoodProbsSpec(s: seq<real>, i: nat, p: real)
    requires Stochastic(s) && |s| > 1 && i < |s| && 0.0 < p < 1.0
    ensures s[i] < 1.0
    ensures GoodProbs(s, i, p)[i] == ProbMaps.GoodTarget(s[i], p) > s[i]
    ensures forall j :: 0 <= j < |s| && j != i ==>
      GoodProbs(s, i, p)[j] == s[j] * Share(ProbMaps.GoodTarget(s[i], p), s[i])
  {
    EntryBelow(s, i);
    var g := ProbMaps.GoodTarget(s[i], p);
    ProbMaps.TargetBounds(s[i], p);
    var sum := Total(s[i := g]);
    Reweight(s, i, g, sum);
    GoodUnfold(s, i, p, g, sum);
    var x := Scaled(s, Share(g, s[i]))[i := g];
    assert GoodProbs(s, i, p) == FixLast(x) == x;
  }

  /**
   * `bad(index, percent)` past its checks: nothing when the lowered value is
   * below the floor (`Double.MIN_VALUE`, taken as 0); otherwise the copy
   * holding the lowered value is multiplied by (1 - lowered) / (sum of the
   * others), the entry is set again and the last one fixed.
   */
  function BadProbs(s: seq<real>, i: nat, p: real): (r: seq<real>)
    requires Stochastic(s) && |s| > 1 && i < |s| && 0.0 < p < 1.0
    ensures |r| == |s| && Stochastic(r)
  {
    var P := s[i];
    var sub := BadSub(P, p);
    if P - sub < 0.0 then s
    else
      var b := P - sub;
      EntryBelow(s, i);
      ProbMaps.TargetBounds(P, p);
      Reweight(s, i, b, Total(s[i := b]));
      FixLast(Scaled(s[i := b], (1.0 - b) / (Total(s[i := b]) - b))[i := b])
  }

  /** The update of `bad` as its loops compute it, once the floor check is passed. */
  lemma BadUnfold(s: seq<real>, i: nat, p: real, b: real, sum: real, scale: real)
    requires Stochastic(s) && |s| > 1 && i < |s| && 0.0 < p < 1.0
    requires b == s[i] - BadSub(s[i], p) && sum == Total(s[i := b])
    requires sum - b != 0.0 && scale == (1.0 - b) / (sum - b)
    ensures sum - b == 1.0 - s[i] > 0.0
    ensures BadProbs(s, i, p) == FixLast(Scaled(s[i := b], scale)[i := b])
  {
    EntryBelow(s, i);
    ProbMaps.TargetBounds(s[i], p);
    TotalUpdate(s, i, b);
  }

  /** What `bad` does: the entry falls strictly to its bad target and the others keep their proportions. */
  lemma BadProbsSpec(s: seq<real>, i: nat, p: real)
    requires Stochastic(s) && |s| > 1 && i < |s| && 0.0 < p < 1.0
    ensures s[i] < 1.0
    ensures 0.0 < BadProbs(s, i, p)[i] == ProbMaps.BadTarget(s[i], p) < s[i]
    ensures forall j :: 0 <= j < |s| && j != i ==>
      BadProbs(s, i, p)[j] == s[j] * Share(ProbMaps.BadTarget(s[i], p), s[i])
  {
    EntryBelow(s, i);
    var b := ProbMaps.BadTarget(s[i], p);
    ProbMaps.TargetBounds(s[i], p);
    var sum := Total(s[i := b]);
    Reweight(s, i, b, sum);
    var scale := Share(b, s[i]);
    BadUnfold(s, i, p, b, sum, scale);
    var x := Scaled(s, scale)[i := b];
    assert BadProbs(s, i, p) == FixLast(x) == x;
  }

  /**
   * `good` and `bad` with their early exits: nothing at one choice or less
   * (whatever the percent), IllegalArgumentException for a percent outside
   * (0, 1), and otherwise `getProbs()` runs (caching the uniform array when
   * none is stored) before the array is indexed, so an index out of range
   * throws with the cache filled. The result is the exception and the
   * stored array afterwards.
   */
  function ReinforceOutcome(stored: Option<seq<real>>, n: nat, index: int, p: real, good: bool): (r: (Option<Exception>, Option<seq<real>>))
    requires n >= 1 && (stored.Some? ==> |stored.value| == n && Stochastic(stored.value))
    ensures r.1.Some? ==> |r.1.value| == n && Stochastic(r.1.value)
    ensures r.0 == Some(IllegalArgument) <==> n > 1 && (p <= 0.0 || p >= 1.0)
    ensures r.0 == Some(IndexOutOfBounds) <==> n > 1 && 0.0 < p < 1.0 && (index < 0 || index >= n)
    ensures r.0.None? || r.0 == Some(IllegalArgument) || r.0 == Some(IndexOutOfBounds)
    ensures n <= 1 || p <= 0.0 || p >= 1.0 ==> r.1 == stored
    ensures r.0.None? && n > 1 ==> r.1.Some?
    ensures r.0.None? && n > 1 && good ==> r.1 == Some(GoodProbs(CurrentProbs(stored, n), index, p))
    ensures r.0.None? && n > 1 && !good ==> r.1 == Some(BadProbs(CurrentProbs(stored, n), index, p))
  {
    if n <= 1 then (None, stored)
    else if p >= 1.0 || p <= 0.0 then (Some(IllegalArgument), stored)
    else
      var s := CurrentProbs(stored, n);
      if index < 0 || index >= n then (Some(IndexOutOfBounds), Some(s))
      else if good then (None, Some(GoodProbs(s, index, p)))
      else (None, Some(BadProbs(s, index, p)))
  }

  /**
   * `add(object)` as written: the new entry starts at 1/(n + 1) for the old
   * size n, and the rescale then leaves it at 1/(n + 2).
   */
  function AddProbsAsWritten(s: seq<real>): (r: seq<real>)
    requires Stochastic(s)
    ensures |r| == |s| + 1 && Stochastic(r)
  {
    AddedProbs(s, 1.0 / (|s| + 1) as real)
  }

  /** With n entries the object added as written ends at 1/(n + 2), not the 1/(n + 1) its documentation promises. */
  lemma AddAsWrittenShare(s: seq<real>)
    requires Stochastic(s)
    ensures var n := |s| as real;
      AddProbsAsWritten(s)[|s|] == 1.0 / (n + 2.0) && 1.0 / (n + 2.0) < 1.0 / (n + 1.0)
  {
    var n := |s| as real;
    AddedProbsSpec(s, 1.0 / (n + 1.0));
    AddArith(n + 1.0);
  }

  /**
   * `add(object)` with the intended share: the new entry starts at 1/n for
   * the old size n and ends at 1/(n + 1), the share of one object among
   * n + 1; every old entry is multiplied by n/(n + 1).
   */
  function AddProbs(s: seq<real>): (r: seq<real>)
    requires Stochastic(s)
    ensures |r| == |s| + 1 && Stochastic(r)
  {
    TotalPositive(s);
    AddedProbs(s, 1.0 / |s| as real)
  }

  lemma AddProbsShare(s: seq<real>)
    requires Stochastic(s)
    ensures var n := |s| as real;
      AddProbs(s)[|s|] == 1.0 / (n + 1.0) &&
      forall i :: 0 <= i < |s| ==> AddProbs(s)[i] == s[i] * (n / (n + 1.0))
  {
    TotalPositive(s);
    var n := |s| as real;
    AddedProbsSpec(s, 1.0 / n);
    AddArith(n);
  }

  lemma AddArith(n: real)
    requires n >= 1.0
    ensures 1.0 / (1.0 + 1.0 / n) == n / (n + 1.0)
    ensures 1.0 / n * (n / (n + 1.0)) == 1.0 / (n + 1.0)
    ensures 1.0 / (n + 1.0) < 1.0 / n
  {
    assert 1.0 + 1.0 / n == (n + 1.0) / n;
  }

  lemma InverseArith(x: real)
    requires x > 0.0
    ensures 1.0 / x > 0.0 && x * (1.0 / x) == 1.0
  {
  }

  /**
   * The rescale-and-fix tail of `add` and `remove`: every entry multiplied
   * by 1/sum, then the last fixed; on positive entries the fix changes
   * nothing.
   */
  function Normalized(t: seq<real>): (r: seq<real>)
    requires Positive(t) && |t| > 0
    ensures |r| == |t| && Stochastic(r)
    ensures Total(t) > 0.0 && r == Scaled(t, 1.0 / Total(t))
  {
    TotalPositive(t);
    var c := 1.0 / Total(t);
    InverseArith(Total(t));
    TotalScaled(t, c);
    var u := Scaled(t, c);
    forall j | 0 <= j < |u| ensures u[j] > 0.0 {
      ProbMaps.MulPositive(t[j], c);
    }
    FixLast(u)
  }

  /** The array grown by `v` at the end, rescaled by 1/sum and the last entry fixed. */
  function AddedProbs(s: seq<real>, v: real): (r: seq<real>)
    requires Stochastic(s) && v > 0.0
    ensures |r| == |s| + 1 && Stochastic(r)
  {
    Normalized(s + [v])
  }

  lemma AddedProbsSpec(s: seq<real>, v: real)
    requires Stochastic(s) && v > 0.0
    ensures AddedProbs(s, v)[|s|] == v * (1.0 / (1.0 + v))
    ensures forall i :: 0 <= i < |s| ==> AddedProbs(s, v)[i] == s[i] * (1.0 / (1.0 + v))
  {
    TotalConcat(s, [v]);
    assert Total([v]) == v by {
      assert [v][1..] == [];
    }
    var t := s + [v];
    assert forall i :: 0 <= i < |s| ==> t[i] == s[i];
  }

  /**
   * The copy loop of `remove(index)` as written: the index skip bumps `j`
   * twice, so the entry after `index` is dropped as well and the slot at
   * `index` keeps the array's default 0. Removing the last index copies
   * correctly.
   */
  function RemoveCopyAsWritten(s: seq<real>, index: nat): (r: seq<real>)
    requires index < |s|
    ensures |r| == |s| - 1
  {
    if index == |s| - 1 then s[..index]
    else s[..index] + [0.0] + s[index + 2..]
  }

  /**
   * `remove(index)` as written, past its checks: the copy rescaled by 1/sum
   * and the last entry fixed. A sum of 0 arises only from two entries with
   * index 0; Java then computes 0·∞ (NaN), which the fix overwrites with 1.
   */
  function RemoveProbsAsWritten(s: seq<real>, index: nat): (r: seq<real>)
    requires Stochastic(s) && |s| > 1 && index < |s|
    ensures |r| == |s| - 1 && Total(r) == 1.0
  {
    var t := RemoveCopyAsWritten(s, index);
    if Total(t) == 0.0 then FixLast(t)
    else FixLast(Scaled(t, 1.0 / Total(t)))
  }

  /**
   * On [1/4, 1/4, 1/2] removing index 0 as written leaves [0, 1]: the
   * entry that followed the removed one is gone and its slot holds 0, where
   * [1/3, 2/3] is meant.
   */
  lemma RemoveAsWrittenDropsNext()
    ensures Stochastic([0.25, 0.25, 0.5])
    ensures RemoveProbsAsWritten([0.25, 0.25, 0.5], 0) == [0.0, 1.0]
    ensures RemoveProbs([0.25, 0.25, 0.5], 0) == [1.0 / 3.0, 2.0 / 3.0]
  {
    var s := [0.25, 0.25, 0.5];
    assert Total(s) == 1.0 by {
      assert s[1..][1..][1..] == [];
    }
    var t := RemoveCopyAsWritten(s, 0);
    assert t == [0.0, 0.5];
    assert Total(t) == 0.5 by {
      assert t[1..][1..] == [];
    }
    var u := Scaled(t, 1.0 / 0.5);
    assert u == [0.0, 1.0];
    assert Total(u[..1]) == 0.0 by {
      assert u[..1][1..] == [];
    }
    var k := s[..0] + s[1..];
    assert k == [0.25, 0.5];
    assert Total(k) == 0.75 by {
      assert k[1..][1..] == [];
    }
    var w := Scaled(k, 1.0 / 0.75);
    assert w == [1.0 / 3.0, 2.0 / 3.0];
    assert Total(w[..1]) == 1.0 / 3.0 by {
      assert w[..1][1..] == [];
    }
  }

  /**
   * `remove(index)` as written gives the intended result exactly when the
   * last index is removed or only two entries are there; for every other
   * index the slot at `index` holds 0, where a positive entry belongs.
   */
  lemma RemoveAsWrittenAgrees(s: seq<real>, index: nat)
    requires Stochastic(s) && |s| > 1 && index < |s|
    ensures RemoveProbsAsWritten(s, index) == RemoveProbs(s, index) <==> index == |s| - 1 || |s| == 2
    ensures index < |s| - 1 && |s| > 2 ==>
      RemoveProbsAsWritten(s, index)[index] == 0.0 && RemoveProbs(s, index)[index] > 0.0
  {
    if index == |s| - 1 {
      RemoveAsWrittenLast(s, index);
    } else if |s| == 2 {
      RemoveAsWrittenPair(s);
    } else {
      RemoveAsWrittenZeroes(s, index);
    }
  }

  /** Removing the last index, the copy as written is the intended one. */
  lemma RemoveAsWrittenLast(s: seq<real>, index: nat)
    requires Stochastic(s) && |s| > 1 && index == |s| - 1
    ensures RemoveProbsAsWritten(s, index) == RemoveProbs(s, index)
  {
    var t := s[..index];
    assert s[..index] + s[index + 1..] == t;
    RemoveTotal(s, index);
    TotalPositive(t);
    var c := 1.0 / Total(t);
    InverseArith(Total(t));
    TotalScaled(t, c);
  }

  /** With two entries the copy as written is [0], which the fix turns into [1], the intended result. */
  lemma RemoveAsWrittenPair(s: seq<real>)
    requires Stochastic(s) && |s| == 2
    ensures RemoveProbsAsWritten(s, 0) == RemoveProbs(s, 0)
  {
    var t := RemoveCopyAsWritten(s, 0);
    assert t == [0.0];
    assert Total(t) == 0.0 by {
      assert t[1..] == [];
    }
    var r := RemoveProbs(s, 0);
    assert Total(r) == r[0] by {
      assert r[1..] == [];
    }
  }

  /** Before the last index, with three or more entries, the slot at `index` ends up 0. */
  lemma RemoveAsWrittenZeroes(s: seq<real>, index: nat)
    requires Stochastic(s) && |s| > 2 && index < |s| - 1
    ensures RemoveProbsAsWritten(s, index)[index] == 0.0 && RemoveProbs(s, index)[index] > 0.0
  {
    var t := RemoveCopyAsWritten(s, index);
    CopyAsWrittenTotal(s, index);
    var c := 1.0 / Total(t);
    var u := Scaled(t, c);
    assert RemoveProbsAsWritten(s, index) == FixLast(u);
    if index < |u| - 1 {
      assert FixLast(u)[..|u| - 1][index] == u[..|u| - 1][index];
    } else {
      FixedSlotZero(t, c);
    }
  }

  /** The copy as written, with three or more entries: 0 at `index`, and a positive total. */
  lemma CopyAsWrittenTotal(s: seq<real>, index: nat)
    requires Stochastic(s) && |s| > 2 && index < |s| - 1
    ensures var t := RemoveCopyAsWritten(s, index);
      t[index] == 0.0 && Total(t) > 0.0 && Total(t) == Total(t[..index]) + Total(t[index + 1..])
  {
    var t := RemoveCopyAsWritten(s, index);
    assert t[..index] == s[..index] && t[index + 1..] == s[index + 2..];
    assert Positive(s[..index]) && Positive(s[index + 2..]);
    TotalSplit(t, index);
    TotalPositive(s[..index]);
    TotalPositive(s[index + 2..]);
  }

  /**
   * A copy whose last slot is 0, rescaled to total 1 by c: the fix puts
   * 1 minus the others there, which is 0 again.
   */
  lemma FixedSlotZero(t: seq<real>, c: real)
    requires |t| > 0 && t[|t| - 1] == 0.0 && Total(t) > 0.0 && c == 1.0 / Total(t)
    ensures FixLast(Scaled(t, c))[|t| - 1] == 0.0
  {
    InverseArith(Total(t));
    ScaledPrefixTotal(t, c);
    FixLastFull(Scaled(t, c));
  }

  /** Rescaled by 1/total, the entries before a final 0 already sum to 1. */
  lemma ScaledPrefixTotal(t: seq<real>, c: real)
    requires |t| > 0 && t[|t| - 1] == 0.0 && Total(t) * c == 1.0
    ensures Total(Scaled(t, c)[..|t| - 1]) == 1.0
  {
    var u := Scaled(t, c);
    assert u[|u| - 1] == 0.0;
    TotalDropZero(u);
    TotalScaled(t, c);
  }

  lemma TotalDropZero(t: seq<real>)
    requires |t| > 0 && t[|t| - 1] == 0.0
    ensures Total(t[..|t| - 1]) == Total(t)
  {
    var n := |t| - 1;
    TotalSplit(t, n);
    assert t[n + 1..] == [];
  }

  /** When the others already sum to 1, the fix puts 0 in the last slot. */
  lemma FixLastFull(u: seq<real>)
    requires |u| > 0 && Total(u[..|u| - 1]) == 1.0
    ensures FixLast(u)[|u| - 1] == 0.0
  {
  }


  /**
   * `remove(index)` with the copy it intends: every entry but the one at
   * `index`, in order, rescaled by 1/sum and the last entry fixed. Each
   * remaining entry is multiplied by 1/(1 - removed).
   */
  function RemoveProbs(s: seq<real>, index: nat): (r: seq<real>)
    requires Stochastic(s) && |s| > 1 && index < |s|
    ensures |r| == |s| - 1 && Stochastic(r)
  {
    var t := s[..index] + s[index + 1..];
    RemoveTotal(s, index);
    Normalized(t)
  }

  /** The entries left by `remove`, in order, each multiplied by 1/(1 - removed). */
  lemma RemoveProbsSpec(s: seq<real>, index: nat)
    requires Stochastic(s) && |s| > 1 && index < |s|
    ensures s[index] < 1.0
    ensures RemoveProbs(s, index) == Scaled(s[..index] + s[index + 1..], 1.0 / (1.0 - s[index]))
  {
    RemoveTotal(s, index);
  }

  /** The entries left by the intended copy: positive, in order, summing to 1 minus the removed one. */
  lemma RemoveTotal(s: seq<real>, index: nat)
    requires Stochastic(s) && |s| > 1 && index < |s|
    ensures var t := s[..index] + s[index + 1..];
      Positive(t) && Total(t) == 1.0 - s[index] && s[index] < 1.0 &&
      forall j :: 0 <= j < |t| ==> t[j] == if j < index then s[j] else s[j + 1]
  {
    var t := s[..index] + s[index + 1..];
    assert forall j :: 0 <= j < |t| ==> t[j] == if j < index then s[j] else s[j + 1];
    TotalSplit(s, index);
    TotalConcat(s[..index], s[index + 1..]);
    EntryBelow(s, index);
  }

  /**
   * The range check of `remove(index)` as written: the message of the
   * IndexOutOfBoundsException is formatted with `%f` on an int, and the
   * formatter throws its conversion exception, an IllegalArgumentException,
   * before the IndexOutOfBoundsException is made. Nothing has changed yet.
   */
  function RemoveRangeAsWritten(n: nat, index: int): (r: Option<Exception>)
    ensures r.Some? <==> index < 0 || index >= n
  {
    if index < 0 || index >= n then Some(IllegalArgument) else None
  }

  /** On `remove(-1)` the documented IndexOutOfBoundsException is never thrown. */
  lemma RemoveRangeAsWrittenMinusOne(n: nat)
    ensures RemoveRangeAsWritten(n, -1) == Some(IllegalArgument)
    ensures RemoveRange(n, -1) == Some(IndexOutOfBounds)
  {
  }

  /** The range check `remove` documents: IndexOutOfBoundsException outside the list. */
  function RemoveRange(n: nat, index: int): (r: Option<Exception>)
    ensures r.Some? <==> index < 0 || index >= n
    ensures r.Some? ==> r.value == IndexOutOfBounds
  {
    if index < 0 || index >= n then Some(IndexOutOfBounds) else None
  }

  /**
   * The as-written check and the documented one agree exactly on the
   * indices inside the list; outside it the exception thrown is never the
   * documented one.
   */
  lemma RemoveRangeAgrees(n: nat, index: int)
    ensures RemoveRangeAsWritten(n, index) == RemoveRange(n, index) <==> 0 <= index < n
    ensures RemoveRangeAsWritten(n, index) != Some(IndexOutOfBounds)
  {
  }

  /** Java's `(int) Math.round(x)`: the floor of x + 1/2. */
  function Round(x: real): int {
    (x + 0.5).Floor
  }

  lemma RoundRange(r: real, n: nat)
    requires n >= 1 && 0.0 <= r < 1.0
    ensures 0 <= Round(r * (n - 1) as real) < n
  {
    var m := (n - 1) as real;
    assert 0.0 <= r * m <= m;
  }

  /** The index the summing loop of `fun()` stops at: the first whose running sum reaches `r`. */
  function Reach(s: seq<real>, r: real): (k: nat)
    requires Positive(s) && 0.0 < r <= Total(s)
    ensures k < |s|
    decreases |s|
  {
    if r <= s[0] then 0
    else
      1 + Reach(s[1..], r - s[0])
  }

  lemma PrefixCons(s: seq<real>, k: nat)
    requires k < |s|
    ensures Total(s[..k + 1]) == s[0] + Total(s[1..][..k])
  {
    assert s[..k + 1][1..] == s[1..][..k];
  }

  /** `Reach` is the index of the interval of cumulative sums holding `r`, and the only one. */
  lemma {:induction false} ReachInterval(s: seq<real>, r: real, k: nat)
    requires Positive(s) && 0.0 < r <= Total(s) && k < |s|
    ensures Reach(s, r) == k <==> Total(s[..k]) < r <= Total(s[..k + 1])
    decreases |s|
  {
    PrefixCons(s, k);
    if k == 0 {
      assert s[..0] == [];
      assert Total(s[1..][..0]) == 0.0 by {
        assert s[1..][..0] == [];
      }
    } else {
      PrefixCons(s, k - 1);
      TotalPositive(s[1..][..k - 1]);
      if r > s[0] {
        ReachInterval(s[1..], r - s[0], k - 1);
      }
    }
  }

  /**
   * The index `fun()` records for the draw `r`: round(r·(n - 1)) with no
   * probabilities stored; otherwise the first index whose running sum
   * reaches `r`, and for a draw of 0 (the loop never runs) the previous one.
   */
  function FunIndex(stored: Option<seq<real>>, n: nat, prev: int, r: real): (k: int)
    requires n >= 1 && 0.0 <= r < 1.0
    requires stored.Some? ==> |stored.value| == n && Stochastic(stored.value)
    ensures stored.None? || r > 0.0 ==> 0 <= k < n
    ensures stored.Some? && r == 0.0 ==> k == prev
    ensures stored.Some? && r > 0.0 ==> Total(stored.value[..k]) < r <= Total(stored.value[..k + 1])
  {
    if stored.None? then
      RoundRange(r, n);
      Round(r * (n - 1) as real)
    else if r == 0.0 then prev
    else
      ReachInterval(stored.value, r, Reach(stored.value, r));
      Reach(stored.value, r)
  }

  /** `choices.get(k)`: IndexOutOfBoundsException outside the list. */
  function Pick(choices: seq<int>, k: int): (r: Result<int>)
    ensures r.Ok? <==> 0 <= k < |choices|
    ensures r.Ok? ==> r.value == choices[k]
    ensures r.Fail? ==> r.error == IndexOutOfBounds
  {
    if 0 <= k < |choices| then Ok(choices[k]) else Fail(IndexOutOfBounds)
  }

  /**
   * `get(index)` as written: the bounds check throws outside [0, n), but the
   * second test reads `index > 0`, so index 0 gives an empty Optional.
   */
  function GetAsWritten(choices: seq<int>, index: int): (r: Result<Option<int>>)
    ensures r.Fail? <==> index < 0 || index >= |choices|
    ensures r.Fail? ==> r.error == IndexOutOfBounds
  {
    if index < 0 || index >= |choices| then Fail(IndexOutOfBounds)
    else if index > 0 && index < |choices| then Ok(Some(choices[index]))
    else Ok(None)
  }

  /** Index 0 is in bounds, yet `get(0)` as written returns empty. */
  lemma GetZeroEmpty(choices: seq<int>)
    requires |choices| > 0
    ensures GetAsWritten(choices, 0) == Ok(None)
  {
  }

  /** `get(index)` as intended: the object at every index in bounds. */
  function GetChoice(choices: seq<int>, index: int): (r: Result<Option<int>>)
    ensures r.Fail? <==> index < 0 || index >= |choices|
    ensures r.Fail? ==> r.error == IndexOutOfBounds
    ensures r.Ok? ==> r.value == Some(choices[index])
    ensures index > 0 ==> r == GetAsWritten(choices, index)
  {
    if index < 0 || index >= |choices| then Fail(IndexOutOfBounds) else Ok(Some(choices[index]))
  }

  /** The `sum += a[i]` loop over the first `n` entries. */
  method SumOf(a: array<real>, n: nat) returns (s: real)
    requires n <= a.Length
    ensures s == Total(a[..n])
  {
    s := 0.0;
    var i := 0;
    while i < n
      invariant 0 <= i <= n
      invariant s == Total(a[..i])
    {
      TotalStep(a[..n], i);
      assert a[..n][..i] == a[..i] && a[..n][..i + 1] == a[..i + 1];
      s := s + a[i];
      i := i + 1;
    }
  }

  /** The fix loop: the sum of all but the last entry, then the last entry set to 1 minus it. */
  method FixLastIn(a: array<real>)
    requires a.Length > 0
    modifies a
    ensures a[..] == FixLast(old(a[..]))
  {
    var s := SumOf(a, a.Length - 1);
    a[a.Length - 1] := 1.0 - s;
    assert a[..] == old(a[..])[a.Length - 1 := 1.0 - s];
  }

  /** `dst[i] = src[i] * c` for every index. */
  method ScaleInto(dst: array<real>, src: array<real>, c: real)
    requires dst.Length == src.Length && dst != src
    modifies dst
    ensures dst[..] == Scaled(src[..], c)
  {
    var i := 0;
    while i < dst.Length
      invariant 0 <= i <= dst.Length
      invariant forall j :: 0 <= j < i ==> dst[j] == src[j] * c
    {
      dst[i] := src[i] * c;
      i := i + 1;
    }
    assert forall j :: 0 <= j < dst.Length ==> dst[..][j] == Scaled(src[..], c)[j];
  }

  /** A new array holding the same entries. */
  method CopyOf(a: array<real>) returns (b: array<real>)
    ensures fresh(b) && b[..] == a[..]
  {
    b := new real[a.Length];
    var i := 0;
    while i < a.Length
      invariant 0 <= i <= a.Length
      invariant forall j :: 0 <= j < i ==> b[j] == a[j]
    {
      b[i] := a[i];
      i := i + 1;
    }
  }

  /** The array of `getProbs()` with nothing stored: n - 1 entries of 1/n, then the last fixed. */
  method UniformArray(n: nat) returns (a: array<real>)
    requires n >= 1
    ensures fresh(a) && a[..] == UniformProbs(n)
  {
    a := new real[n];
    var probability := 1.0 / n as real;
    var i := 0;
    while i < n - 1
      invariant 0 <= i <= n - 1
      invariant forall j :: 0 <= j < i ==> a[j] == probability
    {
      a[i] := probability;
      i := i + 1;
    }
    ghost var filled := a[..];
    FixLastIn(a);
    assert filled[..n - 1] == seq(n, j => probability)[..n - 1];
  }

  /** The copy loop of `add(object)`: one slot longer, holding `v` at the end. */
  method Extended(a: array<real>, v: real) returns (b: array<real>)
    ensures fresh(b) && b[..] == a[..] + [v]
  {
    b := new real[a.Length + 1];
    var i := 0;
    while i < a.Length
      invariant 0 <= i <= a.Length
      invariant forall j :: 0 <= j < i ==> b[j] == a[j]
    {
      b[i] := a[i];
      i := i + 1;
    }
    b[a.Length] := v;
  }

  /** The copy loop of `remove(index)` as intended: every entry but the one at `index`. */
  method Without(a: array<real>, index: nat) returns (b: array<real>)
    requires index < a.Length
    ensures fresh(b) && b[..] == a[..index] + a[index + 1..]
  {
    b := new real[a.Length - 1];
    var i := 0;
    while i < b.Length
      invariant 0 <= i <= b.Length
      invariant forall j :: 0 <= j < i && j < index ==> b[j] == a[j]
      invariant forall j :: index <= j < i ==> b[j] == a[j + 1]
    {
      b[i] := if i < index then a[i] else a[i + 1];
      i := i + 1;
    }
    ghost var w := a[..index] + a[index + 1..];
    assert forall j :: 0 <= j < |w| ==> w[j] == if j < index then a[j] else a[j + 1];
    assert b[..] == w;
  }

  /** `a[i] *= c` for every index. */
  method ScaleIn(a: array<real>, c: real)
    modifies a
    ensures a[..] == Scaled(old(a[..]), c)
  {
    ghost var s := a[..];
    var i := 0;
    while i < a.Length
      invariant 0 <= i <= a.Length
      invariant forall j :: 0 <= j < i ==> a[j] == s[j] * c
      invariant forall j :: i <= j < a.Length ==> a[j] == s[j]
    {
      a[i] := a[i] * c;
      i := i + 1;
    }
    assert forall j :: 0 <= j < a.Length ==> a[..][j] == Scaled(s, c)[j];
  }

  /**
   * The body of `good` on the copy `ps` of the stored array `pr`: `done` is
   * false on the early exit, which leaves the copy as it is.
   */
  method GoodIn(ps: array<real>, pr: array<real>, index: nat, p: real) returns (done: bool)
    requires ps != pr && ps.Length == pr.Length > 1 && index < pr.Length
    requires Stochastic(pr[..]) && ps[..] == pr[..] && 0.0 < p < 1.0
    modifies ps
    ensures ps[..] == GoodProbs(pr[..], index, p)
    ensures !done ==> ps[..] == pr[..]
  {
    ghost var s := pr[..];
    assert s[index] == pr[index];
    var P := pr[index];
    var add := GoodAdd(P, p);
    if P + add >= 1.0 {
      return false;
    }
    var g := P + add;
    ps[index] := g;
    var leftover := 1.0 - g;
    var sum := SumOf(ps, ps.Length);
    assert ps[..ps.Length] == s[index := g];
    GoodUnfold(s, index, p, g, sum);
    var scale := leftover / (sum - g);
    ScaleInto(ps, pr, scale);
    ghost var scaled := ps[..];
    ps[index] := g;
    assert ps[..] == scaled[index := g];
    FixLastIn(ps);
    done := true;
  }

  /** The body of `bad` on the copy `ps` of the stored array `pr`, with the floor taken as 0. */
  method BadIn(ps: array<real>, pr: array<real>, index: nat, p: real) returns (done: bool)
    requires ps != pr && ps.Length == pr.Length > 1 && index < pr.Length
    requires Stochastic(pr[..]) && ps[..] == pr[..] && 0.0 < p < 1.0
    modifies ps
    ensures ps[..] == BadProbs(pr[..], index, p)
    ensures !done ==> ps[..] == pr[..]
  {
    ghost var s := pr[..];
    assert s[index] == pr[index];
    var sub := BadSub(pr[index], p);
    if pr[index] - sub < 0.0 {
      return false;
    }
    var b := pr[index] - sub;
    ps[index] := b;
    var leftover := 1.0 - b;
    var sum := SumOf(ps, ps.Length);
    assert ps[..ps.Length] == s[index := b];
    assert sum - b != 0.0 by {
      EntryBelow(s, index);
      TotalUpdate(s, index, b);
    }
    var scale := leftover / (sum - b);
    BadUnfold(s, index, p, b, sum, scale);
    ScaleIn(ps, scale);
    ps[index] := b;
    FixLastIn(ps);
    done := true;
  }

  /**
   * The summing loop of `fun()`: the index is moved to each entry in turn
   * while the draw is above the running sum, starting from `prev`.
   */
  method Cumulate(a: array<real>, r: real, prev: int) returns (k: int)
    requires Stochastic(a[..]) && 0.0 <= r < 1.0
    ensures r == 0.0 ==> k == prev
    ensures r > 0.0 ==> k == Reach(a[..], r)
  {
    ghost var s := a[..];
    k := prev;
    var sum := 0.0;
    var i := 0;
    while r > sum
      invariant 0 <= i <= |s|
      invariant sum == Total(s[..i])
      invariant i == 0 ==> k == prev
      invariant i > 0 ==> k == i - 1 && Total(s[..i - 1]) < r && r > 0.0
      invariant i == |s| ==> sum == 1.0
      decreases |s| - i
    {
      TotalStep(s, i);
      k := i;
      sum := sum + a[i];
      i := i + 1;
      assert i == |s| ==> s[..i] == s;
    }
    if i > 0 {
      ReachInterval(s, r, i - 1);
    }
  }

  class ProbFun {
    var previousIndex: int
    var choices: seq<int>
    var probabilities: array?<real>

    /** The stored probabilities, absent while the array is null. */
    function Stored(): Option<seq<real>>
      reads this, probabilities
    {
      if probabilities == null then None else Some(probabilities[..])
    }

    ghost predicate Valid()
      reads this, probabilities
    {
      |choices| >= 1 &&
      (probabilities != null ==> probabilities.Length == |choices| && Stochastic(probabilities[..]))
    }

    /** `ProbFun(choices)`: the choices copied, no probabilities yet, no index picked. */
    constructor (cs: seq<int>)
      requires |cs| >= 1
      ensures Valid() && choices == cs && probabilities == null && previousIndex == -1
    {
      previousIndex, choices, probabilities := -1, cs, null;
    }

    /** `ProbFun(choices, probabilities)` past its checks: both copied. */
    constructor WithProbs(cs: seq<int>, ps: array<real>)
      requires |cs| >= 1 && ps.Length == |cs| && Stochastic(ps[..])
      ensures Valid() && choices == cs && previousIndex == -1
      ensures fresh(probabilities) && Stored() == Some(ps[..])
    {
      var copy := CopyOf(ps);
      previousIndex, choices, probabilities := -1, cs, copy;
    }

    /** `size()`. */
    method Size() returns (n: nat)
      requires Valid()
      ensures n == |choices| && n >= 1
    {
      n := |choices|;
    }

    /** `previousIndex()`: -1 until `fun()` has picked. */
    method PreviousIndex() returns (k: int)
      ensures k == previousIndex
    {
      k := previousIndex;
    }

    /** `get(index)`, with index 0 answered as intended (see `GetZeroEmpty`). */
    method Get(index: int) returns (r: Result<Option<int>>)
      ensures r == GetChoice(choices, index)
      ensures r.Ok? <==> 0 <= index < |choices|
      ensures r.Ok? ==> r.value == Some(choices[index])
    {
      if index < 0 || index >= |choices| {
        return Fail(IndexOutOfBounds);
      }
      r := Ok(Some(choices[index]));
    }

    /**
     * `getProbs()`: a copy of the stored array; with none stored, n - 1
     * entries of 1/n and the last fixed, cached in a second copy.
     */
    method GetProbs() returns (a: array<real>)
      requires Valid()
      modifies this
      ensures choices == old(choices) && previousIndex == old(previousIndex)
      ensures Valid() && fresh(a) && a != probabilities && probabilities != null
      ensures a[..] == CurrentProbs(old(Stored()), |choices|) && Stored() == Some(a[..])
      ensures old(probabilities) != null ==> probabilities == old(probabilities)
      ensures old(probabilities) == null ==> fresh(probabilities)
    {
      var n := |choices|;
      if probabilities != null {
        a := CopyOf(probabilities);
        return;
      }
      a := UniformArray(n);
      var cache := CopyOf(a);
      probabilities := cache;
    }

    /**
     * `setProbs(probabilities)`: IllegalArgumentException for a length other
     * than the number of choices or a sum other than 1; otherwise a copy is
     * stored.
     */
    method SetProbs(ps: array<real>) returns (err: Option<Exception>)
      requires |choices| >= 1 && Positive(ps[..])
      modifies this
      ensures choices == old(choices) && previousIndex == old(previousIndex)
      ensures old(Valid()) || err.None? ==> Valid()
      ensures err.Some? <==> ps.Length != |choices| || Total(ps[..]) != 1.0
      ensures err.Some? ==> err.value == IllegalArgument && probabilities == old(probabilities)
      ensures err.None? ==> fresh(probabilities) && Stored() == Some(ps[..])
    {
      if |choices| != ps.Length {
        return Some(IllegalArgument);
      }
      var sum := SumOf(ps, ps.Length);
      assert ps[..ps.Length] == ps[..];
      if sum != 1.0 {
        return Some(IllegalArgument);
      }
      var copy := CopyOf(ps);
      probabilities := copy;
      err := None;
    }

    /** `clearProbs()`: the array dropped, then rebuilt uniform by `getProbs()`. */
    method ClearProbs()
      requires Valid()
      modifies this
      ensures Valid() && choices == old(choices) && previousIndex == old(previousIndex)
      ensures fresh(probabilities) && Stored() == Some(UniformProbs(|choices|))
    {
      probabilities := null;
      var ignored := GetProbs();
    }

    /**
     * `add(object)`, with the intended share (see `AddAsWrittenShare`): the
     * object is appended first, so with no probabilities stored the list
     * grows and NullPointerException follows; otherwise the new entry goes
     * at the end and the array is rescaled and fixed.
     */
    method Add(o: int) returns (err: Option<Exception>)
      requires Valid()
      modifies this
      ensures Valid() && choices == old(choices) + [o] && previousIndex == old(previousIndex)
      ensures old(probabilities) == null ==> err == Some(NullPointer) && probabilities == null
      ensures old(probabilities) != null ==> err.None? && Stored() == Some(AddProbs(old(probabilities[..])))
    {
      var probability := 1.0 / |choices| as real;
      choices := choices + [o];
      if probabilities == null {
        return Some(NullPointer);
      }
      var pr: array<real> := probabilities;
      ghost var s := pr[..];
      TotalPositive(s);
      var ps := Extended(pr, probability);
      assert Positive(ps[..]);
      TotalPositive(ps[..]);
      var sum := SumOf(ps, ps.Length);
      assert ps[..ps.Length] == ps[..];
      ScaleIn(ps, 1.0 / sum);
      FixLastIn(ps);
      assert ps[..] == AddProbs(s);
      err := SetProbs(ps);
    }

    /**
     * `remove(index)`, with the range check and the copy it intends (see
     * `RemoveRangeAgrees` and `RemoveAsWrittenDropsNext`): the documented
     * IndexOutOfBoundsException outside the list before any change; otherwise the object leaves the list first, so
     * with no probabilities stored NullPointerException follows, and with
     * the last object gone fixing an empty array throws
     * IndexOutOfBoundsException.
     */
    method Remove(index: int) returns (err: Option<Exception>)
      requires Valid()
      modifies this
      ensures previousIndex == old(previousIndex)
      ensures index < 0 || index >= old(|choices|) ==>
        err == RemoveRange(old(|choices|), index) == Some(IndexOutOfBounds) &&
        choices == old(choices) && probabilities == old(probabilities)
      ensures 0 <= index < old(|choices|) ==> choices == old(choices)[..index] + old(choices)[index + 1..]
      ensures 0 <= index < old(|choices|) && old(probabilities) == null ==>
        err == Some(NullPointer) && probabilities == null
      ensures 0 <= index < old(|choices|) && old(probabilities) != null && old(|choices|) == 1 ==>
        err == Some(IndexOutOfBounds) && choices == []
      ensures 0 <= index < old(|choices|) && old(probabilities) != null && old(|choices|) > 1 ==>
        err.None? && Stored() == Some(RemoveProbs(old(probabilities[..]), index))
      ensures |choices| >= 1 ==> Valid()
    {
      err := RemoveRange(|choices|, index);
      if err.Some? {
        return;
      }
      choices := choices[..index] + choices[index + 1..];
      if probabilities == null {
        return Some(NullPointer);
      }
      var pr: array<real> := probabilities;
      if pr.Length == 1 {
        return Some(IndexOutOfBounds);
      }
      ghost var s := pr[..];
      var ps := Without(pr, index);
      RemoveTotal(s, index);
      var sum := SumOf(ps, ps.Length);
      assert ps[..ps.Length] == ps[..];
      ghost var r := RemoveProbs(s, index);
      ScaleIn(ps, 1.0 / sum);
      FixLastIn(ps);
      assert ps[..] == r;
      err := SetProbs(ps);
    }

    /** `good(index, percent)`. */
    method Good(index: int, p: real) returns (err: Option<Exception>)
      requires Valid()
      modifies this
      ensures Valid() && choices == old(choices) && previousIndex == old(previousIndex)
      ensures (err, Stored()) == ReinforceOutcome(old(Stored()), |choices|, index, p, true)
    {
      if |choices| <= 1 {
        return None;
      }
      if p >= 1.0 || p <= 0.0 {
        return Some(IllegalArgument);
      }
      var ps := GetProbs();
      if index < 0 || index >= ps.Length {
        return Some(IndexOutOfBounds);
      }
      var pr: array<real> := probabilities;
      var done := GoodIn(ps, pr, index, p);
      if !done {
        return None;
      }
      err := SetProbs(ps);
    }

    /** `bad(index, percent)`, with the floor `Double.MIN_VALUE` taken as 0. */
    method Bad(index: int, p: real) returns (err: Option<Exception>)
      requires Valid()
      modifies this
      ensures Valid() && choices == old(choices) && previousIndex == old(previousIndex)
      ensures (err, Stored()) == ReinforceOutcome(old(Stored()), |choices|, index, p, false)
    {
      if |choices| <= 1 {
        return None;
      }
      if p >= 1.0 || p <= 0.0 {
        return Some(IllegalArgument);
      }
      var ps := GetProbs();
      if index < 0 || index >= ps.Length {
        return Some(IndexOutOfBounds);
      }
      var pr: array<real> := probabilities;
      var done := BadIn(ps, pr, index, p);
      if !done {
        return None;
      }
      err := SetProbs(ps);
    }

    /**
     * `fun()` for the draw `r` in [0, 1): the index picked is recorded in
     * `previousIndex` and the object there returned; an index outside the
     * list (-1 when the first draw is 0) throws IndexOutOfBoundsException.
     */
    method Fun(r: real) returns (res: Result<int>)
      requires Valid() && 0.0 <= r < 1.0
      modifies this
      ensures Valid() && choices == old(choices) && probabilities == old(probabilities)
      ensures previousIndex == FunIndex(Stored(), |choices|, old(previousIndex), r)
      ensures res == Pick(choices, previousIndex)
    {
      var k := previousIndex;
      if probabilities != null {
        var pr: array<real> := probabilities;
        k := Cumulate(pr, r, k);
      } else {
        k := Round(r * (|choices| - 1) as real);
      }
      previousIndex := k;
      res := Pick(choices, k);
    }
  }

  /** `ProbFun(choices)` with its IllegalArgumentException as a result. */
  method New(cs: seq<int>) returns (r: Result<ProbFun>)
    ensures r.Fail? <==> |cs| < 1
    ensures r.Fail? ==> r.error == IllegalArgument
    ensures r.Ok? ==> fresh(r.value) && r.value.Valid() && r.value.choices == cs && r.value.probabilities == null
  {
    if |cs| < 1 {
      return Fail(IllegalArgument);
    }
    var f := new ProbFun(cs);
    r := Ok(f);
  }

  /** `ProbFun(choices, probabilities)` with its IllegalArgumentExceptions as a result. */
  method NewWithProbs(cs: seq<int>, ps: array<real>) returns (r: Result<ProbFun>)
    requires |cs| == ps.Length >= 1 ==> Stochastic(ps[..])
    ensures r.Fail? <==> |cs| < 1 || ps.Length < 1 || |cs| != ps.Length
    ensures r.Fail? ==> r.error == IllegalArgument
    ensures r.Ok? ==> fresh(r.value) && fresh(r.value.probabilities) && r.value.Valid()
    ensures r.Ok? ==> r.value.choices == cs && r.value.Stored() == Some(ps[..])
  {
    if |cs| < 1 || ps.Length < 1 {
      return Fail(IllegalArgument);
    }
    if |cs| != ps.Length {
      return Fail(IllegalArgument);
    }
    var f := new ProbFun.WithProbs(cs, ps);
    r := Ok(f);
  }
}

=== FILE: assoc.dfy ===
/**
 * Sorted association lists: the model of a Java TreeMap keyed by Integer.
 * The entries are kept with strictly increasing keys, so the sequence order
 * is the map's iteration order.
 */
module Assoc {
  import opened Wrappers

  datatype Pair<V> = Pair(key: int, value: V)

  /** Strictly increasing keys: no key twice, iteration in key order. */
  predicate Ordered<V>(m: seq<Pair<V>>) {
    forall i, j :: 0 <= i < j < |m| ==> m[i].key < m[j].key
  }

  function Keys<V>(m: seq<Pair<V>>): seq<int> {
    seq(|m|, i requires 0 <= i < |m| => m[i].key)
  }

  function KeySet<V>(m: seq<Pair<V>>): set<int> {
    set i | 0 <= i < |m| :: m[i].key
  }

  lemma KeySetCons<V>(x: Pair<V>, m: seq<Pair<V>>)
    ensures KeySet([x] + m) == {x.key} + KeySet(m)
  {
    var r := [x] + m;
    assert r[0] == x;
    forall j | j in KeySet(r) ensures j in {x.key} + KeySet(m) {
      var i :| 0 <= i < |r| && r[i].key == j;
      if i > 0 { assert r[i] == m[i - 1]; }
    }
    forall j | j in KeySet(m) ensures j in KeySet(r) {
      var i :| 0 <= i < |m| && m[i].key == j;
      assert r[i + 1] == m[i];
    }
  }

  /** Position of key `k`, as the Java lookup would find it. */
  function IndexOf<V>(m: seq<Pair<V>>, k: int): (r: Option<nat>)
    ensures r.Some? ==> r.value < |m| && m[r.value].key == k
    ensures r.None? <==> k !in KeySet(m)
    ensures r.Some? && Ordered(m) ==> forall i :: 0 <= i < |m| && m[i].key == k ==> i == r.value
  {
    if m == [] then None
    else if m[0].key == k then Some(0)
    else match IndexOf(m[1..], k)
      case None =>
        assert forall i :: 1 <= i < |m| ==> m[i] == m[1..][i - 1];
        None
      case Some(j) => Some(j + 1)
  }

  /** `Map.get`: the value stored under `k`, or None for Java's null. */
  function Get<V>(m: seq<Pair<V>>, k: int): (r: Option<V>)
    ensures r.Some? <==> k in KeySet(m)
  {
    match IndexOf(m, k)
    case None => None
    case Some(i) => Some(m[i].value)
  }

  /** A lookup in a map with one more entry in front. */
  lemma GetCons<V>(x: Pair<V>, m: seq<Pair<V>>, j: int)
    ensures Get([x] + m, j) == if j == x.key then Some(x.value) else Get(m, j)
  {
    var r := [x] + m;
    assert r[1..] == m;
    if j != x.key {
      match IndexOf(m, j)
      case None =>
      case Some(t) => assert r[t + 1] == m[t];
    }
  }

  /** An ordered map is its first entry, whose key is the least, in front of an ordered rest. */
  lemma OrderedTail<V>(m: seq<Pair<V>>)
    requires Ordered(m) && m != []
    ensures Ordered(m[1..]) && m == [m[0]] + m[1..]
    ensures KeySet(m) == {m[0].key} + KeySet(m[1..])
    ensures forall i :: 0 <= i < |m[1..]| ==> m[1..][i].key > m[0].key
    ensures m[0].key !in KeySet(m[1..])
  {
    KeySetCons(m[0], m[1..]);
    assert [m[0]] + m[1..] == m;
    assert forall i :: 0 <= i < |m[1..]| ==> m[1..][i] == m[i + 1];
  }

  lemma {:induction false} GetAt<V>(m: seq<Pair<V>>, i: nat)
    requires Ordered(m) && i < |m|
    ensures Get(m, m[i].key) == Some(m[i].value)
  {
    OrderedTail(m);
    if i > 0 {
      GetAt(m[1..], i - 1);
      assert m[1..][i - 1] == m[i];
    }
    GetCons(m[0], m[1..], m[i].key);
  }

  /** `Map.put` of a key that is not yet present: inserted at its sorted place. */
  function Insert<V>(m: seq<Pair<V>>, k: int, v: V): (r: seq<Pair<V>>)
    requires Ordered(m) && k !in KeySet(m)
    ensures Ordered(r)
    ensures |r| == |m| + 1
    ensures KeySet(r) == KeySet(m) + {k}
  {
    if m == [] || k < m[0].key then
      KeySetCons(Pair(k, v), m);
      assert forall i :: 0 <= i < |m| ==> m[i].key in KeySet(m);
      [Pair(k, v)] + m
    else
      OrderedTail(m);
      var rest := Insert(m[1..], k, v);
      KeySetCons(m[0], rest);
      InsertAbove(m[0], rest, KeySet(m[1..]) + {k});
      [m[0]] + rest
  }

  /** An entry whose key is below every key of an ordered map keeps it ordered in front. */
  lemma InsertAbove<V>(x: Pair<V>, m: seq<Pair<V>>, ks: set<int>)
    requires Ordered(m) && KeySet(m) == ks && forall k :: k in ks ==> k > x.key
    ensures Ordered([x] + m)
  {
    var r := [x] + m;
    assert forall i :: 1 <= i < |r| ==> r[i] == m[i - 1];
    assert forall i :: 0 <= i < |m| ==> m[i].key in KeySet(m);
  }

  /** The entries after an insertion are the old ones and the new one. */
  lemma {:induction false} InsertMembers<V>(m: seq<Pair<V>>, k: int, v: V)
    requires Ordered(m) && k !in KeySet(m)
    ensures forall x :: x in Insert(m, k, v) ==> x == Pair(k, v) || x in m
  {
    if m != [] && k >= m[0].key {
      assert forall i :: 1 <= i < |m| ==> m[i] == m[1..][i - 1];
      KeySetCons(m[0], m[1..]);
      assert [m[0]] + m[1..] == m;
      InsertMembers(m[1..], k, v);
      assert Insert(m, k, v) == [m[0]] + Insert(m[1..], k, v);
    }
  }

  /** After an insertion the new key maps to the new value and every other key is untouched. */
  lemma {:induction false} InsertGet<V>(m: seq<Pair<V>>, k: int, v: V, j: int)
    requires Ordered(m) && k !in KeySet(m)
    ensures Get(Insert(m, k, v), j) == if j == k then Some(v) else Get(m, j)
  {
    if m == [] || k < m[0].key {
      assert Insert(m, k, v) == [Pair(k, v)] + m;
      GetCons(Pair(k, v), m, j);
    } else {
      OrderedTail(m);
      InsertGet(m[1..], k, v, j);
      assert Insert(m, k, v) == [m[0]] + Insert(m[1..], k, v);
      GetCons(m[0], Insert(m[1..], k, v), j);
      GetCons(m[0], m[1..], j);
    }
  }

  /** `Map.remove`: every entry except the one under `k`, in the same order. */
  function Remove<V>(m: seq<Pair<V>>, k: int): (r: seq<Pair<V>>)
    requires Ordered(m)
    ensures Ordered(r)
    ensures KeySet(r) == KeySet(m) - {k}
    ensures |r| == if k in KeySet(m) then |m| - 1 else |m|
    ensures k !in KeySet(m) ==> r == m
  {
    if m == [] then []
    else
      OrderedTail(m);
      if m[0].key == k then m[1..]
      else
        var rest := Remove(m[1..], k);
        KeySetCons(m[0], rest);
        InsertAbove(m[0], rest, KeySet(m[1..]) - {k});
        [m[0]] + rest
  }

  /** The entries left by a removal are the old ones at the shifted positions. */
  lemma {:induction false} RemoveAt<V>(m: seq<Pair<V>>, i: nat)
    requires Ordered(m) && i < |m|
    ensures Remove(m, m[i].key) == m[..i] + m[i + 1..]
  {
    OrderedTail(m);
    if i == 0 {
      assert m[..0] + m[1..] == m[1..];
    } else {
      RemoveAt(m[1..], i - 1);
      RemoveCons(m, i);
      ConsSlices(m, i);
    }
  }

  lemma RemoveCons<V>(m: seq<Pair<V>>, i: nat)
    requires Ordered(m) && 0 < i < |m|
    ensures m[1..][i - 1] == m[i]
    ensures Remove(m, m[i].key) == [m[0]] + Remove(m[1..], m[i].key)
  {
    assert m[0].key < m[i].key;
  }

  lemma ConsSlices<V>(m: seq<Pair<V>>, i: nat)
    requires 0 < i < |m|
    ensures [m[0]] + (m[1..][..i - 1] + m[1..][i..]) == m[..i] + m[i + 1..]
  {
    assert m[..i] == [m[0]] + m[1..][..i - 1];
    assert m[i + 1..] == m[1..][i..];
  }

  /** A Java `Set<Integer>` argument: its elements in ascending order, each once. */
  predicate Increasing(s: seq<int>) {
    forall i, j :: 0 <= i < j < |s| ==> s[i] < s[j]
  }

  /** The map that sends every element of `ks` to the same value `v`. */
  function Constant<V>(ks: seq<int>, v: V): (r: seq<Pair<V>>)
    requires Increasing(ks)
    ensures Ordered(r) && Keys(r) == ks
  {
    seq(|ks|, i requires 0 <= i < |ks| => Pair(ks[i], v))
  }

  /** `Map.put`: overwrite the value under `k` in place, or insert `k` at its sorted place. */
  function Put<V>(m: seq<Pair<V>>, k: int, v: V): (r: seq<Pair<V>>)
    requires Ordered(m)
    ensures Ordered(r)
    ensures KeySet(r) == KeySet(m) + {k}
    ensures |r| == if k in KeySet(m) then |m| else |m| + 1
  {
    match IndexOf(m, k)
    case None => Insert(m, k, v)
    case Some(i) =>
      var r := m[i := Pair(k, v)];
      assert forall j :: 0 <= j < |m| ==> r[j].key == m[j].key;
      assert KeySet(r) == KeySet(m) by {
        forall x | x in KeySet(m) ensures x in KeySet(r) {
          var j :| 0 <= j < |m| && m[j].key == x;
          assert r[j].key == x;
        }
      }
      r
  }

  /** Putting an absent key is inserting it. */
  lemma PutNew<V>(m: seq<Pair<V>>, k: int, v: V)
    requires Ordered(m) && k !in KeySet(m)
    ensures Put(m, k, v) == Insert(m, k, v)
  {
    assert IndexOf(m, k).None?;
  }

  /** After a put the key maps to the new value and every other key is untouched. */
  lemma PutGet<V>(m: seq<Pair<V>>, k: int, v: V, j: int)
    requires Ordered(m)
    ensures Get(Put(m, k, v), j) == if j == k then Some(v) else Get(m, j)
  {
    match IndexOf(m, k)
    case None => InsertGet(m, k, v, j);
    case Some(i) =>
      var r := m[i := Pair(k, v)];
      if j != k {
        match IndexOf(m, j)
        case None =>
        case Some(l) => GetAt(r, l);
      } else {
        GetAt(r, i);
      }
  }

  /** After a removal every other key keeps its value. */
  lemma {:induction false} RemoveGet<V>(m: seq<Pair<V>>, k: int, j: int)
    requires Ordered(m) && j != k
    ensures Get(Remove(m, k), j) == Get(m, j)
  {
    if m != [] {
      OrderedTail(m);
      GetCons(m[0], m[1..], j);
      if m[0].key != k {
        RemoveGet(m[1..], k, j);
        GetCons(m[0], Remove(m[1..], k), j);
      }
    }
  }

  /** The entries left by a removal are exactly the entries under other keys. */
  lemma RemoveMembers<V>(m: seq<Pair<V>>, k: int)
    requires Ordered(m)
    ensures forall x :: x in Remove(m, k) <==> x in m && x.key != k
  {
    match IndexOf(m, k)
    case None =>
      forall x | x in m ensures x.key != k {
        var j :| 0 <= j < |m| && m[j] == x;
      }
    case Some(i) =>
      RemoveAt(m, i);
      RemoveSlices(m, i);
  }

  lemma RemoveSlices<V>(m: seq<Pair<V>>, i: nat)
    requires Ordered(m) && i < |m|
    ensures forall x :: x in m[..i] + m[i + 1..] <==> x in m && x.key != m[i].key
  {
    var r := m[..i] + m[i + 1..];
    forall x | x in r ensures x in m && x.key != m[i].key {
      if x in m[..i] {
        var j :| 0 <= j < i && m[..i][j] == x;
        assert m[j] == x;
      } else {
        var j :| 0 <= j < |m[i + 1..]| && m[i + 1..][j] == x;
        assert m[i + 1 + j] == x;
      }
    }
    forall x | x in m && x.key != m[i].key ensures x in r {
      var j :| 0 <= j < |m| && m[j] == x;
      if j < i {
        assert m[..i][j] == x;
      } else {
        assert m[i + 1..][j - i - 1] == x;
      }
    }
  }

  /** The same keys at the same positions, whatever the values. */
  predicate SameKeyOrder<V, W>(a: seq<Pair<V>>, b: seq<Pair<W>>) {
    |a| == |b| && forall i :: 0 <= i < |a| ==> a[i].key == b[i].key
  }

  lemma SameKeyOrderFacts<V, W>(a: seq<Pair<V>>, b: seq<Pair<W>>)
    requires SameKeyOrder(a, b)
    ensures Ordered(a) <==> Ordered(b)
    ensures KeySet(a) == KeySet(b)
  {
    forall k | k in KeySet(a) ensures k in KeySet(b) {
      var j :| 0 <= j < |a| && a[j].key == k;
      assert b[j].key == k;
    }
    forall k | k in KeySet(b) ensures k in KeySet(a) {
      var j :| 0 <= j < |b| && b[j].key == k;
      assert a[j].key == k;
    }
  }

  /** The entries whose keys lie in `ks`, in the same order. */
  function Restrict<V(!new)>(m: seq<Pair<V>>, ks: set<int>): (r: seq<Pair<V>>)
    ensures forall x :: x in r <==> x in m && x.key in ks
    ensures |r| <= |m|
  {
    if m == [] then []
    else
      var rest := Restrict(m[1..], ks);
      assert forall x :: x in m <==> x == m[0] || x in m[1..];
      if m[0].key in ks then [m[0]] + rest else rest
  }

  /** Restricting to a superset of the keys changes nothing. */
  lemma {:induction false} RestrictAll<V(!new)>(m: seq<Pair<V>>, ks: set<int>)
    requires KeySet(m) <= ks
    ensures Restrict(m, ks) == m
  {
    if m != [] {
      assert m[0].key in KeySet(m);
      assert KeySet(m[1..]) <= KeySet(m) by {
        forall k | k in KeySet(m[1..]) ensures k in KeySet(m) {
          var j :| 0 <= j < |m[1..]| && m[1..][j].key == k;
          assert m[j + 1].key == k;
        }
      }
      RestrictAll(m[1..], ks);
      assert [m[0]] + m[1..] == m;
    }
  }

  lemma {:induction false} RestrictOrdered<V(!new)>(m: seq<Pair<V>>, ks: set<int>)
    requires Ordered(m)
    ensures Ordered(Restrict(m, ks))
  {
    if m != [] {
      RestrictOrdered(m[1..], ks);
      var rest := Restrict(m[1..], ks);
      forall x | x in rest ensures x.key > m[0].key {
        var j :| 0 <= j < |m[1..]| && m[1..][j] == x;
        assert m[j + 1] == x;
      }
    }
  }

  lemma RestrictKeys<V(!new)>(m: seq<Pair<V>>, ks: set<int>)
    ensures KeySet(Restrict(m, ks)) == KeySet(m) * ks
  {
    var r := Restrict(m, ks);
    forall k | k in KeySet(m) * ks ensures k in KeySet(r) {
      var j :| 0 <= j < |m| && m[j].key == k;
      assert m[j] in r;
      var l :| 0 <= l < |r| && r[l] == m[j];
    }
    forall k | k in KeySet(r) ensures k in KeySet(m) * ks {
      var l :| 0 <= l < |r| && r[l].key == k;
      assert r[l] in m;
      var j :| 0 <= j < |m| && m[j] == r[l];
    }
  }

  /** The values in iteration order, as `values()` yields them. */
  function Values<V>(m: seq<Pair<V>>): (vs: seq<V>)
    ensures |vs| == |m|
  {
    seq(|m|, i requires 0 <= i < |m| => m[i].value)
  }

  /** The `i`-th key paired with the `i`-th value. */
  function Zip<V>(ks: seq<int>, vs: seq<V>): (r: seq<Pair<V>>)
    requires |ks| == |vs|
    ensures |r| == |ks|
  {
    seq(|ks|, i requires 0 <= i < |ks| => Pair(ks[i], vs[i]))
  }

  /** Pairing keys with values and reading them back gives both unchanged; sorted keys give a sorted map. */
  lemma ZipParts<V>(ks: seq<int>, vs: seq<V>)
    requires |ks| == |vs|
    ensures Keys(Zip(ks, vs)) == ks && Values(Zip(ks, vs)) == vs
    ensures Increasing(ks) ==> Ordered(Zip(ks, vs))
  {
  }

  /** A map is its keys paired with its values. */
  lemma ZipKeysValues<V>(m: seq<Pair<V>>)
    ensures Zip(Keys(m), Values(m)) == m
  {
    assert forall i :: 0 <= i < |m| ==> Zip(Keys(m), Values(m))[i] == m[i];
  }

  /** Looking up in the tail of an ordered map: the first key is gone, every other is unchanged. */
  lemma GetTail<V>(m: seq<Pair<V>>, k: int)
    requires Ordered(m) && m != []
    ensures Get(m[1..], k) == if k == m[0].key then None else Get(m, k)
  {
    OrderedTail(m);
    GetCons(m[0], m[1..], k);
  }

  lemma EmptyKeys<V>(m: seq<Pair<V>>)
    ensures m == [] <==> KeySet(m) == {}
  {
    if m != [] {
      assert m[0].key in KeySet(m);
    }
  }

  /** Two ordered maps with the same keys start with the same key. */
  lemma GetExtHead<V>(a: seq<Pair<V>>, b: seq<Pair<V>>)
    requires Ordered(a) && Ordered(b) && a != [] && KeySet(a) == KeySet(b)
    ensures b != [] && a[0].key == b[0].key
  {
    assert a[0].key in KeySet(a);
    var i :| 0 <= i < |b| && b[i].key == a[0].key;
    assert b[0].key in KeySet(b);
    var j :| 0 <= j < |a| && a[j].key == b[0].key;
    assert a[0].key <= a[j].key;
    assert b[0].key <= b[i].key;
  }

  /** Two ordered maps that agree on every lookup are the same sequence. */
  lemma {:induction false} GetExt<V>(a: seq<Pair<V>>, b: seq<Pair<V>>)
    requires Ordered(a) && Ordered(b)
    requires forall k :: Get(a, k) == Get(b, k)
    ensures a == b
    decreases |a|
  {
    assert KeySet(a) == KeySet(b) by {
      forall k ensures k in KeySet(a) <==> k in KeySet(b) {
        assert Get(a, k).Some? <==> Get(b, k).Some?;
      }
    }
    if a == [] {
      EmptyKeys(b);
    } else {
      GetExtHead(a, b);
      GetAt(a, 0);
      GetAt(b, 0);
      assert Get(a, a[0].key) == Get(b, a[0].key);
      forall k ensures Get(a[1..], k) == Get(b[1..], k) {
        GetTail(a, k);
        GetTail(b, k);
      }
      GetExt(a[1..], b[1..]);
      OrderedTail(a);
      OrderedTail(b);
    }
  }
}

=== FILE: chain_nodes.dfy ===
/**
 * Markov/src/chain: the second generation of the chain. A MarkovNode maps a
 * start element to every element of a list with equal probability, a
 * NestedMarkovNode maps a start element to a list of nodes the same way, and
 * an NLayerMarkovChain stacks them so that the root reaches a MarkovNode
 * after `layers` nodes.
 *
 * Nothing in these classes changes a node after its constructor, so the
 * nodes are classes with `const` fields: the constructor's loop builds the
 * map in a local variable and stores it once.
 */
module ChainNodes {
  import opened Wrappers
  import opened Assoc
  import opened ProbMaps

  /** The elements of a list, as a set. */
  function Elems<T>(s: seq<T>): set<T> {
    set x | x in s
  }

  /** A prefix one longer adds its last element. */
  lemma PrefixStep<T>(s: seq<T>, i: nat)
    requires i < |s|
    ensures s[..i + 1] == s[..i] + [s[i]]
    ensures Elems(s[..i + 1]) == Elems(s[..i]) + {s[i]}
  {
    assert s[..i + 1] == s[..i] + [s[i]];
  }

  /** No element of s occurs twice. */
  predicate Distinct<T(==)>(s: seq<T>) {
    forall i, j :: 0 <= i < j < |s| ==> s[i] != s[j]
  }

  /** A list has as many distinct elements as entries exactly when no element repeats. */
  lemma {:induction false} DistinctCard<T>(s: seq<T>)
    ensures |Elems(s)| <= |s|
    ensures Distinct(s) <==> |Elems(s)| == |s|
  {
    if s != [] {
      DistinctCard(s[1..]);
      DistinctCons(s);
      var e, r := Elems(s), Elems(s[1..]);
      assert e == {s[0]} + r by {
        assert s == [s[0]] + s[1..];
      }
      if s[0] in s[1..] {
        assert e == r;
      } else {
        assert s[0] !in r;
        assert |e| == |r| + 1;
      }
    }
  }

  /** A list is free of repeats iff its head is not in its tail, which is free of repeats. */
  lemma DistinctCons<T>(s: seq<T>)
    requires s != []
    ensures Distinct(s) <==> s[0] !in s[1..] && Distinct(s[1..])
  {
    if Distinct(s) {
      forall j | 0 <= j < |s[1..]| ensures s[1..][j] != s[0] {
        assert s[1..][j] == s[j + 1];
      }
      forall i, j | 0 <= i < j < |s[1..]| ensures s[1..][i] != s[1..][j] {
        assert s[1..][i] == s[i + 1] && s[1..][j] == s[j + 1];
      }
    }
    if s[0] !in s[1..] && Distinct(s[1..]) {
      forall i, j | 0 <= i < j < |s| ensures s[i] != s[j] {
        if i == 0 {
          assert s[j] == s[1..][j - 1];
        } else {
          assert s[i] == s[1..][i - 1] && s[j] == s[1..][j - 1];
        }
      }
    }
  }

  /** Every value of m is v. */
  predicate AllAt(m: ProbMap, v: real) {
    forall i :: 0 <= i < |m| ==> m[i].value == v
  }

  /**
   * `new MarkovNode(start, list)`: every element of the list is put with
   * probability 1/|list|, and the running sum of what was put is 1.
   */
  method UniformPairs(list: seq<int>) returns (m: ProbMap, probSum: real)
    requires |list| >= 1
    ensures Ordered(m) && KeySet(m) == Elems(list) && |m| == |KeySet(m)|
    ensures AllAt(m, 1.0 / |list| as real)
    ensures probSum == 1.0
  {
    var prob := 1.0 / |list| as real;
    m, probSum := PutEach(list, prob);
    PairsDone(m, list, prob, probSum);
  }

  /** The loop of the constructor: each element in turn is put with probability v. */
  method PutEach(list: seq<int>, v: real) returns (m: ProbMap, sum: real)
    ensures PairsInv(m, list, |list|, v, sum)
  {
    m := [];
    sum := 0.0;
    var k := 0;
    assert PairsInv(m, list, k, v, sum);
    while k < |list|
      invariant 0 <= k <= |list|
      invariant PairsInv(m, list, k, v, sum)
    {
      PairsStep(m, list, k, v, sum);
      m := Put(m, list[k], v);
      sum := sum + v;
      k := k + 1;
    }
  }

  /** When the loop of UniformPairs ends, every element is a key at 1/|list|, adding up to 1. */
  lemma PairsDone(m: ProbMap, list: seq<int>, v: real, sum: real)
    requires |list| >= 1 && v == 1.0 / |list| as real && PairsInv(m, list, |list|, v, sum)
    ensures Ordered(m) && KeySet(m) == Elems(list) && |m| == |KeySet(m)|
    ensures AllAt(m, v) && sum == 1.0
  {
    assert list[..|list|] == list;
    TimesInverse(|list|);
  }

  /** The invariant of the loop of UniformPairs after k turns, putting v each time. */
  predicate PairsInv(m: ProbMap, list: seq<int>, k: nat, v: real, sum: real)
    requires k <= |list|
  {
    Ordered(m) && KeySet(m) == Elems(list[..k]) && |m| == |KeySet(m)| && AllAt(m, v) && sum == Times(k, v)
  }

  /** One turn of the loop of UniformPairs keeps its invariant. */
  lemma PairsStep(m: ProbMap, list: seq<int>, k: nat, v: real, sum: real)
    requires k < |list| && PairsInv(m, list, k, v, sum)
    ensures PairsInv(Put(m, list[k], v), list, k + 1, v, sum + v)
  {
    PutSize(m, list[k], v);
    PutAllAt(m, list[k], v);
    PrefixStep(list, k);
  }

  /** Putting into a map of distinct keys grows it by one entry exactly when the key is new. */
  lemma PutSize(m: ProbMap, t: int, v: real)
    requires Ordered(m) && |m| == |KeySet(m)|
    ensures |Put(m, t, v)| == |KeySet(Put(m, t, v))|
    ensures |Put(m, t, v)| == if t in KeySet(m) then |m| else |m| + 1
  {
    if t in KeySet(m) {
      assert KeySet(m) + {t} == KeySet(m);
    } else {
      assert |KeySet(m) + {t}| == |KeySet(m)| + 1;
    }
  }

  /** Putting v into a map whose every value is v keeps every value v. */
  lemma PutAllAt(m: ProbMap, t: int, v: real)
    requires Ordered(m) && AllAt(m, v)
    ensures AllAt(Put(m, t, v), v)
  {
    var r := Put(m, t, v);
    PutMembers(m, t, v);
    forall i | 0 <= i < |r| ensures r[i].value == v {
      assert r[i] in r;
    }
  }

  /** A map whose every value is v adds up to |m| copies of v. */
  lemma {:induction false} SumAllAt(m: ProbMap, v: real)
    requires AllAt(m, v)
    ensures Sum(m) == Times(|m|, v)
  {
    if m != [] {
      SumAllAt(m[1..], v);
    }
  }

  /** In a map whose every value is v, every key present gets v. */
  lemma GetAllAt(m: ProbMap, k: int, v: real)
    requires AllAt(m, v) && k in KeySet(m)
    ensures Get(m, k) == Some(v)
  {
    var i := IndexOf(m, k).value;
    assert m[i].value == v;
  }

  /** Every entry of Put(m, k, v) is Pair(k, v) or an entry of m. */
  lemma PutMembers(m: ProbMap, k: int, v: real)
    requires Ordered(m)
    ensures forall x :: x in Put(m, k, v) ==> x == Pair(k, v) || x in m
  {
    var r := Put(m, k, v);
    forall x | x in r ensures x == Pair(k, v) || x in m {
      var i :| 0 <= i < |r| && r[i] == x;
      GetAt(r, i);
      PutGet(m, k, v, x.key);
      if x.key != k {
        var j := IndexOf(m, x.key).value;
        GetAt(m, j);
      }
    }
  }

  /**
   * A node of the chain: `start` is followed by each element of `map`'s
   * keys with the probability stored beside it.
   */
  class MarkovNode {
    const start: Option<int>
    const mapping: ProbMap

    /**
     * `new MarkovNode(start, list)` on a non-empty list: the start element
     * is kept, every element of the list is a key with probability
     * 1/|list|, and the probabilities add up to 1 exactly when no element
     * repeats. The correction added to the first element is
     * 1 - (sum of what was put), which is 0 over the reals.
     */
    constructor (start: Option<int>, list: seq<int>)
      requires |list| >= 1
      ensures this.start == start
      ensures Ordered(mapping) && KeySet(mapping) == Elems(list)
      ensures AllAt(mapping, 1.0 / |list| as real)
      ensures Sum(mapping) == |Elems(list)| as real / |list| as real
      ensures Sum(mapping) == 1.0 <==> Distinct(list)
    {
      var m, probSum := UniformPairs(list);
      var prob := 1.0 / |list| as real;
      assert list[0] in KeySet(m);
      var first := Get(m, list[0]).value;
      GetAllAt(m, list[0], prob);
      assert first - (probSum - 1.0) == prob;
      PutSize(m, list[0], prob);
      PutAllAt(m, list[0], prob);
      this.start := start;
      this.mapping := Put(m, list[0], first - (probSum - 1.0));
      new;
      SumAllAt(mapping, prob);
      DistinctCard(list);
      UniformSumOne(|Elems(list)|, |list|);
    }
  }

  /** k copies of p added up. */
  function Times(k: nat, p: real): real {
    if k == 0 then 0.0 else Times(k - 1, p) + p
  }

  /** k copies of p add up to k * p. */
  lemma {:induction false} TimesMul(k: nat, p: real)
    ensures Times(k, p) == k as real * p
  {
    if k > 0 {
      TimesMul(k - 1, p);
    }
  }

  /** n copies of 1/n add up to 1. */
  lemma TimesInverse(n: nat)
    requires 0 < n
    ensures Times(n, 1.0 / n as real) == 1.0
  {
    TimesMul(n, 1.0 / n as real);
  }

  /** c copies of 1/n add up to c/n, which is 1 exactly when c == n. */
  lemma UniformSumOne(c: nat, n: nat)
    requires 0 < n
    ensures Times(c, 1.0 / n as real) == c as real / n as real
    ensures Times(c, 1.0 / n as real) == 1.0 <==> c == n
  {
    TimesMul(c, 1.0 / n as real);
  }

  /** `new MarkovNode(start, list)` with its argument checks. */
  method NewMarkovNode(start: Option<int>, list: Option<seq<int>>) returns (r: Result<MarkovNode>)
    ensures list.None? ==> r == Fail(NullPointer)
    ensures list == Some([]) ==> r == Fail(IllegalArgument)
    ensures r.Ok? <==> list.Some? && |list.value| >= 1
    ensures r.Ok? ==> fresh(r.value) && r.value.start == start && KeySet(r.value.mapping) == Elems(list.value)
    ensures r.Ok? ==> AllAt(r.value.mapping, 1.0 / |list.value| as real)
    ensures r.Ok? ==> (Sum(r.value.mapping) == 1.0 <==> Distinct(list.value))
  {
    if list.None? {
      return Fail(NullPointer);
    }
    if |list.value| < 1 {
      return Fail(IllegalArgument);
    }
    var n := new MarkovNode(start, list.value);
    r := Ok(n);
  }

  /** A node of the chain, by its class: a key of a NestedMarkovNode's map. */
  datatype Child = Leaf(leaf: MarkovNode) | Inner(inner: NestedMarkovNode)

  /** One entry of a NestedMarkovNode's map: a node, by identity, and its probability. */
  datatype Share = Share(node: Child, prob: real)

  /** The nodes of a map, in the order they were first put. */
  function Nodes(m: seq<Share>): (r: seq<Child>)
    ensures |r| == |m| && forall i :: 0 <= i < |m| ==> r[i] == m[i].node
  {
    seq(|m|, i requires 0 <= i < |m| => m[i].node)
  }

  /** The sum of the probabilities of a map. */
  function ShareSum(m: seq<Share>): real {
    if m == [] then 0.0 else m[0].prob + ShareSum(m[1..])
  }

  /** Every probability of m is v. */
  predicate AllShares(m: seq<Share>, v: real) {
    forall i :: 0 <= i < |m| ==> m[i].prob == v
  }

  /** A map whose every probability is v adds up to |m| copies of v. */
  lemma {:induction false} ShareSumAll(m: seq<Share>, v: real)
    requires AllShares(m, v)
    ensures ShareSum(m) == Times(|m|, v)
  {
    if m != [] {
      ShareSumAll(m[1..], v);
    }
  }

  /**
   * `map.put(c, p)` on a HashMap keyed by node identity: an entry for c is
   * overwritten where it is, otherwise a new entry goes last.
   */
  function PutShare(m: seq<Share>, c: Child, p: real): (r: seq<Share>)
    ensures Nodes(r) == if c in Nodes(m) then Nodes(m) else Nodes(m) + [c]
    ensures forall x :: x in r ==> x == Share(c, p) || x in m
  {
    if m == [] then
      assert Nodes([Share(c, p)]) == [c];
      [Share(c, p)]
    else
      assert m == [m[0]] + m[1..];
      NodesCons(m[0], m[1..]);
      if m[0].node == c then
        NodesCons(Share(c, p), m[1..]);
        [Share(c, p)] + m[1..]
      else
        var r' := PutShare(m[1..], c, p);
        NodesCons(m[0], r');
        assert c in Nodes(m) <==> c in Nodes(m[1..]);
        [m[0]] + r'
  }

  /** The nodes of a map with one more entry in front. */
  lemma NodesCons(x: Share, m: seq<Share>)
    ensures Nodes([x] + m) == [x.node] + Nodes(m)
  {
    assert forall i :: 0 <= i < |m| + 1 ==> Nodes([x] + m)[i] == ([x.node] + Nodes(m))[i];
  }

  /** Putting v for node t into a map of distinct nodes, each at v, keeps both and adds t. */
  lemma PutShareStep(m: seq<Share>, t: Child, v: real)
    requires Distinct(Nodes(m)) && AllShares(m, v)
    ensures Distinct(Nodes(PutShare(m, t, v))) && AllShares(PutShare(m, t, v), v)
    ensures Elems(Nodes(PutShare(m, t, v))) == Elems(Nodes(m)) + {t}
  {
    var r := PutShare(m, t, v);
    forall i | 0 <= i < |r| ensures r[i].prob == v {
      assert r[i] in r;
    }
  }

  /** One turn of the loop of UniformShares keeps its invariant. */
  lemma SharesStep(m: seq<Share>, mns: seq<Child>, k: nat, v: real)
    requires k < |mns| && Distinct(Nodes(m)) && Elems(Nodes(m)) == Elems(mns[..k]) && AllShares(m, v)
    requires Distinct(mns) ==> Nodes(m) == mns[..k]
    ensures var r := PutShare(m, mns[k], v);
      Distinct(Nodes(r)) && Elems(Nodes(r)) == Elems(mns[..k + 1]) && AllShares(r, v) &&
      (Distinct(mns) ==> Nodes(r) == mns[..k + 1])
    ensures Times(k + 1, v) == Times(k, v) + v
  {
    PrefixStep(mns, k);
    if Distinct(mns) {
      assert mns[k] !in mns[..k];
    }
    PutShareStep(m, mns[k], v);
  }

  /**
   * The loop of `new NestedMarkovNode(start, mns)`: every node of the list
   * is put with probability 1/|mns|, and the running sum of what was put.
   */
  method UniformShares(mns: seq<Child>) returns (m: seq<Share>, probSum: real)
    requires |mns| >= 1
    ensures Distinct(Nodes(m)) && Elems(Nodes(m)) == Elems(mns)
    ensures Distinct(mns) ==> Nodes(m) == mns
    ensures AllShares(m, 1.0 / |mns| as real)
    ensures probSum == 1.0
  {
    var prob := 1.0 / |mns| as real;
    assert prob > 0.0;
    m := [];
    probSum := 0.0;
    var k := 0;
    while k < |mns|
      invariant 0 <= k <= |mns|
      invariant Distinct(Nodes(m)) && Elems(Nodes(m)) == Elems(mns[..k])
      invariant Distinct(mns) ==> Nodes(m) == mns[..k]
      invariant AllShares(m, prob)
      invariant probSum == Times(k, prob)
    {
      SharesStep(m, mns, k, prob);
      m := PutShare(m, mns[k], prob);
      probSum := probSum + prob;
      k := k + 1;
    }
    TimesInverse(|mns|);
  }

  /** A nested node: `start` is followed by each node of `map` with the probability beside it. */
  class NestedMarkovNode {
    const start: Option<int>
    const mapping: seq<Share>

    /**
     * `new NestedMarkovNode(start, mns)` on a non-empty list of nodes: the
     * start element is kept, every node of the list is a key once, each
     * with probability 1/|mns|; when no node repeats the keys are the list
     * itself and the probabilities add up to 1.
     */
    constructor (start: Option<int>, mns: seq<Child>)
      requires |mns| >= 1
      ensures this.start == start
      ensures Distinct(Nodes(mapping)) && Elems(Nodes(mapping)) == Elems(mns)
      ensures AllShares(mapping, 1.0 / |mns| as real)
      ensures ShareSum(mapping) == |Elems(mns)| as real / |mns| as real
      ensures ShareSum(mapping) == 1.0 <==> Distinct(mns)
      ensures Distinct(mns) ==> Nodes(mapping) == mns
    {
      var r := NestedShares(mns);
      this.start := start;
      this.mapping := r;
    }
  }

  /**
   * The map the constructor of NestedMarkovNode stores: the loop's map,
   * with the first node's entry put again at its probability less the
   * excess of the running sum over 1, which the loop leaves at 0.
   */
  method NestedShares(mns: seq<Child>) returns (r: seq<Share>)
    requires |mns| >= 1
    ensures Distinct(Nodes(r)) && Elems(Nodes(r)) == Elems(mns)
    ensures AllShares(r, 1.0 / |mns| as real)
    ensures ShareSum(r) == |Elems(mns)| as real / |mns| as real
    ensures ShareSum(r) == 1.0 <==> Distinct(mns)
    ensures Distinct(mns) ==> Nodes(r) == mns
  {
    var m, probSum := UniformShares(mns);
    var prob := 1.0 / |mns| as real;
    assert mns[0] in Elems(Nodes(m));
    var i :| 0 <= i < |m| && m[i].node == mns[0];
    var first := m[i].prob;
    var v := first - (probSum - 1.0);
    assert v == prob;
    r := PutShare(m, mns[0], v);
    PutShareStep(m, mns[0], prob);
    assert Nodes(r) == Nodes(m);
    SharesSum(r, mns);
  }

  /**
   * A map of the distinct nodes of mns, each at 1/|mns|, adds up to the
   * share of distinct nodes in mns, which is 1 exactly when no node repeats.
   */
  lemma SharesSum(r: seq<Share>, mns: seq<Child>)
    requires |mns| >= 1 && Distinct(Nodes(r)) && Elems(Nodes(r)) == Elems(mns)
    requires AllShares(r, 1.0 / |mns| as real)
    ensures ShareSum(r) == |Elems(mns)| as real / |mns| as real
    ensures ShareSum(r) == 1.0 <==> Distinct(mns)
  {
    ShareSumAll(r, 1.0 / |mns| as real);
    DistinctCard(Nodes(r));
    DistinctCard(mns);
    UniformSumOne(|Elems(mns)|, |mns|);
  }

  /** `new NestedMarkovNode(start, mns)` with its argument checks. */
  method NewNestedMarkovNode(start: Option<int>, mns: Option<seq<Child>>) returns (r: Result<NestedMarkovNode>)
    ensures mns.None? ==> r == Fail(NullPointer)
    ensures mns == Some([]) ==> r == Fail(IllegalArgument)
    ensures r.Ok? <==> mns.Some? && |mns.value| >= 1
    ensures r.Ok? ==> fresh(r.value) && r.value.start == start && Elems(Nodes(r.value.mapping)) == Elems(mns.value)
    ensures r.Ok? ==> AllShares(r.value.mapping, 1.0 / |mns.value| as real)
    ensures r.Ok? ==> (ShareSum(r.value.mapping) == 1.0 <==> Distinct(mns.value))
  {
    if mns.None? {
      return Fail(NullPointer);
    }
    if |mns.value| < 1 {
      return Fail(IllegalArgument);
    }
    var n := new NestedMarkovNode(start, mns.value);
    r := Ok(n);
  }

  /**
   * The bottom level of a chain over list: one MarkovNode per element,
   * all distinct, the i-th starting at list[i] and uniform over the list.
   */
  predicate LeafLevel(mns: seq<Child>, list: seq<int>)
    requires |list| >= 1
  {
    |mns| == |list| && Distinct(mns) &&
    forall i :: 0 <= i < |mns| ==>
      mns[i].Leaf? && mns[i].leaf.start == Some(list[i]) &&
      KeySet(mns[i].leaf.mapping) == Elems(list) && AllAt(mns[i].leaf.mapping, 1.0 / |list| as real)
  }

  /**
   * A level above kids: one NestedMarkovNode per element of list, all
   * distinct, the i-th starting at list[i] and mapping to every node of
   * kids, in order, with probability 1/|kids|, adding up to 1.
   */
  predicate ParentLevel(ps: seq<Child>, kids: seq<Child>, list: seq<int>)
    requires |kids| >= 1
  {
    |ps| == |list| && Distinct(ps) &&
    forall i :: 0 <= i < |ps| ==>
      ps[i].Inner? && ps[i].inner.start == Some(list[i]) &&
      Nodes(ps[i].inner.mapping) == kids && AllShares(ps[i].inner.mapping, 1.0 / |kids| as real) &&
      ShareSum(ps[i].inner.mapping) == 1.0
  }

  /** levels[0] is a leaf level over list and every later level sits on the one before. */
  predicate Layered(levels: seq<seq<Child>>, list: seq<int>)
    requires |list| >= 1
  {
    |levels| >= 1 && LeafLevel(levels[0], list) &&
    forall j :: 0 <= j < |levels| - 1 ==> |levels[j]| >= 1 && ParentLevel(levels[j + 1], levels[j], list)
  }

  /** The loop of `new NLayerMarkovChain(list, layers)` that makes one MarkovNode per element. */
  method Leaves(list: seq<int>) returns (mns: seq<Child>)
    requires |list| >= 1
    ensures LeafLevel(mns, list)
  {
    mns := [];
    var k := 0;
    while k < |list|
      invariant 0 <= k <= |list| && |mns| == k && Distinct(mns)
      invariant forall i :: 0 <= i < k ==>
        mns[i].Leaf? && mns[i].leaf.start == Some(list[i]) &&
        KeySet(mns[i].leaf.mapping) == Elems(list) && AllAt(mns[i].leaf.mapping, 1.0 / |list| as real)
    {
      var n := new MarkovNode(Some(list[k]), list);
      mns := mns + [Leaf(n)];
      k := k + 1;
    }
  }

  /** One of the loops of `new NLayerMarkovChain(list, layers)`: a NestedMarkovNode over kids per element. */
  method Parents(list: seq<int>, kids: seq<Child>) returns (ps: seq<Child>)
    requires |kids| >= 1 && Distinct(kids)
    ensures ParentLevel(ps, kids, list)
  {
    ps := [];
    var k := 0;
    while k < |list|
      invariant 0 <= k <= |list| && |ps| == k && Distinct(ps)
      invariant forall i :: 0 <= i < k ==>
        ps[i].Inner? && ps[i].inner.start == Some(list[i]) &&
        Nodes(ps[i].inner.mapping) == kids && AllShares(ps[i].inner.mapping, 1.0 / |kids| as real) &&
        ShareSum(ps[i].inner.mapping) == 1.0
    {
      var n := new NestedMarkovNode(Some(list[k]), kids);
      ps := ps + [Inner(n)];
      k := k + 1;
    }
  }

  /** A level laid on top of a layered stack keeps it layered. */
  lemma LayeredAppend(levels: seq<seq<Child>>, ps: seq<Child>, list: seq<int>)
    requires |list| >= 1 && Layered(levels, list)
    requires |levels[|levels| - 1]| >= 1 && ParentLevel(ps, levels[|levels| - 1], list)
    ensures Layered(levels + [ps], list)
  {
    var lv := levels + [ps];
    forall j | 0 <= j < |lv| - 1 ensures |lv[j]| >= 1 && ParentLevel(lv[j + 1], lv[j], list) {
      if j < |levels| - 1 {
        assert lv[j] == levels[j] && lv[j + 1] == levels[j + 1];
      }
    }
  }

  /** Every level of a layered stack has one node per element of the list. */
  lemma LayeredTop(levels: seq<seq<Child>>, list: seq<int>)
    requires |list| >= 1 && Layered(levels, list)
    ensures |levels[|levels| - 1]| == |list| && Distinct(levels[|levels| - 1])
  {
    if |levels| > 1 {
      assert ParentLevel(levels[|levels| - 1], levels[|levels| - 2], list);
    }
  }

  /**
   * One turn of the last loop of `new NLayerMarkovChain(list, layers)`: a
   * level of NestedMarkovNodes over the keys of the root, and a new root
   * over that level.
   */
  method Raise(list: seq<int>, top: NestedMarkovNode, ghost levels: seq<seq<Child>>)
    returns (root: NestedMarkovNode, ghost levels': seq<seq<Child>>)
    requires |list| >= 1 && Layered(levels, list) && Nodes(top.mapping) == levels[|levels| - 1]
    ensures |levels'| == |levels| + 1 && levels'[..|levels|] == levels && Layered(levels', list)
    ensures root.start == None && Nodes(root.mapping) == levels'[|levels'| - 1]
    ensures AllShares(root.mapping, 1.0 / |list| as real) && ShareSum(root.mapping) == 1.0
  {
    LayeredTop(levels, list);
    var nmns2 := Parents(list, Nodes(top.mapping));
    root := new NestedMarkovNode(None, nmns2);
    LayeredAppend(levels, nmns2, list);
    levels' := levels + [nmns2];
  }

  /** A LinkedBlockingDeque: its elements, first to last, and its capacity. */
  datatype BoundedDeque = BoundedDeque(items: seq<int>, capacity: nat)

  /**
   * A chain of `layers` layers over a list: the root NestedMarkovNode
   * `nmn`, the number of layers, and two empty histories of capacity
   * `layers`. The ghost `levels` are the nodes below the root, from the
   * MarkovNodes up.
   */
  class NLayerMarkovChain {
    const nmn: NestedMarkovNode
    const layers: int
    const previousObjects: BoundedDeque
    const currentObjects: BoundedDeque
    ghost const levels: seq<seq<Child>>

    /**
     * `new NLayerMarkovChain(list, layers)` on a non-empty list and at
     * least two layers: the root starts at no element and maps uniformly
     * to the top level; below it there are layers - 1 levels, so a walk
     * from the root meets `layers` nodes, the last a MarkovNode; the nodes
     * of one level all map to the same level below.
     */
    constructor (list: seq<int>, layers: int)
      requires |list| >= 1 && layers >= 2
      ensures this.layers == layers
      ensures previousObjects == BoundedDeque([], layers) && currentObjects == BoundedDeque([], layers)
      ensures |levels| == layers - 1 && Layered(levels, list)
      ensures nmn.start == None && Nodes(nmn.mapping) == levels[|levels| - 1]
      ensures AllShares(nmn.mapping, 1.0 / |list| as real) && ShareSum(nmn.mapping) == 1.0
    {
      var mns := Leaves(list);
      var top := new NestedMarkovNode(None, mns);
      ghost var lv := [mns];
      if layers > 2 {
        var nmns := Parents(list, mns);
        top := new NestedMarkovNode(None, nmns);
        lv := lv + [nmns];
        var i := 3;
        while i < layers
          invariant 3 <= i <= layers && |lv| == i - 1 && Layered(lv, list)
          invariant top.start == None && Nodes(top.mapping) == lv[|lv| - 1]
          invariant AllShares(top.mapping, 1.0 / |list| as real) && ShareSum(top.mapping) == 1.0
        {
          top, lv := Raise(list, top, lv);
          i := i + 1;
        }
      }
      this.layers := layers;
      this.previousObjects := BoundedDeque([], layers);
      this.currentObjects := BoundedDeque([], layers);
      this.nmn := top;
      this.levels := lv;
    }
  }

  /** `new NLayerMarkovChain(list, layers)` with its argument checks. */
  method NewNLayerMarkovChain(list: Option<seq<int>>, layers: int) returns (r: Result<NLayerMarkovChain>)
    ensures list.None? ==> r == Fail(NullPointer)
    ensures list.Some? && (|list.value| < 1 || layers < 2) ==> r == Fail(IllegalArgument)
    ensures r.Ok? <==> list.Some? && |list.value| >= 1 && layers >= 2
    ensures r.Ok? ==> fresh(r.value) && r.value.layers == layers && |r.value.levels| == layers - 1
    ensures r.Ok? ==> Layered(r.value.levels, list.value) && r.value.nmn.start == None
    ensures r.Ok? ==> Nodes(r.value.nmn.mapping) == r.value.levels[layers - 2] && ShareSum(r.value.nmn.mapping) == 1.0
  {
    if list.None? {
      return Fail(NullPointer);
    }
    if |list.value| < 1 || layers < 2 {
      return Fail(IllegalArgument);
    }
    var c := new NLayerMarkovChain(list.value, layers);
    r := Ok(c);
  }
}

=== FILE: layer_prob_fun_tree.dfy ===
/**
 * The object of ProbabilityFunctionTree/src/tree/ProbFunTree.java: the
 * fields of the root node, with the counter `layers`, updated in place by
 * its public methods. Every node below the root is held as a value, and
 * each method replaces the root's fields by what the corresponding function
 * of module LayerTree (or TreeNodes, MainTree where the code is shared)
 * computes. The invariant `Valid` includes `Counted`: the counters every
 * public method keeps, on which `addToAll` cannot fail.
 */
module LayerProbFunTree {
  import opened Wrappers
  import opened Assoc
  import opened ProbMaps
  import opened ProbScans
  import TreeNodes
  import MainTree
  import CountdownTree
  import LayerTree

  type Node = TreeNodes.Node

  /** Replacing the root's map by another distribution over the same keys keeps the invariant. */
  lemma ReplaceProbs(t: Node, m: ProbMap)
    requires TreeNodes.WellFormed(t, 1) && CountdownTree.Counted(t) && Distribution(m) && SameKeys(m, t.probs)
    ensures TreeNodes.WellFormed(t.(probs := m), 1) && CountdownTree.Counted(t.(probs := m))
  {
    SameKeysKeySet(m, t.probs);
  }

  class ProbFunTree {
    var probMap: ProbMap
    var children: seq<Pair<Node>>
    var parent: TreeNodes.Link
    var previousElement: Option<int>
    var layers: int

    /** The tree rooted at this object, as a value. */
    function Root(): Node
      reads this
    {
      TreeNodes.Node(probMap, children, parent, previousElement, layers)
    }

    ghost predicate Valid()
      reads this
    {
      TreeNodes.WellFormed(Root(), 1) && CountdownTree.Counted(Root())
    }

    /** Overwrites every field of the root with those of `t`. */
    method Store(t: Node)
      modifies this
      ensures Root() == t
    {
      probMap, children, parent, previousElement, layers := t.probs, t.children, t.parent, t.previous, t.depth;
    }

    /** `ProbFunTree(choices, layers)`: the complete tree counting down from `layers`. */
    constructor (choices: seq<int>, layers: int)
      requires Increasing(choices) && |choices| >= 1 && layers >= 1
      ensures Valid() && Root() == LayerTree.Build(choices, layers).value
    {
      var t := LayerTree.Build(choices, layers).value;
      probMap, children, parent, previousElement, this.layers := t.probs, t.children, t.parent, t.previous, t.depth;
    }

    /** `ProbFunTree(probMap, layers)`. */
    constructor FromMap(m: ProbMap, layers: int)
      requires Ordered(m) && Positive(m) && |m| >= 1 && layers >= 1 && Sum(m) == 1.0
      ensures Valid() && Root() == LayerTree.BuildMap(m, layers).value
    {
      var t := LayerTree.BuildMap(m, layers).value;
      probMap, children, parent, previousElement, this.layers := t.probs, t.children, t.parent, t.previous, t.depth;
    }

    /** `clearProbs()`: every map of the tree becomes uniform over its keys. */
    method ClearProbs()
      requires Valid()
      modifies this
      ensures Valid() && Root() == TreeNodes.ClearAllProbs(old(Root()), 1)
    {
      var t := TreeNodes.ClearAllProbs(Root(), 1);
      CountdownTree.CountedSameExceptProbs(t, Root());
      Store(t);
    }

    /** `clearHistory()`: every cursor of the tree becomes null. */
    method ClearHistory()
      requires Valid()
      modifies this
      ensures Valid() && Root() == TreeNodes.ClearHistory(old(Root()))
    {
      var t := TreeNodes.ClearHistory(Root());
      TreeNodes.SameExceptHistoryWellFormed(t, Root(), 1);
      CountdownTree.CountedSameExceptHistory(t, Root());
      Store(t);
    }

    /** `addToAll(element)`: never fails on a tree whose counters are kept. */
    method AddToAll(e: int)
      requires Valid()
      modifies this
      ensures Valid()
      ensures LayerTree.AddToAll(old(Root()), e, None).Ok?
      ensures Root() == LayerTree.AddToAll(old(Root()), e, None).value
    {
      Store(LayerTree.AddToAll(Root(), e, None).value);
    }

    /** `addToAll(element, percent)`: refused before any change for a percent outside (0, 1). */
    method AddToAllWithPercent(e: int, p: real) returns (err: Option<Exception>)
      requires Valid()
      modifies this
      ensures Valid()
      ensures err.Some? <==> p <= 0.0 || p >= 1.0
      ensures err.Some? ==> err.value == IllegalArgument && Root() == old(Root())
      ensures err.None? ==> Root() == LayerTree.AddToAll(old(Root()), e, Some(p)).value
    {
      var r := LayerTree.AddToAll(Root(), e, Some(p));
      if r.Fail? {
        return Some(r.error);
      }
      Store(r.value);
      err := None;
    }

    /** `addLayer(choices)`: refused for an empty set. */
    method AddLayer(choices: seq<int>) returns (err: Option<Exception>)
      requires Valid() && Increasing(choices)
      modifies this
      ensures Valid()
      ensures err.Some? <==> |choices| < 1
      ensures err.Some? ==> err.value == IllegalArgument && Root() == old(Root())
      ensures err.None? ==> Root() == LayerTree.AddLayer(old(Root()), choices).value
    {
      var r := LayerTree.AddLayer(Root(), choices);
      if r.Fail? {
        return Some(r.error);
      }
      Store(r.value);
      err := None;
    }

    /** `addLayer(probMap)`: refused for an empty map or one not summing to 1. */
    method AddLayerMap(m: ProbMap) returns (err: Option<Exception>)
      requires Valid() && Ordered(m) && Positive(m)
      modifies this
      ensures Valid()
      ensures err.Some? <==> |m| < 1 || Sum(m) != 1.0
      ensures err.Some? ==> err.value == IllegalArgument && Root() == old(Root())
      ensures err.None? ==> Root() == LayerTree.AddLayerMap(old(Root()), m).value
    {
      var r := LayerTree.AddLayerMap(Root(), m);
      if r.Fail? {
        return Some(r.error);
      }
      Store(r.value);
      err := None;
    }

    /** `removeFromAll(element)`: the element leaves every node holding more than one. */
    method RemoveFromAll(e: int)
      requires Valid()
      modifies this
      ensures Valid() && Root() == TreeNodes.RemoveFromAll(old(Root()), e, 1)
    {
      var t := TreeNodes.RemoveFromAll(Root(), e, 1);
      CountdownTree.CountedRemoveFromAll(Root(), e, 1);
      Store(t);
    }

    /** `purgeAll()`: the same as `pruneAll()` of the first generation. */
    method PurgeAll()
      requires Valid()
      modifies this
      ensures Valid() && Root() == MainTree.PruneAll(old(Root()))
    {
      var t := MainTree.PruneAll(Root());
      CountdownTree.CountedShrunk(t, Root());
      Store(t);
    }

    /** `purgeAll(percent)`: the tree as the call leaves it, and the exception it throws, if any. */
    method PurgeAllWithPercent(p: real) returns (err: Option<Exception>)
      requires Valid()
      modifies this
      ensures Valid()
      ensures (Root(), err) == LayerTree.PurgeAllPercent(old(Root()), p)
    {
      var r := LayerTree.PurgeAllPercent(Root(), p);
      CountdownTree.CountedShrunk(r.0, Root());
      Store(r.0);
      err := r.1;
    }

    /** `good(element, percent)` on the root's map; the new probability of `element`, or the exception. */
    method Good(e: int, p: real) returns (r: Result<real>)
      requires Valid()
      modifies this
      ensures Valid()
      ensures r.Fail? <==> p <= 0.0 || p >= 1.0 || e !in KeySet(old(probMap))
      ensures r.Fail? ==> Root() == old(Root())
      ensures ProbMaps.Good(old(probMap), e, p).Ok? ==>
        r == Ok(ProbMaps.Good(old(probMap), e, p).value.1) &&
        Root() == old(Root()).(probs := ProbMaps.Good(old(probMap), e, p).value.0)
    {
      var g := ProbMaps.Good(probMap, e, p);
      if g.Fail? {
        return Fail(g.error);
      }
      ReplaceProbs(Root(), g.value.0);
      probMap := g.value.0;
      r := Ok(g.value.1);
    }

    /** `bad(element, percent)` on the root's map. */
    method Bad(e: int, p: real) returns (r: Result<real>)
      requires Valid()
      modifies this
      ensures Valid()
      ensures r.Fail? <==> p <= 0.0 || p >= 1.0 || e !in KeySet(old(probMap))
      ensures r.Fail? ==> Root() == old(Root())
      ensures ProbMaps.Bad(old(probMap), e, p, 0.0).Ok? ==>
        r == Ok(ProbMaps.Bad(old(probMap), e, p, 0.0).value.1) &&
        Root() == old(Root()).(probs := ProbMaps.Bad(old(probMap), e, p, 0.0).value.0)
    {
      var b := ProbMaps.Bad(probMap, e, p, 0.0);
      if b.Fail? {
        return Fail(b.error);
      }
      ReplaceProbs(Root(), b.value.0);
      probMap := b.value.0;
      r := Ok(b.value.1);
    }

    /** `good(elements, percent)`: the list reinforced along the path it names. */
    method GoodPath(es: seq<int>, p: real) returns (err: Option<Exception>)
      requires Valid()
      modifies this
      ensures Valid()
      ensures err.None? <==> 0.0 < p < 1.0 && TreeNodes.PathOk(old(Root()), es)
      ensures (Root(), err) == TreeNodes.Reinforce(old(Root()), es, p, true, 0.0, 1)
    {
      var r := TreeNodes.Reinforce(Root(), es, p, true, 0.0, 1);
      CountdownTree.CountedSameExceptProbs(r.0, Root());
      Store(r.0);
      err := r.1;
    }

    /** `bad(elements, percent)`. */
    method BadPath(es: seq<int>, p: real) returns (err: Option<Exception>)
      requires Valid()
      modifies this
      ensures Valid()
      ensures err.None? <==> 0.0 < p < 1.0 && TreeNodes.PathOk(old(Root()), es)
      ensures (Root(), err) == TreeNodes.Reinforce(old(Root()), es, p, false, 0.0, 1)
    {
      var r := TreeNodes.Reinforce(Root(), es, p, false, 0.0, 1);
      CountdownTree.CountedSameExceptProbs(r.0, Root());
      Store(r.0);
      err := r.1;
    }

    /**
     * `fun()` for the draw `rnd`: the cursors move up only when the chain
     * below holds exactly `layers - 1` of them.
     */
    method Fun(rnd: real) returns (r: Result<Option<int>>)
      requires Valid() && 0.0 <= rnd < 1.0
      modifies this
      ensures Valid()
      ensures (Root(), r) == TreeNodes.Fun(old(Root()), rnd, true, 1)
    {
      var f := TreeNodes.Fun(Root(), rnd, true, 1);
      CountdownTree.CountedSameExceptHistory(f.0, Root());
      Store(f.0);
      r := f.1;
    }

    /** `parentSize()`. */
    method ParentSize() returns (n: nat)
      ensures n == |probMap|
    {
      n := |probMap|;
    }

    /** `size()`: the root's entries plus the sizes of the children, summed in a loop. */
    method Size() returns (n: nat)
      ensures n == TreeNodes.Size(Root())
    {
      n := |probMap|;
      var i := 0;
      while i < |children|
        invariant 0 <= i <= |children|
        invariant n + TreeNodes.SizeFrom(Root(), i) == TreeNodes.Size(Root())
      {
        n := n + TreeNodes.Size(children[i].value);
        i := i + 1;
      }
    }

    /**
     * `clone()`, with the counters copied as well (the copy constructor as
     * written leaves them at 0; see `LayerTree.CloneLosesLayers`).
     */
    method Clone() returns (c: ProbFunTree)
      requires Valid()
      ensures fresh(c) && c.Valid()
      ensures c.Root() == LayerTree.CloneLayers(Root())
      ensures TreeNodes.Size(c.Root()) == TreeNodes.Size(Root())
    {
      LayerTree.CloneLayersKeeps(Root(), 0, None);
      c := new ProbFunTree.FromClone(LayerTree.CloneLayers(Root()));
    }

    /** The private copy constructor behind `clone()`. */
    constructor FromClone(t: Node)
      requires TreeNodes.WellFormed(t, 1) && CountdownTree.Counted(t)
      ensures Valid() && Root() == t
    {
      probMap, children, parent, previousElement, layers := t.probs, t.children, t.parent, t.previous, t.depth;
    }
  }

  /** The factory form of the choice-set constructor: the IllegalArgumentException as a result. */
  method New(choices: seq<int>, layers: int) returns (r: Result<ProbFunTree>)
    requires Increasing(choices)
    ensures r.Fail? <==> |choices| < 1 || layers < 1
    ensures r.Fail? ==> r.error == IllegalArgument
    ensures r.Ok? ==> fresh(r.value) && r.value.Valid() && r.value.Root() == LayerTree.Build(choices, layers).value
  {
    if |choices| < 1 || layers < 1 {
      return Fail(IllegalArgument);
    }
    var t := new ProbFunTree(choices, layers);
    r := Ok(t);
  }
}

=== FILE: main_prob_fun_tree.dfy ===
/**
 * The object of ProbabilityFunctionTree/src/main/java/tree/ProbFunTree.java:
 * the fields of the root node, updated in place by its methods. Every node
 * below the root is held as a value (module TreeNodes), and each method
 * replaces the root's fields by what the corresponding function of module
 * MainTree computes, keeping the invariant `Valid`.
 */
module MainProbFunTree {
  import opened Wrappers
  import opened Assoc
  import opened ProbMaps
  import opened ProbScans
  import TreeNodes
  import MainTree

  type Node = TreeNodes.Node

  /** A node whose map is replaced by another distribution over the same keys keeps the invariant. */
  lemma ReplaceProbs(t: Node, m: ProbMap)
    requires TreeNodes.WellFormed(t, 1) && Distribution(m) && SameKeys(m, t.probs)
    ensures TreeNodes.WellFormed(t.(probs := m), 1)
  {
    SameKeysKeySet(m, t.probs);
  }

  class ProbFunTree {
    var probMap: ProbMap
    var children: seq<Pair<Node>>
    var parent: TreeNodes.Link
    var previousElement: Option<int>
    var layer: int

    /** The tree rooted at this object, as a value. */
    function Root(): Node
      reads this
    {
      TreeNodes.Node(probMap, children, parent, previousElement, layer)
    }

    ghost predicate Valid()
      reads this
    {
      TreeNodes.WellFormed(Root(), 1)
    }

    /** Overwrites every field of the root with those of `t`. */
    method Store(t: Node)
      modifies this
      ensures Root() == t
    {
      probMap, children, parent, previousElement, layer := t.probs, t.children, t.parent, t.previous, t.depth;
    }

    /** `ProbFunTree(choices, layers)`: a complete tree of `layers` layers, every node uniform over `choices`. */
    constructor (choices: seq<int>, layers: int)
      requires Increasing(choices) && |choices| >= 1 && layers >= 1
      ensures Valid() && Root() == MainTree.Build(choices, layers).value
    {
      var t := MainTree.Build(choices, layers).value;
      probMap, children, parent, previousElement, layer := t.probs, t.children, t.parent, t.previous, t.depth;
    }

    /** `ProbFunTree(probMap, layers)`: a complete tree every node of which holds `m`. */
    constructor FromMap(m: ProbMap, layers: int)
      requires Ordered(m) && Positive(m) && |m| >= 1 && layers >= 1 && Sum(m) == 1.0
      ensures Valid() && Root() == MainTree.BuildMap(m, layers).value
    {
      var t := MainTree.BuildMap(m, layers).value;
      probMap, children, parent, previousElement, layer := t.probs, t.children, t.parent, t.previous, t.depth;
    }

    /** `clearProbs()`: the root's map becomes uniform over its keys; nothing else changes. */
    method ClearProbs()
      requires Valid()
      modifies this
      ensures Valid() && Root() == old(Root()).(probs := ProbMaps.ClearProbs(old(probMap)))
    {
      ReplaceProbs(Root(), ProbMaps.ClearProbs(probMap));
      probMap := ProbMaps.ClearProbs(probMap);
    }

    /** `clearAllProbs()`: every map of the tree becomes uniform over its keys. */
    method ClearAllProbs()
      requires Valid()
      modifies this
      ensures Valid() && Root() == TreeNodes.ClearAllProbs(old(Root()), 1)
    {
      Store(TreeNodes.ClearAllProbs(Root(), 1));
    }

    /** `clearHistory()`: every cursor of the tree becomes null. */
    method ClearHistory()
      requires Valid()
      modifies this
      ensures Valid() && Root() == TreeNodes.ClearHistory(old(Root()))
    {
      var t := TreeNodes.ClearHistory(Root());
      TreeNodes.SameExceptHistoryWellFormed(t, Root(), 1);
      Store(t);
    }

    /** `add(element, elements)` at the root. */
    method Add(e: int, els: seq<int>)
      requires Valid() && Increasing(els)
      modifies this
      ensures Valid() && Root() == MainTree.AddNode(old(Root()), e, els)
    {
      Store(MainTree.AddNode(Root(), e, els));
    }

    /** `addToAll(element, elements)`. */
    method AddToAll(e: int, els: seq<int>)
      requires Valid() && Increasing(els)
      modifies this
      ensures Valid() && Root() == MainTree.AddToAll(old(Root()), e, els)
    {
      Store(MainTree.AddToAll(Root(), e, els));
    }

    /** `add(element, elements, percent)`: refused before any change for a percent outside (0, 1). */
    method AddWithPercent(e: int, els: seq<int>, p: real) returns (err: Option<Exception>)
      requires Valid() && Increasing(els)
      modifies this
      ensures Valid()
      ensures err.Some? <==> p <= 0.0 || p >= 1.0
      ensures err.Some? ==> err.value == IllegalArgument && Root() == old(Root())
      ensures err.None? ==> Root() == MainTree.AddNodePercent(old(Root()), e, els, p)
    {
      if p >= 1.0 || p <= 0.0 {
        return Some(IllegalArgument);
      }
      Store(MainTree.AddNodePercent(Root(), e, els, p));
      err := None;
    }

    /** `addToAll(element, elements, percent)`. */
    method AddToAllWithPercent(e: int, els: seq<int>, p: real) returns (err: Option<Exception>)
      requires Valid() && Increasing(els)
      modifies this
      ensures Valid()
      ensures err.Some? <==> p <= 0.0 || p >= 1.0
      ensures err.Some? ==> err.value == IllegalArgument && Root() == old(Root())
      ensures err.None? ==> Root() == MainTree.AddToAllPercent(old(Root()), e, els, p)
    {
      if p >= 1.0 || p <= 0.0 {
        return Some(IllegalArgument);
      }
      Store(MainTree.AddToAllPercent(Root(), e, els, p));
      err := None;
    }

    /** `addLayer(choices)`: refused for an empty set. */
    method AddLayer(choices: seq<int>) returns (err: Option<Exception>)
      requires Valid() && Increasing(choices)
      modifies this
      ensures Valid()
      ensures err.Some? <==> |choices| < 1
      ensures err.Some? ==> err.value == IllegalArgument && Root() == old(Root())
      ensures err.None? ==> Root() == MainTree.AddLayer(old(Root()), choices).value
    {
      var r := MainTree.AddLayer(Root(), choices);
      if r.Fail? {
        return Some(r.error);
      }
      Store(r.value);
      err := None;
    }

    /** `addLayer(probMap)`: refused for an empty map or one not summing to 1. */
    method AddLayerMap(m: ProbMap) returns (err: Option<Exception>)
      requires Valid() && Ordered(m) && Positive(m)
      modifies this
      ensures Valid()
      ensures err.Some? <==> |m| < 1 || Sum(m) != 1.0
      ensures err.Some? ==> err.value == IllegalArgument && Root() == old(Root())
      ensures err.None? ==> Root() == MainTree.AddLayerMap(old(Root()), m).value
    {
      var r := MainTree.AddLayerMap(Root(), m);
      if r.Fail? {
        return Some(r.error);
      }
      Store(r.value);
      err := None;
    }

    /** `remove(element)`: false, and no change, at one element or for an absent key. */
    method Remove(e: int) returns (removed: bool)
      requires Valid()
      modifies this
      ensures Valid()
      ensures removed <==> |old(probMap)| > 1 && e in KeySet(old(probMap))
      ensures (Root(), removed) == TreeNodes.RemoveNode(old(Root()), e, 1)
    {
      var r := TreeNodes.RemoveNode(Root(), e, 1);
      Store(r.0);
      removed := r.1;
    }

    /** `removeFromAll(element)`. */
    method RemoveFromAll(e: int)
      requires Valid()
      modifies this
      ensures Valid() && Root() == TreeNodes.RemoveFromAll(old(Root()), e, 1)
    {
      Store(TreeNodes.RemoveFromAll(Root(), e, 1));
    }

    /** `prune()` at the root. */
    method Prune()
      requires Valid()
      modifies this
      ensures Valid() && Root() == MainTree.Prune(old(Root()))
    {
      Store(MainTree.Prune(Root()));
    }

    /** `pruneAll()`. */
    method PruneAll()
      requires Valid()
      modifies this
      ensures Valid() && Root() == MainTree.PruneAll(old(Root()))
    {
      Store(MainTree.PruneAll(Root()));
    }

    /** `prune(percent)`: refused for a percent outside (0, 1); otherwise the same as `prune()`. */
    method PruneWithPercent(p: real) returns (err: Option<Exception>)
      requires Valid()
      modifies this
      ensures Valid()
      ensures err.Some? <==> p <= 0.0 || p >= 1.0
      ensures err.Some? ==> err.value == IllegalArgument && Root() == old(Root())
      ensures err.None? ==> Root() == MainTree.Prune(old(Root()))
    {
      if p >= 1.0 || p <= 0.0 {
        return Some(IllegalArgument);
      }
      Store(MainTree.PruneNodePercent(Root(), p));
      err := None;
    }

    /** `pruneAll(percent)`. */
    method PruneAllWithPercent(p: real) returns (err: Option<Exception>)
      requires Valid()
      modifies this
      ensures Valid()
      ensures err.Some? <==> p <= 0.0 || p >= 1.0
      ensures err.Some? ==> err.value == IllegalArgument && Root() == old(Root())
      ensures err.None? ==> Root() == MainTree.PruneAll(old(Root()))
    {
      if p >= 1.0 || p <= 0.0 {
        return Some(IllegalArgument);
      }
      Store(MainTree.PruneAllPercent(Root(), p));
      err := None;
    }

    /** `addIfPresent(ifPresent, elementToAdd)`, with the presence check the method documents. */
    method AddIfPresent(path: seq<int>, x: int) returns (err: Option<Exception>)
      requires Valid()
      modifies this
      ensures Valid()
      ensures err.Some? <==> path == []
      ensures err.Some? ==> err.value == IllegalArgument && Root() == old(Root())
      ensures err.None? ==> Root() == MainTree.AddIfPresent(old(Root()), path, x).value
    {
      var r := MainTree.AddIfPresent(Root(), path, x);
      if r.Fail? {
        return Some(r.error);
      }
      Store(r.value);
      err := None;
    }

    /** `addIfPresentToAll(ifPresent, elementToAdd)`, visiting each node once. */
    method AddIfPresentToAll(path: seq<int>, x: int) returns (err: Option<Exception>)
      requires Valid()
      modifies this
      ensures Valid()
      ensures err.Some? <==> path == []
      ensures err.Some? ==> err.value == IllegalArgument && Root() == old(Root())
      ensures err.None? ==> Root() == MainTree.AddIfPresentToAll(old(Root()), path, x).value
    {
      var r := MainTree.AddIfPresentToAll(Root(), path, x);
      if r.Fail? {
        return Some(r.error);
      }
      Store(r.value);
      err := None;
    }

    /** `good(element, percent)` on the root's map; the new probability of `element`, or the exception. */
    method Good(e: int, p: real) returns (r: Result<real>)
      requires Valid()
      modifies this
      ensures Valid()
      ensures r.Fail? <==> p <= 0.0 || p >= 1.0 || e !in KeySet(old(probMap))
      ensures r.Fail? ==> Root() == old(Root())
      ensures ProbMaps.Good(old(probMap), e, p).Ok? ==>
        r == Ok(ProbMaps.Good(old(probMap), e, p).value.1) &&
        Root() == old(Root()).(probs := ProbMaps.Good(old(probMap), e, p).value.0)
    {
      var g := ProbMaps.Good(probMap, e, p);
      if g.Fail? {
        return Fail(g.error);
      }
      ReplaceProbs(Root(), g.value.0);
      probMap := g.value.0;
      r := Ok(g.value.1);
    }

    /** `bad(element, percent)` on the root's map. */
    method Bad(e: int, p: real) returns (r: Result<real>)
      requires Valid()
      modifies this
      ensures Valid()
      ensures r.Fail? <==> p <= 0.0 || p >= 1.0 || e !in KeySet(old(probMap))
      ensures r.Fail? ==> Root() == old(Root())
      ensures ProbMaps.Bad(old(probMap), e, p, 0.0).Ok? ==>
        r == Ok(ProbMaps.Bad(old(probMap), e, p, 0.0).value.1) &&
        Root() == old(Root()).(probs := ProbMaps.Bad(old(probMap), e, p, 0.0).value.0)
    {
      var b := ProbMaps.Bad(probMap, e, p, 0.0);
      if b.Fail? {
        return Fail(b.error);
      }
      ReplaceProbs(Root(), b.value.0);
      probMap := b.value.0;
      r := Ok(b.value.1);
    }

    /** `good(elements, percent)`: the list reinforced along the path it names. */
    method GoodPath(es: seq<int>, p: real) returns (err: Option<Exception>)
      requires Valid()
      modifies this
      ensures Valid()
      ensures err.None? <==> 0.0 < p < 1.0 && TreeNodes.PathOk(old(Root()), es)
      ensures (Root(), err) == TreeNodes.Reinforce(old(Root()), es, p, true, 0.0, 1)
    {
      var r := TreeNodes.Reinforce(Root(), es, p, true, 0.0, 1);
      Store(r.0);
      err := r.1;
    }

    /** `bad(elements, percent)`. */
    method BadPath(es: seq<int>, p: real) returns (err: Option<Exception>)
      requires Valid()
      modifies this
      ensures Valid()
      ensures err.None? <==> 0.0 < p < 1.0 && TreeNodes.PathOk(old(Root()), es)
      ensures (Root(), err) == TreeNodes.Reinforce(old(Root()), es, p, false, 0.0, 1)
    {
      var r := TreeNodes.Reinforce(Root(), es, p, false, 0.0, 1);
      Store(r.0);
      err := r.1;
    }

    /** `nextValue()` for the draw `rnd`: the root samples its map and records the result. */
    method NextValue(rnd: real) returns (x: Option<int>)
      requires Valid() && 0.0 <= rnd < 1.0
      modifies this
      ensures Valid()
      ensures x == Sample(old(probMap), rnd) && previousElement == x
      ensures Root() == old(Root()).(previous := x)
    {
      x := ProbMaps.NextValue(probMap, rnd);
      TreeNodes.SameExceptHistoryRefl(Root());
      previousElement := x;
      TreeNodes.SameExceptHistoryWellFormed(Root(), old(Root()), 1);
    }

    /** `fun()` for the draw `rnd`: the next element, or the NullPointerException of a broken cursor chain. */
    method Fun(rnd: real) returns (r: Result<Option<int>>)
      requires Valid() && 0.0 <= rnd < 1.0
      modifies this
      ensures Valid()
      ensures (Root(), r) == TreeNodes.Fun(old(Root()), rnd, false, 1)
    {
      var f := TreeNodes.Fun(Root(), rnd, false, 1);
      Store(f.0);
      r := f.1;
    }

    /** `parentSize()`. */
    method ParentSize() returns (n: nat)
      ensures n == |probMap|
    {
      n := |probMap|;
    }

    /** `size()`: the root's entries plus the sizes of the children, summed in a loop. */
    method Size() returns (n: nat)
      ensures n == TreeNodes.Size(Root())
    {
      n := |probMap|;
      var i := 0;
      while i < |children|
        invariant 0 <= i <= |children|
        invariant n + TreeNodes.SizeFrom(Root(), i) == TreeNodes.Size(Root())
      {
        n := n + TreeNodes.Size(children[i].value);
        i := i + 1;
      }
    }

    /** `clone()`: a new object holding a copy that shares nothing with this tree. */
    method Clone() returns (c: ProbFunTree)
      requires Valid()
      ensures fresh(c) && c.Valid()
      ensures c.Root() == TreeNodes.Clone(Root())
      ensures TreeNodes.Size(c.Root()) == TreeNodes.Size(Root())
    {
      TreeNodes.CloneWellFormed(Root(), 1);
      c := new ProbFunTree.FromClone(TreeNodes.Clone(Root()));
    }

    /** The private copy constructor behind `clone()`. */
    constructor FromClone(t: Node)
      requires TreeNodes.WellFormed(t, 1)
      ensures Valid() && Root() == t
    {
      probMap, children, parent, previousElement, layer := t.probs, t.children, t.parent, t.previous, t.depth;
    }
  }

  /** The factory form of the choice-set constructor: the IllegalArgumentException as a result. */
  method New(choices: seq<int>, layers: int) returns (r: Result<ProbFunTree>)
    requires Increasing(choices)
    ensures r.Fail? <==> |choices| < 1 || layers < 1
    ensures r.Fail? ==> r.error == IllegalArgument
    ensures r.Ok? ==> fresh(r.value) && r.value.Valid() && r.value.Root() == MainTree.Build(choices, layers).value
  {
    if |choices| < 1 || layers < 1 {
      return Fail(IllegalArgument);
    }
    var t := new ProbFunTree(choices, layers);
    r := Ok(t);
  }
}

=== FILE: markov_chain.dfy ===
/**
 * The two-step chains of GenerativeMarkovChain/src/markov: MarkovChain.java
 * and NestedProbFun.java. Both hold a first ProbFun, which picks the first
 * element, and one ProbFun per element, which picks what follows it; both
 * walk them with the same pair of cursors. They differ in how they are built
 * and in the order in which feedback reaches the two ProbFuns it touches.
 */
module TwoStepChains {
  import opened Wrappers
  import opened Assoc
  import opened ProbMaps
  import MapProbFun

  type ProbFun = MapProbFun.ProbFun

  /** `previousSourceElement` and `previousDestinationElement`, None for Java's null. */
  datatype Cursors = Cursors(source: Option<int>, destination: Option<int>)

  /** A destination is only ever set once there is a source. */
  predicate Reachable(c: Cursors) {
    c.destination.Some? ==> c.source.Some?
  }

  /** Both cursors hold elements the chain knows. */
  predicate InKeys<V>(c: Cursors, links: seq<Pair<V>>) {
    (c.source.Some? ==> c.source.value in KeySet(links)) &&
    (c.destination.Some? ==> c.destination.value in KeySet(links))
  }

  /** Where the next `fun()` draws from: the first link, or the link of an element. */
  datatype Draw = First | Link(key: int)

  function NextDraw(c: Cursors): Draw {
    if c.source.None? then First
    else if c.destination.None? then Link(c.source.value)
    else Link(c.destination.value)
  }

  /**
   * The cursors after `fun()` drew `drawn` from the map `NextDraw(c)` names
   * (the same in both classes). An element drawn becomes the one whose link
   * the next call draws from, which is the Markov property of the chain; a
   * null draw (a random number of exactly 0) leaves the next draw where it was.
   */
  function Advance(c: Cursors, drawn: Option<int>): (r: Cursors)
    requires Reachable(c)
    ensures Reachable(r)
    ensures drawn.Some? ==> NextDraw(r) == Link(drawn.value)
    ensures drawn.None? ==> NextDraw(r) == NextDraw(c)
    ensures r.destination == drawn || (c.source.None? && r.source == drawn)
  {
    if c.source.None? then Cursors(drawn, c.destination)
    else if c.destination.None? then Cursors(c.source, drawn)
    else Cursors(c.destination, drawn)
  }

  /** The cursors after a run of draws, from the given start. */
  function AdvanceAll(c: Cursors, draws: seq<Option<int>>): (r: Cursors)
    requires Reachable(c)
    ensures Reachable(r)
    decreases |draws|
  {
    if draws == [] then c else AdvanceAll(Advance(c, draws[0]), draws[1..])
  }

  /**
   * Over any run of draws from a fresh chain, the next draw comes from the
   * link of the last element drawn, or from the first link while nothing
   * but nulls was drawn.
   */
  lemma {:induction false} AdvanceAllLast(c: Cursors, draws: seq<Option<int>>, k: nat)
    requires Reachable(c) && k < |draws| && draws[k].Some?
    requires forall j :: k < j < |draws| ==> draws[j].None?
    ensures NextDraw(AdvanceAll(c, draws)) == Link(draws[k].value)
    decreases |draws|
  {
    var c1 := Advance(c, draws[0]);
    if k == 0 {
      NullsKeepDraw(c1, draws[1..]);
    } else {
      AdvanceAllLast(c1, draws[1..], k - 1);
    }
  }

  /** Null draws alone never move the next draw. */
  lemma {:induction false} NullsKeepDraw(c: Cursors, draws: seq<Option<int>>)
    requires Reachable(c) && forall j :: 0 <= j < |draws| ==> draws[j].None?
    ensures NextDraw(AdvanceAll(c, draws)) == NextDraw(c)
    decreases |draws|
  {
    if draws != [] {
      NullsKeepDraw(Advance(c, draws[0]), draws[1..]);
    }
  }

  /** The same key sequence gives the same key set. */
  lemma SameKeySet<V, W>(a: seq<Pair<V>>, b: seq<Pair<W>>)
    requires Keys(a) == Keys(b)
    ensures KeySet(a) == KeySet(b)
  {
    forall x | x in KeySet(a) ensures x in KeySet(b) {
      var i :| 0 <= i < |a| && a[i].key == x;
      assert Keys(a)[i] == x;
    }
    forall x | x in KeySet(b) ensures x in KeySet(a) {
      var i :| 0 <= i < |b| && b[i].key == x;
      assert Keys(b)[i] == x;
    }
  }

  /**
   * The maps of a chain as values: the first link and every element's link
   * are distributions over the same elements.
   */
  predicate WiredMaps(first: ProbMap, links: seq<Pair<ProbMap>>) {
    Ordered(links) && Distribution(first) && Keys(first) == Keys(links) &&
    forall i :: 0 <= i < |links| ==> Distribution(links[i].value) && Keys(links[i].value) == Keys(links)
  }

  /** The map a draw reads, on wired maps. */
  function DrawMap(first: ProbMap, links: seq<Pair<ProbMap>>, d: Draw): (m: ProbMap)
    requires WiredMaps(first, links) && (d.Link? ==> d.key in KeySet(links))
    ensures Distribution(m) && Keys(m) == Keys(links)
  {
    match d
    case First => first
    case Link(k) => links[IndexOf(links, k).value].value
  }

  /**
   * `fun()` for the draw `rnd` in [0, 1): the element sampled from the map
   * the cursors name, null exactly for a draw of 0, and always an element of
   * the chain.
   */
  function Drawn(first: ProbMap, links: seq<Pair<ProbMap>>, c: Cursors, rnd: real): (e: Option<int>)
    requires WiredMaps(first, links) && InKeys(c, links) && 0.0 <= rnd < 1.0
    ensures e.None? <==> rnd == 0.0
    ensures e.Some? ==> e.value in KeySet(links)
  {
    var m := DrawMap(first, links, NextDraw(c));
    SameKeySet(m, links);
    Sample(m, rnd)
  }

  /** `good` or `bad` on one map, `bad` with the floor `Double.MIN_VALUE` taken as 0. */
  function Adjust(m: ProbMap, e: int, p: real, good: bool): (r: Result<ProbMap>)
    requires Distribution(m)
    ensures r.Fail? <==> p <= 0.0 || p >= 1.0 || e !in KeySet(m)
    ensures r.Fail? ==> r.error == if p <= 0.0 || p >= 1.0 then IllegalArgument else NullPointer
    ensures r.Ok? ==> Distribution(r.value) && SameKeys(r.value, m)
  {
    var g := if good then ProbMaps.Good(m, e, p) else ProbMaps.Bad(m, e, p, 0.0);
    if g.Fail? then Fail(g.error) else Ok(g.value.0)
  }

  lemma SameKeysKeys(a: ProbMap, b: ProbMap)
    requires SameKeys(a, b)
    ensures Keys(a) == Keys(b)
  {
  }

  /** Replacing one link by a map with the same keys keeps the chain wired. */
  lemma WiredUpdate(first: ProbMap, links: seq<Pair<ProbMap>>, i: nat, l: ProbMap, f: ProbMap)
    requires WiredMaps(first, links) && i < |links|
    requires Distribution(l) && SameKeys(l, links[i].value)
    requires Distribution(f) && SameKeys(f, first)
    ensures WiredMaps(f, links[i := Pair(links[i].key, l)])
  {
    SameKeysKeys(l, links[i].value);
    SameKeysKeys(f, first);
    var u := links[i := Pair(links[i].key, l)];
    assert Keys(u) == Keys(links);
  }

  /**
   * `good`/`bad(sourceElement, destinationElement, percent)` of
   * MarkovChain.java: a null destination throws NullPointerException and a
   * percent outside (0, 1) IllegalArgumentException, before any change. A
   * null source adjusts the first link at the destination. Otherwise the
   * source's link is adjusted at the destination, then the first link at the
   * source; an unknown source is Java's `null.good(...)`.
   */
  function ChainFeedback(first: ProbMap, links: seq<Pair<ProbMap>>, src: Option<int>, dst: Option<int>, p: real, good: bool):
    (r: (Option<Exception>, ProbMap, seq<Pair<ProbMap>>))
    requires WiredMaps(first, links)
    ensures WiredMaps(r.1, r.2)
    ensures r.0.Some? ==> r.1 == first && r.2 == links
    ensures r.0.None? <==> (dst.Some? && 0.0 < p < 1.0 && dst.value in KeySet(links) &&
      (src.Some? ==> src.value in KeySet(links)))
    ensures r.0 == Some(IllegalArgument) <==> dst.Some? && (p <= 0.0 || p >= 1.0)
    ensures src.None? ==> r.2 == links
  {
    SameKeySet(first, links);
    if dst.None? then (Some(NullPointer), first, links)
    else if p >= 1.0 || p <= 0.0 then (Some(IllegalArgument), first, links)
    else if src.None? then
      match Adjust(first, dst.value, p, good)
      case Fail(e) => (Some(e), first, links)
      case Ok(f) =>
        SameKeysKeys(f, first);
        (None, f, links)
    else match IndexOf(links, src.value)
      case None => (Some(NullPointer), first, links)
      case Some(i) =>
        SameKeySet(links[i].value, links);
        match Adjust(links[i].value, dst.value, p, good)
        case Fail(e) => (Some(e), first, links)
        case Ok(l) =>
          var f := Adjust(first, src.value, p, good).value;
          WiredUpdate(first, links, i, l, f);
          (None, f, links[i := Pair(src.value, l)])
  }

  /**
   * `good`/`bad(sourceElement, destinationElement, percent)` of
   * NestedProbFun.java: the same checks, but with a source the first link is
   * adjusted first, then the source's link; an unknown source stops at the
   * first link (its NullPointerException), and a destination the source's
   * link lacks throws after the first link has already changed.
   */
  function NestedFeedback(first: ProbMap, links: seq<Pair<ProbMap>>, src: Option<int>, dst: Option<int>, p: real, good: bool):
    (r: (Option<Exception>, ProbMap, seq<Pair<ProbMap>>))
    requires WiredMaps(first, links)
    ensures WiredMaps(r.1, r.2)
    ensures r.0.None? <==> (dst.Some? && 0.0 < p < 1.0 && dst.value in KeySet(links) &&
      (src.Some? ==> src.value in KeySet(links)))
    ensures src.None? ==> r.2 == links
  {
    SameKeySet(first, links);
    if dst.None? then (Some(NullPointer), first, links)
    else if p >= 1.0 || p <= 0.0 then (Some(IllegalArgument), first, links)
    else if src.None? then
      match Adjust(first, dst.value, p, good)
      case Fail(e) => (Some(e), first, links)
      case Ok(f) =>
        SameKeysKeys(f, first);
        (None, f, links)
    else match Adjust(first, src.value, p, good)
      case Fail(e) => (Some(e), first, links)
      case Ok(f) =>
        SameKeysKeys(f, first);
        var i := IndexOf(links, src.value).value;
        SameKeySet(links[i].value, links);
        match Adjust(links[i].value, dst.value, p, good)
        case Fail(e) => (Some(e), f, links)
        case Ok(l) =>
          WiredUpdate(first, links, i, l, f);
          (None, f, links[i := Pair(src.value, l)])
  }

  /**
   * The two feedback orders agree on every call that succeeds or is refused
   * before any change; they part only on a destination the chain lacks under
   * a known source, where NestedProbFun has already adjusted its first link.
   */
  lemma {:induction false} FeedbackOrders(first: ProbMap, links: seq<Pair<ProbMap>>, src: Option<int>, dst: Option<int>, p: real, good: bool)
    requires WiredMaps(first, links)
    ensures NestedFeedback(first, links, src, dst, p, good).0 == ChainFeedback(first, links, src, dst, p, good).0
    ensures dst.None? || p <= 0.0 || p >= 1.0 || src.None? || src.value !in KeySet(links) || dst.value in KeySet(links) ==>
      NestedFeedback(first, links, src, dst, p, good) == ChainFeedback(first, links, src, dst, p, good)
  {
    SameKeySet(first, links);
    if dst.Some? && 0.0 < p < 1.0 && src.Some? && src.value in KeySet(links) {
      var i := IndexOf(links, src.value).value;
      SameKeySet(links[i].value, links);
      assert Adjust(first, src.value, p, good).Ok?;
    }
  }

  /**
   * `good` on two or more elements raises the element to GoodTarget of its
   * old value, strictly; `bad` lowers it to BadTarget, strictly and above 0.
   */
  lemma AdjustEffect(m: ProbMap, j: nat, p: real, good: bool)
    requires Distribution(m) && |m| >= 2 && j < |m| && 0.0 < p < 1.0
    ensures Adjust(m, m[j].key, p, good).Ok?
    ensures good ==> Adjust(m, m[j].key, p, good).value[j].value == GoodTarget(m[j].value, p) > m[j].value
    ensures !good ==> 0.0 < Adjust(m, m[j].key, p, good).value[j].value == BadTarget(m[j].value, p) < m[j].value
  {
    if good {
      GoodEffect(m, j, p);
    } else {
      BadEffect(m, j, p);
    }
  }

  lemma GoodEffect(m: ProbMap, j: nat, p: real)
    requires Distribution(m) && |m| >= 2 && j < |m| && 0.0 < p < 1.0
    ensures Adjust(m, m[j].key, p, true).Ok?
    ensures Adjust(m, m[j].key, p, true).value[j].value == GoodTarget(m[j].value, p) > m[j].value
  {
    GoodRule(m, j, p);
  }

  lemma BadEffect(m: ProbMap, j: nat, p: real)
    requires Distribution(m) && |m| >= 2 && j < |m| && 0.0 < p < 1.0
    ensures Adjust(m, m[j].key, p, false).Ok?
    ensures 0.0 < Adjust(m, m[j].key, p, false).value[j].value == BadTarget(m[j].value, p) < m[j].value
  {
    var P := m[j].value;
    assert P > 0.0;
    EntryBelowSum(m, j);
    TargetBounds(P, p);
    BadRule(m, j, p, 0.0);
  }

  /**
   * What feedback does at its two maps: `good` raises the probability that
   * the source is followed by the destination, and that the chain starts at
   * the source, each to GoodTarget of the old value; `bad` lowers both to
   * BadTarget, above 0; no other link changes. (On two or more elements every
   * probability is below 1.)
   */
  lemma FeedbackEffect(first: ProbMap, links: seq<Pair<ProbMap>>, s: int, d: int, p: real, good: bool)
    requires WiredMaps(first, links) && |links| >= 2 && 0.0 < p < 1.0
    requires s in KeySet(links) && d in KeySet(links)
    ensures var i := IndexOf(links, s).value;
      var j := IndexOf(links, d).value;
      var l := Adjust(links[i].value, d, p, good);
      var f := Adjust(first, s, p, good);
      l.Ok? && f.Ok? &&
      ChainFeedback(first, links, Some(s), Some(d), p, good) == (None, f.value, links[i := Pair(s, l.value)]) &&
      (good ==> l.value[j].value == GoodTarget(links[i].value[j].value, p) > links[i].value[j].value) &&
      (good ==> f.value[i].value == GoodTarget(first[i].value, p) > first[i].value) &&
      (!good ==> 0.0 < l.value[j].value == BadTarget(links[i].value[j].value, p) < links[i].value[j].value) &&
      (!good ==> 0.0 < f.value[i].value == BadTarget(first[i].value, p) < first[i].value)
  {
    var i := IndexOf(links, s).value;
    var j := IndexOf(links, d).value;
    var m := links[i].value;
    assert Keys(m)[j] == d && Keys(first)[i] == s;
    AdjustEffect(m, j, p, good);
    AdjustEffect(first, i, p, good);
  }

  /** Keys fix positions in an ordered list: lookups agree on lists with the same keys. */
  lemma IndexOfSameKeys<V, W>(a: seq<Pair<V>>, b: seq<Pair<W>>, k: int)
    requires Keys(a) == Keys(b) && Ordered(b)
    ensures IndexOf(a, k) == IndexOf(b, k)
  {
    SameKeySet(a, b);
    if IndexOf(a, k).Some? {
      var i := IndexOf(a, k).value;
      assert Keys(b)[i] == k;
    }
  }

  /** The ProbFuns a list of links holds. */
  function LinkSet(links: seq<Pair<ProbFun>>): set<ProbFun> {
    set i | 0 <= i < |links| :: links[i].value
  }

  /** The maps the links hold now, as values. */
  ghost function Maps(links: seq<Pair<ProbFun>>): (r: seq<Pair<ProbMap>>)
    reads LinkSet(links)
    ensures |r| == |links| && Keys(r) == Keys(links)
    ensures forall i :: 0 <= i < |links| ==> r[i] == Pair(links[i].key, links[i].value.chain)
  {
    seq(|links|, i reads LinkSet(links) requires 0 <= i < |links| => Pair(links[i].key, links[i].value.chain))
  }

  /** No link is the first link, and no two links are the same object. */
  predicate Separate(first: ProbFun, links: seq<Pair<ProbFun>>) {
    (forall i :: 0 <= i < |links| ==> links[i].value != first) &&
    (forall i, j :: 0 <= i < j < |links| ==> links[i].value != links[j].value)
  }

  /** A first link and separate links whose maps are wired. */
  ghost predicate Wired(first: ProbFun, links: seq<Pair<ProbFun>>)
    reads first, LinkSet(links)
  {
    Separate(first, links) && WiredMaps(first.chain, Maps(links))
  }

  /** A fresh ProbFun per link, holding the same map: the loop of both copy constructors. */
  method CopyLinks(links: seq<Pair<ProbFun>>) returns (cs: seq<Pair<ProbFun>>)
    requires forall i :: 0 <= i < |links| ==> links[i].value.Valid()
    ensures fresh(LinkSet(cs)) && Maps(cs) == Maps(links)
    ensures forall i, j :: 0 <= i < j < |cs| ==> cs[i].value != cs[j].value
  {
    cs := [];
    var i := 0;
    while i < |links|
      invariant 0 <= i <= |links| && |cs| == i
      invariant forall k :: 0 <= k < i ==> fresh(cs[k].value) && cs[k] == Pair(links[k].key, cs[k].value)
      invariant forall k :: 0 <= k < i ==> cs[k].value.chain == links[k].value.chain
      invariant forall k, j :: 0 <= k < j < i ==> cs[k].value != cs[j].value
    {
      var c := links[i].value.Clone();
      cs := cs + [Pair(links[i].key, c)];
      i := i + 1;
    }
  }

  /** `fun()` of both classes past the cursor update: sample the map the cursors name. */
  method DrawFrom(first: ProbFun, links: seq<Pair<ProbFun>>, c: Cursors, rnd: real) returns (e: Option<int>)
    requires WiredMaps(first.chain, Maps(links)) && InKeys(c, links) && 0.0 <= rnd < 1.0
    ensures e == Drawn(first.chain, Maps(links), c, rnd)
  {
    var d := NextDraw(c);
    if d.First? {
      e := first.Fun(rnd);
    } else {
      IndexOfSameKeys(links, Maps(links), d.key);
      var k := IndexOf(links, d.key).value;
      e := links[k].value.Fun(rnd);
    }
  }

  /** `good` or `bad` on one ProbFun, the exception as a result. */
  method AdjustFun(f: ProbFun, e: int, p: real, good: bool) returns (err: Option<Exception>)
    requires f.Valid()
    modifies f
    ensures f.Valid()
    ensures err.Some? <==> Adjust(old(f.chain), e, p, good).Fail?
    ensures err.Some? ==> err.value == Adjust(old(f.chain), e, p, good).error && f.chain == old(f.chain)
    ensures err.None? ==> f.chain == Adjust(old(f.chain), e, p, good).value
  {
    var r;
    if good {
      r := f.Good(e, p);
    } else {
      r := f.Bad(e, p);
    }
    err := if r.Fail? then Some(r.error) else None;
  }

  /** `good` or `bad` on the first link, which no link is: the links keep their maps. */
  method AdjustFirst(first: ProbFun, links: seq<Pair<ProbFun>>, e: int, p: real, good: bool) returns (err: Option<Exception>)
    requires first.Valid() && first !in LinkSet(links)
    modifies first
    ensures first.Valid() && Maps(links) == old(Maps(links))
    ensures err.Some? <==> Adjust(old(first.chain), e, p, good).Fail?
    ensures err.Some? ==> err.value == Adjust(old(first.chain), e, p, good).error && first.chain == old(first.chain)
    ensures err.None? ==> first.chain == Adjust(old(first.chain), e, p, good).value
  {
    err := AdjustFun(first, e, p, good);
  }

  /** `good` or `bad` on link `k`: only that link's map changes. */
  method AdjustLink(links: seq<Pair<ProbFun>>, k: nat, e: int, p: real, good: bool) returns (err: Option<Exception>)
    requires k < |links| && links[k].value.Valid()
    requires forall i :: 0 <= i < |links| && i != k ==> links[i].value != links[k].value
    modifies links[k].value
    ensures links[k].value.Valid()
    ensures err.Some? <==> Adjust(old(links[k].value.chain), e, p, good).Fail?
    ensures err.Some? ==> err.value == Adjust(old(links[k].value.chain), e, p, good).error && Maps(links) == old(Maps(links))
    ensures err.None? ==> Maps(links) == old(Maps(links))[k := Pair(links[k].key, Adjust(old(links[k].value.chain), e, p, good).value)]
  {
    ghost var m0 := Maps(links);
    err := AdjustFun(links[k].value, e, p, good);
    if err.Some? {
      assert Maps(links) == m0;
    } else {
      assert Maps(links) == m0[k := Pair(links[k].key, links[k].value.chain)];
    }
  }

  /**
   * The body of MarkovChain's `good`/`bad` past the null and percent checks,
   * with a source: its link at the destination, then the first link at it.
   */
  method LinkThenFirst(first: ProbFun, links: seq<Pair<ProbFun>>, src: int, d: int, p: real, good: bool)
    returns (err: Option<Exception>)
    requires Wired(first, links) && 0.0 < p < 1.0
    modifies {first} + LinkSet(links)
    ensures Wired(first, links)
    ensures (err, first.chain, Maps(links)) ==
      ChainFeedback(old(first.chain), old(Maps(links)), Some(src), Some(d), p, good)
  {
    ghost var m0 := Maps(links);
    ghost var f0 := first.chain;
    SameKeySet(links, m0);
    SameKeySet(f0, m0);
    IndexOfSameKeys(links, m0, src);
    var k := IndexOf(links, src);
    ChainSteps(f0, m0, src, d, p, good, k);
    if k.None? {
      return Some(NullPointer);
    }
    err := AdjustLink(links, k.value, d, p, good);
    if err.Some? {
      return;
    }
    err := AdjustFirst(first, links, src, p, good);
  }

  /** ChainFeedback with a source and a percent in (0, 1), branch by branch. */
  lemma ChainSteps(first: ProbMap, links: seq<Pair<ProbMap>>, s: int, d: int, p: real, good: bool, k: Option<nat>)
    requires WiredMaps(first, links) && 0.0 < p < 1.0 && k == IndexOf(links, s)
    ensures k.None? ==> ChainFeedback(first, links, Some(s), Some(d), p, good) == (Some(NullPointer), first, links)
    ensures k.Some? ==> k.value < |links| && links[k.value].key == s
    ensures k.Some? && Adjust(links[k.value].value, d, p, good).Fail? ==>
      ChainFeedback(first, links, Some(s), Some(d), p, good) == (Some(Adjust(links[k.value].value, d, p, good).error), first, links)
    ensures k.Some? && Adjust(links[k.value].value, d, p, good).Ok? ==>
      Adjust(first, s, p, good).Ok? &&
      ChainFeedback(first, links, Some(s), Some(d), p, good) ==
        (None, Adjust(first, s, p, good).value, links[k.value := Pair(s, Adjust(links[k.value].value, d, p, good).value)])
  {
    SameKeySet(first, links);
    var cf := ChainFeedback(first, links, Some(s), Some(d), p, good);
    if k.Some? {
      var i := k.value;
      assert s in KeySet(links);
      var l := Adjust(links[i].value, d, p, good);
      var f := Adjust(first, s, p, good);
      if l.Ok? {
        assert cf == (None, f.value, links[i := Pair(s, l.value)]);
      } else {
        assert cf == (Some(l.error), first, links);
      }
    }
  }

  /** NestedFeedback with a source and a percent in (0, 1), branch by branch. */
  lemma NestedSteps(first: ProbMap, links: seq<Pair<ProbMap>>, s: int, d: int, p: real, good: bool)
    requires WiredMaps(first, links) && 0.0 < p < 1.0
    ensures Adjust(first, s, p, good).Fail? ==>
      NestedFeedback(first, links, Some(s), Some(d), p, good) == (Some(Adjust(first, s, p, good).error), first, links)
    ensures Adjust(first, s, p, good).Ok? ==> IndexOf(links, s).Some? && IndexOf(links, s).value < |links| && links[IndexOf(links, s).value].key == s
    ensures Adjust(first, s, p, good).Ok? ==>
      var k := IndexOf(links, s).value;
      var l := Adjust(links[k].value, d, p, good);
      NestedFeedback(first, links, Some(s), Some(d), p, good) ==
        if l.Fail? then (Some(l.error), Adjust(first, s, p, good).value, links)
        else (None, Adjust(first, s, p, good).value, links[k := Pair(s, l.value)])
  {
    SameKeySet(first, links);
    var nf := NestedFeedback(first, links, Some(s), Some(d), p, good);
    var f := Adjust(first, s, p, good);
    if f.Ok? {
      assert s in KeySet(links);
      var k := IndexOf(links, s).value;
      var l := Adjust(links[k].value, d, p, good);
      if l.Ok? {
        assert nf == (None, f.value, links[k := Pair(s, l.value)]);
      } else {
        assert nf == (Some(l.error), f.value, links);
      }
    } else {
      assert nf == (Some(f.error), first, links);
    }
  }

  /**
   * The body of NestedProbFun's `good`/`bad` past the null and percent
   * checks, with a source: the first link at it, then its link at the
   * destination.
   */
  method FirstThenLink(first: ProbFun, links: seq<Pair<ProbFun>>, src: int, d: int, p: real, good: bool)
    returns (err: Option<Exception>)
    requires Wired(first, links) && 0.0 < p < 1.0
    modifies {first} + LinkSet(links)
    ensures Wired(first, links)
    ensures (err, first.chain, Maps(links)) ==
      NestedFeedback(old(first.chain), old(Maps(links)), Some(src), Some(d), p, good)
  {
    ghost var m0 := Maps(links);
    ghost var f0 := first.chain;
    SameKeySet(links, m0);
    SameKeySet(f0, m0);
    NestedSteps(f0, m0, src, d, p, good);
    err := AdjustFirst(first, links, src, p, good);
    if err.Some? {
      return;
    }
    IndexOfSameKeys(links, m0, src);
    var k := IndexOf(links, src).value;
    err := AdjustLink(links, k, d, p, good);
  }

  /** A first link and separate links that all hold the same distribution over the links' keys are wired. */
  lemma SameMapWired(first: ProbFun, links: seq<Pair<ProbFun>>, m: ProbMap)
    requires Separate(first, links) && Distribution(m) && Keys(m) == Keys(links)
    requires first.chain == m && forall i :: 0 <= i < |links| ==> links[i].value.chain == m
    ensures Wired(first, links)
  {
    forall i, j | 0 <= i < j < |links| ensures links[i].key < links[j].key {
      assert Keys(links)[i] == Keys(m)[i] && Keys(links)[j] == Keys(m)[j];
    }
  }

  /** The loop of MarkovChain's constructor: a uniform ProbFun of its own per element. */
  method UniformLinks(choices: seq<int>) returns (cs: seq<Pair<ProbFun>>)
    requires Increasing(choices) && |choices| >= 2
    ensures fresh(LinkSet(cs)) && Keys(cs) == choices
    ensures forall i :: 0 <= i < |cs| ==> cs[i].value.chain == Uniform(choices)
    ensures forall i, j :: 0 <= i < j < |cs| ==> cs[i].value != cs[j].value
  {
    cs := [];
    var i := 0;
    while i < |choices|
      invariant 0 <= i <= |choices| && |cs| == i
      invariant forall k :: 0 <= k < i ==> fresh(cs[k].value) && cs[k].key == choices[k]
      invariant forall k :: 0 <= k < i ==> cs[k].value.chain == Uniform(choices)
      invariant forall k, j :: 0 <= k < j < i ==> cs[k].value != cs[j].value
    {
      var l := new MapProbFun.ProbFun(choices);
      cs := cs + [Pair(choices[i], l)];
      i := i + 1;
    }
    assert Keys(cs) == choices;
  }

  /** The loop of NestedProbFun's constructor: a copy of `pf` of its own per key. */
  method ClonedLinks(pf: ProbFun) returns (cs: seq<Pair<ProbFun>>)
    requires pf.Valid()
    ensures fresh(LinkSet(cs)) && Keys(cs) == Keys(pf.chain)
    ensures forall i :: 0 <= i < |cs| ==> cs[i].value.chain == pf.chain
    ensures forall i, j :: 0 <= i < j < |cs| ==> cs[i].value != cs[j].value
  {
    var ks := Keys(pf.chain);
    cs := [];
    var i := 0;
    while i < |ks|
      invariant 0 <= i <= |ks| && |cs| == i
      invariant forall k :: 0 <= k < i ==> fresh(cs[k].value) && cs[k].key == ks[k]
      invariant forall k :: 0 <= k < i ==> cs[k].value.chain == pf.chain
      invariant forall k, j :: 0 <= k < j < i ==> cs[k].value != cs[j].value
    {
      var l := pf.Clone();
      cs := cs + [Pair(ks[i], l)];
      i := i + 1;
    }
    assert Keys(cs) == ks;
  }

  /** What both copy constructors do to the ProbFuns: a fresh copy of each, wired as before. */
  method CopyWired(first: ProbFun, links: seq<Pair<ProbFun>>) returns (f: ProbFun, cs: seq<Pair<ProbFun>>)
    requires Wired(first, links)
    ensures fresh(f) && fresh(LinkSet(cs)) && Wired(f, cs)
    ensures f.chain == first.chain && Maps(cs) == Maps(links) && Keys(cs) == Keys(links)
  {
    ghost var fm := first.chain;
    ghost var om := Maps(links);
    forall i | 0 <= i < |links| ensures links[i].value.Valid() {
      assert om[i].value == links[i].value.chain;
    }
    f := first.Clone();
    cs := CopyLinks(links);
    assert Maps(cs) == om && f.chain == fm;
    assert forall i :: 0 <= i < |cs| ==> cs[i].value in LinkSet(cs);
    assert Separate(f, cs);
  }

  /** GenerativeMarkovChain/src/markov/MarkovChain.java. */
  class MarkovChain {
    var firstLink: ProbFun
    var chain: seq<Pair<ProbFun>>
    var previousSource: Option<int>
    var previousDestination: Option<int>
    ghost var Repr: set<object>

    function State(): Cursors
      reads this
    {
      Cursors(previousSource, previousDestination)
    }

    ghost predicate Valid()
      reads this, Repr
    {
      Repr == {firstLink} + LinkSet(chain) && |chain| >= 2 && Wired(firstLink, chain) &&
      Reachable(State()) && InKeys(State(), chain)
    }

    /**
     * `MarkovChain(set)` past its checks: a uniform first link, and one
     * uniform link of its own per element; both cursors null.
     */
    constructor (choices: seq<int>)
      requires Increasing(choices) && |choices| >= 2
      ensures Valid() && fresh(Repr)
      ensures Keys(chain) == choices && firstLink.chain == Uniform(choices)
      ensures forall i :: 0 <= i < |chain| ==> chain[i].value.chain == Uniform(choices)
      ensures State() == Cursors(None, None)
    {
      var f := new MapProbFun.ProbFun(choices);
      var cs := UniformLinks(choices);
      firstLink, chain := f, cs;
      previousSource, previousDestination := None, None;
      Repr := {f} + LinkSet(cs);
      new;
      assert forall i :: 0 <= i < |cs| ==> cs[i].value in LinkSet(cs);
      assert Separate(f, cs);
      SameMapWired(f, cs, Uniform(choices));
    }

    /** The private copy constructor behind `clone()`: every ProbFun copied, the cursors left null. */
    constructor Copy(other: MarkovChain)
      requires other.Valid()
      ensures Valid() && fresh(Repr)
      ensures firstLink.chain == other.firstLink.chain && Maps(chain) == Maps(other.chain)
      ensures Keys(chain) == Keys(other.chain) && State() == Cursors(None, None)
    {
      var f, cs := CopyWired(other.firstLink, other.chain);
      firstLink, chain := f, cs;
      previousSource, previousDestination := None, None;
      Repr := {f} + LinkSet(cs);
    }

    /**
     * `good`/`bad(sourceElement, destinationElement, percent)`, `good`
     * choosing which: what ChainFeedback computes, the cursors untouched.
     */
    method Feedback(src: Option<int>, dst: Option<int>, p: real, good: bool) returns (err: Option<Exception>)
      requires Valid()
      modifies Repr
      ensures Valid() && Repr == old(Repr)
      ensures (err, firstLink.chain, Maps(chain)) ==
        ChainFeedback(old(firstLink.chain), old(Maps(chain)), src, dst, p, good)
    {
      ghost var m0 := Maps(chain);
      SameKeySet(chain, m0);
      SameKeySet(firstLink.chain, m0);
      if dst.None? {
        return Some(NullPointer);
      }
      if p >= 1.0 || p <= 0.0 {
        return Some(IllegalArgument);
      }
      if src.None? {
        err := AdjustFirst(firstLink, chain, dst.value, p, good);
        return;
      }
      err := LinkThenFirst(firstLink, chain, src.value, dst.value, p, good);
    }

    /**
     * `fun()` for the draw `rnd`: the element Drawn names, with the cursors
     * moved as Advance says.
     */
    method Fun(rnd: real) returns (e: Option<int>)
      requires Valid() && 0.0 <= rnd < 1.0
      modifies this
      ensures Valid() && Repr == old(Repr) && firstLink == old(firstLink) && chain == old(chain)
      ensures e == Drawn(old(firstLink.chain), old(Maps(chain)), old(State()), rnd)
      ensures State() == Advance(old(State()), e)
    {
      SameKeySet(chain, Maps(chain));
      var c0 := State();
      e := DrawFrom(firstLink, chain, c0, rnd);
      assert e.Some? ==> e.value in KeySet(chain);
      var s, d := previousSource, previousDestination;
      if s.None? {
        s := e;
      } else if d.None? {
        d := e;
      } else {
        s, d := d, e;
      }
      assert Cursors(s, d) == Advance(c0, e);
      previousSource, previousDestination := s, d;
    }

    /** `clone()`: a chain that shares no ProbFun with this one. */
    method Clone() returns (c: MarkovChain)
      requires Valid()
      ensures fresh(c) && fresh(c.Repr) && c.Valid()
      ensures c.firstLink.chain == firstLink.chain && Maps(c.chain) == Maps(chain)
      ensures Keys(c.chain) == Keys(chain) && c.State() == Cursors(None, None)
    {
      c := new MarkovChain.Copy(this);
    }
  }

  /** `MarkovChain(set)` with its IllegalArgumentException as a result. */
  method NewMarkovChain(choices: seq<int>) returns (r: Result<MarkovChain>)
    requires Increasing(choices)
    ensures r.Fail? <==> |choices| < 2
    ensures r.Fail? ==> r.error == IllegalArgument
    ensures r.Ok? ==> fresh(r.value) && fresh(r.value.Repr) && r.value.Valid() && Keys(r.value.chain) == choices
  {
    if |choices| < 2 {
      return Fail(IllegalArgument);
    }
    var c := new MarkovChain(choices);
    r := Ok(c);
  }

  /** GenerativeMarkovChain/src/markov/NestedProbFun.java. */
  class NestedProbFun {
    var firstLink: ProbFun
    var chain2: seq<Pair<ProbFun>>
    var previousSource: Option<int>
    var previousDestination: Option<int>
    ghost var Repr: set<object>

    function State(): Cursors
      reads this
    {
      Cursors(previousSource, previousDestination)
    }

    ghost predicate Valid()
      reads this, Repr
    {
      Repr == {firstLink} + LinkSet(chain2) && Wired(firstLink, chain2) &&
      Reachable(State()) && InKeys(State(), chain2)
    }

    /**
     * `NestedProbFun(probFun)`: the first link and one link per key of
     * `probFun`, each a separate copy of it.
     */
    constructor (pf: ProbFun)
      requires pf.Valid()
      ensures Valid() && fresh(Repr)
      ensures firstLink.chain == pf.chain && Keys(chain2) == Keys(pf.chain)
      ensures forall i :: 0 <= i < |chain2| ==> chain2[i].value.chain == pf.chain
      ensures State() == Cursors(None, None)
    {
      var f := pf.Clone();
      var cs := ClonedLinks(pf);
      firstLink, chain2 := f, cs;
      previousSource, previousDestination := None, None;
      Repr := {f} + LinkSet(cs);
      new;
      assert forall i :: 0 <= i < |cs| ==> cs[i].value in LinkSet(cs);
      assert Separate(f, cs);
      SameMapWired(f, cs, pf.chain);
    }

    /** The private copy constructor behind `clone()`. */
    constructor Copy(other: NestedProbFun)
      requires other.Valid()
      ensures Valid() && fresh(Repr)
      ensures firstLink.chain == other.firstLink.chain && Maps(chain2) == Maps(other.chain2)
      ensures Keys(chain2) == Keys(other.chain2) && State() == Cursors(None, None)
    {
      var f, cs := CopyWired(other.firstLink, other.chain2);
      firstLink, chain2 := f, cs;
      previousSource, previousDestination := None, None;
      Repr := {f} + LinkSet(cs);
    }

    /** `good`/`bad(sourceElement, destinationElement, percent)`: what NestedFeedback computes. */
    method Feedback(src: Option<int>, dst: Option<int>, p: real, good: bool) returns (err: Option<Exception>)
      requires Valid()
      modifies Repr
      ensures Valid() && Repr == old(Repr)
      ensures (err, firstLink.chain, Maps(chain2)) ==
        NestedFeedback(old(firstLink.chain), old(Maps(chain2)), src, dst, p, good)
    {
      ghost var m0 := Maps(chain2);
      SameKeySet(chain2, m0);
      SameKeySet(firstLink.chain, m0);
      if dst.None? {
        return Some(NullPointer);
      }
      if p >= 1.0 || p <= 0.0 {
        return Some(IllegalArgument);
      }
      if src.None? {
        err := AdjustFirst(firstLink, chain2, dst.value, p, good);
        return;
      }
      err := FirstThenLink(firstLink, chain2, src.value, dst.value, p, good);
    }

    /** `fun()` for the draw `rnd`: the same cursor machine as MarkovChain's. */
    method Fun(rnd: real) returns (e: Option<int>)
      requires Valid() && 0.0 <= rnd < 1.0
      modifies this
      ensures Valid() && Repr == old(Repr) && firstLink == old(firstLink) && chain2 == old(chain2)
      ensures e == Drawn(old(firstLink.chain), old(Maps(chain2)), old(State()), rnd)
      ensures State() == Advance(old(State()), e)
    {
      SameKeySet(chain2, Maps(chain2));
      var c0 := State();
      e := DrawFrom(firstLink, chain2, c0, rnd);
      assert e.Some? ==> e.value in KeySet(chain2);
      var s, d := previousSource, previousDestination;
      if s.None? {
        s := e;
      } else {
        if d.Some? {
          s := d;
        }
        d := e;
      }
      assert Cursors(s, d) == Advance(c0, e);
      previousSource, previousDestination := s, d;
    }

    /** `clone()`: nothing shared with this one. */
    method Clone() returns (c: NestedProbFun)
      requires Valid()
      ensures fresh(c) && fresh(c.Repr) && c.Valid()
      ensures c.firstLink.chain == firstLink.chain && Maps(c.chain2) == Maps(chain2)
      ensures Keys(c.chain2) == Keys(chain2) && c.State() == Cursors(None, None)
    {
      c := new NestedProbFun.Copy(this);
    }
  }
}

=== FILE: markov_prob_fun_tree.dfy ===
/**
 * The object of GenerativeMarkovChain/src/markov/ProbFunTree.java: the
 * fields of the root node, with the counter `layers`, updated in place by
 * its public methods. Every node below the root is held as a value with at
 * least two entries, and each method replaces the root's fields by what the
 * corresponding function of module MarkovTree (or TreeNodes where the code
 * is shared) computes. The invariant `Valid` includes `Counted`, on which
 * `addToAll` cannot fail.
 */
module MarkovProbFunTree {
  import opened Wrappers
  import opened Assoc
  import opened ProbMaps
  import TreeNodes
  import CountdownTree
  import LayerTree
  import MarkovTree

  type Node = TreeNodes.Node

  class ProbFunTree {
    var probMap: ProbMap
    var children: seq<Pair<Node>>
    var parent: TreeNodes.Link
    var previousElement: Option<int>
    var layers: int

    /** The tree rooted at this object, as a value. */
    function Root(): Node
      reads this
    {
      TreeNodes.Node(probMap, children, parent, previousElement, layers)
    }

    ghost predicate Valid()
      reads this
    {
      TreeNodes.WellFormed(Root(), 2) && CountdownTree.Counted(Root())
    }

    /** Overwrites every field of the root with those of `t`. */
    method Store(t: Node)
      modifies this
      ensures Root() == t
    {
      probMap, children, parent, previousElement, layers := t.probs, t.children, t.parent, t.previous, t.depth;
    }

    /** `ProbFunTree(choices, layers)`: the complete tree counting down from `layers`. */
    constructor (choices: seq<int>, layers: int)
      requires Increasing(choices) && |choices| >= 2 && layers >= 1
      ensures Valid() && Root() == MarkovTree.Build(choices, layers).value
    {
      var t := MarkovTree.Build(choices, layers).value;
      probMap, children, parent, previousElement, this.layers := t.probs, t.children, t.parent, t.previous, t.depth;
    }

    /** `clearProbs()`: every map of the tree becomes uniform over its keys. */
    method ClearProbs()
      requires Valid()
      modifies this
      ensures Valid() && Root() == TreeNodes.ClearAllProbs(old(Root()), 2)
    {
      var t := TreeNodes.ClearAllProbs(Root(), 2);
      CountdownTree.CountedSameExceptProbs(t, Root());
      Store(t);
    }

    /** `addToAll(element)`: never fails on a tree whose counters are kept. */
    method AddToAll(e: int)
      requires Valid()
      modifies this
      ensures Valid()
      ensures MarkovTree.AddToAll(old(Root()), e, None).Ok?
      ensures Root() == MarkovTree.AddToAll(old(Root()), e, None).value
    {
      Store(MarkovTree.AddToAll(Root(), e, None).value);
    }

    /** `addToAll(element, percent)`: refused before any change for a percent outside (0, 1). */
    method AddToAllWithPercent(e: int, p: real) returns (err: Option<Exception>)
      requires Valid()
      modifies this
      ensures Valid()
      ensures err.Some? <==> p <= 0.0 || p >= 1.0
      ensures err.Some? ==> err.value == IllegalArgument && Root() == old(Root())
      ensures err.None? ==> Root() == MarkovTree.AddToAll(old(Root()), e, Some(p)).value
    {
      var r := MarkovTree.AddToAll(Root(), e, Some(p));
      if r.Fail? {
        return Some(r.error);
      }
      Store(r.value);
      err := None;
    }

    /** `removeFromAll(element)`: the element leaves every node holding more than two. */
    method RemoveFromAll(e: int)
      requires Valid()
      modifies this
      ensures Valid() && Root() == TreeNodes.RemoveFromAll(old(Root()), e, 2)
    {
      var t := TreeNodes.RemoveFromAll(Root(), e, 2);
      CountdownTree.CountedRemoveFromAll(Root(), e, 2);
      Store(t);
    }

    /** `purgeAll()`. */
    method PurgeAll()
      requires Valid()
      modifies this
      ensures Valid() && Root() == MarkovTree.PurgeAll(old(Root()))
    {
      var t := MarkovTree.PurgeAll(Root());
      CountdownTree.CountedShrunk(t, Root());
      Store(t);
    }

    /** `purgeAll(percent)`: refused before any change for a percent outside (0, 1). */
    method PurgeAllWithPercent(p: real) returns (err: Option<Exception>)
      requires Valid()
      modifies this
      ensures Valid()
      ensures err.Some? <==> p <= 0.0 || p >= 1.0
      ensures err.Some? ==> err.value == IllegalArgument && Root() == old(Root())
      ensures err.None? ==> Root() == MarkovTree.PurgeAllPercent(old(Root()), p).value
    {
      var r := MarkovTree.PurgeAllPercent(Root(), p);
      if r.Fail? {
        return Some(r.error);
      }
      CountdownTree.CountedShrunk(r.value, Root());
      Store(r.value);
      err := None;
    }

    /** `good(elements, percent)`: the list reinforced along the path it names. */
    method GoodPath(es: seq<int>, p: real) returns (err: Option<Exception>)
      requires Valid()
      modifies this
      ensures Valid()
      ensures err.None? <==> 0.0 < p < 1.0 && TreeNodes.PathOk(old(Root()), es)
      ensures (Root(), err) == TreeNodes.Reinforce(old(Root()), es, p, true, 0.0, 2)
    {
      var r := TreeNodes.Reinforce(Root(), es, p, true, 0.0, 2);
      CountdownTree.CountedSameExceptProbs(r.0, Root());
      Store(r.0);
      err := r.1;
    }

    /** `bad(elements, percent)`. */
    method BadPath(es: seq<int>, p: real) returns (err: Option<Exception>)
      requires Valid()
      modifies this
      ensures Valid()
      ensures err.None? <==> 0.0 < p < 1.0 && TreeNodes.PathOk(old(Root()), es)
      ensures (Root(), err) == TreeNodes.Reinforce(old(Root()), es, p, false, 0.0, 2)
    {
      var r := TreeNodes.Reinforce(Root(), es, p, false, 0.0, 2);
      CountdownTree.CountedSameExceptProbs(r.0, Root());
      Store(r.0);
      err := r.1;
    }

    /**
     * `fun()` for the draw `rnd`: the cursors move up only when the chain
     * below holds exactly `layers - 1` of them.
     */
    method Fun(rnd: real) returns (r: Result<Option<int>>)
      requires Valid() && 0.0 <= rnd < 1.0
      modifies this
      ensures Valid()
      ensures (Root(), r) == TreeNodes.Fun(old(Root()), rnd, true, 2)
    {
      var f := TreeNodes.Fun(Root(), rnd, true, 2);
      CountdownTree.CountedSameExceptHistory(f.0, Root());
      Store(f.0);
      r := f.1;
    }

    /** `parentSize()`: at least two on every tree the class builds. */
    method ParentSize() returns (n: nat)
      requires Valid()
      ensures n == |probMap| && n >= 2
    {
      n := |probMap|;
    }

    /** `size()`: the root's entries plus the sizes of the children, summed in a loop. */
    method Size() returns (n: nat)
      ensures n == TreeNodes.Size(Root())
    {
      n := |probMap|;
      var i := 0;
      while i < |children|
        invariant 0 <= i <= |children|
        invariant n + TreeNodes.SizeFrom(Root(), i) == TreeNodes.Size(Root())
      {
        n := n + TreeNodes.Size(children[i].value);
        i := i + 1;
      }
    }

    /**
     * `clone()`, with the counters copied as well (the copy constructor as
     * written leaves them at 0; see `MarkovTree.CloneLosesLayers`).
     */
    method Clone() returns (c: ProbFunTree)
      requires Valid()
      ensures fresh(c) && c.Valid()
      ensures c.Root() == LayerTree.CloneLayers(Root())
      ensures TreeNodes.Size(c.Root()) == TreeNodes.Size(Root())
    {
      MarkovTree.CloneLayersKeeps(Root(), 0, None);
      c := new ProbFunTree.FromClone(LayerTree.CloneLayers(Root()));
    }

    /** The private copy constructor behind `clone()`. */
    constructor FromClone(t: Node)
      requires TreeNodes.WellFormed(t, 2) && CountdownTree.Counted(t)
      ensures Valid() && Root() == t
    {
      probMap, children, parent, previousElement, layers := t.probs, t.children, t.parent, t.previous, t.depth;
    }
  }

  /** The factory form of the constructor: the IllegalArgumentException as a result. */
  method New(choices: seq<int>, layers: int) returns (r: Result<ProbFunTree>)
    requires Increasing(choices)
    ensures r.Fail? <==> |choices| < 2 || layers < 1
    ensures r.Fail? ==> r.error == IllegalArgument
    ensures r.Ok? ==> fresh(r.value) && r.value.Valid() && r.value.Root() == MarkovTree.Build(choices, layers).value
  {
    if |choices| < 2 || layers < 1 {
      return Fail(IllegalArgument);
    }
    var t := new ProbFunTree(choices, layers);
    r := Ok(t);
  }
}

=== FILE: nested_clone.dfy ===
/**
 * `clone()` of GenerativeMarkovChain/src/markov/NestedMarkovNode.java, on
 * the values the node holds. The copies `clone()` allocates are given as a
 * renaming from each node to its copy. As written, the private copy
 * constructor clones the first chain's nodes, the keys of every level and
 * the targets of every level each on its own, so the copy's level keys are
 * objects its walk never reaches. The corrected clone sends every node to
 * one copy and is walked and reinforced exactly as the original.
 */
module NestedClone {
  import opened Wrappers
  import opened Assoc
  import opened NestedLevels
  import opened NestedRenaming
  import opened NestedNodes

  /** Every copy holds the map its original holds. */
  ghost predicate Faithful(cp: Renaming)
    reads cp.Keys, cp.Values
  {
    forall u :: u in cp ==> cp[u].chain == u.chain
  }

  /** The nodes of a chain, all renamed. */
  predicate ChainIn(firstLink: ProbFun, firstChain: seq<Pair<ProbFun>>, levels: seq<Level>, cp: Renaming) {
    firstLink in cp && MapIn(firstChain, cp) && LevelsIn(levels, cp)
  }

  /** The nodes of the chain the corrected clone holds. */
  lemma AllNodesRenamed(f: ProbFun, fc: seq<Pair<ProbFun>>, levels: seq<Level>, cp: Renaming)
    requires ChainIn(f, fc, levels, cp)
    ensures AllNodes(cp[f], RenameMap(fc, cp), RenameLevels(levels, cp)) == Image(AllNodes(f, fc, levels), cp)
  {
    TargetsRenamed(fc, cp);
    LevelNodesRenamed(levels, cp);
    ImageUnion({f} + Targets(fc), LevelNodes(levels), cp);
    ImageUnion({f}, Targets(fc), cp);
  }

  /**
   * The corrected clone of a built chain is built: shaped, the identities
   * kept apart, every copy a distribution over the same elements, each
   * holding the map of its original.
   */
  lemma CloneBuilt(f: ProbFun, fc: seq<Pair<ProbFun>>, levels: seq<Level>, cp: Renaming)
    requires Built(f, fc, levels) && ChainIn(f, fc, levels, cp) && Injective(cp) && Faithful(cp)
    ensures Keys(RenameMap(fc, cp)) == Keys(fc)
    ensures Built(cp[f], RenameMap(fc, cp), RenameLevels(levels, cp))
    ensures HeldBy(AllNodes(cp[f], RenameMap(fc, cp), RenameLevels(levels, cp)), AllNodes(f, fc, levels))
  {
    ShapedRenamed(fc, levels, cp);
    ApartRenamed(fc, levels, cp);
    RenameMapKeys(fc, cp);
    AllNodesRenamed(f, fc, levels, cp);
    var all := AllNodes(f, fc, levels);
    forall g | g in Image(all, cp) ensures g.Valid() && Keys(g.chain) == Keys(fc) && exists u :: u in all && g.chain == u.chain {
      var u :| u in all && u in cp && cp[u] == g;
      assert g.chain == u.chain;
    }
  }

  /** Every step names a renamed node. */
  predicate StepsIn(steps: seq<Step>, cp: Renaming) {
    forall i :: 0 <= i < |steps| ==> steps[i].node in cp
  }

  /** The steps on the copies. */
  function RenameSteps(steps: seq<Step>, cp: Renaming): (r: seq<Step>)
    requires StepsIn(steps, cp)
    ensures |r| == |steps| && forall i :: 0 <= i < |steps| ==> r[i] == Step(cp[steps[i].node], steps[i].element)
  {
    seq(|steps|, i requires 0 <= i < |steps| => Step(cp[steps[i].node], steps[i].element))
  }

  lemma RenameStepsAppend(a: seq<Step>, b: seq<Step>, cp: Renaming)
    requires StepsIn(a, cp) && StepsIn(b, cp)
    ensures StepsIn(a + b, cp) && RenameSteps(a + b, cp) == RenameSteps(a, cp) + RenameSteps(b, cp)
  {
    assert forall i :: 0 <= i < |a + b| ==> (a + b)[i] == if i < |a| then a[i] else b[i - |a|];
  }

  /** A node or null, renamed. */
  function RenameOpt(n: Option<ProbFun>, cp: Renaming): Option<ProbFun>
    requires n.Some? ==> n.value in cp
  {
    if n.Some? then Some(cp[n.value]) else None
  }

  /** The loop from round k - 2, on the original and on the copies, reinforces copies of the same nodes. */
  predicate TrailsAgree(levels: seq<Level>, es: seq<int>, k: nat, n: Option<ProbFun>, cp: Renaming)
    requires LevelsIn(levels, cp) && 2 <= k <= |es| && (n.Some? ==> n.value in cp)
  {
    StepsIn(Trail(levels, es, k, n).0, cp) &&
    Trail(RenameLevels(levels, cp), es, k, RenameOpt(n, cp)) == (RenameSteps(Trail(levels, es, k, n).0, cp), Trail(levels, es, k, n).1)
  }

  /**
   * The loop of `good(list)` over renamed levels, from a renamed node,
   * reinforces the copies of the nodes the original loop reinforces, in the
   * same order, and ends with the same exception.
   */
  lemma {:induction false} TrailRenamed(levels: seq<Level>, es: seq<int>, k: nat, n: Option<ProbFun>, cp: Renaming)
    requires LevelsIn(levels, cp) && Injective(cp) && 2 <= k <= |es| && (n.Some? ==> n.value in cp)
    ensures TrailsAgree(levels, es, k, n, cp)
    decreases |es| - k, 1
  {
    if k - 2 < |levels| && Find(levels[k - 2], n).Some? && k < |es| {
      TrailRenamedNext(levels, es, k, n, cp);
    } else {
      TrailRenamedEnd(levels, es, k, n, cp);
    }
  }

  /** The node a renamed level's map sends an element to is renamed. */
  lemma NextIn(l: Level, n: Option<ProbFun>, e: int, cp: Renaming)
    requires LevelIn(l, cp) && Find(l, n).Some?
    ensures var g := Get(Find(l, n).value, e); g.Some? ==> g.value in cp
  {
    var m := Find(l, n).value;
    if Get(m, e).Some? {
      GetRenamed(m, cp, e);
    }
  }

  /** A round that ends the loop ends it the same way on the copies. */
  lemma TrailRenamedEnd(levels: seq<Level>, es: seq<int>, k: nat, n: Option<ProbFun>, cp: Renaming)
    requires LevelsIn(levels, cp) && Injective(cp) && 2 <= k <= |es| && (n.Some? ==> n.value in cp)
    requires !(k - 2 < |levels| && Find(levels[k - 2], n).Some? && k < |es|)
    ensures TrailsAgree(levels, es, k, n, cp)
  {
    assert RenameSteps([], cp) == [];
    if k - 2 < |levels| {
      StepRenamed(levels[k - 2], cp, n, es[k - 1]);
      assert RenameLevels(levels, cp)[k - 2] == RenameLevel(levels[k - 2], cp);
    }
  }

  /** A round that takes its step takes the step on the copy, then the rest of the loop as the original does. */
  lemma {:induction false} TrailRenamedNext(levels: seq<Level>, es: seq<int>, k: nat, n: Option<ProbFun>, cp: Renaming)
    requires LevelsIn(levels, cp) && Injective(cp) && 2 <= k < |es| && (n.Some? ==> n.value in cp)
    requires k - 2 < |levels| && Find(levels[k - 2], n).Some?
    ensures TrailsAgree(levels, es, k, n, cp)
    decreases |es| - k, 0
  {
    var n' := Get(Find(levels[k - 2], n).value, es[k - 1]);
    NextIn(levels[k - 2], n, es[k - 1], cp);
    var rl, rn := RenameLevels(levels, cp), RenameOpt(n, cp);
    var rn' := RenamedNext(levels, n, es[k - 1], k - 2, cp);
    assert rn' == RenameOpt(n', cp);
    var u := Trail(levels, es, k + 1, n');
    var ru := Trail(rl, es, k + 1, rn');
    assert StepsIn(u.0, cp) && ru == (RenameSteps(u.0, cp), u.1) by {
      TrailRenamed(levels, es, k + 1, n', cp);
    }
    var s := StepOf(n', es[k]);
    assert StepsIn(s, cp);
    TrailUnfold(levels, es, k, n);
    TrailUnfold(rl, es, k, rn);
    RenameStepsAppend(s, u.0, cp);
    assert RenameSteps(s, cp) == StepOf(rn', es[k]);
    assert Trail(levels, es, k, n) == (s + u.0, u.1);
    assert Trail(rl, es, k, rn) == (RenameSteps(s + u.0, cp), u.1);
  }

  /** Round k of the loop on the copies finds the map of the copy and sends es[k + 1] to the copy of the original's node. */
  lemma RenamedNext(levels: seq<Level>, n: Option<ProbFun>, e: int, k: nat, cp: Renaming) returns (rn': Option<ProbFun>)
    requires LevelsIn(levels, cp) && Injective(cp) && k < |levels| && (n.Some? ==> n.value in cp)
    requires Find(levels[k], n).Some?
    ensures Find(RenameLevels(levels, cp)[k], RenameOpt(n, cp)).Some?
    ensures var g := Get(Find(levels[k], n).value, e); g.Some? ==> g.value in cp
    ensures rn' == Get(Find(RenameLevels(levels, cp)[k], RenameOpt(n, cp)).value, e)
    ensures rn' == RenameOpt(Get(Find(levels[k], n).value, e), cp)
  {
    StepRenamed(levels[k], cp, n, e);
    assert RenameLevels(levels, cp)[k] == RenameLevel(levels[k], cp);
    rn' := Get(Find(RenameLevels(levels, cp)[k], RenameOpt(n, cp)).value, e);
  }

  /**
   * `good(list)`/`bad(list)` on the corrected clone reinforces, step for
   * step, the copies of the nodes it reinforces on the original, and ends
   * with the same exception.
   */
  lemma PlanRenamed(f: ProbFun, fc: seq<Pair<ProbFun>>, levels: seq<Level>, es: seq<int>, cp: Renaming)
    requires ChainIn(f, fc, levels, cp) && Injective(cp) && |es| >= 1
    ensures StepsIn(Plan(f, fc, levels, es).0, cp)
    ensures Plan(cp[f], RenameMap(fc, cp), RenameLevels(levels, cp), es) ==
      (RenameSteps(Plan(f, fc, levels, es).0, cp), Plan(f, fc, levels, es).1)
  {
    var rfc, rls := RenameMap(fc, cp), RenameLevels(levels, cp);
    assert RenameSteps([Step(f, es[0])], cp) == [Step(cp[f], es[0])];
    if |es| >= 2 {
      GetRenamed(fc, cp, es[0]);
      var n := Get(fc, es[0]);
      assert Get(rfc, es[0]) == RenameOpt(n, cp);
      var head := StepOf(n, es[1]) + [Step(f, es[0])];
      RenameStepsAppend(StepOf(n, es[1]), [Step(f, es[0])], cp);
      assert RenameSteps(StepOf(n, es[1]), cp) == StepOf(RenameOpt(n, cp), es[1]);
      assert RenameSteps(head, cp) == StepOf(Get(rfc, es[0]), es[1]) + [Step(cp[f], es[0])];
      if |es| >= 3 {
        TrailRenamed(levels, es, 2, n, cp);
        assert TrailsAgree(levels, es, 2, n, cp);
        var t := Trail(levels, es, 2, n);
        RenameStepsAppend(head, t.0, cp);
      }
    }
  }

  /**
   * The corrected clone's walk: every history leads to the copy of the node
   * it leads to on the original, and fails where that walk fails.
   */
  lemma CloneFunNode(fc: seq<Pair<ProbFun>>, levels: seq<Level>, h: seq<int>, cp: Renaming)
    requires MapIn(fc, cp) && LevelsIn(levels, cp) && Injective(cp) && |h| >= 1
    ensures var r := PathNode(fc, levels, h); r.Ok? && r.value.Some? ==> r.value.value in cp
    ensures PathNode(RenameMap(fc, cp), RenameLevels(levels, cp), h) == RenameNode(PathNode(fc, levels, h), cp)
  {
    PathAtRenamed(fc, levels, h, |h|, cp);
  }

  /** Every key of a level has a copy in kc, every target one in cp. */
  predicate LevelAsWrittenIn(l: Level, kc: Renaming, cp: Renaming) {
    forall x :: 0 <= x < |l| ==> l[x].node in kc && MapIn(l[x].next, cp)
  }

  /**
   * One level as the copy constructor clones it: each key cloned (kc), and
   * each target of its map cloned (cp), independently of each other.
   */
  function CloneLevelAsWritten(l: Level, kc: Renaming, cp: Renaming): (r: Level)
    requires LevelAsWrittenIn(l, kc, cp)
    ensures |r| == |l| && forall x :: 0 <= x < |l| ==> r[x].node in kc.Values
  {
    seq(|l|, x requires 0 <= x < |l| => Entry(kc[l[x].node], RenameMap(l[x].next, cp)))
  }

  function CloneLevelsAsWritten(levels: seq<Level>, kc: Renaming, cp: Renaming): (r: seq<Level>)
    requires forall k :: 0 <= k < |levels| ==> LevelAsWrittenIn(levels[k], kc, cp)
    ensures |r| == |levels|
  {
    seq(|levels|, k requires 0 <= k < |levels| => CloneLevelAsWritten(levels[k], kc, cp))
  }

  /** Once the walk fails, it fails at every later element. */
  lemma {:induction false} PathAtFails(firstChain: seq<Pair<ProbFun>>, levels: seq<Level>, h: seq<int>, j: nat, k: nat)
    requires 1 <= j <= k <= |h| && PathAt(firstChain, levels, h, j).Fail?
    ensures PathAt(firstChain, levels, h, k) == PathAt(firstChain, levels, h, j)
    decreases k - j
  {
    if j < k {
      PathAtFails(firstChain, levels, h, j + 1, k);
    }
  }

  /**
   * The clone as written loses the walk: on a built chain, the original
   * finds an entry for the first chain's node of h[0] in level 0, but the
   * clone's level 0 is keyed by copies made apart from the clone's first
   * chain, so with the copies of keys and of targets all distinct its walk
   * fails with NullPointerException at the second element, and so does
   * `good(list)`/`bad(list)` with three elements or more, after the first
   * two steps.
   */
  lemma CloneAsWrittenLosesWalk(f: ProbFun, fc: seq<Pair<ProbFun>>, levels: seq<Level>, kc: Renaming, cp: Renaming, h: seq<int>)
    requires Shaped(fc, levels) && MapIn(fc, cp)
    requires forall k :: 0 <= k < |levels| ==> LevelAsWrittenIn(levels[k], kc, cp)
    requires kc.Values !! cp.Values
    requires |h| >= 2 && h[0] in KeySet(fc)
    ensures PathAt(fc, levels, h, 2).Ok?
    ensures PathNode(RenameMap(fc, cp), CloneLevelsAsWritten(levels, kc, cp), h) == Fail(NullPointer)
    ensures |h| >= 3 ==>
      Plan(f, RenameMap(fc, cp), CloneLevelsAsWritten(levels, kc, cp), h).1 == Some(NullPointer) &&
      |Plan(f, RenameMap(fc, cp), CloneLevelsAsWritten(levels, kc, cp), h).0| == 2
  {
    var rfc, rls := RenameMap(fc, cp), CloneLevelsAsWritten(levels, kc, cp);
    GetRenamed(fc, cp, h[0]);
    var n := Get(fc, h[0]).value;
    GetTarget(fc, h[0]);
    assert FindIndex(levels[0], n).Some?;
    assert cp[n] in cp.Values;
    assert rls[0] == CloneLevelAsWritten(levels[0], kc, cp);
    assert FindIndex(rls[0], cp[n]).None?;
    assert PathAt(rfc, rls, h, 2) == Fail(NullPointer);
    PathAtFails(rfc, rls, h, 2, |h|);
  }
}

=== FILE: nested_levels.dfy ===
/**
 * The level maps of GenerativeMarkovChain/src/markov/NestedMarkovNode.java,
 * as values over ProbFun references. Every node the constructors build is a
 * ProbFun, and the maps of `chain2` are keyed by the nodes themselves: a
 * HashMap over objects whose hashCode is their identity, so a lookup finds an
 * entry only for the very same object. The functions here read no ProbFun;
 * they follow references only.
 */
module NestedLevels {
  import opened Wrappers
  import opened Assoc
  import MapProbFun

  type ProbFun = MapProbFun.ProbFun

  /** One entry of a level map: a node, and the node that follows it for each element. */
  datatype Entry = Entry(node: ProbFun, next: seq<Pair<ProbFun>>)

  /** One map of `chain2`. */
  type Level = seq<Entry>

  /** The position of the entry of node `n`, looked up by identity. */
  function FindIndex(level: Level, n: ProbFun): (r: Option<nat>)
    ensures r.Some? ==> r.value < |level| && level[r.value].node == n
    ensures r.None? <==> forall i :: 0 <= i < |level| ==> level[i].node != n
    ensures r.Some? ==> forall i :: 0 <= i < r.value ==> level[i].node != n
  {
    if level == [] then None
    else if level[0].node == n then Some(0)
    else match FindIndex(level[1..], n)
      case None =>
        assert forall i :: 1 <= i < |level| ==> level[i] == level[1..][i - 1];
        None
      case Some(j) =>
        assert forall i :: 1 <= i < j + 1 ==> level[i] == level[1..][i - 1];
        Some(j + 1)
  }

  /** `level.get(n)`: a null node, or one without an entry, gives null. */
  function Find(level: Level, n: Option<ProbFun>): (r: Option<seq<Pair<ProbFun>>>)
    ensures r.Some? <==> n.Some? && FindIndex(level, n.value).Some?
    ensures r.Some? ==> r.value == level[FindIndex(level, n.value).value].next
  {
    if n.None? then None
    else match FindIndex(level, n.value)
      case None => None
      case Some(i) => Some(level[i].next)
  }

  /**
   * `level.put(e.node, e.next)`: the entry of the same node is replaced, or
   * a new one added (PutEntryOther: every other node keeps its entry).
   */
  function PutEntry(level: Level, e: Entry): (r: Level)
    ensures Find(r, Some(e.node)) == Some(e.next)
    ensures forall i :: 0 <= i < |r| ==> r[i] == e || r[i] in level
    ensures forall i :: 0 <= i < |level| && level[i].node != e.node ==> level[i] in r
  {
    match FindIndex(level, e.node)
    case None =>
      var r := level + [e];
      assert r[|level|] == e;
      FindFirst(r, |level|);
      r
    case Some(i) =>
      var r := level[i := e];
      FindReplaceSelf(level, i, e);
      assert forall j :: 0 <= j < |level| && level[j].node != e.node ==> r[j] == level[j];
      r
  }

  /** A put adds the node `e` is for, and no target `e` does not hold. */
  lemma PutEntryNodes(level: Level, e: Entry)
    ensures KeysOf(PutEntry(level, e)) <= KeysOf(level) + {e.node}
    ensures ValuesOf(PutEntry(level, e)) <= ValuesOf(level) + Targets(e.next)
  {
    var r := PutEntry(level, e);
    forall v | v in KeysOf(r) ensures v in KeysOf(level) + {e.node} {
      var x :| 0 <= x < |r| && r[x].node == v;
      if r[x] != e {
        var y :| 0 <= y < |level| && level[y] == r[x];
        assert level[y].node in KeysOf(level);
      }
    }
    forall v | v in ValuesOf(r) ensures v in ValuesOf(level) + Targets(e.next) {
      var x, j :| 0 <= x < |r| && 0 <= j < |r[x].next| && r[x].next[j].value == v;
      if r[x] == e {
        assert e.next[j].value in Targets(e.next);
      } else {
        var y :| 0 <= y < |level| && level[y] == r[x];
        assert level[y].next[j].value in ValuesOf(level);
      }
    }
  }

  lemma PutEntryOther(level: Level, e: Entry, n: ProbFun)
    requires n != e.node
    ensures FindIndex(PutEntry(level, e), n) == FindIndex(level, n)
  {
    match FindIndex(level, e.node)
    case None => FindAppend(level, e, n);
    case Some(i) => FindReplace(level, i, e, n);
  }

  lemma {:induction false} FindReplaceSelf(level: Level, i: nat, e: Entry)
    requires i < |level| && level[i].node == e.node && FindIndex(level, e.node) == Some(i)
    ensures FindIndex(level[i := e], e.node) == Some(i)
  {
    if i > 0 {
      assert level[i := e][1..] == level[1..][i - 1 := e];
      FindReplaceSelf(level[1..], i - 1, e);
    }
  }

  lemma {:induction false} FindAppend(level: Level, e: Entry, n: ProbFun)
    requires n != e.node
    ensures FindIndex(level + [e], n) == FindIndex(level, n)
  {
    if level != [] {
      assert (level + [e])[1..] == level[1..] + [e];
      FindAppend(level[1..], e, n);
    }
  }

  lemma {:induction false} FindReplace(level: Level, i: nat, e: Entry, n: ProbFun)
    requires i < |level| && level[i].node == e.node && n != e.node
    ensures FindIndex(level[i := e], n) == FindIndex(level, n)
  {
    if i > 0 {
      assert level[i := e][1..] == level[1..][i - 1 := e];
      FindReplace(level[1..], i - 1, e, n);
    }
  }

  /** The first entry of a node is the one found; with a unique node it is its only one. */
  lemma {:induction false} FindFirst(level: Level, i: nat)
    requires i < |level| && forall j :: 0 <= j < |level| && j != i ==> level[j].node != level[i].node
    ensures FindIndex(level, level[i].node) == Some(i)
  {
    if i > 0 {
      assert forall j :: 0 <= j < |level[1..]| && j != i - 1 ==> level[1..][j] == level[j + 1];
      FindFirst(level[1..], i - 1);
    }
  }

  /** The ProbFuns a map from elements to nodes holds. */
  function Targets(m: seq<Pair<ProbFun>>): set<ProbFun> {
    set j | 0 <= j < |m| :: m[j].value
  }

  /** The nodes a level maps to. */
  function ValuesOf(level: Level): set<ProbFun> {
    set x, j | 0 <= x < |level| && 0 <= j < |level[x].next| :: level[x].next[j].value
  }

  /** The nodes a level is keyed by. */
  function KeysOf(level: Level): set<ProbFun> {
    set x | 0 <= x < |level| :: level[x].node
  }

  /** Every node of every level. */
  function LevelNodes(levels: seq<Level>): set<ProbFun>
    decreases |levels|
  {
    if levels == [] then {}
    else KeysOf(levels[|levels| - 1]) + ValuesOf(levels[|levels| - 1]) + LevelNodes(levels[..|levels| - 1])
  }

  lemma {:induction false} LevelNodesHas(levels: seq<Level>, k: nat)
    requires k < |levels|
    ensures KeysOf(levels[k]) + ValuesOf(levels[k]) <= LevelNodes(levels)
    decreases |levels|
  {
    if k < |levels| - 1 {
      LevelNodesHas(levels[..|levels| - 1], k);
    }
  }

  lemma {:induction false} LevelNodesAppend(levels: seq<Level>, l: Level)
    ensures LevelNodes(levels + [l]) == KeysOf(l) + ValuesOf(l) + LevelNodes(levels)
  {
    assert (levels + [l])[..|levels|] == levels;
  }

  lemma {:induction false} LevelNodesOnly(levels: seq<Level>, f: ProbFun)
    requires f in LevelNodes(levels)
    ensures exists k :: 0 <= k < |levels| && f in KeysOf(levels[k]) + ValuesOf(levels[k])
    decreases |levels|
  {
    var k := |levels| - 1;
    if f !in KeysOf(levels[k]) + ValuesOf(levels[k]) {
      LevelNodesOnly(levels[..k], f);
      var k' :| 0 <= k' < k && f in KeysOf(levels[..k][k']) + ValuesOf(levels[..k][k']);
      assert levels[..k][k'] == levels[k'];
    }
  }

  /**
   * The links the constructors keep among the levels, over the elements
   * `ks`: level 0 has an entry for every node of `firstChain`, level k + 1
   * one for every node level k maps to, and every map of every level is
   * keyed by all the elements.
   */
  ghost predicate Shaped(firstChain: seq<Pair<ProbFun>>, levels: seq<Level>) {
    |levels| >= 1 &&
    Feeds(Targets(firstChain), levels[0]) &&
    (forall k :: 0 <= k < |levels| - 1 ==> Feeds(ValuesOf(levels[k]), levels[k + 1])) &&
    (forall k :: 0 <= k < |levels| ==> KeyedBy(levels[k], KeySet(firstChain)))
  }

  /** Every node of `from` has an entry in `level`. */
  ghost predicate Feeds(from: set<ProbFun>, level: Level) {
    forall v :: v in from ==> FindIndex(level, v).Some?
  }

  /** Every map of `level` holds exactly the elements `ks`. */
  ghost predicate KeyedBy(level: Level, ks: set<int>) {
    forall x :: 0 <= x < |level| ==> KeySet(level[x].next) == ks
  }

  /**
   * The identities the constructors keep apart: level 0 is keyed by nodes of
   * `firstChain` only, while the keys of every later level and the targets of
   * every level are other objects (copies made for the level).
   */
  ghost predicate Apart(firstChain: seq<Pair<ProbFun>>, levels: seq<Level>) {
    |levels| >= 1 &&
    KeysOf(levels[0]) <= Targets(firstChain) &&
    (forall k :: 1 <= k < |levels| ==> KeysOf(levels[k]) !! Targets(firstChain)) &&
    (forall k :: 0 <= k < |levels| ==> ValuesOf(levels[k]) !! Targets(firstChain))
  }

  /**
   * The node the first k elements of a history lead to, the walk
   * `good(list)` makes: the first chain's node of h[0], then for each further
   * element h[j] level j - 1's map of the node reached so far, at h[j]. A node
   * without an entry is Java's `null.get(...)`; an element missing from a
   * map gives null.
   */
  function PathAt(firstChain: seq<Pair<ProbFun>>, levels: seq<Level>, h: seq<int>, k: nat): (r: Result<Option<ProbFun>>)
    requires 1 <= k <= |h|
  {
    if k == 1 then Ok(Get(firstChain, h[0]))
    else match PathAt(firstChain, levels, h, k - 1)
      case Fail(e) => Fail(e)
      case Ok(n) =>
        if k - 2 >= |levels| then Fail(IndexOutOfBounds)
        else match Find(levels[k - 2], n)
          case None => Fail(NullPointer)
          case Some(m) => Ok(Get(m, h[k - 1]))
  }

  /** The node a whole history leads to. */
  function PathNode(firstChain: seq<Pair<ProbFun>>, levels: seq<Level>, h: seq<int>): Result<Option<ProbFun>>
    requires |h| >= 1
  {
    PathAt(firstChain, levels, h, |h|)
  }

  /** A prefix leads where the first elements of the history do. */
  lemma {:induction false} PathAtPrefix(firstChain: seq<Pair<ProbFun>>, levels: seq<Level>, h: seq<int>, k: nat)
    requires 1 <= k <= |h|
    ensures PathNode(firstChain, levels, h[..k]) == PathAt(firstChain, levels, h, k)
  {
    PathAtSame(firstChain, levels, h[..k], h, k);
  }

  lemma {:induction false} PathAtSame(firstChain: seq<Pair<ProbFun>>, levels: seq<Level>, h: seq<int>, g: seq<int>, k: nat)
    requires 1 <= k <= |h| && k <= |g| && h[..k] == g[..k]
    ensures PathAt(firstChain, levels, h, k) == PathAt(firstChain, levels, g, k)
  {
    assert h[k - 1] == h[..k][k - 1] == g[..k][k - 1] == g[k - 1];
    assert h[0] == h[..k][0];
    if k > 1 {
      assert h[..k - 1] == h[..k][..k - 1];
      assert g[..k - 1] == g[..k][..k - 1];
      PathAtSame(firstChain, levels, h, g, k - 1);
    }
  }

  lemma SameKeySet<V, W>(a: seq<Pair<V>>, b: seq<Pair<W>>)
    requires Keys(a) == Keys(b)
    ensures KeySet(a) == KeySet(b)
  {
    forall x | x in KeySet(a) ensures x in KeySet(b) {
      var i :| 0 <= i < |a| && a[i].key == x;
      assert Keys(a)[i] == x;
    }
    forall x | x in KeySet(b) ensures x in KeySet(a) {
      var i :| 0 <= i < |b| && b[i].key == x;
      assert Keys(b)[i] == x;
    }
  }

  /** A lookup of an element the map holds gives one of its nodes. */
  lemma GetTarget(m: seq<Pair<ProbFun>>, e: int)
    requires e in KeySet(m)
    ensures Get(m, e).Some? && Get(m, e).value in Targets(m)
  {
    var i := IndexOf(m, e).value;
    assert m[i].value in Targets(m);
  }

  /** The map level k holds for one of its nodes sends every element to one of the level's targets. */
  lemma FindTargets(level: Level, n: ProbFun, e: int, ks: set<int>)
    requires FindIndex(level, n).Some?
    requires forall x :: 0 <= x < |level| ==> KeySet(level[x].next) == ks
    requires e in ks
    ensures Get(Find(level, Some(n)).value, e).Some?
    ensures Get(Find(level, Some(n)).value, e).value in ValuesOf(level)
  {
    var x := FindIndex(level, n).value;
    var m := level[x].next;
    assert KeySet(m) == ks;
    var i := IndexOf(m, e).value;
    assert m[i].value in ValuesOf(level) by {
      assert level[x].next[i].value == m[i].value;
    }
  }

  /**
   * On shaped levels the walk never fails: the first k elements of a
   * history of elements of the chain, k no more than the levels plus one,
   * lead to a node, of the first chain for one element and of level k - 2
   * otherwise.
   */
  lemma {:induction false} PathReaches(firstChain: seq<Pair<ProbFun>>, levels: seq<Level>, h: seq<int>, k: nat)
    requires Shaped(firstChain, levels) && 1 <= k <= |h| && k <= |levels| + 1
    requires forall j :: 0 <= j < |h| ==> h[j] in KeySet(firstChain)
    ensures PathAt(firstChain, levels, h, k).Ok? && PathAt(firstChain, levels, h, k).value.Some?
    ensures var n := PathAt(firstChain, levels, h, k).value.value;
      (k == 1 ==> n in Targets(firstChain)) && (k > 1 ==> n in ValuesOf(levels[k - 2]))
  {
    if k == 1 {
      GetTarget(firstChain, h[0]);
    } else {
      PathReaches(firstChain, levels, h, k - 1);
      var n := PathAt(firstChain, levels, h, k - 1).value.value;
      assert FindIndex(levels[k - 2], n).Some?;
      FindTargets(levels[k - 2], n, h[k - 1], KeySet(firstChain));
    }
  }

  /**
   * The loop of `fun()` for a history of three or more, as written: from
   * `chain2.get(0)` it walks down the levels, index `isize` counting to 0.
   */
  function Down(n: Option<ProbFun>, levels: seq<Level>, h: seq<int>, isize: int): (r: Result<Option<ProbFun>>)
    requires isize <= |h| - 3
    decreases isize + 1
  {
    if isize < 0 then Ok(n)
    else if isize >= |levels| then Fail(IndexOutOfBounds)
    else match Find(levels[isize], n)
      case None => Fail(NullPointer)
      case Some(m) => Down(Get(m, h[|h| - 1 - isize]), levels, h, isize - 1)
  }

  /**
   * The node `fun()` as written samples for a non-empty history `h`: the
   * first chain's node of a single element; with `chain2.size()` + 1
   * elements, level `size` looked up with the first chain's node of the
   * last element but one; otherwise level 0 looked up as above, then the
   * levels walked downwards.
   */
  function FunNodeAsWritten(firstChain: seq<Pair<ProbFun>>, levels: seq<Level>, h: seq<int>): (r: Result<Option<ProbFun>>)
    requires |h| >= 1
  {
    if |h| == 1 then Ok(Get(firstChain, h[0]))
    else if |h| - 1 == |levels| then
      match Find(levels[|h| - 2], Get(firstChain, h[|h| - 2]))
      case None => Fail(NullPointer)
      case Some(m) => Ok(Get(m, h[|h| - 1]))
    else if |levels| == 0 then Fail(IndexOutOfBounds)
    else match Find(levels[0], Get(firstChain, h[0]))
      case None => Fail(NullPointer)
      case Some(m) => Down(Get(m, h[1]), levels, h, |h| - 3)
  }

  /**
   * Java's walk down the levels ends at level 0 with a node that is not a
   * node of the first chain, which level 0 has no entry for.
   */
  lemma {:induction false} DownFails(firstChain: seq<Pair<ProbFun>>, levels: seq<Level>, n: Option<ProbFun>, h: seq<int>, isize: int)
    requires Apart(firstChain, levels) && 0 <= isize <= |h| - 3 && isize < |levels|
    requires n.Some? ==> n.value !in Targets(firstChain)
    ensures Down(n, levels, h, isize) == Fail(NullPointer)
    decreases isize
  {
    var f := Find(levels[isize], n);
    if isize == 0 {
      assert forall x :: 0 <= x < |levels[0]| ==> levels[0][x].node in KeysOf(levels[0]);
    } else if f.Some? {
      var x := FindIndex(levels[isize], n.value).value;
      var m := levels[isize][x].next;
      var e := h[|h| - 1 - isize];
      if Get(m, e).Some? {
        GetTarget(m, e);
        assert Get(m, e).value in ValuesOf(levels[isize]) by {
          var j :| 0 <= j < |m| && m[j].value == Get(m, e).value;
          assert levels[isize][x].next[j].value == m[j].value;
        }
      }
      DownFails(firstChain, levels, Get(m, e), h, isize - 1);
    }
  }

  /**
   * On the levels the constructors build, `fun()` as written throws
   * NullPointerException as soon as the history holds three elements, which
   * a chain of two or more levels reaches on its fourth call; the corrected
   * walk reaches a node for every such history.
   */
  lemma FunAsWrittenFails(firstChain: seq<Pair<ProbFun>>, levels: seq<Level>, h: seq<int>)
    requires Shaped(firstChain, levels) && Apart(firstChain, levels)
    requires 3 <= |h| <= |levels| + 1
    requires forall j :: 0 <= j < |h| ==> h[j] in KeySet(firstChain)
    ensures FunNodeAsWritten(firstChain, levels, h) == Fail(NullPointer)
    ensures PathNode(firstChain, levels, h).Ok? && PathNode(firstChain, levels, h).value.Some?
  {
    PathReaches(firstChain, levels, h, |h|);
    if |h| - 1 == |levels| {
      FunAsWrittenTop(firstChain, levels, h);
    } else {
      FunAsWrittenDeep(firstChain, levels, h);
    }
  }

  /** With as many elements as levels plus one, level `size` is looked up with a node of the first chain. */
  lemma FunAsWrittenTop(firstChain: seq<Pair<ProbFun>>, levels: seq<Level>, h: seq<int>)
    requires Apart(firstChain, levels) && 3 <= |h| == |levels| + 1
    requires h[|h| - 2] in KeySet(firstChain)
    ensures FunNodeAsWritten(firstChain, levels, h) == Fail(NullPointer)
  {
    GetTarget(firstChain, h[|h| - 2]);
    var l := levels[|h| - 2];
    assert forall x :: 0 <= x < |l| ==> l[x].node in KeysOf(l);
  }

  /** With fewer, level 0 gives a node of level 0's maps, and the walk down ends at level 0 without an entry. */
  lemma FunAsWrittenDeep(firstChain: seq<Pair<ProbFun>>, levels: seq<Level>, h: seq<int>)
    requires Shaped(firstChain, levels) && Apart(firstChain, levels) && 3 <= |h| <= |levels|
    requires h[0] in KeySet(firstChain)
    ensures FunNodeAsWritten(firstChain, levels, h) == Fail(NullPointer)
  {
    GetTarget(firstChain, h[0]);
    var n0 := Get(firstChain, h[0]).value;
    if FindIndex(levels[0], n0).Some? {
      var x := FindIndex(levels[0], n0).value;
      var m := levels[0][x].next;
      if Get(m, h[1]).Some? {
        GetTarget(m, h[1]);
        assert Get(m, h[1]).value in ValuesOf(levels[0]) by {
          var j :| 0 <= j < |m| && m[j].value == Get(m, h[1]).value;
          assert levels[0][x].next[j].value == m[j].value;
        }
      }
      DownFails(firstChain, levels, Get(m, h[1]), h, |h| - 3);
    }
  }

  /** For histories of one or two elements the written lookup is the walk. */
  lemma FunAsWrittenShort(firstChain: seq<Pair<ProbFun>>, levels: seq<Level>, h: seq<int>)
    requires 1 <= |h| <= 2 && |levels| >= 1
    ensures FunNodeAsWritten(firstChain, levels, h) == PathNode(firstChain, levels, h)
  {
    assert PathAt(firstChain, levels, h, 1) == Ok(Get(firstChain, h[0]));
  }

  /** One reinforcement `good(list)`/`bad(list)` makes: a node and the element it is made for. */
  datatype Step = Step(node: ProbFun, element: int)

  /** The step `getTypeAndGood(n, e, percent)` takes: none for a null node. */
  function StepOf(n: Option<ProbFun>, e: int): seq<Step> {
    if n.Some? then [Step(n.value, e)] else []
  }

  /**
   * The loop of `good(list)`, round by round: round k - 2 looks up, in level
   * k - 2, the map of the node `n` reached so far, takes its node at es[k - 1]
   * and reinforces that node at es[k]. It runs while there is a level, and
   * ends early with NullPointerException when the node has no entry, or with
   * IndexOutOfBoundsException when the list runs out before the levels.
   */
  function Trail(levels: seq<Level>, es: seq<int>, k: nat, n: Option<ProbFun>): (seq<Step>, Option<Exception>)
    requires 2 <= k <= |es|
    decreases |es| - k
  {
    if k - 2 >= |levels| then ([], None)
    else match Find(levels[k - 2], n)
      case None => ([], Some(NullPointer))
      case Some(m) =>
        var n' := Get(m, es[k - 1]);
        if k == |es| then ([], Some(IndexOutOfBounds))
        else
          var t := Trail(levels, es, k + 1, n');
          (StepOf(n', es[k]) + t.0, t.1)
  }

  /**
   * What `good(list)`/`bad(list)` does with a list of non-null elements:
   * the steps in order, then the exception of the loop itself. A step may
   * still fail in the ProbFun it reaches (a percent outside (0, 1), an
   * element it does not hold), which stops the rest.
   */
  function Plan(firstLink: ProbFun, firstChain: seq<Pair<ProbFun>>, levels: seq<Level>, es: seq<int>): (seq<Step>, Option<Exception>)
    requires |es| >= 1
  {
    if |es| == 1 then ([Step(firstLink, es[0])], None)
    else
      var head := StepOf(Get(firstChain, es[0]), es[1]) + [Step(firstLink, es[0])];
      if |es| == 2 then (head, None)
      else
        var t := Trail(levels, es, 2, Get(firstChain, es[0]));
        (head + t.0, t.1)
  }

  /** A node a level's map sends an element to is one of the level's targets. */
  lemma FoundValue(level: Level, n: Option<ProbFun>, e: int)
    requires Find(level, n).Some? && Get(Find(level, n).value, e).Some?
    ensures Get(Find(level, n).value, e).value in ValuesOf(level)
  {
    var m := Find(level, n).value;
    var x := FindIndex(level, n.value).value;
    var i := IndexOf(m, e).value;
    assert level[x].next[i].value == m[i].value;
  }

  /** One round of the loop takes the walk one element further. */
  lemma PathAtNext(firstChain: seq<Pair<ProbFun>>, levels: seq<Level>, es: seq<int>, k: nat, n: Option<ProbFun>)
    requires 2 <= k <= |es| && k - 2 < |levels| && PathAt(firstChain, levels, es, k - 1) == Ok(n)
    ensures PathAt(firstChain, levels, es, k) ==
      match Find(levels[k - 2], n)
      case None => Fail(NullPointer)
      case Some(m) => Ok(Get(m, es[k - 1]))
  {
  }

  /** A node two or more elements lead to is one that level k - 2 maps to. */
  lemma PathAtValue(firstChain: seq<Pair<ProbFun>>, levels: seq<Level>, h: seq<int>, k: nat)
    requires 2 <= k <= |h|
    requires PathAt(firstChain, levels, h, k).Ok? && PathAt(firstChain, levels, h, k).value.Some?
    ensures k - 2 < |levels| && PathAt(firstChain, levels, h, k).value.value in ValuesOf(levels[k - 2])
  {
    var n := PathAt(firstChain, levels, h, k - 1).value;
    FoundValue(levels[k - 2], n, h[k - 1]);
  }

  /** The nodes the loop reaches are nodes of the levels. */
  lemma {:induction false} TrailNodes(levels: seq<Level>, es: seq<int>, k: nat, n: Option<ProbFun>)
    requires 2 <= k <= |es|
    ensures forall s :: s in Trail(levels, es, k, n).0 ==> s.node in LevelNodes(levels)
    decreases |es| - k
  {
    if k - 2 < |levels| && Find(levels[k - 2], n).Some? && k < |es| {
      var m := Find(levels[k - 2], n).value;
      var n' := Get(m, es[k - 1]);
      if n'.Some? {
        FoundValue(levels[k - 2], n, es[k - 1]);
        LevelNodesHas(levels, k - 2);
      }
      TrailNodes(levels, es, k + 1, n');
    }
  }

  /** Every node `good(list)` reinforces is the first link, a node of the first chain or one of the levels. */
  lemma PlanNodes(firstLink: ProbFun, firstChain: seq<Pair<ProbFun>>, levels: seq<Level>, es: seq<int>)
    requires |es| >= 1
    ensures forall s :: s in Plan(firstLink, firstChain, levels, es).0 ==>
      s.node in {firstLink} + Targets(firstChain) + LevelNodes(levels)
  {
    if |es| >= 2 {
      var n := Get(firstChain, es[0]);
      if n.Some? {
        GetTarget(firstChain, es[0]);
      }
      if |es| >= 3 {
        TrailNodes(levels, es, 2, n);
      }
    }
  }

  /**
   * On shaped levels and a list of elements of the chain, the loop from
   * round k - 2, given the node the first k - 1 elements lead to, takes a
   * step for every further prefix the levels reach, and ends with
   * IndexOutOfBoundsException exactly when the list is shorter than the
   * levels plus two.
   */
  lemma {:induction false} TrailLength(firstChain: seq<Pair<ProbFun>>, levels: seq<Level>, es: seq<int>, k: nat, n: Option<ProbFun>)
    requires Shaped(firstChain, levels) && 2 <= k <= |es| && k <= |levels| + 2
    requires forall j :: 0 <= j < |es| ==> es[j] in KeySet(firstChain)
    requires PathAt(firstChain, levels, es, k - 1) == Ok(n)
    ensures |Trail(levels, es, k, n).0| == Min(|es|, |levels| + 2) - k
    ensures Trail(levels, es, k, n).1 == (if |es| < |levels| + 2 then Some(IndexOutOfBounds) else None)
    decreases |es| - k
  {
    if k - 2 < |levels| {
      PathReaches(firstChain, levels, es, k);
      PathAtNext(firstChain, levels, es, k, n);
      if k < |es| {
        TrailLength(firstChain, levels, es, k + 1, PathAt(firstChain, levels, es, k).value);
      }
    }
  }

  /**
   * Step j of the loop from round k - 2, when the loop takes every step it
   * can, reinforces at es[i] the node the first i = k + j elements lead to.
   */
  lemma {:induction false} TrailStep(firstChain: seq<Pair<ProbFun>>, levels: seq<Level>, es: seq<int>, k: nat,
                                     n: Option<ProbFun>, j: nat, i: nat)
    requires 2 <= k && i == k + j && i < |es| && i <= |levels| + 1
    requires PathAt(firstChain, levels, es, k - 1) == Ok(n)
    requires |Trail(levels, es, k, n).0| == Min(|es|, |levels| + 2) - k
    ensures j < |Trail(levels, es, k, n).0|
    ensures PathAt(firstChain, levels, es, i).Ok? && PathAt(firstChain, levels, es, i).value.Some?
    ensures Trail(levels, es, k, n).0[j] == Step(PathAt(firstChain, levels, es, i).value.value, es[i])
    decreases j
  {
    var n' := TrailHead(firstChain, levels, es, k, n);
    var tk, t := Trail(levels, es, k, n).0, Trail(levels, es, k + 1, n').0;
    if j == 0 {
      assert i == k && tk[j] == Step(n'.value, es[i]);
    } else {
      TrailStep(firstChain, levels, es, k + 1, n', j - 1, i);
      StepsConsAt(tk, Step(n'.value, es[k]), t, j);
    }
  }

  /**
   * A round of a loop that takes every step it can finds a node n' for the
   * elements so far, reinforces it, and leaves a loop that again takes every
   * step it can.
   */
  lemma TrailHead(firstChain: seq<Pair<ProbFun>>, levels: seq<Level>, es: seq<int>, k: nat, n: Option<ProbFun>)
    returns (n': Option<ProbFun>)
    requires 2 <= k < |es| && k <= |levels| + 1
    requires PathAt(firstChain, levels, es, k - 1) == Ok(n)
    requires |Trail(levels, es, k, n).0| == Min(|es|, |levels| + 2) - k
    ensures PathAt(firstChain, levels, es, k) == Ok(n') && n'.Some?
    ensures Trail(levels, es, k, n).0 == [Step(n'.value, es[k])] + Trail(levels, es, k + 1, n').0
    ensures |Trail(levels, es, k + 1, n').0| == Min(|es|, |levels| + 2) - (k + 1)
  {
    PathAtNext(firstChain, levels, es, k, n);
    n' := Get(Find(levels[k - 2], n).value, es[k - 1]);
    TrailBound(levels, es, k + 1, n');
    TrailUnfold(levels, es, k, n);
    var t := Trail(levels, es, k + 1, n').0;
    assert Trail(levels, es, k, n).0 == StepOf(n', es[k]) + t;
    assert |StepOf(n', es[k])| == 1 by {
      assert |t| <= Min(|es|, |levels| + 2) - (k + 1);
    }
  }

  /** Past the first step, step j of a trail is step j - 1 of the rest. */
  lemma StepsConsAt(tk: seq<Step>, s: Step, t: seq<Step>, j: nat)
    requires tk == [s] + t && 0 < j < |tk|
    ensures tk[j] == t[j - 1]
  {
  }

  /** A round that finds its map and has an element left takes its step, then the rest of the loop. */
  lemma TrailUnfold(levels: seq<Level>, es: seq<int>, k: nat, n: Option<ProbFun>)
    requires 2 <= k < |es| && k - 2 < |levels| && Find(levels[k - 2], n).Some?
    ensures var n' := Get(Find(levels[k - 2], n).value, es[k - 1]);
      Trail(levels, es, k, n) == (StepOf(n', es[k]) + Trail(levels, es, k + 1, n').0, Trail(levels, es, k + 1, n').1)
  {
  }

  /** The loop takes at most a step per element and level left. */
  lemma {:induction false} TrailBound(levels: seq<Level>, es: seq<int>, k: nat, n: Option<ProbFun>)
    requires 2 <= k <= |es| && k <= |levels| + 2
    ensures |Trail(levels, es, k, n).0| <= Min(|es|, |levels| + 2) - k
    decreases |es| - k
  {
    if k - 2 < |levels| && Find(levels[k - 2], n).Some? && k < |es| {
      TrailBound(levels, es, k + 1, Get(Find(levels[k - 2], n).value, es[k - 1]));
    }
  }

  function Min(a: int, b: int): int {
    if a <= b then a else b
  }

  /**
   * On shaped levels, `good(list)` reinforces the node each prefix of the
   * list leads to, at the element that follows that prefix (the node that
   * `fun()` samples after that prefix), and the first link at the first
   * element: `Min(|list|, levels + 2)` steps in all. The list may be longer
   * than the levels reach, and the rest is ignored; a list of three or more
   * that is shorter than the levels plus two ends in
   * IndexOutOfBoundsException after its last step.
   */
  lemma PlanFollows(firstLink: ProbFun, firstChain: seq<Pair<ProbFun>>, levels: seq<Level>, es: seq<int>)
    requires Shaped(firstChain, levels) && |es| >= 2
    requires forall j :: 0 <= j < |es| ==> es[j] in KeySet(firstChain)
    ensures var p := Plan(firstLink, firstChain, levels, es);
      |p.0| == Min(|es|, |levels| + 2) &&
      p.1 == (if 3 <= |es| < |levels| + 2 then Some(IndexOutOfBounds) else None) &&
      p.0[1] == Step(firstLink, es[0]) &&
      p.0[0].element == es[1] && PathAt(firstChain, levels, es, 1) == Ok(Some(p.0[0].node)) &&
      forall j :: 2 <= j < |p.0| ==>
        p.0[j].element == es[j] && PathAt(firstChain, levels, es, j) == Ok(Some(p.0[j].node))
  {
    GetTarget(firstChain, es[0]);
    if |es| >= 3 {
      TrailLength(firstChain, levels, es, 2, Get(firstChain, es[0]));
      forall j | 2 <= j < |Plan(firstLink, firstChain, levels, es).0|
        ensures Plan(firstLink, firstChain, levels, es).0[j].element == es[j]
        ensures PathAt(firstChain, levels, es, j) == Ok(Some(Plan(firstLink, firstChain, levels, es).0[j].node))
      {
        PlanStepAt(firstLink, firstChain, levels, es, j);
      }
    }
  }

  /** Step j >= 2 of `good(list)`, when its loop takes every step it can: the node the first j elements lead to, at es[j]. */
  lemma PlanStepAt(firstLink: ProbFun, firstChain: seq<Pair<ProbFun>>, levels: seq<Level>, es: seq<int>, j: nat)
    requires |es| >= 3 && 2 <= j < Min(|es|, |levels| + 2) && Get(firstChain, es[0]).Some?
    requires |Trail(levels, es, 2, Get(firstChain, es[0])).0| == Min(|es|, |levels| + 2) - 2
    ensures j < |Plan(firstLink, firstChain, levels, es).0|
    ensures Plan(firstLink, firstChain, levels, es).0[j].element == es[j]
    ensures PathAt(firstChain, levels, es, j) == Ok(Some(Plan(firstLink, firstChain, levels, es).0[j].node))
  {
    var n := Get(firstChain, es[0]).value;
    var t := Trail(levels, es, 2, Some(n)).0;
    assert Plan(firstLink, firstChain, levels, es).0 == [Step(n, es[1]), Step(firstLink, es[0])] + t;
    TrailStep(firstChain, levels, es, 2, Some(n), j - 2, j);
  }



}

=== FILE: nested_markov_node.dfy ===
/**
 * GenerativeMarkovChain/src/markov/NestedMarkovNode.java: a chain of any
 * depth over ProbFuns. The first link picks the first element, the first
 * chain's node of the last element the second, and each level of `chain2`
 * maps the node reached so far to the nodes that pick the next element.
 * `fun()` remembers the elements it returned in a bounded deque and walks
 * the levels along them.
 */
module NestedNodes {
  import opened Wrappers
  import opened Assoc
  import opened ProbMaps
  import opened NestedLevels
  import opened NestedSteps
  import TwoStepChains

  /** Every node holds a distribution over the elements ks, in order. */
  ghost predicate NodesSound(fs: set<ProbFun>, ks: seq<int>)
    reads fs
  {
    forall f :: f in fs ==> f.Valid() && Keys(f.chain) == ks
  }

  /** Every node of fs holds the map some node of src holds. */
  ghost predicate HeldBy(fs: set<ProbFun>, src: set<ProbFun>)
    reads fs, src
  {
    forall f :: f in fs ==> exists g :: g in src && f.chain == g.chain
  }

  lemma HeldByTrans(a: set<ProbFun>, b: set<ProbFun>, c: set<ProbFun>)
    requires HeldBy(a, b) && HeldBy(b, c)
    ensures HeldBy(a, c)
  {
    forall f | f in a ensures exists g :: g in c && f.chain == g.chain {
      var g :| g in b && f.chain == g.chain;
      var h :| h in c && g.chain == h.chain;
    }
  }

  /** Every node a level maps to holds the map of the node whose entry it is in. */
  ghost predicate Copies(l: Level)
    reads KeysOf(l), ValuesOf(l)
  {
    forall x :: 0 <= x < |l| ==> l[x].node in KeysOf(l) && Targets(l[x].next) <= ValuesOf(l) && EntryCopies(l[x])
  }

  /** Every node an entry maps to holds the map of its key. */
  ghost predicate EntryCopies(e: Entry)
    reads {e.node} + Targets(e.next)
  {
    forall j :: 0 <= j < |e.next| ==> e.next[j].value in Targets(e.next) && e.next[j].value.chain == e.node.chain
  }

  /** m is a copy of `base`: the same keys in the same order, each node holding what the node of `base` holds. */
  ghost predicate CopyOf(m: seq<Pair<ProbFun>>, base: seq<Pair<ProbFun>>)
    reads Targets(m), Targets(base)
  {
    |m| == |base| &&
    forall j :: 0 <= j < |m| ==>
      m[j].key == base[j].key && m[j].value in Targets(m) &&
      base[j].value in Targets(base) && m[j].value.chain == base[j].value.chain
  }

  /** Links with the same maps are copies. */
  lemma MapsCopyOf(m: seq<Pair<ProbFun>>, base: seq<Pair<ProbFun>>)
    requires TwoStepChains.Maps(m) == TwoStepChains.Maps(base)
    ensures CopyOf(m, base)
  {
    var mm := TwoStepChains.Maps(m);
    forall j | 0 <= j < |m| ensures m[j].key == base[j].key && m[j].value.chain == base[j].value.chain {
      assert mm[j] == Pair(base[j].key, base[j].value.chain);
    }
  }

  /** The nodes of a copy hold what the nodes of `base` hold, key by key. */
  lemma SameMapsSound(m: seq<Pair<ProbFun>>, base: seq<Pair<ProbFun>>, ks: seq<int>)
    requires CopyOf(m, base) && NodesSound(Targets(base), ks)
    ensures NodesSound(Targets(m), ks) && HeldBy(Targets(m), Targets(base))
    ensures Keys(m) == Keys(base)
  {
    forall f | f in Targets(m) ensures f.Valid() && Keys(f.chain) == ks && exists g :: g in Targets(base) && f.chain == g.chain {
      var j :| 0 <= j < |m| && m[j].value == f;
      assert base[j].value in Targets(base);
    }
  }

  /** The nodes of a level of copies hold what its keys hold. */
  lemma CopiesSound(l: Level, ks: seq<int>)
    requires Copies(l) && NodesSound(KeysOf(l), ks)
    ensures NodesSound(ValuesOf(l), ks) && HeldBy(ValuesOf(l), KeysOf(l))
  {
    forall f | f in ValuesOf(l) ensures f.Valid() && Keys(f.chain) == ks && exists g :: g in KeysOf(l) && f.chain == g.chain {
      var x, j :| 0 <= x < |l| && 0 <= j < |l[x].next| && l[x].next[j].value == f;
      assert l[x].node in KeysOf(l) && EntryCopies(l[x]);
    }
  }

  /**
   * The level the constructor from a NestedProbFun builds: each node of the
   * first chain keyed to a map from every element to a fresh clone of that
   * element's node.
   */
  method FirstLevel(firstChain: seq<Pair<ProbFun>>) returns (l: Level)
    requires forall i :: 0 <= i < |firstChain| ==> firstChain[i].value.Valid()
    ensures Feeds(Targets(firstChain), l) && KeysOf(l) <= Targets(firstChain)
    ensures CopiesOf(l, firstChain) && fresh(ValuesOf(l))
  {
    l := [];
    for i := 0 to |firstChain|
      invariant Feeds(Targets(firstChain[..i]), l)
      invariant KeysOf(l) <= Targets(firstChain)
      invariant CopiesOf(l, firstChain)
      invariant fresh(ValuesOf(l))
    {
      l := PutFirst(l, firstChain, i);
    }
    assert firstChain[..|firstChain|] == firstChain;
  }

  /** One round of the loop of FirstLevel: the i-th node keyed to fresh copies of the first chain. */
  method PutFirst(l: Level, firstChain: seq<Pair<ProbFun>>, i: nat) returns (r: Level)
    requires i < |firstChain| && forall j :: 0 <= j < |firstChain| ==> firstChain[j].value.Valid()
    requires Feeds(Targets(firstChain[..i]), l) && KeysOf(l) <= Targets(firstChain)
    requires CopiesOf(l, firstChain)
    ensures Feeds(Targets(firstChain[..i + 1]), r) && KeysOf(r) <= Targets(firstChain)
    ensures CopiesOf(r, firstChain) && fresh(ValuesOf(r) - ValuesOf(l))
  {
    var m := TwoStepChains.CopyLinks(firstChain);
    assert CopiesOf(l, firstChain);
    MapsCopyOf(m, firstChain);
    assert CopyOf(m, firstChain);
    var e := Entry(firstChain[i].value, m);
    assert e.node in Targets(firstChain);
    PutEntryNodes(l, e);
    PutFeeds(l, e, Targets(firstChain[..i]));
    TargetsSnoc(firstChain, i);
    PutCopiesOf(l, e, firstChain);
    r := PutEntry(l, e);
  }

  lemma TargetsSnoc(m: seq<Pair<ProbFun>>, i: nat)
    requires i < |m|
    ensures Targets(m[..i + 1]) == Targets(m[..i]) + {m[i].value}
  {
    assert m[..i + 1] == m[..i] + [m[i]];
    assert forall j :: 0 <= j < i ==> m[..i + 1][j] == m[..i][j];
    assert m[..i + 1][i] == m[i];
  }

  /** A put feeds what the level fed, and the node put. */
  lemma PutFeeds(l: Level, e: Entry, vs: set<ProbFun>)
    requires Feeds(vs, l)
    ensures Feeds(vs + {e.node}, PutEntry(l, e))
  {
    PutEntryFound(l, e);
  }

  /** Every map of a level holds copies of the nodes of `base`, key by key. */
  ghost predicate CopiesOf(l: Level, base: seq<Pair<ProbFun>>)
    reads ValuesOf(l), Targets(base)
  {
    forall x :: 0 <= x < |l| ==> Targets(l[x].next) <= ValuesOf(l) && CopyOf(l[x].next, base)
  }

  lemma PutCopiesOf(l: Level, e: Entry, base: seq<Pair<ProbFun>>)
    requires CopiesOf(l, base) && CopyOf(e.next, base)
    ensures CopiesOf(PutEntry(l, e), base)
  {
    var r := PutEntry(l, e);
    forall x | 0 <= x < |r| ensures Targets(r[x].next) <= ValuesOf(r) {
      forall j | 0 <= j < |r[x].next| ensures r[x].next[j].value in ValuesOf(r) { }
    }
  }

  /** After a put, the node put and every node found before are found. */
  lemma PutEntryFound(l: Level, e: Entry)
    ensures forall v :: FindIndex(l, v).Some? || v == e.node ==> FindIndex(PutEntry(l, e), v).Some?
  {
    forall v | FindIndex(l, v).Some? && v != e.node ensures FindIndex(PutEntry(l, e), v).Some? {
      PutEntryOther(l, e, v);
    }
  }

  /** `for (T t : s) tempmn.put(t, node.clone())`: a fresh clone of one node for each element. */
  method CloneEach(ts: seq<int>, n: ProbFun) returns (cs: seq<Pair<ProbFun>>)
    requires n.Valid()
    ensures Keys(cs) == ts && fresh(Targets(cs))
    ensures forall j :: 0 <= j < |cs| ==> cs[j].value.chain == n.chain
  {
    cs := [];
    for i := 0 to |ts|
      invariant |cs| == i && forall j :: 0 <= j < i ==> cs[j].key == ts[j]
      invariant fresh(Targets(cs))
      invariant forall j :: 0 <= j < |cs| ==> cs[j].value.chain == n.chain
    {
      var c := n.Clone();
      assert Targets(cs + [Pair(ts[i], c)]) == Targets(cs) + {c} by {
        assert forall j :: 0 <= j < |cs| ==> (cs + [Pair(ts[i], c)])[j] == cs[j];
        assert (cs + [Pair(ts[i], c)])[|cs|].value == c;
      }
      cs := cs + [Pair(ts[i], c)];
    }
  }

  /** Every node found in `a` is found in `b`. */
  ghost predicate Grows(a: Level, b: Level) {
    Feeds(KeysOf(a), b)
  }

  /** What a level feeds are among its keys. */
  lemma FeedsKeys(vs: set<ProbFun>, a: Level)
    requires Feeds(vs, a)
    ensures vs <= KeysOf(a)
  {
    forall v | v in vs ensures v in KeysOf(a) {
      var i := FindIndex(a, v).value;
      assert a[i].node == v;
    }
  }

  lemma GrowsFeeds(vs: set<ProbFun>, a: Level, b: Level)
    requires Feeds(vs, a) && Grows(a, b)
    ensures Feeds(vs, b)
  {
    FeedsKeys(vs, a);
  }

  lemma GrowsTrans(a: Level, b: Level, c: Level)
    requires Grows(a, b) && Grows(b, c)
    ensures Grows(a, c)
  {
    GrowsFeeds(KeysOf(a), b, c);
  }

  lemma PutGrows(l: Level, e: Entry)
    ensures Grows(l, PutEntry(l, e))
  {
    PutEntryFound(l, e);
    forall v | v in KeysOf(l) ensures FindIndex(PutEntry(l, e), v).Some? {
      var x :| 0 <= x < |l| && l[x].node == v;
      assert FindIndex(l, v).Some?;
    }
  }

  /** One put of the loop of NextLevel keeps what the loop keeps. */
  lemma PutCopies(l: Level, e: Entry, ks: set<int>)
    requires Copies(l) && KeyedBy(l, ks) && KeySet(e.next) == ks
    requires forall j :: 0 <= j < |e.next| ==> e.next[j].value.chain == e.node.chain
    ensures Copies(PutEntry(l, e)) && KeyedBy(PutEntry(l, e), ks)
  {
    PutKeyedBy(l, e, ks);
    var r := PutEntry(l, e);
    assert EntryCopies(e);
    forall x | 0 <= x < |r|
      ensures r[x].node in KeysOf(r) && Targets(r[x].next) <= ValuesOf(r) && EntryCopies(r[x])
    {
      forall j | 0 <= j < |r[x].next| ensures r[x].next[j].value in ValuesOf(r) { }
      if r[x] != e {
        var y :| 0 <= y < |l| && l[y] == r[x];
        assert EntryCopies(l[y]);
      }
    }
  }

  lemma PutKeyedBy(l: Level, e: Entry, ks: set<int>)
    requires KeyedBy(l, ks) && KeySet(e.next) == ks
    ensures KeyedBy(PutEntry(l, e), ks)
  {
    var r := PutEntry(l, e);
    forall x | 0 <= x < |r| ensures KeySet(r[x].next) == ks {
      if r[x] != e {
        var y :| 0 <= y < |l| && l[y] == r[x];
      }
    }
  }

  /**
   * One round of the outer loop of AddCopies: the j-th node of m keyed to
   * a map from every element of m to a fresh clone of it.
   */
  method PutCopy(l: Level, m: seq<Pair<ProbFun>>, j: nat, ghost ks: set<int>) returns (r: Level)
    requires j < |m| && m[j].value.Valid()
    requires Copies(l) && KeyedBy(l, ks) && KeySet(m) == ks
    requires Feeds(Targets(m[..j]), l)
    ensures Copies(r) && KeyedBy(r, ks) && Grows(l, r)
    ensures Feeds(Targets(m[..j + 1]), r)
    ensures KeysOf(r) <= KeysOf(l) + {m[j].value}
    ensures fresh(ValuesOf(r) - ValuesOf(l))
  {
    var n := m[j].value;
    var tm := CloneEach(Keys(m), n);
    SameKeySet(tm, m);
    var e := Entry(n, tm);
    PutEntryNodes(l, e);
    PutCopies(l, e, ks);
    PutFeeds(l, e, Targets(m[..j]));
    TargetsSnoc(m, j);
    PutGrows(l, e);
    r := PutEntry(l, e);
  }

  /**
   * The inner loops of the constructor from a NestedMarkovNode for one map
   * m of the last level: each node m holds keyed to a map from every element
   * of m to a fresh clone of that node.
   */
  method AddCopies(l: Level, m: seq<Pair<ProbFun>>, ghost ks: set<int>) returns (r: Level)
    requires forall j :: 0 <= j < |m| ==> m[j].value.Valid()
    requires Copies(l) && KeyedBy(l, ks) && KeySet(m) == ks
    ensures Copies(r) && KeyedBy(r, ks)
    ensures Feeds(Targets(m), r) && Grows(l, r)
    ensures KeysOf(r) <= KeysOf(l) + Targets(m)
    ensures fresh(ValuesOf(r) - ValuesOf(l))
  {
    r := l;
    for j := 0 to |m|
      invariant Copies(r) && KeyedBy(r, ks)
      invariant Feeds(Targets(m[..j]), r) && Grows(l, r)
      invariant KeysOf(r) <= KeysOf(l) + Targets(m)
      invariant fresh(ValuesOf(r) - ValuesOf(l))
    {
      assert m[j].value in Targets(m);
      var r' := PutCopy(r, m, j, ks);
      GrowsTrans(l, r, r');
      r := r';
    }
    assert m[..|m|] == m;
  }

  lemma ValuesOfSnoc(l: Level, x: nat)
    requires x < |l|
    ensures ValuesOf(l[..x + 1]) == ValuesOf(l[..x]) + Targets(l[x].next)
  {
    var a, b := l[..x], l[..x + 1];
    assert forall y :: 0 <= y < x ==> b[y] == a[y];
    assert b[x] == l[x];
    forall v | v in ValuesOf(b) ensures v in ValuesOf(a) + Targets(l[x].next) {
      var y, j :| 0 <= y < |b| && 0 <= j < |b[y].next| && b[y].next[j].value == v;
      if y < x { assert a[y].next[j].value == v; }
    }
    forall v | v in ValuesOf(a) + Targets(l[x].next) ensures v in ValuesOf(b) {
      if v in ValuesOf(a) {
        var y, j :| 0 <= y < |a| && 0 <= j < |a[y].next| && a[y].next[j].value == v;
        assert b[y].next[j].value == v;
      } else {
        var j :| 0 <= j < |l[x].next| && l[x].next[j].value == v;
        assert b[x].next[j].value == v;
      }
    }
  }

  /**
   * The level the constructor from a NestedMarkovNode appends to the shared
   * list: for every node the last level maps to, a map from each element of
   * the map it is found in to a fresh clone of that node.
   */
  method NextLevel(last: Level, ghost ks: set<int>) returns (l: Level)
    requires forall v :: v in ValuesOf(last) ==> v.Valid()
    requires KeyedBy(last, ks)
    ensures Feeds(ValuesOf(last), l) && KeysOf(l) <= ValuesOf(last) && KeyedBy(l, ks)
    ensures Copies(l) && fresh(ValuesOf(l))
  {
    l := [];
    for x := 0 to |last|
      invariant Copies(l) && KeyedBy(l, ks) && fresh(ValuesOf(l))
      invariant Feeds(ValuesOf(last[..x]), l)
      invariant KeysOf(l) <= ValuesOf(last)
    {
      var m := last[x].next;
      assert forall j :: 0 <= j < |m| ==> m[j].value in ValuesOf(last) by {
        assert forall j :: 0 <= j < |m| ==> m[j].value == last[x].next[j].value;
      }
      var l' := AddCopies(l, m, ks);
      GrowsFeeds(ValuesOf(last[..x]), l, l');
      ValuesOfSnoc(last, x);
      l := l';
    }
    assert last[..|last|] == last;
  }

  /** The nodes of a NestedProbFun hold distributions over its keys. */
  lemma NestedSound(node: TwoStepChains.NestedProbFun)
    requires node.Valid()
    ensures NodesSound({node.firstLink} + Targets(node.chain2), Keys(node.chain2))
  {
    var mm := TwoStepChains.Maps(node.chain2);
    forall f | f in Targets(node.chain2) ensures f.Valid() && Keys(f.chain) == Keys(node.chain2) {
      var j :| 0 <= j < |node.chain2| && node.chain2[j].value == f;
      assert mm[j].value == f.chain;
    }
  }

  /** The first level's maps are copies of the first chain: keyed by its elements, holding what it holds. */
  lemma FirstLevelSound(fc: seq<Pair<ProbFun>>, l: Level, ks: seq<int>)
    requires CopiesOf(l, fc) && NodesSound(Targets(fc), ks)
    ensures KeyedBy(l, KeySet(fc))
    ensures NodesSound(ValuesOf(l), ks) && HeldBy(ValuesOf(l), Targets(fc))
  {
    forall x | 0 <= x < |l| ensures KeySet(l[x].next) == KeySet(fc) {
      SameMapsSound(l[x].next, fc, ks);
      SameKeySet(l[x].next, fc);
    }
    forall f | f in ValuesOf(l) ensures f.Valid() && Keys(f.chain) == ks && exists g :: g in Targets(fc) && f.chain == g.chain {
      var x, j :| 0 <= x < |l| && 0 <= j < |l[x].next| && l[x].next[j].value == f;
      SameMapsSound(l[x].next, fc, ks);
      assert f in Targets(l[x].next);
    }
  }

  /** Every node of a first link, a first chain and its levels. */
  function AllNodes(firstLink: ProbFun, firstChain: seq<Pair<ProbFun>>, levels: seq<Level>): set<ProbFun> {
    {firstLink} + Targets(firstChain) + LevelNodes(levels)
  }

  /**
   * What the constructors build: shaped levels, the identities kept apart,
   * and every node a distribution over the elements of the first chain.
   */
  ghost predicate Built(firstLink: ProbFun, firstChain: seq<Pair<ProbFun>>, levels: seq<Level>)
    reads AllNodes(firstLink, firstChain, levels)
  {
    Shaped(firstChain, levels) && Apart(firstChain, levels) &&
    NodesSound(AllNodes(firstLink, firstChain, levels), Keys(firstChain))
  }

  /**
   * The first level, keyed by the nodes of the first chain and mapping to
   * other nodes that are copies of the chain, is built, and its nodes hold
   * what the first link and the chain hold.
   */
  lemma BuiltFirst(f: ProbFun, fc: seq<Pair<ProbFun>>, l: Level)
    requires NodesSound({f} + Targets(fc), Keys(fc))
    requires Feeds(Targets(fc), l) && CopiesOf(l, fc)
    requires KeysOf(l) <= Targets(fc) && ValuesOf(l) !! Targets(fc)
    ensures Built(f, fc, [l])
    ensures HeldBy(AllNodes(f, fc, [l]), {f} + Targets(fc))
  {
    FirstLevelSound(fc, l, Keys(fc));
    ShapedFirst(fc, l);
    AllNodesFirst(f, fc, l);
    NodesSoundUnion({f} + Targets(fc), ValuesOf(l), Keys(fc));
  }

  lemma AllNodesFirst(f: ProbFun, fc: seq<Pair<ProbFun>>, l: Level)
    requires KeysOf(l) <= Targets(fc) && LevelNodes([l]) == KeysOf(l) + ValuesOf(l)
    ensures AllNodes(f, fc, [l]) == ({f} + Targets(fc)) + ValuesOf(l)
  {
  }

  lemma NodesSoundUnion(a: set<ProbFun>, b: set<ProbFun>, ks: seq<int>)
    requires NodesSound(a, ks) && NodesSound(b, ks)
    ensures NodesSound(a + b, ks)
  {
  }

  /** A list of one level, keyed by the nodes of the first chain and mapping to other nodes, is shaped. */
  lemma ShapedFirst(fc: seq<Pair<ProbFun>>, l: Level)
    requires Feeds(Targets(fc), l) && KeyedBy(l, KeySet(fc))
    requires KeysOf(l) <= Targets(fc) && ValuesOf(l) !! Targets(fc)
    ensures Shaped(fc, [l]) && Apart(fc, [l]) && LevelNodes([l]) == KeysOf(l) + ValuesOf(l)
  {
    LevelNodesAppend([], l);
    assert [] + [l] == [l];
  }

  /**
   * A level fed by the last level's targets, keyed alike, mapping to new
   * nodes that are copies of its keys, keeps the levels built; its nodes hold
   * what the nodes before it hold.
   */
  lemma BuiltNext(f: ProbFun, fc: seq<Pair<ProbFun>>, levels: seq<Level>, l: Level)
    requires Built(f, fc, levels) && NodesSound({f}, Keys(fc))
    requires Feeds(ValuesOf(levels[|levels| - 1]), l) && KeyedBy(l, KeySet(fc)) && Copies(l)
    requires KeysOf(l) <= ValuesOf(levels[|levels| - 1]) && ValuesOf(l) !! Targets(fc)
    ensures Built(f, fc, levels + [l])
    ensures AllNodes(f, fc, levels + [l]) == AllNodes(f, fc, levels) + ValuesOf(l)
    ensures HeldBy(ValuesOf(l), LevelNodes(levels))
  {
    ShapedNext(fc, levels, l);
    LevelNodesHas(levels, |levels| - 1);
    CopiesSound(l, Keys(fc));
  }

  /** A level fed by the last level's targets, keyed alike and mapping to new nodes, extends the shape. */
  lemma ShapedNext(fc: seq<Pair<ProbFun>>, levels: seq<Level>, l: Level)
    requires Shaped(fc, levels) && Apart(fc, levels)
    requires Feeds(ValuesOf(levels[|levels| - 1]), l) && KeyedBy(l, KeySet(fc))
    requires KeysOf(l) <= ValuesOf(levels[|levels| - 1]) && ValuesOf(l) !! Targets(fc)
    ensures Shaped(fc, levels + [l]) && Apart(fc, levels + [l])
    ensures LevelNodes(levels + [l]) == KeysOf(l) + ValuesOf(l) + LevelNodes(levels)
  {
    var ls := levels + [l];
    LevelNodesAppend(levels, l);
    assert forall k :: 0 <= k < |levels| ==> ls[k] == levels[k];
    assert ls[|levels|] == l;
  }

  /**
   * The node `fun()` samples for a history h, corrected: the first link
   * for an empty history, otherwise the node the whole history leads to.
   */
  function FunNode(firstLink: ProbFun, firstChain: seq<Pair<ProbFun>>, levels: seq<Level>, h: seq<int>): Result<Option<ProbFun>> {
    if h == [] then Ok(Some(firstLink)) else PathNode(firstChain, levels, h)
  }

  /**
   * On shaped levels every history of elements of the chain, no longer than
   * the levels plus one, leads to one of the nodes.
   */
  lemma FunNodeReaches(firstLink: ProbFun, firstChain: seq<Pair<ProbFun>>, levels: seq<Level>, h: seq<int>)
    requires Shaped(firstChain, levels) && |h| <= |levels| + 1
    requires forall j :: 0 <= j < |h| ==> h[j] in KeySet(firstChain)
    ensures FunNode(firstLink, firstChain, levels, h).Ok? && FunNode(firstLink, firstChain, levels, h).value.Some?
    ensures FunNode(firstLink, firstChain, levels, h).value.value in {firstLink} + Targets(firstChain) + LevelNodes(levels)
  {
    if h != [] {
      PathReaches(firstChain, levels, h, |h|);
      if |h| > 1 {
        LevelNodesHas(levels, |h| - 2);
      }
    }
  }

  /**
   * What `fun()` leaves of the history before it appends: with as many
   * elements as levels plus one, the oldest is dropped.
   */
  function Dropped(h: seq<int>, depth: nat): (r: seq<int>)
    ensures |h| <= depth + 1 && depth >= 1 ==> |r| <= depth
  {
    if |h| >= 2 && |h| - 1 == depth then h[1..] else h
  }

  /**
   * One call of `fun()` after its lookup, on the map m of the node it reached:
   * the element sampled at rnd and the history after it. A draw of null
   * throws NullPointerException from the deque's `add`, after the oldest
   * element has been dropped.
   */
  function FunStep(m: ProbMap, rnd: real, h: seq<int>, depth: nat): (r: (Result<int>, seq<int>))
    requires Distribution(m) && 0.0 <= rnd < 1.0
    ensures r.0.Fail? <==> rnd == 0.0
    ensures r.0.Fail? ==> r.0.error == NullPointer && r.1 == Dropped(h, depth)
    ensures r.0.Ok? ==> r.0.value in KeySet(m) && r.1 == Dropped(h, depth) + [r.0.value]
  {
    match Sample(m, rnd)
    case None => (Fail(NullPointer), Dropped(h, depth))
    case Some(e) => (Ok(e), Dropped(h, depth) + [e])
  }

  /** The last min(|ts|, depth + 1) elements of ts. */
  function Window(ts: seq<int>, depth: nat): (r: seq<int>)
    ensures |r| <= depth + 1 && |r| <= |ts|
  {
    ts[|ts| - Min(|ts|, depth + 1)..]
  }

  /**
   * The history `fun()` keeps is a sliding window: from the window of the
   * elements returned so far, one more call keeps the window of one more.
   */
  lemma WindowPush(ts: seq<int>, t: int, depth: nat)
    requires depth >= 1
    ensures Dropped(Window(ts, depth), depth) + [t] == Window(ts + [t], depth)
  {
    var w := Window(ts, depth);
    if |ts| >= depth + 1 {
      assert w[1..] + [t] == (ts + [t])[|ts| + 1 - (depth + 1)..];
    } else {
      assert w == ts;
      assert Window(ts + [t], depth) == ts + [t];
    }
  }

  /** The sliding window of the elements of a run of calls from an empty history. */
  function Replay(ts: seq<int>, depth: nat): seq<int>
    decreases |ts|
  {
    if ts == [] then [] else Dropped(Replay(ts[..|ts| - 1], depth), depth) + [ts[|ts| - 1]]
  }

  /**
   * After any run of calls that each returned an element, the history
   * holds exactly the last levels + 1 of them, oldest first.
   */
  lemma {:induction false} ReplayWindow(ts: seq<int>, depth: nat)
    requires depth >= 1
    ensures Replay(ts, depth) == Window(ts, depth)
    decreases |ts|
  {
    if ts != [] {
      var init, last := ts[..|ts| - 1], ts[|ts| - 1];
      assert init + [last] == ts;
      assert Replay(ts, depth) == Dropped(Replay(init, depth), depth) + [last];
      ReplayWindow(init, depth);
      WindowPush(init, last, depth);
    }
  }

  /** The walk of `fun()` for a history of two or more, corrected to run down the levels in order. */
  method Descend(firstChain: seq<Pair<ProbFun>>, levels: seq<Level>, h: seq<int>) returns (r: Result<Option<ProbFun>>)
    requires |h| >= 1
    ensures r == PathNode(firstChain, levels, h)
  {
    r := Ok(Get(firstChain, h[0]));
    var k := 1;
    while k < |h|
      invariant 1 <= k <= |h| && r == PathAt(firstChain, levels, h, k)
    {
      if r.Ok? {
        if k - 1 >= |levels| {
          r := Fail(IndexOutOfBounds);
        } else {
          match Find(levels[k - 1], r.value)
          case None => r := Fail(NullPointer);
          case Some(m) => r := Ok(Get(m, h[k]));
        }
      }
      k := k + 1;
    }
  }

  /** Nodes holding the same map hold what the other side holds. */
  lemma HeldBySwap(f: ProbFun, g: ProbFun, ts: set<ProbFun>)
    requires f.chain == g.chain
    ensures HeldBy({f} + ts, {g} + ts)
  {
    forall h | h in {f} + ts ensures exists k :: k in {g} + ts && h.chain == k.chain {
      if h == f {
        assert g in {g} + ts;
      } else {
        assert h in {g} + ts;
      }
    }
  }

  /** HeldBy grows with its source and joins over its nodes. */
  lemma HeldByJoin(a: set<ProbFun>, b: set<ProbFun>, src: set<ProbFun>, sa: set<ProbFun>, sb: set<ProbFun>)
    requires HeldBy(a, sa) && HeldBy(b, sb) && sa <= src && sb <= src
    ensures HeldBy(a + b, src)
  {
    forall f | f in a + b ensures exists g :: g in src && f.chain == g.chain {
      if f in a {
        var g :| g in sa && f.chain == g.chain;
      } else {
        var g :| g in sb && f.chain == g.chain;
      }
    }
  }

  /**
   * The parts of a node wrapped from another: a clone of its first link,
   * its first chain, and its levels with one more level of copies.
   */
  lemma WrapFacts(f0: ProbFun, f: ProbFun, fc: seq<Pair<ProbFun>>, levels: seq<Level>, l: Level)
    requires Built(f0, fc, levels) && f.Valid() && f.chain == f0.chain
    requires Feeds(ValuesOf(levels[|levels| - 1]), l) && KeyedBy(l, KeySet(fc)) && Copies(l)
    requires KeysOf(l) <= ValuesOf(levels[|levels| - 1]) && ValuesOf(l) !! Targets(fc)
    ensures Built(f, fc, levels + [l])
    ensures HeldBy(AllNodes(f, fc, levels + [l]), AllNodes(f0, fc, levels))
  {
    var rest := Targets(fc) + LevelNodes(levels);
    assert AllNodes(f0, fc, levels) == {f0} + rest;
    assert AllNodes(f, fc, levels) == {f} + rest;
    assert NodesSound(rest, Keys(fc));
    assert NodesSound({f}, Keys(fc));
    NodesSoundUnion({f}, rest, Keys(fc));
    BuiltNext(f, fc, levels, l);
    HeldBySwap(f, f0, rest);
    HeldByJoin({f} + rest, ValuesOf(l), AllNodes(f0, fc, levels), {f0} + rest, LevelNodes(levels));
  }

  /** The parts a node wrapped from a NestedProbFun starts from are built right. */
  lemma FirstFacts(f0: ProbFun, f: ProbFun, fc: seq<Pair<ProbFun>>, l: Level)
    requires NodesSound({f} + Targets(fc), Keys(fc)) && f.chain == f0.chain
    requires Feeds(Targets(fc), l) && CopiesOf(l, fc)
    requires KeysOf(l) <= Targets(fc) && ValuesOf(l) !! Targets(fc)
    ensures Built(f, fc, [l])
    ensures HeldBy(AllNodes(f, fc, [l]), {f0} + Targets(fc))
  {
    BuiltFirst(f, fc, l);
    HeldBySwap(f, f0, Targets(fc));
    HeldByTrans(AllNodes(f, fc, [l]), {f} + Targets(fc), {f0} + Targets(fc));
  }

  /** The parts the constructor from a NestedProbFun builds: a clone of its first link and the first level. */
  method FirstParts(node: TwoStepChains.NestedProbFun) returns (f: ProbFun, ghost l: Level, ls: LevelList)
    requires node.Valid()
    ensures fresh(f) && fresh(ls) && ls.levels == [l]
    ensures f.chain == node.firstLink.chain && Built(f, node.chain2, [l])
    ensures CopiesOf(l, node.chain2) && fresh(ValuesOf(l))
    ensures HeldBy(AllNodes(f, node.chain2, [l]), {node.firstLink} + Targets(node.chain2))
  {
    NestedSound(node);
    var l' := FirstLevel(node.chain2);
    f := node.firstLink.Clone();
    ls := new LevelList([l']);
    assert CopiesOf(l', node.chain2) && Feeds(Targets(node.chain2), l');
    assert ValuesOf(l') !! Targets(node.chain2);
    assert NodesSound(Targets(node.chain2), Keys(node.chain2));
    assert NodesSound({f} + Targets(node.chain2), Keys(node.chain2));
    FirstFacts(node.firstLink, f, node.chain2, l');
    l := l';
  }

  /** `chain2`: the list of level maps, shared by a node and the node built from it. */
  class LevelList {
    var levels: seq<Level>

    constructor (levels: seq<Level>)
      ensures this.levels == levels
    {
      this.levels := levels;
    }
  }

  /** GenerativeMarkovChain/src/markov/NestedMarkovNode.java. */
  class NestedMarkovNode {
    var firstLink: ProbFun
    var firstChain: seq<Pair<ProbFun>>
    var chain2: LevelList
    var previousElements: seq<int>
    var capacity: nat
    ghost var Repr: set<object>

    /** Every ProbFun the node reaches. */
    ghost function Nodes(): set<ProbFun>
      reads this, chain2
    {
      AllNodes(firstLink, firstChain, chain2.levels)
    }

    /**
     * The levels keep their shape, every node holds a distribution over the
     * elements of the first chain, and the history holds at most levels + 1
     * of those elements, one less than the deque's capacity.
     */
    ghost predicate Valid()
      reads this, Repr
    {
      chain2 in Repr && Repr == {chain2} + Nodes() &&
      Built(firstLink, firstChain, chain2.levels) &&
      capacity == |chain2.levels| + 2 && |previousElements| <= |chain2.levels| + 1 &&
      InChain(previousElements, firstChain)
    }

    /** The constructors' common end: the parts stored, the history empty, the deque's capacity the levels plus two. */
    constructor FromParts(f: ProbFun, fc: seq<Pair<ProbFun>>, ls: LevelList, ghost src: set<ProbFun>, ghost copied: Level)
      requires Built(f, fc, ls.levels) && HeldBy(AllNodes(f, fc, ls.levels), src) && Copies(copied)
      ensures Valid() && Repr == {ls} + AllNodes(f, fc, ls.levels) && HeldBy(Nodes(), src) && Copies(copied)
      ensures firstLink == f && firstChain == fc && chain2 == ls
      ensures previousElements == [] && capacity == |ls.levels| + 2
    {
      firstLink, firstChain, chain2 := f, fc, ls;
      previousElements := [];
      capacity := |ls.levels| + 2;
      Repr := {ls} + AllNodes(f, fc, ls.levels);
    }

    /**
     * `fun()` with the walk down the levels corrected: the node the history
     * leads to samples an element at rnd, the oldest element is dropped
     * when the history is full, and the element is appended. The node is
     * always found; only a draw of null fails.
     */
    method Fun(rnd: real) returns (t: Result<int>, ghost n: ProbFun)
      requires Valid() && 0.0 <= rnd < 1.0
      modifies this
      ensures Valid() && Repr == old(Repr) && capacity == old(capacity)
      ensures firstLink == old(firstLink) && firstChain == old(firstChain) && chain2 == old(chain2)
      ensures n in Nodes() && FunNode(firstLink, firstChain, chain2.levels, old(previousElements)) == Ok(Some(n))
      ensures (t, previousElements) == FunStep(n.chain, rnd, old(previousElements), |chain2.levels|)
    {
      t, previousElements, n := Draw(firstLink, firstChain, chain2.levels, previousElements, rnd);
    }

    /**
     * `good(list, percent)` (good true) and `bad(list, percent)`: a null
     * list or element, or an empty list, throws before any change;
     * otherwise the steps of the walk are taken in order on the maps the
     * ProbFuns hold, as NestedSteps.Outcome says.
     */
    method Feedback(list: Option<seq<Option<int>>>, p: real, good: bool) returns (err: Option<Exception>)
      requires Valid()
      modifies Nodes()
      ensures Valid() && Repr == old(Repr) && previousElements == old(previousElements)
      ensures firstLink == old(firstLink) && firstChain == old(firstChain) && chain2 == old(chain2)
      ensures chain2.levels == old(chain2.levels)
      ensures Checked(list).Fail? ==> err == Some(Checked(list).error) && Snap(Nodes()) == old(Snap(Nodes()))
      ensures Checked(list).Ok? ==>
        Covers(Plan(firstLink, firstChain, chain2.levels, Checked(list).value).0, old(Snap(Nodes()))) &&
        Sound(old(Snap(Nodes()))) &&
        (err, Snap(Nodes())) == Outcome(Plan(firstLink, firstChain, chain2.levels, Checked(list).value), old(Snap(Nodes())), p, good)
    {
      var c := Checked(list);
      if c.Fail? {
        return Some(c.error);
      }
      err := FeedbackOn(firstLink, firstChain, chain2.levels, c.value, p, good, Nodes());
    }
  }

  /** The steps of `good(list)`/`bad(list)` for a checked list, on the ProbFuns fs of built parts. */
  method FeedbackOn(firstLink: ProbFun, firstChain: seq<Pair<ProbFun>>, levels: seq<Level>, es: seq<int>, p: real, good: bool,
                    ghost fs: set<ProbFun>)
    returns (err: Option<Exception>)
    requires fs == AllNodes(firstLink, firstChain, levels) && NodesSound(fs, Keys(firstChain)) && |es| >= 1
    modifies fs
    ensures NodesSound(fs, Keys(firstChain))
    ensures Covers(Plan(firstLink, firstChain, levels, es).0, old(Snap(fs))) && Sound(old(Snap(fs)))
    ensures (err, Snap(fs)) == Outcome(Plan(firstLink, firstChain, levels, es), old(Snap(fs)), p, good)
  {
    ghost var s0 := Snap(fs);
    NodesValid(fs, Keys(firstChain));
    err := Reinforce(firstLink, firstChain, levels, es, p, good, fs);
    KeepsKeys(fs, s0, Plan(firstLink, firstChain, levels, es), p, good, Keys(firstChain));
  }

  /** Every node of a sound set holds a distribution. */
  lemma NodesValid(fs: set<ProbFun>, ks: seq<int>)
    requires NodesSound(fs, ks)
    ensures forall g :: g in fs ==> g.Valid()
  {
  }

  /**
   * After the steps, every node still holds a distribution over the same
   * elements in the same order.
   */
  lemma KeepsKeys(fs: set<ProbFun>, s0: Snapshot, plan: (seq<Step>, Option<Exception>), p: real, good: bool, ks: seq<int>)
    requires Covers(plan.0, s0) && Sound(s0) && s0.Keys == fs
    requires forall f :: f in s0 ==> Keys(s0[f]) == ks
    requires forall g :: g in fs ==> g.Valid()
    requires Snap(fs) == Outcome(plan, s0, p, good).1
    ensures NodesSound(fs, ks)
  {
    RunKeys(plan.0, s0, p, good);
    forall f | f in fs ensures Keys(f.chain) == ks {
      assert f.chain == Snap(fs)[f];
    }
  }

  /** Every element of the history is an element of the chain. */
  predicate InChain(h: seq<int>, firstChain: seq<Pair<ProbFun>>) {
    forall i :: 0 <= i < |h| ==> h[i] in KeySet(firstChain)
  }

  /**
   * The work of `fun()`: the node the history leads to, its draw at rnd,
   * and the history after it. No node changes.
   */
  method Draw(firstLink: ProbFun, firstChain: seq<Pair<ProbFun>>, levels: seq<Level>, h: seq<int>, rnd: real)
    returns (t: Result<int>, h': seq<int>, ghost n: ProbFun)
    requires Built(firstLink, firstChain, levels) && |h| <= |levels| + 1 && InChain(h, firstChain)
    requires 0.0 <= rnd < 1.0
    ensures n in AllNodes(firstLink, firstChain, levels) && FunNode(firstLink, firstChain, levels, h) == Ok(Some(n))
    ensures n.Valid() && KeySet(n.chain) == KeySet(firstChain)
    ensures (t, h') == FunStep(n.chain, rnd, h, |levels|)
    ensures |h'| <= |levels| + 1 && InChain(h', firstChain)
  {
    FunNodeReaches(firstLink, firstChain, levels, h);
    ghost var target := FunNode(firstLink, firstChain, levels, h).value.value;
    assert target.Valid() && Keys(target.chain) == Keys(firstChain);
    var node := firstLink;
    if h != [] {
      var r := Descend(firstChain, levels, h);
      node := r.value.value;
    }
    n := node;
    assert node == target;
    SameKeySet(node.chain, firstChain);
    var e := node.Fun(rnd);
    h' := Dropped(h, |levels|);
    InChainDropped(h, |levels|, firstChain);
    match e
    case None =>
      t := Fail(NullPointer);
    case Some(x) =>
      InChainPush(h', x, firstChain);
      h' := h' + [x];
      t := Ok(x);
  }

  lemma InChainDropped(h: seq<int>, depth: nat, firstChain: seq<Pair<ProbFun>>)
    requires InChain(h, firstChain)
    ensures InChain(Dropped(h, depth), firstChain)
  {
    if |h| >= 2 && |h| - 1 == depth {
      assert forall i :: 0 <= i < |h| - 1 ==> h[1..][i] == h[i + 1];
    }
  }

  lemma InChainPush(h: seq<int>, x: int, firstChain: seq<Pair<ProbFun>>)
    requires InChain(h, firstChain) && x in KeySet(firstChain)
    ensures InChain(h + [x], firstChain)
  {
    assert forall i :: 0 <= i < |h| ==> (h + [x])[i] == h[i];
  }

  /**
   * `new NestedMarkovNode(node)` for a NestedProbFun: a clone of its first
   * link, its own chain, and one level of fresh copies.
   */
  method WrapNested(node: TwoStepChains.NestedProbFun) returns (n: NestedMarkovNode)
    requires node.Valid()
    ensures fresh(n) && n.Valid() && fresh(n.firstLink) && fresh(n.chain2)
    ensures n.firstLink.chain == node.firstLink.chain && n.firstChain == node.chain2
    ensures |n.chain2.levels| == 1 && CopiesOf(n.chain2.levels[0], n.firstChain) && fresh(ValuesOf(n.chain2.levels[0]))
    ensures n.previousElements == [] && n.capacity == 3
    ensures HeldBy(n.Nodes(), {node.firstLink} + Targets(node.chain2))
  {
    var f, l, ls := FirstParts(node);
    ghost var src := {node.firstLink} + Targets(node.chain2);
    n := new NestedMarkovNode.FromParts(f, node.chain2, ls, src, []);
    assert n.chain2 == ls && ls.levels == [l];
    assert CopiesOf(l, node.chain2) && fresh(ValuesOf(l));
    assert HeldBy(n.Nodes(), src);
  }

  /** The parts of WrapNode that only allocate: the clone of the first link and the new level. */
  method WrapParts(node: NestedMarkovNode) returns (f: ProbFun, l: Level, ls: LevelList)
    requires node.Valid()
    ensures fresh(f) && fresh(ValuesOf(l)) && fresh(ls) && f.chain == node.firstLink.chain
    ensures ls.levels == node.chain2.levels + [l]
    ensures Built(f, node.firstChain, ls.levels) && Copies(l)
    ensures HeldBy(AllNodes(f, node.firstChain, ls.levels), node.Nodes())
  {
    var fc := node.firstChain;
    ghost var levels := node.chain2.levels;
    var last := node.chain2.levels[|node.chain2.levels| - 1];
    LevelNodesHas(levels, |levels| - 1);
    assert node.firstLink in node.Nodes() && ValuesOf(last) <= node.Nodes();
    assert forall v :: v in ValuesOf(last) ==> v.Valid();
    f := node.firstLink.Clone();
    l := NextLevel(last, KeySet(fc));
    ls := new LevelList(node.chain2.levels + [l]);
    assert ValuesOf(l) !! Targets(fc);
    assert Built(node.firstLink, fc, levels);
    WrapFacts(node.firstLink, f, fc, levels, l);
  }

  /**
   * `new NestedMarkovNode(node)` for a NestedMarkovNode: a clone of its
   * first link, its first chain, and its levels with one level appended.
   * The new level maps every node the last level reaches to fresh copies
   * of it, one per element; the valid node it builds is keyed and shaped
   * as Built says, and every node it reaches holds a map the argument holds.
   */
  method WrapNode(node: NestedMarkovNode) returns (n: NestedMarkovNode)
    requires node.Valid()
    ensures fresh(n) && n.Valid() && fresh(n.firstLink)
    ensures n.firstLink.chain == node.firstLink.chain && n.firstChain == node.firstChain
    ensures |n.chain2.levels| == |node.chain2.levels| + 1 && n.chain2.levels[..|node.chain2.levels|] == node.chain2.levels
    ensures Copies(n.chain2.levels[|n.chain2.levels| - 1]) && fresh(ValuesOf(n.chain2.levels[|n.chain2.levels| - 1]))
    ensures n.previousElements == [] && n.capacity == |n.chain2.levels| + 2
    ensures HeldBy(n.Nodes(), node.Nodes())
  {
    ghost var levels := node.chain2.levels;
    var f, l, ls := WrapParts(node);
    n := new NestedMarkovNode.FromParts(f, node.firstChain, ls, node.Nodes(), l);
    assert ls.levels[..|levels|] == levels;
  }
}

=== FILE: nested_renaming.dfy ===
/**
 * Copies of the level maps of GenerativeMarkovChain/src/markov/NestedMarkovNode.java
 * under a renaming: a map from each ProbFun of a chain to the ProbFun that
 * stands for it in a copy. A renaming that never sends two ProbFuns to one
 * keeps every lookup by identity, so the copy is walked exactly as the
 * original is.
 */
module NestedRenaming {
  import opened Wrappers
  import opened Assoc
  import opened NestedLevels

  type Renaming = map<ProbFun, ProbFun>

  /** No two ProbFuns are sent to the same one. */
  predicate Injective(cp: Renaming) {
    forall u, v :: u in cp && v in cp && u != v ==> cp[u] != cp[v]
  }

  /** `cp` agrees with `base` wherever `base` is defined. */
  predicate Extends(cp: Renaming, base: Renaming) {
    forall u :: u in base ==> u in cp && cp[u] == base[u]
  }

  /** The ProbFuns the nodes of `s` are sent to. */
  function Image(s: set<ProbFun>, cp: Renaming): set<ProbFun> {
    set u | u in s && u in cp :: cp[u]
  }

  /** Every node a map holds is renamed. */
  predicate MapIn(m: seq<Pair<ProbFun>>, cp: Renaming) {
    forall j :: 0 <= j < |m| ==> m[j].value in cp
  }

  /** Every node of a level, as key or as target, is renamed. */
  predicate LevelIn(l: Level, cp: Renaming) {
    forall x :: 0 <= x < |l| ==> l[x].node in cp && MapIn(l[x].next, cp)
  }

  predicate LevelsIn(levels: seq<Level>, cp: Renaming) {
    forall k :: 0 <= k < |levels| ==> LevelIn(levels[k], cp)
  }

  function RenameMap(m: seq<Pair<ProbFun>>, cp: Renaming): (r: seq<Pair<ProbFun>>)
    requires MapIn(m, cp)
    ensures |r| == |m| && forall j :: 0 <= j < |m| ==> r[j] == Pair(m[j].key, cp[m[j].value])
  {
    seq(|m|, j requires 0 <= j < |m| => Pair(m[j].key, cp[m[j].value]))
  }

  function RenameLevel(l: Level, cp: Renaming): (r: Level)
    requires LevelIn(l, cp)
    ensures |r| == |l| && forall x :: 0 <= x < |l| ==> r[x] == Entry(cp[l[x].node], RenameMap(l[x].next, cp))
  {
    seq(|l|, x requires 0 <= x < |l| => Entry(cp[l[x].node], RenameMap(l[x].next, cp)))
  }

  function RenameLevels(levels: seq<Level>, cp: Renaming): (r: seq<Level>)
    requires LevelsIn(levels, cp)
    ensures |r| == |levels| && forall k :: 0 <= k < |levels| ==> r[k] == RenameLevel(levels[k], cp)
  {
    seq(|levels|, k requires 0 <= k < |levels| => RenameLevel(levels[k], cp))
  }

  /** A renamed lookup result. */
  function RenameNode(r: Result<Option<ProbFun>>, cp: Renaming): Result<Option<ProbFun>>
    requires r.Ok? && r.value.Some? ==> r.value.value in cp
  {
    match r
    case Fail(e) => Fail(e)
    case Ok(None) => Ok(None)
    case Ok(Some(n)) => Ok(Some(cp[n]))
  }

  /** A renaming that extends another renames what the other did, the same way. */
  lemma RenameMapExtends(m: seq<Pair<ProbFun>>, cp: Renaming, base: Renaming)
    requires MapIn(m, base) && Extends(cp, base)
    ensures MapIn(m, cp) && RenameMap(m, cp) == RenameMap(m, base)
  {
  }

  lemma RenameLevelExtends(l: Level, cp: Renaming, base: Renaming)
    requires LevelIn(l, base) && Extends(cp, base)
    ensures LevelIn(l, cp) && RenameLevel(l, cp) == RenameLevel(l, base)
  {
    forall x | 0 <= x < |l| ensures RenameMap(l[x].next, cp) == RenameMap(l[x].next, base) {
      RenameMapExtends(l[x].next, cp, base);
    }
  }

  lemma RenameLevelsExtends(levels: seq<Level>, cp: Renaming, base: Renaming)
    requires LevelsIn(levels, base) && Extends(cp, base)
    ensures LevelsIn(levels, cp) && RenameLevels(levels, cp) == RenameLevels(levels, base)
  {
    forall k | 0 <= k < |levels| ensures RenameLevel(levels[k], cp) == RenameLevel(levels[k], base) {
      RenameLevelExtends(levels[k], cp, base);
    }
  }

  /** A lookup by key reads only the keys: the same keys in the same order find the same position. */
  lemma {:induction false} SameKeyOrderIndex<V, W>(a: seq<Pair<V>>, b: seq<Pair<W>>, k: int)
    requires SameKeyOrder(a, b)
    ensures IndexOf(a, k) == IndexOf(b, k)
    decreases |a|
  {
    if a != [] && a[0].key != k {
      assert SameKeyOrder(a[1..], b[1..]);
      SameKeyOrderIndex(a[1..], b[1..], k);
    }
  }

  /** A renamed map holds the same elements, each sent to the copy of its node. */
  lemma GetRenamed(m: seq<Pair<ProbFun>>, cp: Renaming, e: int)
    requires MapIn(m, cp)
    ensures Get(m, e).Some? ==> Get(m, e).value in cp
    ensures Get(RenameMap(m, cp), e) == if Get(m, e).Some? then Some(cp[Get(m, e).value]) else None
  {
    SameKeyOrderIndex(RenameMap(m, cp), m, e);
  }

  /** A renamed level has an entry for the copy of a node exactly where the original has one for the node. */
  lemma FindIndexRenamed(l: Level, cp: Renaming, n: ProbFun)
    requires LevelIn(l, cp) && Injective(cp) && n in cp
    ensures FindIndex(RenameLevel(l, cp), cp[n]) == FindIndex(l, n)
  {
    var r := RenameLevel(l, cp);
    match FindIndex(l, n)
    case None =>
      forall i | 0 <= i < |r| ensures r[i].node != cp[n] {
        assert l[i].node != n;
      }
    case Some(i) =>
      assert r[i].node == cp[n];
      forall j | 0 <= j < i ensures r[j].node != cp[n] {
        assert l[j].node != n;
      }
  }

  lemma FindRenamed(l: Level, cp: Renaming, n: Option<ProbFun>)
    requires LevelIn(l, cp) && Injective(cp) && (n.Some? ==> n.value in cp)
    ensures Find(l, n).Some? ==> MapIn(Find(l, n).value, cp)
    ensures Find(RenameLevel(l, cp), if n.Some? then Some(cp[n.value]) else None) ==
      if Find(l, n).Some? then Some(RenameMap(Find(l, n).value, cp)) else None
  {
    if n.Some? {
      FindIndexRenamed(l, cp, n.value);
    }
  }

  /**
   * The walk over a renamed chain reaches the copy of the node the walk
   * over the original reaches, and fails where it fails.
   */
  lemma {:induction false} PathAtRenamed(firstChain: seq<Pair<ProbFun>>, levels: seq<Level>, h: seq<int>, k: nat, cp: Renaming)
    requires MapIn(firstChain, cp) && LevelsIn(levels, cp) && Injective(cp) && 1 <= k <= |h|
    ensures var r := PathAt(firstChain, levels, h, k); r.Ok? && r.value.Some? ==> r.value.value in cp
    ensures PathAt(RenameMap(firstChain, cp), RenameLevels(levels, cp), h, k) ==
      RenameNode(PathAt(firstChain, levels, h, k), cp)
  {
    if k == 1 {
      GetRenamed(firstChain, cp, h[0]);
    } else {
      PathAtRenamed(firstChain, levels, h, k - 1, cp);
      var r := PathAt(firstChain, levels, h, k - 1);
      if r.Ok? && k - 2 < |levels| {
        StepRenamed(levels[k - 2], cp, r.value, h[k - 1]);
      }
    }
  }

  /** One round of the walk, renamed: the level's map of the node, at element e. */
  lemma StepRenamed(l: Level, cp: Renaming, n: Option<ProbFun>, e: int)
    requires LevelIn(l, cp) && Injective(cp) && (n.Some? ==> n.value in cp)
    ensures Find(l, n).Some? ==> MapIn(Find(l, n).value, cp)
    ensures var m := Find(l, n); m.Some? && Get(m.value, e).Some? ==> Get(m.value, e).value in cp
    ensures var m := Find(RenameLevel(l, cp), if n.Some? then Some(cp[n.value]) else None);
      m.Some? == Find(l, n).Some? &&
      (m.Some? ==> Get(m.value, e) == var g := Get(Find(l, n).value, e); if g.Some? then Some(cp[g.value]) else None)
  {
    FindRenamed(l, cp, n);
    if Find(l, n).Some? {
      GetRenamed(Find(l, n).value, cp, e);
    }
  }

  /** Renaming keeps the keys of a map. */
  lemma RenameMapKeys(m: seq<Pair<ProbFun>>, cp: Renaming)
    requires MapIn(m, cp)
    ensures Keys(RenameMap(m, cp)) == Keys(m) && KeySet(RenameMap(m, cp)) == KeySet(m)
  {
    SameKeyOrderFacts(RenameMap(m, cp), m);
  }

  /** The nodes a renamed map, level or list of levels holds are copies of the original's nodes. */
  lemma TargetsRenamed(m: seq<Pair<ProbFun>>, cp: Renaming)
    requires MapIn(m, cp)
    ensures Targets(RenameMap(m, cp)) == Image(Targets(m), cp)
  {
    var r := RenameMap(m, cp);
    forall v | v in Targets(r) ensures v in Image(Targets(m), cp) {
      var j :| 0 <= j < |r| && r[j].value == v;
      assert m[j].value in Targets(m);
    }
    forall v | v in Image(Targets(m), cp) ensures v in Targets(r) {
      var u :| u in Targets(m) && u in cp && cp[u] == v;
      var j :| 0 <= j < |m| && m[j].value == u;
      assert r[j].value == v;
    }
  }

  lemma KeysOfRenamed(l: Level, cp: Renaming)
    requires LevelIn(l, cp)
    ensures KeysOf(RenameLevel(l, cp)) == Image(KeysOf(l), cp)
  {
    var r := RenameLevel(l, cp);
    forall v | v in KeysOf(r) ensures v in Image(KeysOf(l), cp) {
      var x :| 0 <= x < |r| && r[x].node == v;
      assert l[x].node in KeysOf(l);
    }
    forall v | v in Image(KeysOf(l), cp) ensures v in KeysOf(r) {
      var u :| u in KeysOf(l) && u in cp && cp[u] == v;
      var x :| 0 <= x < |l| && l[x].node == u;
      assert r[x].node == v;
    }
  }

  lemma ValuesOfRenamed(l: Level, cp: Renaming)
    requires LevelIn(l, cp)
    ensures ValuesOf(RenameLevel(l, cp)) == Image(ValuesOf(l), cp)
  {
    var r := RenameLevel(l, cp);
    forall v | v in ValuesOf(r) ensures v in Image(ValuesOf(l), cp) {
      var x, j :| 0 <= x < |r| && 0 <= j < |r[x].next| && r[x].next[j].value == v;
      assert l[x].next[j].value in ValuesOf(l);
    }
    forall v | v in Image(ValuesOf(l), cp) ensures v in ValuesOf(r) {
      var u :| u in ValuesOf(l) && u in cp && cp[u] == v;
      var x, j :| 0 <= x < |l| && 0 <= j < |l[x].next| && l[x].next[j].value == u;
      assert r[x].next[j].value == v;
    }
  }

  lemma {:induction false} LevelNodesRenamed(levels: seq<Level>, cp: Renaming)
    requires LevelsIn(levels, cp)
    ensures LevelNodes(RenameLevels(levels, cp)) == Image(LevelNodes(levels), cp)
    decreases |levels|
  {
    if levels != [] {
      var n := |levels| - 1;
      var r := RenameLevels(levels, cp);
      assert r[..n] == RenameLevels(levels[..n], cp);
      LevelNodesRenamed(levels[..n], cp);
      KeysOfRenamed(levels[n], cp);
      ValuesOfRenamed(levels[n], cp);
      ImageUnion(KeysOf(levels[n]) + ValuesOf(levels[n]), LevelNodes(levels[..n]), cp);
      ImageUnion(KeysOf(levels[n]), ValuesOf(levels[n]), cp);
    }
  }

  lemma ImageUnion(a: set<ProbFun>, b: set<ProbFun>, cp: Renaming)
    ensures Image(a + b, cp) == Image(a, cp) + Image(b, cp)
  {
  }

  /** A renaming that keeps identities apart keeps the shape the constructors build. */
  lemma ShapedRenamed(firstChain: seq<Pair<ProbFun>>, levels: seq<Level>, cp: Renaming)
    requires Shaped(firstChain, levels) && MapIn(firstChain, cp) && LevelsIn(levels, cp) && Injective(cp)
    ensures Shaped(RenameMap(firstChain, cp), RenameLevels(levels, cp))
  {
    var rfc, rls := RenameMap(firstChain, cp), RenameLevels(levels, cp);
    RenameMapKeys(firstChain, cp);
    TargetsRenamed(firstChain, cp);
    FeedsRenamed(Targets(firstChain), levels[0], cp);
    forall k | 0 <= k < |levels| - 1 ensures Feeds(ValuesOf(rls[k]), rls[k + 1]) {
      ValuesOfRenamed(levels[k], cp);
      FeedsRenamed(ValuesOf(levels[k]), levels[k + 1], cp);
    }
    forall k | 0 <= k < |levels| ensures KeyedBy(rls[k], KeySet(rfc)) {
      forall x | 0 <= x < |rls[k]| ensures KeySet(rls[k][x].next) == KeySet(rfc) {
        RenameMapKeys(levels[k][x].next, cp);
      }
    }
  }

  lemma FeedsRenamed(from: set<ProbFun>, l: Level, cp: Renaming)
    requires Feeds(from, l) && from <= cp.Keys && LevelIn(l, cp) && Injective(cp)
    ensures Feeds(Image(from, cp), RenameLevel(l, cp))
  {
    forall v | v in Image(from, cp) ensures FindIndex(RenameLevel(l, cp), v).Some? {
      var u :| u in from && u in cp && cp[u] == v;
      FindIndexRenamed(l, cp, u);
    }
  }

  /** The same for the identities kept apart. */
  lemma ApartRenamed(firstChain: seq<Pair<ProbFun>>, levels: seq<Level>, cp: Renaming)
    requires Apart(firstChain, levels) && MapIn(firstChain, cp) && LevelsIn(levels, cp) && Injective(cp)
    ensures Apart(RenameMap(firstChain, cp), RenameLevels(levels, cp))
  {
    var rfc, rls := RenameMap(firstChain, cp), RenameLevels(levels, cp);
    TargetsRenamed(firstChain, cp);
    KeysOfRenamed(levels[0], cp);
    forall k | 1 <= k < |levels| ensures KeysOf(rls[k]) !! Targets(rfc) {
      KeysOfRenamed(levels[k], cp);
      ImageApart(KeysOf(levels[k]), Targets(firstChain), cp);
    }
    forall k | 0 <= k < |levels| ensures ValuesOf(rls[k]) !! Targets(rfc) {
      ValuesOfRenamed(levels[k], cp);
      ImageApart(ValuesOf(levels[k]), Targets(firstChain), cp);
    }
  }

  /** Disjoint sets have disjoint images. */
  lemma ImageApart(a: set<ProbFun>, b: set<ProbFun>, cp: Renaming)
    requires a !! b && Injective(cp)
    ensures Image(a, cp) !! Image(b, cp)
  {
    forall u, w | u in a && u in cp && w in b && w in cp ensures cp[u] != cp[w] {
      assert u != w;
    }
  }
}

=== FILE: nested_steps.dfy ===
/**
 * What `good(list)` and `bad(list)` of
 * GenerativeMarkovChain/src/markov/NestedMarkovNode.java do to the ProbFuns
 * they reach: the steps of NestedLevels.Plan, applied in order. The maps the
 * ProbFuns hold are followed as a snapshot, a map from each ProbFun to its
 * map, so that a step reaching a ProbFun an earlier step reached sees what
 * that step left there.
 */
module NestedSteps {
  import opened Wrappers
  import opened Assoc
  import opened ProbMaps
  import opened NestedLevels
  import TwoStepChains

  type Snapshot = map<ProbFun, ProbMap>

  /** The maps a set of ProbFuns holds now. */
  ghost function Snap(fs: set<ProbFun>): Snapshot
    reads fs
  {
    map f | f in fs :: f.chain
  }

  /** Every ProbFun of the snapshot holds a distribution. */
  predicate Sound(s: Snapshot) {
    forall f :: f in s ==> Distribution(s[f])
  }

  /** Every step reaches a ProbFun of the snapshot. */
  predicate Covers(steps: seq<Step>, s: Snapshot) {
    forall i :: 0 <= i < |steps| ==> steps[i].node in s
  }

  /**
   * The steps in order, each `good` (or `bad`) on the map its ProbFun holds
   * by then; the first step that throws stops the rest and changes nothing.
   */
  function Run(steps: seq<Step>, s: Snapshot, p: real, good: bool): (r: (Option<Exception>, Snapshot))
    requires Covers(steps, s) && Sound(s)
    ensures r.1.Keys == s.Keys && Sound(r.1)
    ensures r.0.Some? ==> r.0.value == if p <= 0.0 || p >= 1.0 then IllegalArgument else NullPointer
    decreases |steps|
  {
    if steps == [] then (None, s)
    else
      var st := steps[0];
      match TwoStepChains.Adjust(s[st.node], st.element, p, good)
      case Fail(e) => (Some(e), s)
      case Ok(m) =>
        assert Covers(steps[1..], s[st.node := m]) by {
          assert forall i :: 0 <= i < |steps| - 1 ==> steps[1..][i] == steps[i + 1];
        }
        Run(steps[1..], s[st.node := m], p, good)
  }

  /** The steps, then the exception the walk itself ends with if no step threw. */
  function Outcome(plan: (seq<Step>, Option<Exception>), s: Snapshot, p: real, good: bool): (Option<Exception>, Snapshot)
    requires Covers(plan.0, s) && Sound(s)
  {
    var r := Run(plan.0, s, p, good);
    if r.0.Some? then r else (plan.1, r.1)
  }

  /** A list of steps in two parts reaches what its parts reach. */
  lemma CoversAppend(a: seq<Step>, b: seq<Step>, s: Snapshot)
    ensures Covers(a + b, s) <==> Covers(a, s) && Covers(b, s)
  {
    assert forall i :: 0 <= i < |a| ==> (a + b)[i] == a[i];
    assert forall i :: 0 <= i < |b| ==> (a + b)[|a| + i] == b[i];
  }

  /** Running two lists of steps is running the first, then the second unless the first threw. */
  lemma {:induction false} RunAppend(a: seq<Step>, b: seq<Step>, s: Snapshot, p: real, good: bool)
    requires Covers(a, s) && Covers(b, s) && Sound(s)
    ensures Covers(a + b, s)
    ensures Run(a + b, s, p, good) ==
      var r := Run(a, s, p, good); if r.0.Some? then r else Run(b, r.1, p, good)
    decreases |a|
  {
    CoversAppend(a, b, s);
    if a == [] {
      assert a + b == b;
    } else {
      var st := a[0];
      assert (a + b)[0] == st && (a + b)[1..] == a[1..] + b;
      match TwoStepChains.Adjust(s[st.node], st.element, p, good)
      case Fail(e) =>
      case Ok(m) =>
        var s' := s[st.node := m];
        assert Covers(a[1..], s') by {
          assert forall i :: 0 <= i < |a| - 1 ==> a[1..][i] == a[i + 1];
        }
        RunAppend(a[1..], b, s', p, good);
    }
  }

  /** The same for a whole outcome. */
  lemma OutcomeAppend(a: seq<Step>, b: seq<Step>, x: Option<Exception>, s: Snapshot, p: real, good: bool)
    requires Covers(a + b, s) && Sound(s)
    ensures Covers(a, s) && Covers(b, Run(a, s, p, good).1)
    ensures Outcome((a + b, x), s, p, good) ==
      var r := Run(a, s, p, good); if r.0.Some? then r else Outcome((b, x), r.1, p, good)
  {
    CoversAppend(a, b, s);
    RunAppend(a, b, s, p, good);
  }

  /** Every step is for an element its ProbFun holds. */
  predicate Known(steps: seq<Step>, s: Snapshot)
    requires Covers(steps, s)
  {
    forall i :: 0 <= i < |steps| ==> steps[i].element in KeySet(s[steps[i].node])
  }

  /**
   * With a percent in (0, 1) and every step for an element its ProbFun holds,
   * no step throws: `good` and `bad` keep the elements a map holds.
   */
  lemma {:induction false} RunSucceeds(steps: seq<Step>, s: Snapshot, p: real, good: bool, ks: set<int>)
    requires Covers(steps, s) && Sound(s) && 0.0 < p < 1.0
    requires forall f :: f in s ==> KeySet(s[f]) == ks
    requires forall i :: 0 <= i < |steps| ==> steps[i].element in ks
    ensures Run(steps, s, p, good).0 == None
    ensures forall f :: f in s ==> KeySet(Run(steps, s, p, good).1[f]) == ks
    decreases |steps|
  {
    if steps != [] {
      var st := steps[0];
      var m := TwoStepChains.Adjust(s[st.node], st.element, p, good).value;
      TwoStepChains.SameKeysKeys(m, s[st.node]);
      NestedLevels.SameKeySet(m, s[st.node]);
      var s' := s[st.node := m];
      assert forall i :: 0 <= i < |steps| - 1 ==> steps[1..][i] == steps[i + 1];
      RunSucceeds(steps[1..], s', p, good, ks);
    }
  }

  /** The steps keep the elements of every map, in order, whatever they throw. */
  lemma {:induction false} RunKeys(steps: seq<Step>, s: Snapshot, p: real, good: bool)
    requires Covers(steps, s) && Sound(s)
    ensures forall f :: f in s ==> Keys(Run(steps, s, p, good).1[f]) == Keys(s[f])
    decreases |steps|
  {
    if steps != [] {
      var st := steps[0];
      match TwoStepChains.Adjust(s[st.node], st.element, p, good)
      case Fail(e) =>
      case Ok(m) =>
        TwoStepChains.SameKeysKeys(m, s[st.node]);
        var s' := s[st.node := m];
        assert Covers(steps[1..], s') by {
          assert forall i :: 0 <= i < |steps| - 1 ==> steps[1..][i] == steps[i + 1];
        }
        RunKeys(steps[1..], s', p, good);
    }
  }

  /** A percent outside (0, 1) fails the first step: IllegalArgumentException, and nothing changes. */
  lemma RunBadPercent(steps: seq<Step>, s: Snapshot, p: real, good: bool)
    requires Covers(steps, s) && Sound(s) && steps != [] && (p <= 0.0 || p >= 1.0)
    ensures Run(steps, s, p, good) == (Some(IllegalArgument), s)
  {
  }

  /**
   * The checks of `good(list)`/`bad(list)` before any change: a null list or
   * a null element is NullPointerException, an empty list
   * IllegalArgumentException; otherwise the elements.
   */
  function Checked(list: Option<seq<Option<int>>>): (r: Result<seq<int>>)
    ensures r.Fail? <==> list.None? || list.value == [] || exists i :: 0 <= i < |list.value| && list.value[i].None?
    ensures r.Fail? ==> r.error == if list == Some([]) then IllegalArgument else NullPointer
    ensures r.Ok? ==> |r.value| == |list.value| >= 1 && forall i :: 0 <= i < |r.value| ==> list.value[i] == Some(r.value[i])
  {
    if list.None? then Fail(NullPointer)
    else if list.value == [] then Fail(IllegalArgument)
    else if exists i :: 0 <= i < |list.value| && list.value[i].None? then Fail(NullPointer)
    else Ok(seq(|list.value|, i requires 0 <= i < |list.value| => list.value[i].value))
  }

  /** The plan of a list reaches only the first link, the first chain and the levels. */
  lemma PlanCovers(firstLink: ProbFun, firstChain: seq<Pair<ProbFun>>, levels: seq<Level>, es: seq<int>, s: Snapshot)
    requires |es| >= 1 && {firstLink} + Targets(firstChain) + LevelNodes(levels) <= s.Keys
    ensures Covers(Plan(firstLink, firstChain, levels, es).0, s)
  {
    PlanNodes(firstLink, firstChain, levels, es);
    var steps := Plan(firstLink, firstChain, levels, es).0;
    assert forall i :: 0 <= i < |steps| ==> steps[i] in steps;
  }

  /** The same for the loop from round k - 2. */
  lemma TrailCovers(levels: seq<Level>, es: seq<int>, k: nat, n: Option<ProbFun>, s: Snapshot)
    requires 2 <= k <= |es| && LevelNodes(levels) <= s.Keys
    ensures Covers(Trail(levels, es, k, n).0, s)
  {
    TrailNodes(levels, es, k, n);
    var steps := Trail(levels, es, k, n).0;
    assert forall i :: 0 <= i < |steps| ==> steps[i] in steps;
  }

  /**
   * On shaped levels whose ProbFuns all hold the elements of the first chain,
   * a list of those elements and a percent in (0, 1): no step throws, and
   * the outcome is the walk's own, IndexOutOfBoundsException exactly when the
   * list has three or more elements but fewer than the levels plus two.
   */
  lemma FeedbackOutcome(firstLink: ProbFun, firstChain: seq<Pair<ProbFun>>, levels: seq<Level>, es: seq<int>,
                        s: Snapshot, p: real, good: bool)
    requires Shaped(firstChain, levels) && |es| >= 1 && 0.0 < p < 1.0
    requires {firstLink} + Targets(firstChain) + LevelNodes(levels) <= s.Keys && Sound(s)
    requires forall f :: f in s ==> KeySet(s[f]) == KeySet(firstChain)
    requires forall j :: 0 <= j < |es| ==> es[j] in KeySet(firstChain)
    ensures Covers(Plan(firstLink, firstChain, levels, es).0, s)
    ensures Outcome(Plan(firstLink, firstChain, levels, es), s, p, good).0 ==
      if 3 <= |es| < |levels| + 2 then Some(IndexOutOfBounds) else None
  {
    PlanCovers(firstLink, firstChain, levels, es, s);
    PlanElements(firstLink, firstChain, levels, es);
    RunSucceeds(Plan(firstLink, firstChain, levels, es).0, s, p, good, KeySet(firstChain));
    if |es| >= 2 {
      PlanFollows(firstLink, firstChain, levels, es);
    }
  }

  /** On shaped levels every step of the plan is for an element of the list. */
  lemma PlanElements(firstLink: ProbFun, firstChain: seq<Pair<ProbFun>>, levels: seq<Level>, es: seq<int>)
    requires Shaped(firstChain, levels) && |es| >= 1
    requires forall j :: 0 <= j < |es| ==> es[j] in KeySet(firstChain)
    ensures var steps := Plan(firstLink, firstChain, levels, es).0;
      forall i :: 0 <= i < |steps| ==> steps[i].element in KeySet(firstChain)
  {
    if |es| >= 2 {
      PlanFollows(firstLink, firstChain, levels, es);
    }
  }

  /** A percent outside (0, 1) throws IllegalArgumentException at the first step, before any change. */
  lemma FeedbackBadPercent(firstLink: ProbFun, firstChain: seq<Pair<ProbFun>>, levels: seq<Level>, es: seq<int>,
                           s: Snapshot, p: real, good: bool)
    requires |es| >= 1 && (p <= 0.0 || p >= 1.0)
    requires {firstLink} + Targets(firstChain) + LevelNodes(levels) <= s.Keys && Sound(s)
    ensures Covers(Plan(firstLink, firstChain, levels, es).0, s)
    ensures Outcome(Plan(firstLink, firstChain, levels, es), s, p, good) == (Some(IllegalArgument), s)
  {
    PlanCovers(firstLink, firstChain, levels, es, s);
    var plan := Plan(firstLink, firstChain, levels, es);
    assert plan.0 != [] by {
      if |es| >= 2 {
        assert plan.0[|StepOf(Get(firstChain, es[0]), es[1])|] == Step(firstLink, es[0]);
      }
    }
    RunBadPercent(plan.0, s, p, good);
  }

  /** `getTypeAndGood`/`getTypeAndBad` on a ProbFun of `fs`: one step of Run. */
  method AdjustIn(f: ProbFun, e: int, p: real, good: bool, ghost fs: set<ProbFun>) returns (err: Option<Exception>)
    requires f in fs && forall g :: g in fs ==> g.Valid()
    modifies f
    ensures forall g :: g in fs ==> g.Valid()
    ensures Covers([Step(f, e)], old(Snap(fs))) && Sound(old(Snap(fs)))
    ensures (err, Snap(fs)) == Run([Step(f, e)], old(Snap(fs)), p, good)
  {
    ghost var s := Snap(fs);
    err := TwoStepChains.AdjustFun(f, e, p, good);
    ghost var steps := [Step(f, e)];
    assert steps[1..] == [];
    if err.None? {
      assert Snap(fs) == s[f := f.chain];
    } else {
      assert Snap(fs) == s;
    }
  }

  /**
   * The loop of `good(list)`/`bad(list)` for three or more elements: from
   * the first chain's node of es[0], each round looks up level i's map of
   * the node reached and its node at es[i + 1], then reinforces that node at
   * es[i + 2].
   */
  method Walk(firstChain: seq<Pair<ProbFun>>, levels: seq<Level>, es: seq<int>, p: real, good: bool,
              ghost fs: set<ProbFun>, ghost r: (Option<Exception>, Snapshot)) returns (err: Option<Exception>)
    requires |es| >= 3 && LevelNodes(levels) <= fs && forall g :: g in fs ==> g.Valid()
    requires Pending(levels, es, 2, Get(firstChain, es[0]), Snap(fs), p, good, r)
    modifies fs
    ensures forall g :: g in fs ==> g.Valid()
    ensures (err, Snap(fs)) == r
  {
    var n := Get(firstChain, es[0]);
    var i := 0;
    while i < |levels|
      invariant 0 <= i <= |levels| && i + 2 <= |es|
      invariant forall g :: g in fs ==> g.Valid()
      invariant Pending(levels, es, i + 2, n, Snap(fs), p, good, r)
    {
      var stop;
      n, stop, err := WalkRound(levels, es, i, n, p, good, fs, r);
      if stop {
        return;
      }
      i := i + 1;
    }
    err := None;
  }

  /** What is left of the loop from round k - 2, at node `n` and on snapshot `s`, comes to `r`. */
  predicate Pending(levels: seq<Level>, es: seq<int>, k: nat, n: Option<ProbFun>, s: Snapshot,
                    p: real, good: bool, r: (Option<Exception>, Snapshot))
  {
    2 <= k <= |es| && Covers(Trail(levels, es, k, n).0, s) && Sound(s) &&
    Outcome(Trail(levels, es, k, n), s, p, good) == r
  }

  /**
   * Round i of the loop: level i's map of the node reached, its node at
   * es[i + 1], and that node reinforced at es[i + 2]. It stops the loop with
   * the exception of a lookup or of the step, or with
   * IndexOutOfBoundsException when the list ends.
   */
  method WalkRound(levels: seq<Level>, es: seq<int>, i: nat, n: Option<ProbFun>,
                   p: real, good: bool, ghost fs: set<ProbFun>, ghost r: (Option<Exception>, Snapshot))
    returns (n': Option<ProbFun>, stop: bool, err: Option<Exception>)
    requires i < |levels| && Pending(levels, es, i + 2, n, Snap(fs), p, good, r)
    requires LevelNodes(levels) <= fs && forall g :: g in fs ==> g.Valid()
    modifies fs
    ensures forall g :: g in fs ==> g.Valid()
    ensures stop ==> (err, Snap(fs)) == r
    ensures !stop ==> Pending(levels, es, (i + 1) + 2, n', Snap(fs), p, good, r)
  {
    ghost var s := Snap(fs);
    var m := Find(levels[i], n);
    if m.None? {
      return n, true, Some(NullPointer);
    }
    n' := Get(m.value, es[i + 1]);
    if i + 2 >= |es| {
      return n', true, Some(IndexOutOfBounds);
    }
    ghost var t := Trail(levels, es, i + 3, n');
    assert Trail(levels, es, i + 2, n) == (StepOf(n', es[i + 2]) + t.0, t.1);
    TrailCovers(levels, es, i + 3, n', s);
    OutcomeAppend(StepOf(n', es[i + 2]), t.0, t.1, s, p, good);
    stop, err := false, None;
    if n'.Some? {
      FoundValue(levels[i], n, es[i + 1]);
      LevelNodesHas(levels, i);
      err := AdjustIn(n'.value, es[i + 2], p, good, fs);
      stop := err.Some?;
    }
    TrailCovers(levels, es, i + 3, n', Snap(fs));
  }

  /**
   * The body of `good(list)`/`bad(list)` past its checks: the first chain's
   * node of es[0] at es[1], the first link at es[0], then the loop.
   */
  method Reinforce(firstLink: ProbFun, firstChain: seq<Pair<ProbFun>>, levels: seq<Level>, es: seq<int>,
                   p: real, good: bool, ghost fs: set<ProbFun>) returns (err: Option<Exception>)
    requires |es| >= 1 && {firstLink} + Targets(firstChain) + LevelNodes(levels) <= fs
    requires forall g :: g in fs ==> g.Valid()
    modifies fs
    ensures forall g :: g in fs ==> g.Valid()
    ensures Covers(Plan(firstLink, firstChain, levels, es).0, old(Snap(fs))) && Sound(old(Snap(fs)))
    ensures (err, Snap(fs)) == Outcome(Plan(firstLink, firstChain, levels, es), old(Snap(fs)), p, good)
  {
    ghost var s0 := Snap(fs);
    PlanCovers(firstLink, firstChain, levels, es, s0);
    if |es| == 1 {
      err := AdjustIn(firstLink, es[0], p, good, fs);
      return;
    }
    var n0 := Get(firstChain, es[0]);
    ghost var lead := StepOf(n0, es[1]);
    ghost var tail := if |es| == 2 then ([], None) else Trail(levels, es, 2, n0);
    assert Plan(firstLink, firstChain, levels, es) == (lead + ([Step(firstLink, es[0])] + tail.0), tail.1) by {
      if |es| == 2 {
        assert [Step(firstLink, es[0])] + tail.0 == [Step(firstLink, es[0])];
      } else {
        assert lead + [Step(firstLink, es[0])] + tail.0 == lead + ([Step(firstLink, es[0])] + tail.0);
      }
    }
    OutcomeAppend(lead, [Step(firstLink, es[0])] + tail.0, tail.1, s0, p, good);
    if n0.Some? {
      GetTarget(firstChain, es[0]);
      err := AdjustIn(n0.value, es[1], p, good, fs);
      if err.Some? {
        return;
      }
    }
    ghost var s1 := Snap(fs);
    OutcomeAppend([Step(firstLink, es[0])], tail.0, tail.1, s1, p, good);
    err := AdjustIn(firstLink, es[0], p, good, fs);
    if err.Some? || |es| == 2 {
      return;
    }
    TrailCovers(levels, es, 2, n0, Snap(fs));
    err := Walk(firstChain, levels, es, p, good, fs, Outcome(tail, Snap(fs), p, good));
  }
}

=== FILE: nlayer_chain.dfy ===
/**
 * GenerativeMarkovChain/src/markov/NLayerMarkovChain.java: the chain of a
 * given number of layers over a set of choices. One layer is a ProbFun, two
 * a NestedProbFun, and three or more a NestedMarkovNode wrapped once for
 * every layer past three. Every node of the chain starts uniform over the
 * choices.
 */
module NLayerChains {
  import opened Wrappers
  import opened Assoc
  import opened ProbMaps
  import opened NestedLevels
  import opened NestedNodes
  import TwoStepChains
  import MapProbFun

  /** The node `getChain()` returns, by the class it has. */
  datatype Chain =
    | Single(pf: ProbFun)
    | Nested(npf: TwoStepChains.NestedProbFun)
    | Deep(nmn: NestedMarkovNode)

  /** Every node of fs holds the map m. */
  ghost predicate AllHold(fs: set<ProbFun>, m: ProbMap)
    reads fs
  {
    forall g :: g in fs ==> g.chain == m
  }

  lemma HeldByHold(a: set<ProbFun>, b: set<ProbFun>, m: ProbMap)
    requires HeldBy(a, b) && AllHold(b, m)
    ensures AllHold(a, m)
  {
    forall g | g in a ensures g.chain == m {
      var h :| h in b && g.chain == h.chain;
    }
  }

  /**
   * `new NLayerMarkovChain(choices, layers)`: a null set throws
   * NullPointerException; fewer than two choices, or fewer than one layer,
   * IllegalArgumentException. Otherwise the chain has the class its layers
   * call for, a NestedMarkovNode has layers - 2 levels and a history of
   * capacity `layers`, and every node it reaches is uniform over the
   * choices.
   */
  method NewChain(choices: Option<seq<int>>, layers: int) returns (r: Result<Chain>)
    requires choices.Some? ==> Increasing(choices.value)
    ensures choices.None? ==> r == Fail(NullPointer)
    ensures choices.Some? && (|choices.value| < 2 || layers < 1) ==> r == Fail(IllegalArgument)
    ensures r.Ok? <==> choices.Some? && |choices.value| >= 2 && layers >= 1
    ensures r.Ok? && layers == 1 ==>
      r.value.Single? && fresh(r.value.pf) && r.value.pf.Valid() && r.value.pf.chain == Uniform(choices.value)
    ensures r.Ok? && layers == 2 ==>
      r.value.Nested? && fresh(r.value.npf) && r.value.npf.Valid() &&
      r.value.npf.firstLink.chain == Uniform(choices.value) && Keys(r.value.npf.chain2) == choices.value &&
      forall i :: 0 <= i < |r.value.npf.chain2| ==> r.value.npf.chain2[i].value.chain == Uniform(choices.value)
    ensures r.Ok? && layers >= 3 ==>
      r.value.Deep? && fresh(r.value.nmn) && r.value.nmn.Valid() &&
      |r.value.nmn.chain2.levels| == layers - 2 && r.value.nmn.capacity == layers &&
      r.value.nmn.previousElements == [] && Keys(r.value.nmn.firstChain) == choices.value &&
      AllHold(r.value.nmn.Nodes(), Uniform(choices.value))
  {
    if choices.None? {
      return Fail(NullPointer);
    }
    var c := choices.value;
    if |c| < 2 || layers < 1 {
      return Fail(IllegalArgument);
    }
    var pf := new MapProbFun.ProbFun(c);
    if layers == 1 {
      return Ok(Single(pf));
    }
    var npf := new TwoStepChains.NestedProbFun(pf);
    if layers == 2 {
      return Ok(Nested(npf));
    }
    var nmn := DeepChain(npf, Uniform(c));
    var i := 0;
    while i < layers - 3
      invariant 0 <= i <= layers - 3
      invariant fresh(nmn) && nmn.Valid() && nmn.previousElements == []
      invariant |nmn.chain2.levels| == i + 1 && Keys(nmn.firstChain) == c
      invariant AllHold(nmn.Nodes(), Uniform(c))
    {
      nmn := Wrap(nmn, Uniform(c));
      i := i + 1;
    }
    r := Ok(Deep(nmn));
  }

  /** `new NestedMarkovNode(nestedProbFun)` on a NestedProbFun whose every node holds u. */
  method DeepChain(npf: TwoStepChains.NestedProbFun, ghost u: ProbMap) returns (n: NestedMarkovNode)
    requires npf.Valid() && npf.firstLink.chain == u
    requires forall i :: 0 <= i < |npf.chain2| ==> npf.chain2[i].value.chain == u
    ensures fresh(n) && n.Valid() && n.previousElements == [] && n.capacity == 3
    ensures |n.chain2.levels| == 1 && Keys(n.firstChain) == Keys(npf.chain2)
    ensures AllHold(n.Nodes(), u)
  {
    assert AllHold({npf.firstLink} + Targets(npf.chain2), u);
    n := WrapNested(npf);
    HeldByHold(n.Nodes(), {npf.firstLink} + Targets(npf.chain2), u);
  }

  /** `new NestedMarkovNode(nestedMarkovNode)` on a node whose every node holds u. */
  method Wrap(node: NestedMarkovNode, ghost u: ProbMap) returns (n: NestedMarkovNode)
    requires node.Valid() && AllHold(node.Nodes(), u)
    ensures fresh(n) && n.Valid() && n.previousElements == [] && n.capacity == |n.chain2.levels| + 2
    ensures |n.chain2.levels| == |node.chain2.levels| + 1 && n.firstChain == node.firstChain
    ensures AllHold(n.Nodes(), u)
  {
    n := WrapNode(node);
    HeldByHold(n.Nodes(), node.Nodes(), u);
  }
}

=== FILE: prob_edits.dfy ===
/**
 * Edits of one probability map shared by every generation: adding an element
 * (at 1/n or at a given percent), removing one, and reading its minimum and
 * maximum. Each edit ends with `scaleProbs`, so the result is again a
 * distribution.
 */
module ProbEdits {
  import opened Wrappers
  import opened Assoc
  import opened ProbMaps

  lemma PositiveMembers(m: ProbMap)
    requires forall x :: x in m ==> x.value > 0.0
    ensures Positive(m)
  {
    forall i | 0 <= i < |m| ensures m[i].value > 0.0 {
      assert m[i] in m;
    }
  }

  lemma PutPositive(m: ProbMap, k: int, v: real)
    requires Ordered(m) && Positive(m) && v > 0.0
    ensures Positive(Put(m, k, v))
  {
    match IndexOf(m, k)
    case None =>
      InsertMembers(m, k, v);
      forall x | x in Put(m, k, v) ensures x.value > 0.0 {
        if x != Pair(k, v) {
          var j :| 0 <= j < |m| && m[j] == x;
        }
      }
      PositiveMembers(Put(m, k, v));
    case Some(i) =>
  }

  lemma RemovePositive(m: ProbMap, k: int)
    requires Ordered(m) && Positive(m)
    ensures Positive(Remove(m, k))
  {
    RemoveMembers(m, k);
    forall x | x in Remove(m, k) ensures x.value > 0.0 {
      var j :| 0 <= j < |m| && m[j] == x;
    }
    PositiveMembers(Remove(m, k));
  }

  lemma ScalePositive(m: ProbMap, c: real)
    requires Positive(m) && c > 0.0
    ensures Positive(Scale(m, c))
  {
    forall i | 0 <= i < |m| ensures Scale(m, c)[i].value > 0.0 {
      MulPositive(m[i].value, c);
    }
  }

  /** Looking a key up after scaling gives the scaled value. */
  lemma GetScale(m: ProbMap, c: real, k: int)
    requires Ordered(m) && k in KeySet(m)
    ensures Get(Scale(m, c), k).Some? && Get(Scale(m, c), k).value == Get(m, k).value * c
  {
    var i := IndexOf(m, k).value;
    GetAt(m, i);
    GetAt(Scale(m, c), i);
  }

  /** GetScale for a map whose values under `k` agree with those of `m`. */
  lemma GetScaleSame(m1: ProbMap, m: ProbMap, c: real, k: int)
    requires Ordered(m1) && k in KeySet(m1) && Get(m1, k) == Get(m, k)
    ensures Get(Scale(m1, c), k).Some? && Get(Scale(m1, c), k).value == Get(m, k).value * c
  {
    GetScale(m1, c, k);
  }

  lemma GetScaleValue(m1: ProbMap, c: real, k: int, x: real)
    requires Ordered(m1) && Get(m1, k) == Some(x)
    ensures Get(Scale(m1, c), k).Some? && Get(Scale(m1, c), k).value == x * c
  {
    GetScale(m1, c, k);
  }

  /** Overwriting the excepted key keeps the other entries' scaling. */
  lemma ScaledFromPut(r: ProbMap, m: ProbMap, e: int, c: real, v: real)
    requires Ordered(r) && ScaledFrom(r, m, e, c)
    ensures ScaledFrom(Put(r, e, v), m, e, c)
  {
    forall k | k in KeySet(m) && k != e
      ensures Get(Put(r, e, v), k).Some? && Get(Put(r, e, v), k).value == Get(m, k).value * c
    {
      PutGet(r, e, v, k);
      assert Get(r, k).Some? && Get(r, k).value == Get(m, k).value * c;
    }
  }

  lemma ScaleFrom(m: ProbMap, c: real, except: int)
    requires Ordered(m)
    ensures ScaledFrom(Scale(m, c), m, except, c)
  {
    forall k | k in KeySet(m) && k != except
      ensures Get(Scale(m, c), k).Some? && Get(Scale(m, c), k).value == Get(m, k).value * c
    {
      GetScale(m, c, k);
    }
  }

  /** Rescaling a map that already sums to 1 changes nothing. */
  lemma ScaleProbsIdentity(m: ProbMap)
    requires |m| > 0 && Sum(m) == 1.0
    ensures ScaleProbs(m) == m
  {
    var r := ScaleProbs(m);
    assert forall i :: 0 <= i < |m| ==> r[i] == m[i];
  }

  /** A positive, ordered, non-empty map rescaled is a distribution. */
  lemma RescaledDistribution(m: ProbMap)
    requires Ordered(m) && Positive(m) && |m| > 0
    ensures Sum(m) > 0.0 && Distribution(ScaleProbs(m))
    ensures KeySet(ScaleProbs(m)) == KeySet(m)
    ensures ScaledFrom(ScaleProbs(m), m, m[0].key - 1, Normalizer(m))
  {
    ScaleProbsDistribution(m);
    ScaleFrom(m, Normalizer(m), m[0].key - 1);
    var r := ScaleProbs(m);
    assert KeySet(r) == KeySet(m) by {
      assert forall i :: 0 <= i < |m| ==> r[i].key == m[i].key;
      forall x | x in KeySet(m) ensures x in KeySet(r) {
        var j :| 0 <= j < |m| && m[j].key == x;
        assert r[j].key == x;
      }
    }
  }

  /**
   * `add(element)`: `element` is put at 1/n for the old size n, then the map
   * is rescaled. With `overwrite` false (the ProbabilityFunctionTree variants)
   * a present element keeps its value; with `overwrite` true
   * (GenerativeMarkovChain) it is written over.
   */
  function AddUniform(m: ProbMap, e: int, overwrite: bool): (r: ProbMap)
    requires Distribution(m)
    ensures Distribution(r) && KeySet(r) == KeySet(m) + {e}
    ensures |r| == if e in KeySet(m) then |m| else |m| + 1
  {
    var v := 1.0 / |m| as real;
    var m1 := if overwrite || e !in KeySet(m) then Put(m, e, v) else m;
    PutPositive(m, e, v);
    RescaledDistribution(m1);
    ScaleProbs(m1)
  }

  lemma UniformArith(n: real, v: real, c: real)
    requires n >= 1.0 && v == 1.0 / n && c == 1.0 / (1.0 + v)
    ensures v * c == 1.0 / (n + 1.0) && c == n / (n + 1.0)
  {
    assert 1.0 + v == (n + 1.0) / n;
  }

  /**
   * A new element added at 1/n ends at exactly 1/(n+1), and every old entry
   * is multiplied by n/(n+1).
   */
  lemma AddUniformNew(m: ProbMap, e: int, overwrite: bool)
    requires Distribution(m) && e !in KeySet(m)
    ensures var n := |m| as real;
      Get(AddUniform(m, e, overwrite), e) == Some(1.0 / (n + 1.0)) &&
      ScaledFrom(AddUniform(m, e, overwrite), m, e, n / (n + 1.0))
  {
    var n := |m| as real;
    var v := 1.0 / n;
    var m1 := Insert(m, e, v);
    AddUniformShape(m, e, overwrite);
    SumInsert(m, e, v);
    var c := 1.0 / (1.0 + v);
    assert Sum(m1) == 1.0 + v;
    UniformArith(n, v, c);
    ScaledInsert(m, e, v, c);
  }

  lemma AddUniformShape(m: ProbMap, e: int, overwrite: bool)
    requires Distribution(m) && e !in KeySet(m)
    ensures var m1 := Insert(m, e, 1.0 / |m| as real);
      Sum(m1) != 0.0 && AddUniform(m, e, overwrite) == ScaleProbs(m1)
  {
    var v := 1.0 / |m| as real;
    PutNew(m, e, v);
    PutPositive(m, e, v);
    RescaledDistribution(Put(m, e, v));
    assert AddUniform(m, e, overwrite) == ScaleProbs(Put(m, e, v));
  }

  /** Scaling a map with one inserted key: the new key holds v·c and every old key is scaled by c. */
  lemma ScaledInsert(m: ProbMap, e: int, v: real, c: real)
    requires Ordered(m) && e !in KeySet(m)
    ensures Get(Scale(Insert(m, e, v), c), e) == Some(v * c)
    ensures ScaledFrom(Scale(Insert(m, e, v), c), m, e, c)
  {
    var m1 := Insert(m, e, v);
    InsertGet(m, e, v, e);
    GetScaleValue(m1, c, e, v);
    forall k | k in KeySet(m) && k != e
      ensures Get(Scale(m1, c), k).Some? && Get(Scale(m1, c), k).value == Get(m, k).value * c
    {
      InsertGet(m, e, v, k);
      GetScaleSame(m1, m, c, k);
    }
  }

  /** In the ProbabilityFunctionTree variants adding a present element changes nothing. */
  lemma AddUniformPresent(m: ProbMap, e: int)
    requires Distribution(m) && e in KeySet(m)
    ensures AddUniform(m, e, false) == m
  {
    ScaleProbsIdentity(m);
  }

  /** The share `add(element, percent)` leaves to the old entries: 1 - percent. */
  function Rest(p: real): (r: real)
    ensures r + p == 1.0
  {
    1.0 - p
  }

  /**
   * `add(element, percent)`: every other entry is multiplied by 1 - percent,
   * `element` is put at `percent` (or, with `overwrite` false and the element
   * present, keeps its old value) and the map is rescaled.
   */
  function AddPercent(m: ProbMap, e: int, p: real, overwrite: bool): (r: ProbMap)
    requires Distribution(m) && 0.0 < p < 1.0
    ensures Distribution(r) && KeySet(r) == KeySet(m) + {e}
    ensures |r| == if e in KeySet(m) then |m| else |m| + 1
  {
    var s := Scale(m, Rest(p));
    var v := if overwrite || e !in KeySet(m) then p else Get(m, e).value;
    assert v > 0.0 by {
      if e in KeySet(m) {
        GetAt(m, IndexOf(m, e).value);
      }
    }
    ScalePositive(m, Rest(p));
    PutPositive(s, e, v);
    assert KeySet(s) == KeySet(m) by {
      forall x | x in KeySet(m) ensures x in KeySet(s) {
        var j :| 0 <= j < |m| && m[j].key == x;
        assert s[j].key == x;
      }
    }
    RescaledDistribution(Put(s, e, v));
    ScaleProbs(Put(s, e, v))
  }

  /** A new element added at `percent` holds exactly `percent`; every old entry is multiplied by 1 - percent. */
  lemma AddPercentNew(m: ProbMap, e: int, p: real, overwrite: bool)
    requires Distribution(m) && 0.0 < p < 1.0 && e !in KeySet(m)
    ensures Get(AddPercent(m, e, p, overwrite), e) == Some(p)
    ensures ScaledFrom(AddPercent(m, e, p, overwrite), m, e, Rest(p))
  {
    AddPercentShape(m, e, p, overwrite);
    ScaleThenPutPercent(m, p, e);
  }

  /** `ScaleThenPut` at the share 1 - percent. */
  lemma ScaleThenPutPercent(m: ProbMap, p: real, e: int)
    requires Ordered(m)
    ensures Get(Put(Scale(m, Rest(p)), e, p), e) == Some(p)
    ensures ScaledFrom(Put(Scale(m, Rest(p)), e, p), m, e, Rest(p))
  {
    ScaleThenPut(m, Rest(p), e, p);
  }

  /** Scaling a map and then putting `e` leaves `e` at the put value and every other key scaled. */
  lemma ScaleThenPut(m: ProbMap, c: real, e: int, v: real)
    requires Ordered(m)
    ensures Get(Put(Scale(m, c), e, v), e) == Some(v)
    ensures ScaledFrom(Put(Scale(m, c), e, v), m, e, c)
  {
    var s := Scale(m, c);
    PutGet(s, e, v, e);
    ScaleFrom(m, c, e);
    ScaledFromPut(s, m, e, c, v);
  }

  /** Adding an absent element at `percent` needs no rescale: the scaled map plus the new entry already sums to 1. */
  lemma AddPercentShape(m: ProbMap, e: int, p: real, overwrite: bool)
    requires Distribution(m) && 0.0 < p < 1.0 && e !in KeySet(m)
    ensures AddPercent(m, e, p, overwrite) == Put(Scale(m, Rest(p)), e, p)
  {
    var s := Scale(m, Rest(p));
    SumScale(m, Rest(p));
    assert KeySet(s) == KeySet(m) by {
      forall x | x in KeySet(m) ensures x in KeySet(s) {
        var j :| 0 <= j < |m| && m[j].key == x;
        assert s[j].key == x;
      }
    }
    SumInsert(s, e, p);
    PutNew(s, e, p);
    assert Sum(Put(s, e, p)) == 1.0;
    ScaleProbsIdentity(Put(s, e, p));
    assert AddPercent(m, e, p, overwrite) == ScaleProbs(Put(s, e, p));
  }

  /**
   * `remove(element)` past the size checks: the entry is deleted and the rest
   * rescaled to sum 1.
   */
  function RemoveEntry(m: ProbMap, e: int): (r: ProbMap)
    requires Distribution(m) && |m| > 1
    ensures Distribution(r) && KeySet(r) == KeySet(m) - {e}
    ensures |r| == if e in KeySet(m) then |m| - 1 else |m|
  {
    RemovePositive(m, e);
    RescaledDistribution(Remove(m, e));
    ScaleProbs(Remove(m, e))
  }

  /** Removing an absent element leaves the map as it was. */
  lemma RemoveEntryAbsent(m: ProbMap, e: int)
    requires Distribution(m) && |m| > 1 && e !in KeySet(m)
    ensures RemoveEntry(m, e) == m
  {
    ScaleProbsIdentity(m);
  }

  /**
   * The entries left by a removal keep their proportions: each is multiplied
   * by 1/S, where S = 1 - P is what the other entries sum to.
   */
  lemma RemoveEntryScaled(m: ProbMap, e: int)
    requires Distribution(m) && |m| > 1 && e in KeySet(m)
    ensures Get(m, e).value < 1.0 && Sum(Remove(m, e)) == 1.0 - Get(m, e).value
    ensures ScaledFrom(RemoveEntry(m, e), m, e, Normalizer(Remove(m, e)))
  {
    var i := IndexOf(m, e).value;
    GetAt(m, i);
    EntryBelowSum(m, i);
    SumRemove(m, e);
    RemovePositive(m, e);
    SumPositive(Remove(m, e));
    RescaleRemoved(m, e);
  }

  /** Rescaling what a removal leaves scales every other key of `m` by 1/S. */
  lemma RescaleRemoved(m: ProbMap, e: int)
    requires Ordered(m) && |Remove(m, e)| > 0 && Sum(Remove(m, e)) != 0.0
    ensures ScaledFrom(ScaleProbs(Remove(m, e)), m, e, Normalizer(Remove(m, e)))
  {
    var m1 := Remove(m, e);
    var c := Normalizer(m1);
    forall k | k in KeySet(m) && k != e
      ensures Get(Scale(m1, c), k).Some? && Get(Scale(m1, c), k).value == Get(m, k).value * c
    {
      RemoveGet(m, e, k);
      GetScaleSame(m1, m, c, k);
    }
    assert ScaledFrom(Scale(m1, c), m, e, c);
  }

  lemma NormalizerOf(s: ProbMap, c: real)
    requires Sum(s) == c && c != 0.0
    ensures c * Normalizer(s) == 1.0
  {
  }

  lemma UnscaleValue(t: real, x: real, c: real, d: real)
    requires t == x * c && c * d == 1.0
    ensures t * d == x
  {
    assert t * d == x * (c * d);
  }

  /**
   * Removing the one key a map gained, when every old entry was scaled by
   * `c`, restores the old map.
   */
  lemma RemoveUndoes(r: ProbMap, m: ProbMap, e: int, c: real)
    requires Distribution(r) && Distribution(m) && e !in KeySet(m)
    requires KeySet(r) == KeySet(m) + {e} && ScaledFrom(r, m, e, c)
    ensures |r| > 1
    ensures RemoveEntry(r, e) == m
  {
    GainedKey(r, m, e);
    RemovedIsScaled(r, m, e, c);
    RemovePositive(r, e);
    SumPositive(Remove(r, e));
    SumScale(m, c);
    Unscale(m, c);
  }

  /** A map that gained a key beside the keys of a non-empty map has at least two entries. */
  lemma GainedKey(r: ProbMap, m: ProbMap, e: int)
    requires |m| > 0 && e !in KeySet(m) && KeySet(r) == KeySet(m) + {e}
    ensures |r| > 1
  {
    assert m[0].key in KeySet(m);
    assert e in KeySet(r) && m[0].key in KeySet(r);
    var i :| 0 <= i < |r| && r[i].key == e;
    var j :| 0 <= j < |r| && r[j].key == m[0].key;
    assert i != j;
  }

  /** What is left after removing the gained key is exactly the old map scaled by `c`. */
  lemma RemovedIsScaled(r: ProbMap, m: ProbMap, e: int, c: real)
    requires Ordered(r) && Ordered(m) && e !in KeySet(m)
    requires KeySet(r) == KeySet(m) + {e} && ScaledFrom(r, m, e, c)
    ensures Remove(r, e) == Scale(m, c)
  {
    var q := Remove(r, e);
    var s := Scale(m, c);
    forall k ensures Get(q, k) == Get(s, k) {
      if k in KeySet(m) {
        RemoveGet(r, e, k);
        GetScale(m, c, k);
      } else {
        SameKeyOrderFacts(s, m);
      }
    }
    GetExt(q, s);
  }

  /** Rescaling a distribution scaled by a positive `c` gives the distribution back. */
  lemma Unscale(m: ProbMap, c: real)
    requires Sum(m) == 1.0 && |m| > 0 && c > 0.0
    ensures Sum(Scale(m, c)) == c && ScaleProbs(Scale(m, c)) == m
  {
    var s := Scale(m, c);
    SumScale(m, c);
    assert Sum(s) == c;
    var d := Normalizer(s);
    NormalizerOf(s, c);
    assert c * d == 1.0;
    var r := ScaleProbs(s);
    assert r == Scale(s, d);
    forall i | 0 <= i < |m| ensures r[i] == m[i] {
      UnscaleAt(m, c, d, i);
    }
  }

  lemma UnscaleAt(m: ProbMap, c: real, d: real, i: nat)
    requires i < |m| && c * d == 1.0
    ensures Scale(Scale(m, c), d)[i] == m[i]
  {
    var s := Scale(m, c);
    var t := s[i].value;
    var x := m[i].value;
    assert t == x * c;
    UnscaleValue(t, x, c, d);
    var y := Scale(s, d)[i];
    assert y.key == m[i].key && y.value == t * d;
  }

  /** `remove(element)` undoes `add(element)` of an element that was absent. */
  lemma RemoveUndoesAdd(m: ProbMap, e: int, overwrite: bool)
    requires Distribution(m) && e !in KeySet(m)
    ensures RemoveEntry(AddUniform(m, e, overwrite), e) == m
  {
    AddUniformNew(m, e, overwrite);
    RemoveUndoesUniform(AddUniform(m, e, overwrite), m, e);
  }

  lemma RemoveUndoesUniform(r: ProbMap, m: ProbMap, e: int)
    requires Distribution(r) && Distribution(m) && e !in KeySet(m)
    requires KeySet(r) == KeySet(m) + {e} && ScaledFrom(r, m, e, |m| as real / (|m| as real + 1.0))
    ensures |r| > 1 && RemoveEntry(r, e) == m
  {
    RemoveUndoes(r, m, e, |m| as real / (|m| as real + 1.0));
  }

  /** `remove(element)` undoes `add(element, percent)` of an element that was absent. */
  lemma RemoveUndoesAddPercent(m: ProbMap, e: int, p: real, overwrite: bool)
    requires Distribution(m) && e !in KeySet(m) && 0.0 < p < 1.0
    ensures RemoveEntry(AddPercent(m, e, p, overwrite), e) == m
  {
    AddPercentNew(m, e, p, overwrite);
    RemoveUndoesPercent(AddPercent(m, e, p, overwrite), m, e, p);
  }

  lemma RemoveUndoesPercent(r: ProbMap, m: ProbMap, e: int, p: real)
    requires Distribution(r) && Distribution(m) && e !in KeySet(m)
    requires KeySet(r) == KeySet(m) + {e} && ScaledFrom(r, m, e, Rest(p))
    ensures |r| > 1 && RemoveEntry(r, e) == m
  {
    RemoveUndoes(r, m, e, Rest(p));
  }
}

=== FILE: prob_fun.dfy ===
/**
 * The weighted random choice of GenerativeMarkovChain/src/markov/ProbFun.java:
 * one TreeMap `chain` from element to probability, updated in place. The
 * functions of this module say what each public method leaves in the map
 * and which exception it throws; the class runs the Java loops and is
 * proved against them.
 */
module MapProbFun {
  import opened Wrappers
  import opened Assoc
  import opened ProbMaps
  import opened ProbEdits
  import opened ProbScans

  /**
   * `ProbFun(choices, probabilities)`: refused unless there is a choice, one
   * probability per choice and the probabilities sum to 1; otherwise the
   * i-th choice in iteration order holds the i-th probability.
   */
  function Build(choices: seq<int>, ps: seq<real>): (r: Result<ProbMap>)
    requires Increasing(choices) && forall i :: 0 <= i < |ps| ==> ps[i] > 0.0
    ensures r.Fail? <==> |choices| < 1 || |ps| != |choices| || Sum(Zip(choices, ps)) != 1.0
    ensures r.Fail? ==> r.error == IllegalArgument
    ensures r.Ok? ==> Distribution(r.value) && Keys(r.value) == choices && Values(r.value) == ps
  {
    if |choices| < 1 || |ps| < 1 || |choices| != |ps| then Fail(IllegalArgument)
    else if Sum(Zip(choices, ps)) != 1.0 then Fail(IllegalArgument)
    else
      ZipParts(choices, ps);
      Ok(Zip(choices, ps))
  }

  /**
   * `setProbs(probabilities)`: refused unless there is one probability per
   * element and they sum to 1; otherwise the elements, in key order, take
   * the new probabilities one by one.
   */
  function SetProbs(m: ProbMap, ps: seq<real>): (r: Result<ProbMap>)
    requires Distribution(m) && forall i :: 0 <= i < |ps| ==> ps[i] > 0.0
    ensures r.Fail? <==> |ps| != |m| || Sum(Zip(Keys(m), ps)) != 1.0
    ensures r.Fail? ==> r.error == IllegalArgument
    ensures r.Ok? ==> Distribution(r.value) && Keys(r.value) == Keys(m) && Values(r.value) == ps
  {
    if |m| != |ps| then Fail(IllegalArgument)
    else
      assert Increasing(Keys(m));
      Build(Keys(m), ps)
  }

  /** Writing back the probabilities `getProbs()` returned leaves the map as it was. */
  lemma {:induction false} SetProbsRoundTrip(m: ProbMap)
    requires Distribution(m)
    ensures SetProbs(m, Values(m)) == Ok(m)
  {
    ZipKeysValues(m);
    assert Values(m) == seq(|m|, i requires 0 <= i < |m| => m[i].value);
  }

  /**
   * `clearProbs()` builds a fresh uniform ProbFun over the keys, and that
   * constructor refuses fewer than two.
   */
  function ClearOutcome(m: ProbMap): (r: Result<ProbMap>)
    requires Distribution(m)
    ensures r.Fail? <==> |m| < 2
    ensures r.Fail? ==> r.error == IllegalArgument
    ensures r.Ok? ==> Distribution(r.value) && Keys(r.value) == Keys(m)
    ensures r.Ok? ==> forall i :: 0 <= i < |m| ==> r.value[i].value == 1.0 / |m| as real
  {
    if |m| < 2 then Fail(IllegalArgument) else Ok(ProbMaps.ClearProbs(m))
  }

  /**
   * `remove(element)`: at two entries IllegalStateException, whether or not
   * the element is there; an absent element gives false; otherwise the entry
   * goes and the rest is rescaled. Removing the only entry leaves the map
   * empty and `fixProbSum` then fails with NoSuchElementException.
   */
  function RemoveOutcome(m: ProbMap, e: int): (r: (Result<bool>, ProbMap))
    requires Distribution(m)
    ensures r.0 == Fail(IllegalState) <==> |m| == 2
    ensures r.0 == Fail(NoSuchElement) <==> |m| == 1 && e in KeySet(m)
    ensures r.0 == Ok(false) <==> |m| != 2 && e !in KeySet(m)
    ensures r.0.Fail? ==> r.0.error == IllegalState || r.0.error == NoSuchElement
    ensures r.0 == Fail(NoSuchElement) ==> r.1 == []
    ensures r.0 != Fail(NoSuchElement) ==> Distribution(r.1)
    ensures r.0 == Ok(true) ==> KeySet(r.1) == KeySet(m) - {e} && |r.1| == |m| - 1 && |r.1| >= 2
    ensures r.0 != Ok(true) && r.0 != Fail(NoSuchElement) ==> r.1 == m
  {
    if |m| == 2 then (Fail(IllegalState), m)
    else if e !in KeySet(m) then (Ok(false), m)
    else if |m| == 1 then (Fail(NoSuchElement), [])
    else (Ok(true), RemoveEntry(m, e))
  }

  /** `remove(element)` undoes `add(element)` of an element that was absent. */
  lemma RemoveAfterAdd(m: ProbMap, e: int)
    requires Distribution(m) && |m| >= 2 && e !in KeySet(m)
    ensures RemoveOutcome(AddUniform(m, e, true), e) == (Ok(true), m)
  {
    RemoveUndoesAdd(m, e, true);
  }

  /** `remove(element)` undoes `add(element, percent)` of an element that was absent. */
  lemma RemoveAfterAddPercent(m: ProbMap, e: int, p: real)
    requires Distribution(m) && |m| >= 2 && e !in KeySet(m) && 0.0 < p < 1.0
    ensures RemoveOutcome(AddPercent(m, e, p, true), e) == (Ok(true), m)
  {
    RemoveUndoesAddPercent(m, e, p, true);
  }

  /**
   * `purge()`: at two entries nothing happens. Otherwise the for-each loop
   * over the entry set calls `remove` on the first entry at the minimum,
   * which changes the map under the iterator: the loop stops cleanly only
   * if that leaves two entries or the entry was the last one, and otherwise
   * the iterator throws ConcurrentModificationException. A single entry is
   * removed and `fixProbSum` fails with NoSuchElementException.
   */
  function PurgeOutcome(m: ProbMap): (r: (Option<Exception>, ProbMap))
    requires Distribution(m)
    ensures r.0 == Some(NoSuchElement) <==> |m| == 1
    ensures r.0.Some? ==> r.0 == Some(NoSuchElement) || r.0 == Some(ConcurrentModification)
    ensures r.0 == Some(NoSuchElement) ==> r.1 == []
    ensures |m| >= 2 ==> Distribution(r.1) && |r.1| >= 2 && KeySet(r.1) <= KeySet(m)
    ensures |m| == 2 ==> r == (None, m)
  {
    if |m| == 1 then (Some(NoSuchElement), [])
    else if |m| == 2 then (None, m)
    else
      var (m1, thrown) := PurgeOnce(m, MinProb(m), 2);
      PurgeOnceSpec(m, MinProb(m), 2);
      (if thrown then Some(ConcurrentModification) else None, m1)
  }

  /**
   * Past two entries `purge()` removes exactly one entry, the first at the
   * minimum, and throws ConcurrentModificationException exactly when more
   * than three entries were there and that entry was not the last.
   */
  lemma PurgeOutcomeSpec(m: ProbMap)
    requires Distribution(m) && |m| > 2
    ensures FirstAtMost(m, MinProb(m)).Some?
    ensures var i := FirstAtMost(m, MinProb(m)).value;
      m[i].value == MinProb(m) &&
      KeySet(PurgeOutcome(m).1) == KeySet(m) - {m[i].key} &&
      (PurgeOutcome(m).0 == Some(ConcurrentModification) <==> |m| > 3 && i < |m| - 1)
  {
    PurgeOnceSpec(m, MinProb(m), 2);
  }

  /**
   * On four entries whose minimum comes first, `purge()` removes the first
   * entry and then throws ConcurrentModificationException.
   */
  lemma PurgeThrows()
    ensures var m := [Pair(0, 0.1), Pair(1, 0.2), Pair(2, 0.3), Pair(3, 0.4)];
      Distribution(m) && PurgeOutcome(m).0 == Some(ConcurrentModification)
  {
    var m := [Pair(0, 0.1), Pair(1, 0.2), Pair(2, 0.3), Pair(3, 0.4)];
    assert Sum(m) == 1.0 by {
      assert m[1..][1..][1..][1..] == [];
    }
    assert MinProb(m) == 0.1 by {
      assert m[1..][1..][1..] == [Pair(3, 0.4)];
    }
    PurgeOutcomeSpec(m);
    assert FirstAtMost(m, 0.1) == Some(0);
  }

  /**
   * `purge(percent)`: a percent outside (0, 1) is refused; at two entries
   * nothing happens; otherwise the copy sorted by probability is scanned and
   * entries at or below the percent go, lowest first, until two are left.
   */
  function PurgePercentOutcome(m: ProbMap, p: real): (r: Result<ProbMap>)
    requires Distribution(m)
    ensures r.Fail? <==> p <= 0.0 || p >= 1.0
    ensures r.Fail? ==> r.error == IllegalArgument
    ensures r.Ok? ==> Distribution(r.value) && KeySet(r.value) <= KeySet(m)
    ensures r.Ok? && |m| > 2 ==> |r.value| >= 2
    ensures r.Ok? && |m| <= 2 ==> r.value == m
    ensures r.Ok? ==> forall i :: 0 <= i < |m| && m[i].value > p ==> m[i].key in KeySet(r.value)
  {
    if p >= 1.0 || p <= 0.0 then Fail(IllegalArgument)
    else
      forall i | 0 <= i < |m| && m[i].value > p
        ensures m[i].key in KeySet(PurgePercent(m, p, 2))
      {
        PurgePercentKeepsAbove(m, p, 2, i);
      }
      Ok(PurgePercent(m, p, 2))
  }

  /** `add(element, percent)`: a percent outside (0, 1) is refused before any change. */
  function AddOutcome(m: ProbMap, e: int, p: real): (r: Result<ProbMap>)
    requires Distribution(m)
    ensures r.Fail? <==> p <= 0.0 || p >= 1.0
    ensures r.Fail? ==> r.error == IllegalArgument
    ensures r.Ok? ==> Distribution(r.value) && KeySet(r.value) == KeySet(m) + {e}
    ensures r.Ok? && e !in KeySet(m) ==> Get(r.value, e) == Some(p) && ScaledFrom(r.value, m, e, Rest(p))
  {
    if p >= 1.0 || p <= 0.0 then Fail(IllegalArgument)
    else
      assert e !in KeySet(m) ==>
        Get(AddPercent(m, e, p, true), e) == Some(p) && ScaledFrom(AddPercent(m, e, p, true), m, e, Rest(p)) by {
        if e !in KeySet(m) {
          AddPercentNew(m, e, p, true);
        }
      }
      Ok(AddPercent(m, e, p, true))
  }

  class ProbFun {
    var chain: ProbMap

    ghost predicate Valid()
      reads this
    {
      Distribution(chain)
    }

    /** `ProbFun(choices)`: every choice at 1/n, then the sum fixed. */
    constructor (choices: seq<int>)
      requires Increasing(choices) && |choices| >= 2
      ensures Valid() && chain == Uniform(choices)
    {
      var v := 1.0 / |choices| as real;
      var m: ProbMap := [];
      var i := 0;
      while i < |choices|
        invariant 0 <= i <= |choices|
        invariant m == Constant(choices[..i], v)
      {
        assert Constant(choices[..i + 1], v) == m + [Pair(choices[i], v)];
        m := m + [Pair(choices[i], v)];
        i := i + 1;
      }
      assert choices[..i] == choices;
      chain := FixProbSum(m);
      new;
      assert chain == Uniform(choices);
    }

    /** `ProbFun(choices, probabilities)` past its checks. */
    constructor WithProbs(choices: seq<int>, ps: seq<real>)
      requires Increasing(choices) && forall i :: 0 <= i < |ps| ==> ps[i] > 0.0
      requires Build(choices, ps).Ok?
      ensures Valid() && chain == Build(choices, ps).value
    {
      chain := Zip(choices, ps);
    }

    /** The private copy constructor behind `clone()`: the entries put one by one. */
    constructor Copy(other: ProbFun)
      requires other.Valid()
      ensures Valid() && chain == other.chain
    {
      var m: ProbMap := [];
      var i := 0;
      while i < |other.chain|
        invariant 0 <= i <= |other.chain|
        invariant m == other.chain[..i]
      {
        assert other.chain[..i + 1] == m + [other.chain[i]];
        m := m + [other.chain[i]];
        i := i + 1;
      }
      assert other.chain[..i] == other.chain;
      chain := m;
    }

    /** `getProb(element)`: the element's probability, absent for an element not held. */
    method GetProb(e: int) returns (p: Option<real>)
      requires Valid()
      ensures p == Get(chain, e)
      ensures p.Some? <==> e in KeySet(chain)
      ensures p.Some? ==> 0.0 < p.value <= 1.0
    {
      p := Get(chain, e);
      if p.Some? {
        var i := IndexOf(chain, e).value;
        EntryBelowSum(chain, i);
      }
    }

    /** `getProbs()`: the probabilities in key order, copied out in a loop. */
    method GetProbs() returns (ps: seq<real>)
      requires Valid()
      ensures ps == Values(chain)
      ensures SetProbs(chain, ps) == Ok(chain)
    {
      ps := [];
      var i := 0;
      while i < |chain|
        invariant 0 <= i <= |chain|
        invariant ps == Values(chain[..i])
      {
        assert Values(chain[..i + 1]) == ps + [chain[i].value];
        ps := ps + [chain[i].value];
        i := i + 1;
      }
      assert chain[..i] == chain;
      SetProbsRoundTrip(chain);
    }

    /** `setProbs(probabilities)`: the length checked, then the sum, then the values put in key order. */
    method SetProbsOf(ps: seq<real>) returns (err: Option<Exception>)
      requires Valid() && forall i :: 0 <= i < |ps| ==> ps[i] > 0.0
      modifies this
      ensures Valid()
      ensures err.Some? <==> SetProbs(old(chain), ps).Fail?
      ensures err.Some? ==> err.value == IllegalArgument && chain == old(chain)
      ensures err.None? ==> chain == SetProbs(old(chain), ps).value
    {
      if |chain| != |ps| {
        return Some(IllegalArgument);
      }
      var m := Zip(Keys(chain), ps);
      var s := ProbSum(m);
      if s != 1.0 {
        return Some(IllegalArgument);
      }
      chain := m;
      err := None;
    }

    /** `clearProbs()`. */
    method ClearProbs() returns (err: Option<Exception>)
      requires Valid()
      modifies this
      ensures Valid()
      ensures err.Some? <==> ClearOutcome(old(chain)).Fail?
      ensures err.Some? ==> err.value == IllegalArgument && chain == old(chain)
      ensures err.None? ==> chain == ClearOutcome(old(chain)).value
    {
      var r := ClearOutcome(chain);
      if r.Fail? {
        return Some(r.error);
      }
      chain := r.value;
      err := None;
    }

    /** `add(element)`: put at 1/n over any value already there, then rescaled. */
    method Add(e: int)
      requires Valid()
      modifies this
      ensures Valid() && chain == AddUniform(old(chain), e, true)
    {
      var v := 1.0 / |chain| as real;
      PutPositive(chain, e, v);
      RescaledDistribution(Put(chain, e, v));
      chain := ScaleProbsLoop(Put(chain, e, v));
    }

    /** `add(element, percent)`. */
    method AddWithPercent(e: int, p: real) returns (err: Option<Exception>)
      requires Valid()
      modifies this
      ensures Valid()
      ensures err.Some? <==> AddOutcome(old(chain), e, p).Fail?
      ensures err.Some? ==> err.value == IllegalArgument && chain == old(chain)
      ensures err.None? ==> chain == AddOutcome(old(chain), e, p).value
    {
      var r := AddOutcome(chain, e, p);
      if r.Fail? {
        return Some(r.error);
      }
      chain := r.value;
      err := None;
    }

    /** `remove(element)`. */
    method Remove(e: int) returns (r: Result<bool>)
      requires Valid()
      modifies this
      ensures (r, chain) == RemoveOutcome(old(chain), e)
      ensures r != Fail(NoSuchElement) ==> Valid()
    {
      if |chain| == 2 {
        return Fail(IllegalState);
      }
      if e !in KeySet(chain) {
        return Ok(false);
      }
      if |chain| == 1 {
        chain := [];
        return Fail(NoSuchElement);
      }
      chain := RemoveEntry(chain, e);
      r := Ok(true);
    }

    /** `purge()`. */
    method Purge() returns (err: Option<Exception>)
      requires Valid()
      modifies this
      ensures (err, chain) == PurgeOutcome(old(chain))
      ensures err != Some(NoSuchElement) ==> Valid()
    {
      var o := PurgeOutcome(chain);
      chain := o.1;
      err := o.0;
    }

    /** `purge(percent)`. */
    method PurgeWithPercent(p: real) returns (err: Option<Exception>)
      requires Valid()
      modifies this
      ensures Valid()
      ensures err.Some? <==> PurgePercentOutcome(old(chain), p).Fail?
      ensures err.Some? ==> err.value == IllegalArgument && chain == old(chain)
      ensures err.None? ==> chain == PurgePercentOutcome(old(chain), p).value
    {
      var r := PurgePercentOutcome(chain, p);
      if r.Fail? {
        return Some(r.error);
      }
      chain := r.value;
      err := None;
    }

    /** `good(element, percent)`: the raised probability, or the exception thrown before any change. */
    method Good(e: int, p: real) returns (r: Result<real>)
      requires Valid()
      modifies this
      ensures Valid()
      ensures r.Fail? <==> ProbMaps.Good(old(chain), e, p).Fail?
      ensures r.Fail? ==> r.error == ProbMaps.Good(old(chain), e, p).error && chain == old(chain)
      ensures r.Ok? ==> (chain, r.value) == ProbMaps.Good(old(chain), e, p).value
    {
      var g := ProbMaps.Good(chain, e, p);
      if g.Fail? {
        return Fail(g.error);
      }
      chain := g.value.0;
      r := Ok(g.value.1);
    }

    /** `bad(element, percent)`, with the floor `Double.MIN_VALUE` taken as 0. */
    method Bad(e: int, p: real) returns (r: Result<real>)
      requires Valid()
      modifies this
      ensures Valid()
      ensures r.Fail? <==> ProbMaps.Bad(old(chain), e, p, 0.0).Fail?
      ensures r.Fail? ==> r.error == ProbMaps.Bad(old(chain), e, p, 0.0).error && chain == old(chain)
      ensures r.Ok? ==> (chain, r.value) == ProbMaps.Bad(old(chain), e, p, 0.0).value
    {
      var b := ProbMaps.Bad(chain, e, p, 0.0);
      if b.Fail? {
        return Fail(b.error);
      }
      chain := b.value.0;
      r := Ok(b.value.1);
    }

    /**
     * `fun()` for the draw `rnd` in [0, 1): the first element whose running
     * sum reaches the draw, and none (Java's null) for a draw of 0.
     */
    method Fun(rnd: real) returns (e: Option<int>)
      requires Valid() && 0.0 <= rnd < 1.0
      ensures e == Sample(chain, rnd)
      ensures e.None? <==> rnd == 0.0
      ensures e.Some? ==> e.value in KeySet(chain)
    {
      e := NextValue(chain, rnd);
    }

    /** `size()`. */
    method Size() returns (n: nat)
      requires Valid()
      ensures n == |chain| && n >= 1
    {
      n := |chain|;
    }

    /** `clone()`: a new ProbFun holding the same entries. */
    method Clone() returns (c: ProbFun)
      requires Valid()
      ensures fresh(c) && c.Valid() && c.chain == chain
    {
      c := new ProbFun.Copy(this);
    }
  }

  /** `ProbFun(choices)` with its IllegalArgumentException as a result. */
  method New(choices: seq<int>) returns (r: Result<ProbFun>)
    requires Increasing(choices)
    ensures r.Fail? <==> |choices| < 2
    ensures r.Fail? ==> r.error == IllegalArgument
    ensures r.Ok? ==> fresh(r.value) && r.value.Valid() && r.value.chain == Uniform(choices)
  {
    if |choices| < 2 {
      return Fail(IllegalArgument);
    }
    var f := new ProbFun(choices);
    r := Ok(f);
  }

  /** `ProbFun(choices, probabilities)` with its IllegalArgumentException as a result. */
  method NewWithProbs(choices: seq<int>, ps: seq<real>) returns (r: Result<ProbFun>)
    requires Increasing(choices) && forall i :: 0 <= i < |ps| ==> ps[i] > 0.0
    ensures r.Fail? <==> Build(choices, ps).Fail?
    ensures r.Fail? ==> r.error == IllegalArgument
    ensures r.Ok? ==> fresh(r.value) && r.value.Valid() && r.value.chain == Build(choices, ps).value
  {
    if Build(choices, ps).Fail? {
      return Fail(IllegalArgument);
    }
    var f := new ProbFun.WithProbs(choices, ps);
    r := Ok(f);
  }
}

=== FILE: prob_maps.dfy ===
/**
 * Probability maps: a TreeMap from element to probability, as every
 * generation of the weighted random choice keeps it. Probabilities are exact
 * reals, so the rounding fix `fixProbSum` adds exactly 1 - (current sum).
 */
module ProbMaps {
  import opened Wrappers
  import opened Assoc

  type ProbMap = seq<Pair<real>>

  /** Java's `Double.MIN_VALUE`, the least positive double, 2^-1074. */
  const MinValue: real := 1.0 / 202402253307310618352495346718917307049556649764142118356901358027430339567995346891960383701437124495187077864316811911389808737385793476867013399940738509921517424276566361364466907742093216341239767678472745068562007483424692698618103355649159556340810056512358769552333414615230502532186327508646006263307707741093494784 as real

  function Sum(m: ProbMap): real {
    if m == [] then 0.0 else m[0].value + Sum(m[1..])
  }

  predicate Positive(m: ProbMap) {
    forall i :: 0 <= i < |m| ==> m[i].value > 0.0
  }

  /** The invariant every probability map keeps: keys in order, non-empty, positive, summing to 1. */
  predicate Distribution(m: ProbMap) {
    Ordered(m) && |m| > 0 && Positive(m) && Sum(m) == 1.0
  }

  /** Same keys, in the same positions. */
  predicate SameKeys(a: ProbMap, b: ProbMap) {
    |a| == |b| && forall i :: 0 <= i < |a| ==> a[i].key == b[i].key
  }

  lemma {:induction false} SumConcat(a: ProbMap, b: ProbMap)
    ensures Sum(a + b) == Sum(a) + Sum(b)
  {
    if a == [] {
      assert a + b == b;
    } else {
      assert (a + b)[1..] == a[1..] + b;
      SumConcat(a[1..], b);
    }
  }

  lemma {:induction false} SumSplit(m: ProbMap, i: nat)
    requires i < |m|
    ensures Sum(m) == Sum(m[..i]) + m[i].value + Sum(m[i + 1..])
  {
    assert m == m[..i] + m[i..];
    SumConcat(m[..i], m[i..]);
    assert m[i..][1..] == m[i + 1..];
  }

  /** Overwriting one entry changes the sum by the difference of the two values. */
  lemma {:induction false} SumUpdate(m: ProbMap, i: nat, x: Pair<real>)
    requires i < |m|
    ensures Sum(m[i := x]) == Sum(m) - m[i].value + x.value
  {
    var r := m[i := x];
    SumSplit(m, i);
    SumSplit(r, i);
    assert r[..i] == m[..i] && r[i + 1..] == m[i + 1..];
  }

  /** Dropping one entry lowers the sum by its value. */
  lemma {:induction false} SumRemoveAt(m: ProbMap, i: nat)
    requires i < |m|
    ensures Sum(m[..i] + m[i + 1..]) == Sum(m) - m[i].value
  {
    SumSplit(m, i);
    SumConcat(m[..i], m[i + 1..]);
  }

  lemma SumRemove(m: ProbMap, k: int)
    requires Ordered(m)
    ensures Sum(Remove(m, k)) == match Get(m, k) case None => Sum(m) case Some(v) => Sum(m) - v
  {
    match IndexOf(m, k)
    case None =>
    case Some(i) =>
      RemoveAt(m, i);
      SumRemoveAt(m, i);
  }

  lemma {:induction false} SumInsert(m: ProbMap, k: int, v: real)
    requires Ordered(m) && k !in KeySet(m)
    ensures Sum(Insert(m, k, v)) == Sum(m) + v
  {
    if m == [] || k < m[0].key {
      var r := Insert(m, k, v);
      assert r == [Pair(k, v)] + m;
      assert r[1..] == m;
    } else {
      OrderedTail(m);
      SumInsert(m[1..], k, v);
      var r := Insert(m, k, v);
      assert r == [m[0]] + Insert(m[1..], k, v);
      assert r[1..] == Insert(m[1..], k, v);
    }
  }

  lemma SumPut(m: ProbMap, k: int, v: real)
    requires Ordered(m)
    ensures Sum(Put(m, k, v)) == match Get(m, k) case None => Sum(m) + v case Some(w) => Sum(m) - w + v
  {
    match IndexOf(m, k)
    case None => SumInsert(m, k, v);
    case Some(i) => SumUpdate(m, i, Pair(k, v));
  }

  lemma {:induction false} SumPositive(m: ProbMap)
    requires Positive(m)
    ensures Sum(m) >= 0.0
    ensures |m| > 0 ==> Sum(m) > 0.0
  {
    if m != [] {
      SumPositive(m[1..]);
    }
  }

  /** In a positive map every entry is at most the total, and strictly less when there are others. */
  lemma {:induction false} EntryBelowSum(m: ProbMap, i: nat)
    requires Positive(m) && i < |m|
    ensures m[i].value <= Sum(m)
    ensures |m| > 1 ==> m[i].value < Sum(m)
  {
    SumRemoveAt(m, i);
    var rest := m[..i] + m[i + 1..];
    assert forall j :: 0 <= j < |rest| ==> rest[j] == if j < i then m[j] else m[j + 1];
    SumPositive(rest);
  }

  lemma {:induction false} SumConstant(ks: seq<int>, v: real)
    requires Increasing(ks)
    ensures Sum(Constant(ks, v)) == |ks| as real * v
  {
    if ks != [] {
      SumConstant(ks[1..], v);
      assert forall j :: 0 <= j < |ks| - 1 ==> Constant(ks, v)[1..][j] == Constant(ks[1..], v)[j];
      assert Constant(ks, v)[1..] == Constant(ks[1..], v);
    }
  }

  /** Every value multiplied by `c`, as the `entry.setValue(entry.getValue() * c)` loops do. */
  /** Every key of `m` other than `except` is still in `r`, with its value multiplied by `c`. */
  predicate ScaledFrom(r: ProbMap, m: ProbMap, except: int, c: real) {
    forall k :: k in KeySet(m) && k != except ==>
      Get(r, k).Some? && Get(r, k).value == Get(m, k).value * c
  }

  function Scale(m: ProbMap, c: real): (r: ProbMap)
    ensures SameKeys(r, m) && (Ordered(m) ==> Ordered(r))
    ensures forall i :: 0 <= i < |m| ==> r[i].key == m[i].key && r[i].value == m[i].value * c
  {
    seq(|m|, i requires 0 <= i < |m| => Pair(m[i].key, m[i].value * c))
  }

  lemma MulPositive(a: real, b: real)
    requires a > 0.0 && b > 0.0
    ensures a * b > 0.0
  {
  }

  /** The sum depends only on the values, position by position. */
  lemma {:induction false} SumSameValues(a: ProbMap, b: ProbMap)
    requires |a| == |b| && forall i :: 0 <= i < |a| ==> a[i].value == b[i].value
    ensures Sum(a) == Sum(b)
  {
    if a != [] {
      SumSameValues(a[1..], b[1..]);
    }
  }

  lemma {:induction false} SumScale(m: ProbMap, c: real)
    ensures Sum(Scale(m, c)) == Sum(m) * c
  {
    if m != [] {
      SumSameValues(Scale(m, c)[1..], Scale(m[1..], c));
      SumScale(m[1..], c);
    }
  }

  /** `fixProbSum`: the first entry in key order absorbs 1 - (current sum); nothing else changes. */
  function FixProbSum(m: ProbMap): (r: ProbMap)
    requires |m| > 0
    ensures Sum(r) == 1.0
    ensures SameKeys(r, m)
    ensures r[0].value == m[0].value + (1.0 - Sum(m))
    ensures forall i :: 0 < i < |m| ==> r[i] == m[i]
    ensures Sum(m) == 1.0 ==> r == m
  {
    var r := m[0 := Pair(m[0].key, m[0].value + (1.0 - Sum(m)))];
    SumUpdate(m, 0, r[0]);
    r
  }

  /** The factor `scaleProbs` multiplies every value by: one over the sum. */
  function Normalizer(m: ProbMap): real
    requires Sum(m) != 0.0
  {
    1.0 / Sum(m)
  }

  /** `scaleProbs`: multiply by 1/sum, then fix the sum. In exact arithmetic the fix adds nothing. */
  function ScaleProbs(m: ProbMap): (r: ProbMap)
    requires |m| > 0 && Sum(m) != 0.0
    ensures r == Scale(m, Normalizer(m))
    ensures Sum(r) == 1.0 && SameKeys(r, m)
    ensures Ordered(m) ==> Ordered(r)
  {
    SumScale(m, Normalizer(m));
    assert Sum(m) * (1.0 / Sum(m)) == 1.0;
    FixProbSum(Scale(m, Normalizer(m)))
  }

  /** A positive map rescaled is a distribution over the same keys. */
  lemma {:induction false} ScaleProbsDistribution(m: ProbMap)
    requires Ordered(m) && Positive(m) && |m| > 0
    ensures Sum(m) > 0.0
    ensures Distribution(ScaleProbs(m))
  {
    SumPositive(m);
    assert Normalizer(m) > 0.0;
    var r := ScaleProbs(m);
    forall i | 0 <= i < |m| ensures r[i].value > 0.0 {
      MulPositive(m[i].value, Normalizer(m));
    }
  }

  /** The uniform map over a set of choices: every choice at 1/n, then the sum fixed. */
  function Uniform(choices: seq<int>): (r: ProbMap)
    requires Increasing(choices) && |choices| > 0
    ensures Distribution(r) && Keys(r) == choices
    ensures forall i :: 0 <= i < |r| ==> r[i].value == 1.0 / |choices| as real
  {
    var c := Constant(choices, 1.0 / |choices| as real);
    SumConstant(choices, 1.0 / |choices| as real);
    FixProbSum(c)
  }

  /** `clearProbs`: the uniform map over the keys already present. */
  function ClearProbs(m: ProbMap): (r: ProbMap)
    requires Ordered(m) && |m| > 0
    ensures Distribution(r) && SameKeys(r, m)
    ensures forall i :: 0 <= i < |r| ==> r[i].value == 1.0 / |m| as real
  {
    assert Increasing(Keys(m));
    Uniform(Keys(m))
  }

  /**
   * `nextValue` / `fun` of a probability map for a supplied draw `r` in [0, sum):
   * walk the entries in key order while `r` exceeds the running sum and return
   * the last key read. With `r` = 0 the loop never runs and Java returns null.
   */
  function Sample(m: ProbMap, r: real): (e: Option<int>)
    requires 0.0 <= r < Sum(m)
    ensures e.Some? ==> e.value in KeySet(m)
    ensures e.None? <==> r == 0.0
    decreases |m|
  {
    if r == 0.0 then None
    else if r <= m[0].value then
      assert m[0].key in KeySet(m);
      Some(m[0].key)
    else
      var e := Sample(m[1..], r - m[0].value);
      assert KeySet(m[1..]) <= KeySet(m) by {
        forall x | x in KeySet(m[1..]) ensures x in KeySet(m) {
          var j :| 0 <= j < |m[1..]| && m[1..][j].key == x;
          assert m[j + 1].key == x;
        }
      }
      e
  }

  lemma SumPrefixCons(m: ProbMap, i: nat)
    requires i < |m|
    ensures Sum(m[..i + 1]) == m[0].value + Sum(m[1..][..i])
  {
    assert m[..i + 1][1..] == m[1..][..i];
  }

  lemma SumPrefixStep(m: ProbMap, i: nat)
    requires i < |m|
    ensures Sum(m[..i + 1]) == Sum(m[..i]) + m[i].value
  {
    assert m[..i + 1] == m[..i] + [m[i]];
    SumConcat(m[..i], [m[i]]);
  }

  /**
   * The sampling rule: for a draw `r` in (0, sum) the i-th key comes out
   * exactly when `r` lies in the i-th interval of the cumulative sums.
   */
  lemma {:induction false} SampleInterval(m: ProbMap, r: real, i: nat)
    requires Ordered(m) && Positive(m) && 0.0 < r < Sum(m) && i < |m|
    ensures Sample(m, r) == Some(m[i].key) <==> Sum(m[..i]) < r <= Sum(m[..i + 1])
  {
    SumPrefixCons(m, i);
    var t := m[1..];
    assert forall j :: 0 <= j < |t| ==> t[j] == m[j + 1];
    assert m[0].key !in KeySet(t);
    if i > 0 {
      SumPositive(t[..i - 1]);
      assert Sum(m[..i]) >= m[0].value by {
        SumPrefixCons(m, i - 1);
      }
      if r > m[0].value {
        SampleInterval(t, r - m[0].value, i - 1);
        SumPrefixCons(m, i - 1);
        assert t[i - 1] == m[i];
      } else {
        assert m[i].key != m[0].key;
      }
    } else {
      assert m[..0] == [];
      assert m[..1] == [m[0]];
    }
  }

  /** `nextValue`'s loop, proved against `Sample`. */
  method NextValue(m: ProbMap, r: real) returns (e: Option<int>)
    requires Ordered(m) && Positive(m) && 0.0 <= r < Sum(m)
    ensures e == Sample(m, r)
  {
    var sum := 0.0;
    var i := 0;
    e := None;
    while r > sum
      invariant 0 <= i <= |m|
      invariant sum == Sum(m[..i])
      invariant i == 0 ==> e.None?
      invariant i > 0 ==> r > 0.0
      invariant i == |m| ==> sum == Sum(m)
      invariant i > 0 ==> e == Some(m[i - 1].key) && Sum(m[..i - 1]) < r
      decreases |m| - i
    {
      SumPrefixStep(m, i);
      if i + 1 == |m| {
        assert m[..i + 1] == m;
      }
      e := Some(m[i].key);
      sum := sum + m[i].value;
      i := i + 1;
    }
    if i > 0 {
      SampleInterval(m, r, i - 1);
    }
  }

  /** `probSum`'s loop. */
  method ProbSum(m: ProbMap) returns (s: real)
    ensures s == Sum(m)
  {
    s := 0.0;
    var i := 0;
    while i < |m|
      invariant 0 <= i <= |m|
      invariant s == Sum(m[..i])
    {
      SumPrefixStep(m, i);
      s := s + m[i].value;
      i := i + 1;
    }
    assert m[..i] == m;
  }

  /** The `setValue(getValue() * c)` loop over the entry set. */
  method ScaleInPlace(m: ProbMap, c: real) returns (r: ProbMap)
    ensures r == Scale(m, c)
  {
    r := m;
    var i := 0;
    while i < |m|
      invariant 0 <= i <= |m| && |r| == |m|
      invariant forall j :: 0 <= j < i ==> r[j].key == m[j].key && r[j].value == m[j].value * c
      invariant forall j :: i <= j < |m| ==> r[j] == m[j]
    {
      r := r[i := Pair(m[i].key, m[i].value * c)];
      i := i + 1;
    }
    assert forall j :: 0 <= j < |m| ==> r[j].key == Scale(m, c)[j].key && r[j].value == Scale(m, c)[j].value;
  }

  /** `scaleProbs` as the Java methods run it: sum, multiply in a loop, fix the first entry. */
  method ScaleProbsLoop(m: ProbMap) returns (r: ProbMap)
    requires |m| > 0 && Sum(m) != 0.0
    ensures r == ScaleProbs(m)
  {
    var s := ProbSum(m);
    r := ScaleInPlace(m, 1.0 / s);
    var s2 := ProbSum(r);
    r := r[0 := Pair(r[0].key, r[0].value + (1.0 - s2))];
  }

  /**
   * The value `good` raises P to: by p·(1 - P) when P is above one half, by
   * p·P otherwise (p·(1 - P) is written out as p - P·p).
   */
  function GoodTarget(P: real, p: real): real {
    P + (if P > 0.5 then p - P * p else P * p)
  }

  /** The value `bad` lowers P to. */
  function BadTarget(P: real, p: real): real {
    P - P * p
  }

  lemma MulBounds(x: real, p: real)
    requires x > 0.0 && 0.0 < p < 1.0
    ensures 0.0 < x * p < x
  {
  }

  lemma ProductBound(P: real, p: real)
    requires 0.0 < P < 1.0 && 0.0 < p < 1.0
    ensures P * p > P + p - 1.0
  {
    var u := 1.0 - P;
    var v := 1.0 - p;
    MulPositive(u, v);
    assert u * v == 1.0 - P - p + P * p;
  }

  /** With a second element present both targets stay strictly between 0 and 1. */
  lemma TargetBounds(P: real, p: real)
    requires 0.0 < P <= 1.0 && 0.0 < p < 1.0
    ensures P <= GoodTarget(P, p) && (P < 1.0 ==> P < GoodTarget(P, p) < 1.0)
    ensures P == 1.0 ==> GoodTarget(P, p) >= 1.0
    ensures 0.0 < BadTarget(P, p) < P
  {
    MulBounds(P, p);
    if P < 1.0 {
      MulBounds(p, P);
      ProductBound(P, p);
    }
  }

  /** The factor that spreads 1 - target over entries summing to `rest`. */
  function Share(target: real, rest: real): real
    requires rest != 0.0
  {
    (1.0 - target) / rest
  }

  /** The arithmetic of Reweight: after scaling, the sum is (rest + t)·c - t·c + t = 1. */
  lemma ReweightArith(S1: real, t: real, rest: real, c: real, S2: real, S3: real)
    requires S1 == rest + t && rest > 0.0 && c == Share(t, rest)
    requires S2 == S1 * c && S3 == S2 - t * c + t
    ensures S3 == 1.0
  {
    assert S1 * c == rest * c + t * c;
    assert rest * c == 1.0 - t;
  }

  lemma ScaledShare(x: real, rest: real, t: real, c: real)
    requires x > 0.0 && rest > 0.0 && t < 1.0 && c == Share(t, rest)
    ensures x * c > 0.0
  {
    assert c > 0.0;
  }

  /**
   * The common tail of `good` and `bad`: entry `i` is set to `target`, every
   * value is multiplied by (1 - target) / (sum of the others), entry `i` is set
   * again and the sum is fixed. With no other entry Java scales by an infinite
   * factor and then overwrites the only entry, which leaves it at `target`.
   */
  function Reweight(m: ProbMap, i: nat, target: real): (r: ProbMap)
    requires Positive(m) && i < |m|
    ensures SameKeys(r, m) && (Ordered(m) ==> Ordered(r))
  {
    if |m| == 1 then FixProbSum(m[i := Pair(m[i].key, target)])
    else FixProbSum(Scaled(m, i, target))
  }

  /** Every entry of `r` other than entry `i` is the entry of `m` at the same place times `c`. */
  predicate Proportional(r: ProbMap, m: ProbMap, i: nat, c: real) {
    |r| == |m| && forall j :: 0 <= j < |m| && j != i ==> r[j].value == m[j].value * c
  }

  /** The map Reweight scales before fixing its sum, when there are other entries. */
  function Scaled(m: ProbMap, i: nat, target: real): (m3: ProbMap)
    requires Positive(m) && i < |m| && |m| > 1
    ensures |m3| == |m|
  {
    var k := m[i].key;
    var m1 := m[i := Pair(k, target)];
    EntryBelowSum(m, i);
    SumUpdate(m, i, Pair(k, target));
    Scale(m1, Share(target, Sum(m1) - target))[i := Pair(k, target)]
  }

  lemma {:induction false} ScaledSum(m: ProbMap, i: nat, target: real)
    requires Positive(m) && i < |m| && |m| > 1 && 0.0 < target < 1.0
    ensures Sum(Scaled(m, i, target)) == 1.0
  {
    var k := m[i].key;
    var m1 := m[i := Pair(k, target)];
    SumUpdate(m, i, Pair(k, target));
    EntryBelowSum(m, i);
    var rest := Sum(m1) - target;
    var c := Share(target, rest);
    ScaleUpdateSum(m1, i, k, target, c);
    assert Scaled(m, i, target) == Scale(m1, c)[i := Pair(k, target)];
    ReweightArith(Sum(m1), target, rest, c, Sum(m1) * c, Sum(m1) * c - target * c + target);
  }

  /** Scaling a map by `c`, then putting entry `i` back at its old value `target`. */
  lemma ScaleUpdateSum(m: ProbMap, i: nat, k: int, target: real, c: real)
    requires i < |m| && m[i].value == target
    ensures Sum(Scale(m, c)[i := Pair(k, target)]) == Sum(m) * c - target * c + target
  {
    SumScale(m, c);
    SumUpdate(Scale(m, c), i, Pair(k, target));
  }

  lemma {:induction false} ScaledValues(m: ProbMap, i: nat, target: real)
    requires Positive(m) && i < |m| && |m| > 1 && 0.0 < target < 1.0
    ensures Sum(m) - m[i].value > 0.0
    ensures Scaled(m, i, target)[i].value == target
    ensures Proportional(Scaled(m, i, target), m, i, Share(target, Sum(m) - m[i].value))
  {
    var k := m[i].key;
    var m1 := m[i := Pair(k, target)];
    SumUpdate(m, i, Pair(k, target));
    EntryBelowSum(m, i);
    var rest := Sum(m) - m[i].value;
    assert Sum(m1) - target == rest;
    var c := Share(target, rest);
    assert Scaled(m, i, target) == Scale(m1, c)[i := Pair(k, target)];
    ScaleUpdateValues(m, i, k, target, c);
  }

  /** Entry `i` set to `target`, all scaled by `c`, entry `i` set again: the others are scaled copies. */
  lemma ScaleUpdateValues(m: ProbMap, i: nat, k: int, target: real, c: real)
    requires i < |m|
    ensures Scale(m[i := Pair(k, target)], c)[i := Pair(k, target)][i].value == target
    ensures Proportional(Scale(m[i := Pair(k, target)], c)[i := Pair(k, target)], m, i, c)
  {
    var m1 := m[i := Pair(k, target)];
    var m3 := Scale(m1, c)[i := Pair(k, target)];
    forall j | 0 <= j < |m| && j != i
      ensures m3[j].value == m[j].value * c
    {
      assert m3[j] == Scale(m1, c)[j];
      assert m1[j] == m[j];
    }
  }

  lemma {:induction false} ScaledPositive(m: ProbMap, i: nat, target: real)
    requires Positive(m) && i < |m| && |m| > 1 && 0.0 < target < 1.0
    ensures Positive(Scaled(m, i, target))
  {
    ScaledValues(m, i, target);
    var rest := Sum(m) - m[i].value;
    var c := Share(target, rest);
    var m3 := Scaled(m, i, target);
    forall j | 0 <= j < |m| ensures m3[j].value > 0.0 {
      if j != i {
        ScaledShare(m[j].value, rest, target, c);
      }
    }
  }

  /**
   * What Reweight computes: entry `i` ends at `target` (at 1 when it is alone),
   * every other entry is multiplied by (1 - target) / (sum of the others), and
   * the map is again positive and sums to 1.
   */
  lemma {:induction false} ReweightSpec(m: ProbMap, i: nat, target: real)
    requires Positive(m) && i < |m| && 0.0 < target < 1.0
    ensures var r := Reweight(m, i, target);
      Positive(r) && Sum(r) == 1.0 &&
      r[i].value == (if |m| == 1 then 1.0 else target)
    ensures |m| > 1 ==> Sum(m) - m[i].value > 0.0
    ensures |m| > 1 ==> Proportional(Reweight(m, i, target), m, i, Share(target, Sum(m) - m[i].value))
  {
    if |m| > 1 {
      ScaledSum(m, i, target);
      ScaledValues(m, i, target);
      ScaledPositive(m, i, target);
      var r := Reweight(m, i, target);
      assert r == Scaled(m, i, target);
    } else {
      ReweightSingle(m, target);
    }
  }

  lemma ReweightSingle(m: ProbMap, target: real)
    requires Positive(m) && |m| == 1
    ensures Reweight(m, 0, target) == [Pair(m[0].key, 1.0)]
  {
    var m1 := m[0 := Pair(m[0].key, target)];
    assert m1 == [Pair(m[0].key, target)];
    assert Sum(m1) == target + Sum(m1[1..]);
    assert m1[1..] == [];
  }

  /**
   * `good(element, percent)` on one probability map: the new map and the
   * returned probability, or the exception Java throws.
   */
  function Good(m: ProbMap, e: int, p: real): (res: Result<(ProbMap, real)>)
    requires Distribution(m)
    ensures res.Fail? <==> p <= 0.0 || p >= 1.0 || e !in KeySet(m)
    ensures res.Fail? ==> res.error == if p <= 0.0 || p >= 1.0 then IllegalArgument else NullPointer
    ensures res.Ok? ==> Distribution(res.value.0) && SameKeys(res.value.0, m)
    ensures res.Ok? ==> Get(res.value.0, e) == Some(res.value.1)
  {
    if p >= 1.0 || p <= 0.0 then Fail(IllegalArgument)
    else match IndexOf(m, e)
      case None => Fail(NullPointer)
      case Some(i) =>
        var P := m[i].value;
        var g := GoodTarget(P, p);
        GetAt(m, i);
        if g >= 1.0 then Ok((m, P))
        else
          EntryBelowSum(m, i);
          TargetBounds(P, p);
          var r := Reweight(m, i, g);
          ReweightSpec(m, i, g);
          GetAt(r, i);
          Ok((r, r[i].value))
  }

  /**
   * `bad(element, percent)` on one probability map. `floor` is the threshold at
   * or below which the lowered value is refused: the `roundingError` of the
   * tree variants (0 in exact arithmetic) or `Double.MIN_VALUE`.
   */
  function Bad(m: ProbMap, e: int, p: real, floor: real): (res: Result<(ProbMap, real)>)
    requires Distribution(m) && floor >= 0.0
    ensures res.Fail? <==> p <= 0.0 || p >= 1.0 || e !in KeySet(m)
    ensures res.Fail? ==> res.error == if p <= 0.0 || p >= 1.0 then IllegalArgument else NullPointer
    ensures res.Ok? ==> Distribution(res.value.0) && SameKeys(res.value.0, m)
    ensures res.Ok? ==> Get(res.value.0, e) == Some(res.value.1)
  {
    if p >= 1.0 || p <= 0.0 then Fail(IllegalArgument)
    else match IndexOf(m, e)
      case None => Fail(NullPointer)
      case Some(i) =>
        var P := m[i].value;
        var b := BadTarget(P, p);
        GetAt(m, i);
        if b <= floor then Ok((m, P))
        else
          EntryBelowSum(m, i);
          TargetBounds(P, p);
          var r := Reweight(m, i, b);
          ReweightSpec(m, i, b);
          GetAt(r, i);
          Ok((r, r[i].value))
  }

  /**
   * The reinforcement rule of `good`: on a map with two or more entries the
   * element rises strictly to GoodTarget(P, p) < 1 and every other entry is
   * multiplied by the same factor (1 - new) / (1 - P), so their ratios are kept.
   * On a one-element map (P = 1) nothing changes.
   */
  lemma {:induction false} GoodRule(m: ProbMap, i: nat, p: real)
    requires Distribution(m) && i < |m| && 0.0 < p < 1.0
    ensures Good(m, m[i].key, p).Ok?
    ensures |m| == 1 ==> Good(m, m[i].key, p) == Ok((m, 1.0))
    ensures |m| > 1 ==> m[i].value < 1.0
    ensures |m| > 1 ==> var (r, v) := Good(m, m[i].key, p).value;
      var g := GoodTarget(m[i].value, p);
      m[i].value < g < 1.0 && v == g && r[i].value == g &&
      Proportional(r, m, i, Share(g, 1.0 - m[i].value))
  {
    if |m| == 1 {
      GoodSingle(m, p);
    } else {
      GoodMany(m, i, p);
    }
  }

  lemma GoodSingle(m: ProbMap, p: real)
    requires Distribution(m) && |m| == 1 && 0.0 < p < 1.0
    ensures Good(m, m[0].key, p) == Ok((m, 1.0))
  {
    assert Sum(m) == m[0].value + Sum(m[1..]);
    assert GoodTarget(m[0].value, p) == 1.0;
    assert IndexOf(m, m[0].key) == Some(0);
  }

  /** Reweight on a distribution with two or more entries: the others share 1 - target in proportion. */
  lemma ReweightDistribution(m: ProbMap, i: nat, t: real)
    requires Distribution(m) && i < |m| && |m| > 1 && 0.0 < t < 1.0
    ensures m[i].value < 1.0
    ensures Reweight(m, i, t)[i].value == t
    ensures Proportional(Reweight(m, i, t), m, i, Share(t, 1.0 - m[i].value))
  {
    EntryBelowSum(m, i);
    ReweightSpec(m, i, t);
    assert Sum(m) - m[i].value == 1.0 - m[i].value;
  }

  lemma GoodMany(m: ProbMap, i: nat, p: real)
    requires Distribution(m) && i < |m| && |m| > 1 && 0.0 < p < 1.0
    ensures m[i].value < 1.0
    ensures var g := GoodTarget(m[i].value, p);
      m[i].value < g < 1.0 &&
      Good(m, m[i].key, p) == Ok((Reweight(m, i, g), g)) &&
      Reweight(m, i, g)[i].value == g &&
      Proportional(Reweight(m, i, g), m, i, Share(g, 1.0 - m[i].value))
  {
    EntryBelowSum(m, i);
    var P := m[i].value;
    var g := GoodTarget(P, p);
    TargetBounds(P, p);
    ReweightSpec(m, i, g);
    ReweightDistribution(m, i, g);
    assert IndexOf(m, m[i].key) == Some(i);
  }

  /** `good` leaves the map unchanged exactly when it has a single element. */
  lemma {:induction false} GoodNoOpIff(m: ProbMap, i: nat, p: real)
    requires Distribution(m) && i < |m| && 0.0 < p < 1.0
    ensures Good(m, m[i].key, p).Ok?
    ensures Good(m, m[i].key, p).value.0 == m <==> |m| == 1
  {
    GoodRule(m, i, p);
    if |m| > 1 {
      var r := Good(m, m[i].key, p).value.0;
      assert r[i].value != m[i].value;
    }
  }

  /**
   * The rule of `bad`: when P·(1 - p) stays above the floor the element drops to
   * it and the other entries are multiplied by (1 - new) / (1 - P); a single
   * element is restored to 1. At or below the floor nothing changes.
   */
  lemma {:induction false} BadRule(m: ProbMap, i: nat, p: real, floor: real)
    requires Distribution(m) && i < |m| && 0.0 < p < 1.0 && floor >= 0.0
    ensures Bad(m, m[i].key, p, floor).Ok?
    ensures BadTarget(m[i].value, p) <= floor ==> Bad(m, m[i].key, p, floor) == Ok((m, m[i].value))
    ensures BadTarget(m[i].value, p) > floor && |m| == 1 ==> Bad(m, m[i].key, p, floor) == Ok((m, 1.0))
    ensures |m| > 1 ==> m[i].value < 1.0
    ensures BadTarget(m[i].value, p) > floor && |m| > 1 ==> var (r, v) := Bad(m, m[i].key, p, floor).value;
      var b := BadTarget(m[i].value, p);
      0.0 < b < m[i].value && v == b && r[i].value == b &&
      Proportional(r, m, i, Share(b, 1.0 - m[i].value))
  {
    var P := m[i].value;
    var b := BadTarget(P, p);
    assert IndexOf(m, m[i].key) == Some(i);
    EntryBelowSum(m, i);
    if b > floor {
      if |m| == 1 {
        BadSingle(m, p, floor);
      } else {
        BadMany(m, i, p, floor);
      }
    }
  }

  lemma BadSingle(m: ProbMap, p: real, floor: real)
    requires Distribution(m) && |m| == 1 && 0.0 < p < 1.0 && floor >= 0.0
    requires BadTarget(m[0].value, p) > floor
    ensures Bad(m, m[0].key, p, floor) == Ok((m, 1.0))
  {
    assert Sum(m) == m[0].value + Sum(m[1..]);
    assert m == [Pair(m[0].key, 1.0)];
    assert IndexOf(m, m[0].key) == Some(0);
    TargetBounds(m[0].value, p);
    ReweightSingle(m, BadTarget(m[0].value, p));
  }

  lemma BadMany(m: ProbMap, i: nat, p: real, floor: real)
    requires Distribution(m) && i < |m| && |m| > 1 && 0.0 < p < 1.0 && floor >= 0.0
    requires BadTarget(m[i].value, p) > floor
    ensures m[i].value < 1.0
    ensures var b := BadTarget(m[i].value, p);
      0.0 < b < m[i].value &&
      Bad(m, m[i].key, p, floor) == Ok((Reweight(m, i, b), b)) &&
      Reweight(m, i, b)[i].value == b &&
      Proportional(Reweight(m, i, b), m, i, Share(b, 1.0 - m[i].value))
  {
    EntryBelowSum(m, i);
    var P := m[i].value;
    var b := BadTarget(P, p);
    TargetBounds(P, p);
    ReweightSpec(m, i, b);
    ReweightDistribution(m, i, b);
    assert IndexOf(m, m[i].key) == Some(i);
  }

  /** GenerativeMarkovChain/src/testMarkov/TestProbFun.java: good(0, 0.5) on {0: 0.25, 1: 0.75}. */
  lemma GoodExample()
    ensures Good([Pair(0, 0.25), Pair(1, 0.75)], 0, 0.5) == Ok(([Pair(0, 0.375), Pair(1, 0.625)], 0.375))
  {
    var m := [Pair(0, 0.25), Pair(1, 0.75)];
    assert Sum(m) == 1.0 by { assert m[1..][1..] == []; }
    assert m[0].key == 0;
    GoodRule(m, 0, 0.5);
    var res := Good(m, 0, 0.5);
    var r := res.value.0;
    assert GoodTarget(0.25, 0.5) == 0.375;
    var c := Share(0.375, 0.75);
    assert c == 0.625 / 0.75;
    assert r[1].value == 0.75 * c;
    ShareExample(c);
    assert r[0] == Pair(0, 0.375) && r[1] == Pair(1, 0.625);
    assert r == [Pair(0, 0.375), Pair(1, 0.625)];
  }

  lemma ShareExample(c: real)
    requires c == 0.625 / 0.75
    ensures 0.75 * c == 0.625 && 0.25 * c == 0.625 / 3.0
  {
  }

  /**
   * GenerativeMarkovChain/src/testMarkov/TestProbFun.java: bad(1, 0.5) on
   * {0: 0.25, 1: 0.75}, for any floor below the new value (Double.MIN_VALUE among them).
   */
  lemma BadExample(m: ProbMap, floor: real)
    requires m == [Pair(0, 0.25), Pair(1, 0.75)] && 0.0 <= floor < 0.375
    ensures Distribution(m) && Bad(m, 1, 0.5, floor) == Ok(([Pair(0, 0.625), Pair(1, 0.375)], 0.375))
  {
    assert Sum(m) == 1.0 by {
      var t := m[1..];
      assert t[1..] == [] && t[0].value == 0.75;
      assert Sum(t) == 0.75 + Sum(t[1..]);
    }
    assert m[1].key == 1;
    BadExampleTarget();
    BadRule(m, 1, 0.5, floor);
    BadShareExample();
    var r := Bad(m, 1, 0.5, floor).value.0;
    assert r[0] == Pair(0, 0.625) && r[1] == Pair(1, 0.375);
    assert r == [Pair(0, 0.625), Pair(1, 0.375)];
  }

  lemma BadExampleTarget()
    ensures BadTarget(0.75, 0.5) == 0.375 && 1.0 - 0.75 == 0.25
  {
  }

  lemma BadShareExample()
    ensures 0.25 * Share(0.375, 0.25) == 0.625
  {
  }

  lemma MinValueRange()
    ensures 0.0 < MinValue < 0.375
  {
  }
}

=== FILE: prob_scans.dfy ===
/**
 * The pruning loops of every generation over one probability map: the
 * minimum and maximum, the in-order scan that removes entries at or below a
 * limit until a floor size is reached (`prune` / `purge`), the scan that
 * calls `remove` inside a for-each loop and so stops at the first removal,
 * and the scan over a copy sorted by probability (`purge(percent)` of
 * GenerativeMarkovChain).
 */
module ProbScans {
  import opened Wrappers
  import opened Assoc
  import opened ProbMaps
  import opened ProbEdits

  /** The least probability of a non-empty map. */
  function MinProb(m: ProbMap): (lo: real)
    requires |m| > 0
    ensures forall i :: 0 <= i < |m| ==> lo <= m[i].value
    ensures exists i :: 0 <= i < |m| && m[i].value == lo
  {
    if |m| == 1 then m[0].value
    else
      var rest := MinProb(m[1..]);
      assert forall i :: 1 <= i < |m| ==> m[i] == m[1..][i - 1];
      if m[0].value <= rest then m[0].value else rest
  }

  /** The greatest probability of a non-empty map. */
  function MaxProb(m: ProbMap): (hi: real)
    requires |m| > 0
    ensures forall i :: 0 <= i < |m| ==> m[i].value <= hi
    ensures exists i :: 0 <= i < |m| && m[i].value == hi
  {
    if |m| == 1 then m[0].value
    else
      var rest := MaxProb(m[1..]);
      assert forall i :: 1 <= i < |m| ==> m[i] == m[1..][i - 1];
      if m[0].value >= rest then m[0].value else rest
  }

  /** The entries strictly above `limit`, in key order. */
  function Above(m: ProbMap, limit: real): ProbMap {
    if m == [] then []
    else (if m[0].value > limit then [m[0]] else []) + Above(m[1..], limit)
  }

  /** How many entries are at or below `limit`. */
  function Count(m: ProbMap, limit: real): nat {
    if m == [] then 0
    else (if m[0].value <= limit then 1 else 0) + Count(m[1..], limit)
  }

  lemma {:induction false} AboveMembers(m: ProbMap, limit: real)
    ensures |Above(m, limit)| + Count(m, limit) == |m|
    ensures forall x :: x in Above(m, limit) <==> x in m && x.value > limit
  {
    if m != [] {
      AboveMembers(m[1..], limit);
      assert m == [m[0]] + m[1..];
    }
  }

  lemma {:induction false} AboveOrdered(m: ProbMap, limit: real)
    requires Ordered(m)
    ensures Ordered(Above(m, limit))
  {
    if m != [] {
      AboveOrdered(m[1..], limit);
      AboveMembers(m[1..], limit);
      var rest := Above(m[1..], limit);
      forall x | x in rest ensures x.key > m[0].key {
        var j :| 0 <= j < |m[1..]| && m[1..][j] == x;
        assert m[j + 1] == x;
      }
    }
  }

  lemma {:induction false} CountZero(m: ProbMap, limit: real)
    requires Count(m, limit) == 0
    ensures Above(m, limit) == m
  {
    if m != [] {
      CountZero(m[1..], limit);
    }
  }

  /** A non-empty, ordered, positive map keeps those properties when filtered. */
  lemma AboveDistributionPart(m: ProbMap, limit: real)
    requires Distribution(m) && exists i :: 0 <= i < |m| && m[i].value > limit
    ensures Ordered(Above(m, limit)) && Positive(Above(m, limit)) && |Above(m, limit)| > 0
    ensures Count(m, limit) < |m|
  {
    AboveMembers(m, limit);
    AboveOrdered(m, limit);
    var i :| 0 <= i < |m| && m[i].value > limit;
    assert m[i] in Above(m, limit);
    forall x | x in Above(m, limit) ensures x.value > 0.0 {
      var j :| 0 <= j < |m| && m[j] == x;
    }
    PositiveMembers(Above(m, limit));
  }

  /**
   * The iterator-removal scan of `prune` / `purge`: walk the entries in key
   * order and remove each one at or below `limit`; once a removal leaves the
   * map at `floor` entries, stop and keep everything not yet visited. `size`
   * is the map's current size. The result is the map left at the end.
   */
  function DropScan(todo: ProbMap, size: nat, limit: real, floor: nat): (kept: ProbMap)
    requires size > floor
    decreases |todo|
  {
    if todo == [] then []
    else if todo[0].value <= limit then
      if size == floor + 1 then todo[1..]
      else DropScan(todo[1..], size - 1, limit, floor)
    else [todo[0]] + DropScan(todo[1..], size, limit, floor)
  }

  /**
   * The scan removes every entry at or below the limit when there are few
   * enough of them; otherwise it stops with exactly `floor` entries.
   */
  lemma {:induction false} DropScanSpec(todo: ProbMap, size: nat, limit: real, floor: nat)
    requires size > floor && size >= |todo|
    ensures size - Count(todo, limit) >= floor ==> DropScan(todo, size, limit, floor) == Above(todo, limit)
    ensures size - Count(todo, limit) < floor ==>
      size - (|todo| - |DropScan(todo, size, limit, floor)|) == floor
    ensures |DropScan(todo, size, limit, floor)| <= |todo|
  {
    if todo != [] {
      if todo[0].value <= limit {
        if size == floor + 1 {
          if size - Count(todo, limit) >= floor {
            CountZero(todo[1..], limit);
          }
        } else {
          DropScanSpec(todo[1..], size - 1, limit, floor);
        }
      } else {
        DropScanSpec(todo[1..], size, limit, floor);
      }
    }
  }

  /** The scan only removes entries, and it keeps every entry above the limit. */
  lemma {:induction false} DropScanMembers(todo: ProbMap, size: nat, limit: real, floor: nat)
    requires size > floor
    ensures forall x :: x in DropScan(todo, size, limit, floor) ==> x in todo
    ensures forall x :: x in todo && x.value > limit ==> x in DropScan(todo, size, limit, floor)
  {
    if todo != [] {
      assert forall x :: x in todo ==> x == todo[0] || x in todo[1..];
      if todo[0].value <= limit {
        if size != floor + 1 {
          DropScanMembers(todo[1..], size - 1, limit, floor);
        }
      } else {
        DropScanMembers(todo[1..], size, limit, floor);
      }
    }
  }

  /** What the scan leaves is still in key order. */
  lemma {:induction false} DropScanOrdered(todo: ProbMap, size: nat, limit: real, floor: nat)
    requires size > floor && Ordered(todo)
    ensures Ordered(DropScan(todo, size, limit, floor))
  {
    if todo != [] && !(todo[0].value <= limit && size == floor + 1) {
      var size' := if todo[0].value <= limit then size - 1 else size;
      DropScanOrdered(todo[1..], size', limit, floor);
      if todo[0].value > limit {
        DropScanMembers(todo[1..], size, limit, floor);
        var rest := DropScan(todo[1..], size, limit, floor);
        forall x | x in rest ensures x.key > todo[0].key {
          var j :| 0 <= j < |todo[1..]| && todo[1..][j] == x;
          assert todo[j + 1] == x;
        }
      }
    }
  }

  /**
   * `prune()` of ProbabilityFunctionTree/src/main/java/tree/ProbFunTree.java
   * (and `purge()` of ProbabilityFunctionTree/src/tree): nothing when every
   * value is equal (a single entry included); otherwise the scan with floor 1
   * removes entries with `value <= min && value < max - roundingError` and
   * the map is rescaled. With roundingError 0 the second test holds for every
   * entry at the minimum once min < max, so the scan tests `value <= min`.
   */
  function PruneProbs(m: ProbMap): (r: ProbMap)
    requires Distribution(m)
    ensures Distribution(r) && KeySet(r) <= KeySet(m)
  {
    var lo := MinProb(m);
    var hi := MaxProb(m);
    if hi == lo then m
    else
      var i :| 0 <= i < |m| && m[i].value == hi;
      DropScanSpec(m, |m|, lo, 1);
      AboveDistributionPart(m, lo);
      AboveMembers(m, lo);
      assert KeySet(Above(m, lo)) <= KeySet(m) by {
        forall k | k in KeySet(Above(m, lo)) ensures k in KeySet(m) {
          var j :| 0 <= j < |Above(m, lo)| && Above(m, lo)[j].key == k;
          assert Above(m, lo)[j] in m;
        }
      }
      RescaledDistribution(DropScan(m, |m|, lo, 1));
      ScaleProbs(DropScan(m, |m|, lo, 1))
  }

  lemma SameKeysKeySet(a: ProbMap, b: ProbMap)
    requires SameKeys(a, b)
    ensures KeySet(a) == KeySet(b)
  {
    forall k | k in KeySet(a) ensures k in KeySet(b) {
      var j :| 0 <= j < |a| && a[j].key == k;
      assert b[j].key == k;
    }
    forall k | k in KeySet(b) ensures k in KeySet(a) {
      var j :| 0 <= j < |b| && b[j].key == k;
      assert a[j].key == k;
    }
  }

  /** In a map with distinct keys, a key survives the filter exactly when its value is above the limit. */
  lemma AboveKeys(m: ProbMap, limit: real)
    requires Ordered(m)
    ensures forall i :: 0 <= i < |m| ==> (m[i].key in KeySet(Above(m, limit)) <==> m[i].value > limit)
  {
    AboveMembers(m, limit);
    var a := Above(m, limit);
    forall j | 0 <= j < |m| ensures m[j].key in KeySet(a) <==> m[j].value > limit {
      if m[j].value > limit {
        assert m[j] in a;
        var l :| 0 <= l < |a| && a[l] == m[j];
        assert a[l].key == m[j].key;
      }
    }
  }

  /** When the values differ, `prune()` is the rescaled map of the entries above the minimum. */
  lemma PruneAbove(m: ProbMap)
    requires Distribution(m) && MinProb(m) < MaxProb(m)
    ensures |Above(m, MinProb(m))| > 0 && Sum(Above(m, MinProb(m))) > 0.0
    ensures PruneProbs(m) == ScaleProbs(Above(m, MinProb(m)))
  {
    var lo := MinProb(m);
    var i :| 0 <= i < |m| && m[i].value == MaxProb(m);
    AboveDistributionPart(m, lo);
    DropScanSpec(m, |m|, lo, 1);
    RescaledDistribution(Above(m, lo));
  }

  /**
   * `prune()` removes exactly the entries at the minimum probability (and
   * keeps every other one, rescaled) when the values are not all equal; when
   * they are, it changes nothing.
   */
  lemma PruneRemovesMinima(m: ProbMap)
    requires Distribution(m)
    ensures MinProb(m) == MaxProb(m) ==> PruneProbs(m) == m
    ensures MinProb(m) < MaxProb(m) ==>
      forall i :: 0 <= i < |m| ==> (m[i].key in KeySet(PruneProbs(m)) <==> m[i].value > MinProb(m))
  {
    var lo := MinProb(m);
    if lo < MaxProb(m) {
      PruneAbove(m);
      AboveKeys(m, lo);
      SameKeysKeySet(PruneProbs(m), Above(m, lo));
    }
  }

  /** A scan result that is ordered, positive and non-empty rescales to a distribution over its keys. */
  lemma DropScanDistribution(m: ProbMap, limit: real, floor: nat)
    requires Distribution(m) && |m| > floor && |DropScan(m, |m|, limit, floor)| > 0
    ensures Sum(DropScan(m, |m|, limit, floor)) > 0.0
    ensures Distribution(ScaleProbs(DropScan(m, |m|, limit, floor)))
    ensures KeySet(ScaleProbs(DropScan(m, |m|, limit, floor))) <= KeySet(m)
  {
    var d := DropScan(m, |m|, limit, floor);
    DropScanMembers(m, |m|, limit, floor);
    DropScanOrdered(m, |m|, limit, floor);
    forall x | x in d ensures x.value > 0.0 {
      var j :| 0 <= j < |m| && m[j] == x;
    }
    PositiveMembers(d);
    RescaledDistribution(d);
    forall k | k in KeySet(d) ensures k in KeySet(m) {
      var j :| 0 <= j < |d| && d[j].key == k;
      assert d[j] in m;
    }
  }

  /**
   * `purge()` of GenerativeMarkovChain/src/markov/ProbFunTree.java: a node
   * of two entries is left alone; otherwise the iterator scan removes the
   * entries at the minimum in key order, stopping at two entries, and the
   * map is rescaled. There is no test against the maximum, so equal values
   * are removed down to two entries.
   */
  function PurgeMin(m: ProbMap): (r: ProbMap)
    requires Distribution(m) && |m| >= 2
    ensures Distribution(r) && |r| >= 2 && KeySet(r) <= KeySet(m)
  {
    if |m| == 2 then m
    else
      DropScanSpec(m, |m|, MinProb(m), 2);
      if |m| - Count(m, MinProb(m)) >= 2 then
        AboveMembers(m, MinProb(m));
        DropScanDistribution(m, MinProb(m), 2);
        ScaleProbs(DropScan(m, |m|, MinProb(m), 2))
      else
        DropScanDistribution(m, MinProb(m), 2);
        ScaleProbs(DropScan(m, |m|, MinProb(m), 2))
  }

  /**
   * What `purge()` of the GenerativeMarkovChain tree removes: with at least
   * two entries above the minimum, exactly the minimum entries; otherwise it
   * stops with two entries left.
   */
  lemma PurgeMinSpec(m: ProbMap)
    requires Distribution(m) && |m| > 2
    ensures |m| - Count(m, MinProb(m)) >= 2 ==>
      forall i :: 0 <= i < |m| ==> (m[i].key in KeySet(PurgeMin(m)) <==> m[i].value > MinProb(m))
    ensures |m| - Count(m, MinProb(m)) < 2 ==> |PurgeMin(m)| == 2
  {
    var lo := MinProb(m);
    DropScanSpec(m, |m|, lo, 2);
    AboveMembers(m, lo);
    if |m| - Count(m, lo) >= 2 {
      AboveKeys(m, lo);
      SameKeysKeySet(PurgeMin(m), Above(m, lo));
    }
  }

  /** Position of the first entry, in key order, at or below `limit`. */
  function FirstAtMost(m: ProbMap, limit: real): (r: Option<nat>)
    ensures r.Some? ==> (r.value < |m| && m[r.value].value <= limit &&
      forall j :: 0 <= j < r.value ==> m[j].value > limit)
    ensures r.None? ==> forall j :: 0 <= j < |m| ==> m[j].value > limit
  {
    if m == [] then None
    else if m[0].value <= limit then Some(0)
    else match FirstAtMost(m[1..], limit)
      case None =>
        assert forall j :: 1 <= j < |m| ==> m[j] == m[1..][j - 1];
        None
      case Some(i) =>
        assert forall j :: 1 <= j < |m| ==> m[j] == m[1..][j - 1];
        Some(i + 1)
  }

  /**
   * A for-each loop over the live entry set that calls `remove(key)` on each
   * entry at or below `limit`: the first such entry is removed (and the map
   * rescaled); then the loop ends if the size reached `floor` or that entry
   * was the last one, and otherwise the next step of the iterator fails with
   * ConcurrentModificationException. The result is the map left behind and
   * whether that exception is thrown. Used by `purge()` of
   * GenerativeMarkovChain/src/markov/ProbFun.java (floor 2, limit the
   * minimum) and `purge(percent)` of ProbabilityFunctionTree/src/tree (floor
   * 1, limit the minimum when it is below the maximum).
   */
  function PurgeOnce(m: ProbMap, limit: real, floor: nat): (r: (ProbMap, bool))
    requires Distribution(m) && |m| > floor >= 1
    ensures Distribution(r.0) && |r.0| >= floor
  {
    match FirstAtMost(m, limit)
    case None =>
      ScaleProbsIdentity(m);
      (ScaleProbs(m), false)
    case Some(i) =>
      var r := RemoveEntry(m, m[i].key);
      (r, |r| != floor && i != |m| - 1)
  }

  /**
   * The removal scan with `remove` inside the loop takes out exactly one
   * entry, the first at or below the limit, or none when there is none; the
   * exception is thrown exactly when later entries remain to be visited and
   * the size is still above the floor.
   */
  lemma PurgeOnceSpec(m: ProbMap, limit: real, floor: nat)
    requires Distribution(m) && |m| > floor >= 1
    ensures FirstAtMost(m, limit).None? ==> PurgeOnce(m, limit, floor) == (m, false)
    ensures FirstAtMost(m, limit).Some? ==>
      var i := FirstAtMost(m, limit).value;
      KeySet(PurgeOnce(m, limit, floor).0) == KeySet(m) - {m[i].key} &&
      (PurgeOnce(m, limit, floor).1 <==> |m| - 1 > floor && i < |m| - 1)
  {
    match FirstAtMost(m, limit)
    case None =>
      ScaleProbsIdentity(m);
    case Some(i) =>
      assert m[i].key in KeySet(m);
  }

  /** Java's `Entry.comparingByValue()` on a stream in key order: by value, ties by key. */
  predicate Before(a: Pair<real>, b: Pair<real>) {
    a.value < b.value || (a.value == b.value && a.key < b.key)
  }

  /** Ascending by probability, ties in key order: the order of the sorted copy. */
  predicate ValueOrdered(s: ProbMap) {
    forall i, j :: 0 <= i < j < |s| ==> Before(s[i], s[j])
  }

  /** `Before` is a strict total order on entries with different keys. */
  lemma BeforeTotal(a: Pair<real>, b: Pair<real>)
    requires a.key != b.key && !Before(a, b)
    ensures Before(b, a)
  {
  }

  /** Insertion of one entry into a value-ordered sequence. */
  function InsertByValue(x: Pair<real>, s: ProbMap): (r: ProbMap)
    requires ValueOrdered(s) && forall y :: y in s ==> y.key != x.key
    ensures ValueOrdered(r)
    ensures multiset(r) == multiset(s) + multiset{x}
  {
    if s == [] then [x]
    else if Before(x, s[0]) then [x] + s
    else
      var rest := InsertByValue(x, s[1..]);
      assert s == [s[0]] + s[1..];
      InsertedAfter(x, s, rest);
      [s[0]] + rest
  }

  /** The head of `s` precedes everything inserted behind it. */
  lemma InsertedAfter(x: Pair<real>, s: ProbMap, rest: ProbMap)
    requires |s| > 0 && ValueOrdered(s) && ValueOrdered(rest)
    requires x.key != s[0].key && !Before(x, s[0])
    requires multiset(rest) == multiset(s[1..]) + multiset{x}
    ensures ValueOrdered([s[0]] + rest)
  {
    BeforeTotal(x, s[0]);
    forall y | y in rest ensures Before(s[0], y) {
      assert y in multiset(rest);
      if y != x {
        assert y in multiset(s[1..]);
        var j :| 0 <= j < |s[1..]| && s[1..][j] == y;
        assert s[j + 1] == y;
      }
    }
    var r := [s[0]] + rest;
    forall i, j | 0 <= i < j < |r| ensures Before(r[i], r[j]) {
      assert r[j] == rest[j - 1];
      if i > 0 {
        assert r[i] == rest[i - 1];
      } else {
        assert rest[j - 1] in rest;
      }
    }
  }

  /**
   * The copy `purge(percent)` of GenerativeMarkovChain iterates: the entries
   * sorted by a stable sort on their value, starting from key order.
   */
  function SortByValue(m: ProbMap): (r: ProbMap)
    requires Ordered(m)
    ensures ValueOrdered(r) && multiset(r) == multiset(m) && |r| == |m|
  {
    if m == [] then []
    else
      var rest := SortByValue(m[1..]);
      assert m == [m[0]] + m[1..];
      forall y | y in rest ensures y.key != m[0].key {
        assert y in multiset(m[1..]);
        var j :| 0 <= j < |m[1..]| && m[1..][j] == y;
        assert m[j + 1] == y;
      }
      InsertByValue(m[0], rest)
  }

  /** No two entries with the same key. */
  predicate DistinctKeys(s: ProbMap) {
    forall i, j :: 0 <= i < j < |s| ==> s[i].key != s[j].key
  }

  /** The sorted copy lists each key of the map exactly once. */
  lemma SortByValueKeys(m: ProbMap)
    requires Ordered(m)
    ensures DistinctKeys(SortByValue(m)) && KeySet(SortByValue(m)) == KeySet(m)
  {
    var s := SortByValue(m);
    forall i, j | 0 <= i < j < |s| ensures s[i].key != s[j].key {
      assert s[i] in multiset(m) && s[j] in multiset(m);
      var a :| 0 <= a < |m| && m[a] == s[i];
      var b :| 0 <= b < |m| && m[b] == s[j];
      assert Before(s[i], s[j]);
    }
    forall k | k in KeySet(s) ensures k in KeySet(m) {
      var j :| 0 <= j < |s| && s[j].key == k;
      assert s[j] in multiset(m);
      assert s[j] in m;
    }
    forall k | k in KeySet(m) ensures k in KeySet(s) {
      var j :| 0 <= j < |m| && m[j].key == k;
      assert m[j] in multiset(s);
      assert m[j] in s;
    }
  }

  /**
   * `purge(percent)` of GenerativeMarkovChain past its guards: visit the
   * sorted copy `order` and `remove` each key whose copied value is at most
   * `percent`; stop as soon as the map is down to `floor` entries. The copy
   * is a separate map, so removing from the live map does not disturb the
   * loop.
   */
  function SortedPurge(order: ProbMap, m: ProbMap, percent: real, floor: nat): (r: ProbMap)
    requires Distribution(m) && |m| > floor >= 1
    ensures Distribution(r) && |r| >= floor && KeySet(r) <= KeySet(m)
    decreases |order|
  {
    if order == [] then m
    else if order[0].value <= percent then
      var m1 := RemoveEntry(m, order[0].key);
      if |m1| == floor then m1 else SortedPurge(order[1..], m1, percent, floor)
    else SortedPurge(order[1..], m, percent, floor)
  }

  /** How many entries at the front of `order` are at or below `percent`. */
  function Lead(order: ProbMap, percent: real): (n: nat)
    ensures n <= |order|
    ensures forall j :: 0 <= j < n ==> order[j].value <= percent
  {
    if order == [] || order[0].value > percent then 0
    else
      var n := Lead(order[1..], percent);
      assert forall j :: 1 <= j < |order| ==> order[j] == order[1..][j - 1];
      1 + n
  }

  lemma {:induction false} SortedPurgeNone(order: ProbMap, m: ProbMap, percent: real, floor: nat)
    requires Distribution(m) && |m| > floor >= 1
    requires forall j :: 0 <= j < |order| ==> order[j].value > percent
    ensures SortedPurge(order, m, percent, floor) == m
  {
    if order != [] {
      SortedPurgeNone(order[1..], m, percent, floor);
    }
  }

  /** Past a head above `percent`, a value-ordered copy has nothing more at or below it. */
  lemma HeadAbove(order: ProbMap, percent: real)
    requires ValueOrdered(order) && |order| > 0 && order[0].value > percent
    ensures forall j :: 0 <= j < |order| ==> order[j].value > percent
  {
    forall j | 0 <= j < |order| ensures order[j].value > percent {
      if j > 0 { assert Before(order[0], order[j]); }
    }
  }

  /** The tail of the copy is again a valid copy for the map without its head. */
  lemma TailCopy(order: ProbMap, m: ProbMap, m1: ProbMap)
    requires |order| > 0 && ValueOrdered(order) && DistinctKeys(order)
    requires KeySet(m1) == KeySet(m) - {order[0].key} && KeySet(order) <= KeySet(m)
    ensures ValueOrdered(order[1..]) && DistinctKeys(order[1..]) && KeySet(order[1..]) <= KeySet(m1)
  {
    var rest := order[1..];
    forall k | k in KeySet(rest) ensures k in KeySet(m1) {
      var j :| 0 <= j < |rest| && rest[j].key == k;
      assert order[j + 1].key == k;
      assert order[j + 1].key in KeySet(order);
    }
  }

  /**
   * On a value-ordered copy of the map's own entries, `purge(percent)`
   * removes exactly the first min(Lead, |m| - floor) entries of the copy: the
   * lowest probabilities at or below `percent`, as many as the floor allows.
   */
  lemma SortedPurgeSpec(order: ProbMap, m: ProbMap, percent: real, floor: nat)
    requires Distribution(m) && |m| > floor >= 1
    requires ValueOrdered(order) && DistinctKeys(order) && KeySet(order) <= KeySet(m)
    ensures var n := if Lead(order, percent) < |m| - floor then Lead(order, percent) else |m| - floor;
      KeySet(SortedPurge(order, m, percent, floor)) == KeySet(m) - KeySet(order[..n])
  {
    var n := if Lead(order, percent) < |m| - floor then Lead(order, percent) else |m| - floor;
    SortedPurgeCount(order, m, percent, floor, n);
  }

  lemma {:induction false} SortedPurgeCount(order: ProbMap, m: ProbMap, percent: real, floor: nat, n: nat)
    requires Distribution(m) && |m| > floor >= 1
    requires ValueOrdered(order) && DistinctKeys(order) && KeySet(order) <= KeySet(m)
    requires n == if Lead(order, percent) < |m| - floor then Lead(order, percent) else |m| - floor
    ensures n <= |order| && KeySet(SortedPurge(order, m, percent, floor)) == KeySet(m) - KeySet(order[..n])
    decreases |order|, 1
  {
    if order == [] {
      assert order[..n] == [];
    } else if order[0].value > percent {
      HeadAbove(order, percent);
      SortedPurgeNone(order, m, percent, floor);
      assert order[..n] == [];
    } else {
      SortedPurgeTake(order, m, percent, floor, n);
    }
  }

  /** The step of `SortedPurgeCount` that removes the head of the copy. */
  lemma {:induction false} SortedPurgeTake(order: ProbMap, m: ProbMap, percent: real, floor: nat, n: nat)
    requires Distribution(m) && |m| > floor >= 1
    requires ValueOrdered(order) && DistinctKeys(order) && KeySet(order) <= KeySet(m)
    requires order != [] && order[0].value <= percent
    requires n == if Lead(order, percent) < |m| - floor then Lead(order, percent) else |m| - floor
    ensures n <= |order| && KeySet(SortedPurge(order, m, percent, floor)) == KeySet(m) - KeySet(order[..n])
    decreases |order|, 0
  {
    var e := order[0].key;
    var rest := order[1..];
    assert e in KeySet(order);
    var m1 := RemoveEntry(m, e);
    if |m1| == floor {
      TakeLast(order, m, percent, floor, n);
    } else {
      var n1 := n - 1;
      assert Lead(order, percent) == 1 + Lead(rest, percent);
      PrefixKeys(order, n, n1);
      TailCopy(order, m, m1);
      SortedPurgeCount(rest, m1, percent, floor, n1);
      PurgeStep(order, m, percent, floor, m1);
      SetStep(KeySet(m), e, KeySet(rest[..n1]), KeySet(m1), KeySet(SortedPurge(rest, m1, percent, floor)));
    }
  }

  /** The keys of a non-empty prefix: the head's key and those of the tail's prefix. */
  lemma PrefixKeys(order: ProbMap, n: nat, n1: nat)
    requires n == n1 + 1 <= |order|
    ensures KeySet(order[..n]) == {order[0].key} + KeySet(order[1..][..n1])
  {
    assert order[..n] == [order[0]] + order[1..][..n1];
    KeySetCons(order[0], order[1..][..n1]);
  }

  /** Removing the head leaves a map above the floor: the scan goes on with the tail. */
  lemma PurgeStep(order: ProbMap, m: ProbMap, percent: real, floor: nat, m1: ProbMap)
    requires Distribution(m) && |m| > floor >= 1
    requires order != [] && order[0].value <= percent && order[0].key in KeySet(m)
    requires m1 == RemoveEntry(m, order[0].key) && |m1| != floor
    ensures Distribution(m1) && |m1| > floor
    ensures SortedPurge(order, m, percent, floor) == SortedPurge(order[1..], m1, percent, floor)
  {
  }

  /** The step of `SortedPurgeTake` that brings the map down to the floor. */
  lemma TakeLast(order: ProbMap, m: ProbMap, percent: real, floor: nat, n: nat)
    requires Distribution(m) && |m| > floor >= 1
    requires ValueOrdered(order) && DistinctKeys(order) && KeySet(order) <= KeySet(m)
    requires order != [] && order[0].value <= percent && |RemoveEntry(m, order[0].key)| == floor
    requires n == if Lead(order, percent) < |m| - floor then Lead(order, percent) else |m| - floor
    ensures n == 1 <= |order| && KeySet(SortedPurge(order, m, percent, floor)) == KeySet(m) - KeySet(order[..n])
  {
    var e := order[0].key;
    assert e in KeySet(order);
    assert order[..n] == [order[0]];
    KeySetCons(order[0], []);
  }

  lemma SetStep(a: set<int>, e: int, b: set<int>, a1: set<int>, r: set<int>)
    requires a1 == a - {e} && r == a1 - b
    ensures r == a - ({e} + b)
  {
  }

  /**
   * `purge(percent)` of GenerativeMarkovChain (ProbFun with floor 2 and the
   * tree with floor 2): nothing at or below the floor, otherwise the sorted
   * copy is scanned and the map rescaled. A map of one entry holds 1.0,
   * above any valid percent, so stopping there agrees with the scan.
   */
  function PurgePercent(m: ProbMap, percent: real, floor: nat): (r: ProbMap)
    requires Distribution(m) && floor >= 1
    ensures Distribution(r) && KeySet(r) <= KeySet(m)
    ensures |m| > floor ==> |r| >= floor
  {
    if |m| <= floor then m
    else
      var r := SortedPurge(SortByValue(m), m, percent, floor);
      ScaleProbsIdentity(r);
      ScaleProbs(r)
  }

  /**
   * `purge(percent)` removes the entries of lowest probability that are at
   * or below `percent`, lowest first and ties in key order, until only
   * `floor` entries would remain.
   */
  lemma PurgePercentSpec(m: ProbMap, percent: real, floor: nat)
    requires Distribution(m) && |m| > floor >= 1
    ensures var order := SortByValue(m);
      var n := if Lead(order, percent) < |m| - floor then Lead(order, percent) else |m| - floor;
      KeySet(PurgePercent(m, percent, floor)) == KeySet(m) - KeySet(order[..n]) &&
      forall j :: 0 <= j < n ==> order[j].value <= percent
  {
    var order := SortByValue(m);
    SortByValueKeys(m);
    SortedPurgeSpec(order, m, percent, floor);
    ScaleProbsIdentity(SortedPurge(order, m, percent, floor));
  }

  /** An entry above the percent survives `purge(percent)`. */
  lemma PurgePercentKeepsAbove(m: ProbMap, percent: real, floor: nat, i: nat)
    requires Distribution(m) && floor >= 1 && i < |m| && m[i].value > percent
    ensures m[i].key in KeySet(PurgePercent(m, percent, floor))
  {
    assert m[i].key in KeySet(m);
    if |m| > floor {
      PurgePercentSpec(m, percent, floor);
      var order := SortByValue(m);
      var n := if Lead(order, percent) < |m| - floor then Lead(order, percent) else |m| - floor;
      AbovePrefix(m, order, percent, n, i);
    }
  }

  /** An entry above `percent` is not among leading entries at or below it. */
  lemma AbovePrefix(m: ProbMap, order: ProbMap, percent: real, n: nat, i: nat)
    requires Ordered(m) && multiset(order) == multiset(m) && n <= |order| && i < |m|
    requires forall j :: 0 <= j < n ==> order[j].value <= percent
    requires m[i].value > percent
    ensures m[i].key !in KeySet(order[..n])
  {
    if m[i].key in KeySet(order[..n]) {
      var j :| 0 <= j < n && order[..n][j].key == m[i].key;
      SortedEntry(m, order, j, i);
    }
  }

  /** An entry of a permutation of an ordered map is the entry of the map under its key. */
  lemma SortedEntry(m: ProbMap, order: ProbMap, j: nat, i: nat)
    requires Ordered(m) && multiset(order) == multiset(m) && j < |order| && i < |m|
    requires order[j].key == m[i].key
    ensures order[j] == m[i]
  {
    assert order[j] in multiset(order);
    assert order[j] in m;
    var k :| 0 <= k < |m| && m[k] == order[j];
  }

  /**
   * `prune(percent)` of ProbabilityFunctionTree/src/main/java/tree: the
   * percent only enters the early return; the loop tests
   * `value <= min && value < max`, which selects nothing when every value is
   * equal.
   */
  function PrunePercent(m: ProbMap, percent: real): (r: ProbMap)
    requires Distribution(m)
    ensures Distribution(r) && KeySet(r) <= KeySet(m)
  {
    var lo := MinProb(m);
    var hi := MaxProb(m);
    if |m| == 1 || (hi <= percent && lo == hi) then m
    else if lo == hi then
      ScaleProbsIdentity(m);
      ScaleProbs(m)
    else PruneProbs(m)
  }

  /** `prune(percent)` does the same as `prune()`, whatever the percent. */
  lemma PrunePercentSame(m: ProbMap, percent: real)
    requires Distribution(m)
    ensures PrunePercent(m, percent) == PruneProbs(m)
  {
    ScaleProbsIdentity(m);
  }
}

=== FILE: tree_countdown.dfy ===
/**
 * What the trees of ProbabilityFunctionTree/src/tree and of
 * GenerativeMarkovChain/src/markov share: each node's counter `layers`
 * (the `depth` field) counts the layers from that node down, the
 * constructors build children with one layer less, and `addToAll` hangs a
 * freshly built subtree over the node's current keys wherever a node with
 * children has none under the new element.
 */
module CountdownTree {
  import opened Wrappers
  import opened Assoc
  import opened ProbMaps
  import opened ProbEdits
  import opened TreeNodes
  import MainTree

  /** Every node's counter is the number of layers from it down: `h` here, one less in each child. */
  predicate Countdown(t: Node, h: int)
    decreases t
  {
    t.depth == h && forall c :: c in t.children ==> Countdown(c.value, h - 1)
  }

  /**
   * The constructors: a node holding `m` whose counter is `layers`, with one
   * child per key of `m`, each built the same way with `layers - 1`, until
   * the counter reaches 1. `least` is the floor size of the generation.
   */
  function GrowDown(m: ProbMap, layers: int, parent: Link, least: nat): (t: Node)
    requires Distribution(m) && |m| >= least && layers >= 1
    ensures WellFormed(t, least) && Complete(t, layers) && MainTree.Filled(t, m)
    ensures Countdown(t, layers) && NoHistory(t) && MainTree.LinkedUp(t) && t.parent == parent
    ensures Counted(t)
    decreases layers
  {
    if layers == 1 then Node(m, [], parent, None, 1)
    else
      var g := GrowDown(m, layers - 1, Up(1), least);
      var cs := seq(|m|, i requires 0 <= i < |m| => Pair(m[i].key, g));
      SameKeyOrderFacts(cs, m);
      assert Keys(cs) == Keys(m);
      assert forall c :: c in cs ==> c.value == g;
      Node(m, cs, parent, None, layers)
  }

  /**
   * The map after the private `add(element)` (`p` None, the element put at
   * 1/n) or `add(element, percent)` (`p` the percent; the other entries
   * multiplied by 1 - percent). With `overwrite` false (src/tree) a present
   * element keeps its value; with `overwrite` true (GenerativeMarkovChain)
   * it is written over.
   */
  function Added(m: ProbMap, e: int, p: Option<real>, overwrite: bool): (r: ProbMap)
    requires Distribution(m) && (p.Some? ==> 0.0 < p.value < 1.0)
    ensures Distribution(r) && KeySet(r) == KeySet(m) + {e} && |r| >= |m|
  {
    var r := if p.None? then AddUniform(m, e, overwrite) else AddPercent(m, e, p.value, overwrite);
    assert |KeySet(r)| >= |KeySet(m)| by {
      assert KeySet(m) <= KeySet(r);
      SubsetCard(KeySet(m), KeySet(r));
    }
    OrderedCard(r);
    OrderedCard(m);
    r
  }

  lemma SubsetCard(a: set<int>, b: set<int>)
    requires a <= b
    ensures |a| <= |b|
  {
    assert b == a + (b - a);
  }

  /** An ordered map has as many keys as entries. */
  lemma {:induction false} OrderedCard<V>(m: seq<Pair<V>>)
    requires Ordered(m)
    ensures |KeySet(m)| == |m|
  {
    if m != [] {
      OrderedCard(m[1..]);
      KeySetCons(m[0], m[1..]);
      assert m == [m[0]] + m[1..];
      assert m[0].key !in KeySet(m[1..]);
    }
  }

  /**
   * Where `addToAll` meets a node with children, none under `e`, and a
   * counter below 2: the constructor it calls for the new child throws
   * IllegalArgumentException.
   */
  predicate Stuck(t: Node, e: int)
    decreases t
  {
    (t.children != [] && e !in KeySet(t.children) && t.depth < 2) ||
    exists c :: c in t.children && Stuck(c.value, e)
  }

  /** `e` is a key of every node of the tree. */
  predicate HeldEverywhere(t: Node, e: int)
    decreases t
  {
    e in KeySet(t.probs) && forall c :: c in t.children ==> HeldEverywhere(c.value, e)
  }

  lemma {:induction false} FilledHeld(t: Node, m: ProbMap, e: int)
    requires MainTree.Filled(t, m) && e in KeySet(m)
    ensures HeldEverywhere(t, e)
    decreases t
  {
    forall c | c in t.children ensures HeldEverywhere(c.value, e) {
      FilledHeld(c.value, m, e);
    }
  }

  /**
   * The child `addToAll` hangs under `e`: `new ProbFunTree(probMap.keySet(),
   * layers - 1, this)`, uniform over the node's keys before `e` is added,
   * and then visited by the same `addToAll`, which puts `e` into every one of
   * its nodes (all holding the same uniform map) and hangs a child under `e`
   * at each of its inner nodes. The result is the subtree built directly over
   * the map every node of it ends with.
   */
  function Sapling(t: Node, e: int, p: Option<real>, overwrite: bool, least: nat): (g: Node)
    requires WellFormed(t, least) && t.depth >= 2 && (p.Some? ==> 0.0 < p.value < 1.0)
    ensures WellFormed(g, least) && HeldEverywhere(g, e) && Countdown(g, t.depth - 1)
    ensures Complete(g, t.depth - 1) && g.parent == Up(1) && NoHistory(g) && Counted(g)
  {
    var m := Added(ClearProbs(t.probs), e, p, overwrite);
    var g := GrowDown(m, t.depth - 1, Up(1), least);
    FilledHeld(g, m, e);
    g
  }

  /**
   * `addToAll(element)` (`p` None) and `addToAll(element, percent)` past the
   * percent check (`p` the percent): at each node, the child under `e` is
   * hung when the node has children but none under `e`, then `e` is added to
   * the map, then every child is visited. The existing children are visited
   * first here: what happens at the node depends only on its map, its
   * counter and the keys of its children, which the visits do not change,
   * and the new child is the `Sapling` the visit would produce. The result
   * is the exception of the first failing constructor, or the new tree.
   */
  function AddToAllDown(t: Node, e: int, p: Option<real>, overwrite: bool, least: nat): (r: Result<Node>)
    requires WellFormed(t, least) && (p.Some? ==> 0.0 < p.value < 1.0)
    ensures r.Fail? ==> r.error == IllegalArgument
    ensures r.Ok? ==> WellFormed(r.value, least) && HeldEverywhere(r.value, e)
    ensures r.Ok? ==> r.value.probs == Added(t.probs, e, p, overwrite)
    ensures r.Ok? ==> KeySet(r.value.children) == if t.children == [] then {} else KeySet(t.children) + {e}
    ensures r.Ok? ==> r.value.parent == t.parent && r.value.previous == t.previous && r.value.depth == t.depth
    decreases t, 1
  {
    var rs := VisitDown(t, e, p, overwrite, least);
    if Blocked(t, rs, e) then Fail(IllegalArgument) else Ok(Finish(t, rs, e, p, overwrite, least))
  }

  /** A visit of a child failed, or the node has children but none under `e` and no layer left to hang one. */
  predicate Blocked(t: Node, rs: seq<Result<Node>>, e: int) {
    (exists i :: 0 <= i < |rs| && rs[i].Fail?) ||
    (t.children != [] && e !in KeySet(t.children) && t.depth < 2)
  }

  /** The node once every visit succeeded: the step applied to the visited children. */
  function Finish(t: Node, rs: seq<Result<Node>>, e: int, p: Option<real>, overwrite: bool, least: nat): (r: Node)
    requires WellFormed(t, least) && (p.Some? ==> 0.0 < p.value < 1.0) && |rs| == |t.children|
    requires forall i :: 0 <= i < |rs| ==> rs[i].Ok?
    requires forall i :: 0 <= i < |rs| ==> WellFormed(rs[i].value, least) && HeldEverywhere(rs[i].value, e)
    requires t.children != [] && e !in KeySet(t.children) ==> t.depth >= 2
    ensures WellFormed(r, least) && HeldEverywhere(r, e)
    ensures r.probs == Added(t.probs, e, p, overwrite)
    ensures KeySet(r.children) == if t.children == [] then {} else KeySet(t.children) + {e}
    ensures r.parent == t.parent && r.previous == t.previous && r.depth == t.depth
  {
    var cs := Visited(t, rs, e, least);
    AddAtNodeKeys(t, cs, e, p, overwrite, least);
    AddAtNode(t, cs, e, p, overwrite, least)
  }

  /** The results of `addToAll` on each child of `t`, in the order of the children. */
  function VisitDown(t: Node, e: int, p: Option<real>, overwrite: bool, least: nat): (rs: seq<Result<Node>>)
    requires WellFormed(t, least) && (p.Some? ==> 0.0 < p.value < 1.0)
    ensures |rs| == |t.children|
    ensures forall i :: 0 <= i < |rs| && rs[i].Ok? ==>
      WellFormed(rs[i].value, least) && HeldEverywhere(rs[i].value, e)
    decreases t, 0
  {
    seq(|t.children|, i requires 0 <= i < |t.children| =>
      assert t.children[i] in t.children;
      AddToAllDown(t.children[i].value, e, p, overwrite, least))
  }

  /** The visited children under their old keys, once every visit succeeded. */
  function Visited(t: Node, rs: seq<Result<Node>>, e: int, least: nat): (cs: seq<Pair<Node>>)
    requires Ordered(t.children) && |rs| == |t.children|
    requires forall i :: 0 <= i < |rs| ==> rs[i].Ok?
    requires forall i :: 0 <= i < |rs| ==> WellFormed(rs[i].value, least) && HeldEverywhere(rs[i].value, e)
    ensures SameKeyOrder(cs, t.children)
    ensures forall c :: c in cs ==> WellFormed(c.value, least) && HeldEverywhere(c.value, e)
  {
    var cs := seq(|rs|, i requires 0 <= i < |rs| => Pair(t.children[i].key, rs[i].value));
    assert forall c :: c in cs ==> exists i :: 0 <= i < |cs| && cs[i] == c;
    cs
  }

  /** The visited child at position `i` is the result of the `i`-th visit. */
  lemma VisitedAt(t: Node, rs: seq<Result<Node>>, e: int, least: nat, i: nat)
    requires Ordered(t.children) && |rs| == |t.children|
    requires forall i :: 0 <= i < |rs| ==> rs[i].Ok?
    requires forall i :: 0 <= i < |rs| ==> WellFormed(rs[i].value, least) && HeldEverywhere(rs[i].value, e)
    requires i < |rs|
    ensures Visited(t, rs, e, least)[i].value == rs[i].value
  {
  }

  /** `addToAll` fails exactly where some node is `Stuck`. */
  lemma {:induction false} AddToAllDownFails(t: Node, e: int, p: Option<real>, overwrite: bool, least: nat)
    requires WellFormed(t, least) && (p.Some? ==> 0.0 < p.value < 1.0)
    ensures AddToAllDown(t, e, p, overwrite, least).Fail? <==> Stuck(t, e)
    decreases t, 1
  {
    var rs := VisitDown(t, e, p, overwrite, least);
    VisitDownFails(t, e, p, overwrite, least);
    AddToAllDownStep(t, e, p, overwrite, least);
    BlockedStuck(t, rs, e);
  }

  /** One node of `addToAll` fails exactly when it is Blocked. */
  lemma AddToAllDownStep(t: Node, e: int, p: Option<real>, overwrite: bool, least: nat)
    requires WellFormed(t, least) && (p.Some? ==> 0.0 < p.value < 1.0)
    ensures AddToAllDown(t, e, p, overwrite, least).Fail? <==> Blocked(t, VisitDown(t, e, p, overwrite, least), e)
  {
  }

  /** With visits that fail exactly at stuck children, a node is Blocked exactly when it is Stuck. */
  lemma BlockedStuck(t: Node, rs: seq<Result<Node>>, e: int)
    requires |rs| == |t.children|
    requires forall i :: 0 <= i < |rs| ==> (rs[i].Fail? <==> Stuck(t.children[i].value, e))
    ensures Blocked(t, rs, e) <==> Stuck(t, e)
  {
    if exists c :: c in t.children && Stuck(c.value, e) {
      var c :| c in t.children && Stuck(c.value, e);
      var i :| 0 <= i < |t.children| && t.children[i] == c;
      assert rs[i].Fail?;
    }
    if exists i :: 0 <= i < |rs| && rs[i].Fail? {
      var i :| 0 <= i < |rs| && rs[i].Fail?;
      assert t.children[i] in t.children;
    }
  }

  /** A visit of a child fails exactly when that child is `Stuck`. */
  lemma {:induction false} VisitDownFails(t: Node, e: int, p: Option<real>, overwrite: bool, least: nat)
    requires WellFormed(t, least) && (p.Some? ==> 0.0 < p.value < 1.0)
    ensures var rs := VisitDown(t, e, p, overwrite, least);
      forall i :: 0 <= i < |rs| ==> (rs[i].Fail? <==> Stuck(t.children[i].value, e))
    decreases t, 0
  {
    var rs := VisitDown(t, e, p, overwrite, least);
    forall i | 0 <= i < |t.children|
      ensures rs[i].Fail? <==> Stuck(t.children[i].value, e)
    {
      assert t.children[i] in t.children;
      assert rs[i] == AddToAllDown(t.children[i].value, e, p, overwrite, least);
      AddToAllDownFails(t.children[i].value, e, p, overwrite, least);
    }
  }

  /**
   * The step of `addToAll` at one node whose children were already visited
   * (`cs`, with the keys of the node's children): the child under `e` hung
   * when needed, and `e` added to the map.
   */
  function AddAtNode(t: Node, cs: seq<Pair<Node>>, e: int, p: Option<real>, overwrite: bool, least: nat): (r: Node)
    requires WellFormed(t, least) && (p.Some? ==> 0.0 < p.value < 1.0)
    requires SameKeyOrder(cs, t.children)
    requires forall c :: c in cs ==> WellFormed(c.value, least) && HeldEverywhere(c.value, e)
    requires t.children != [] && e !in KeySet(t.children) ==> t.depth >= 2
    ensures WellFormed(r, least) && HeldEverywhere(r, e)
    ensures r.probs == Added(t.probs, e, p, overwrite)
    ensures r.parent == t.parent && r.previous == t.previous && r.depth == t.depth
  {
    var m := Added(t.probs, e, p, overwrite);
    StepFacts(t, cs, e, p, overwrite, least);
    if t.children != [] && e !in KeySet(t.children) then
      t.(probs := m, children := Graft(t, cs, e, p, overwrite, least))
    else
      Assemble(t, m, cs, e, least);
      t.(probs := m, children := cs)
  }

  /** What the step relies on: the visited children are ordered, with the old keys, all in the new map. */
  lemma StepFacts(t: Node, cs: seq<Pair<Node>>, e: int, p: Option<real>, overwrite: bool, least: nat)
    requires WellFormed(t, least) && (p.Some? ==> 0.0 < p.value < 1.0)
    requires SameKeyOrder(cs, t.children)
    ensures Ordered(cs) && KeySet(cs) == KeySet(t.children)
    ensures var m := Added(t.probs, e, p, overwrite);
      KeySet(cs) + {e} <= KeySet(m) && |m| >= least && Distribution(m)
  {
    SameKeyOrderFacts(cs, t.children);
  }

  /** The step keeps the keys of the children and adds `e` where there were children. */
  lemma AddAtNodeKeys(t: Node, cs: seq<Pair<Node>>, e: int, p: Option<real>, overwrite: bool, least: nat)
    requires WellFormed(t, least) && (p.Some? ==> 0.0 < p.value < 1.0)
    requires SameKeyOrder(cs, t.children)
    requires forall c :: c in cs ==> WellFormed(c.value, least) && HeldEverywhere(c.value, e)
    requires t.children != [] && e !in KeySet(t.children) ==> t.depth >= 2
    ensures KeySet(AddAtNode(t, cs, e, p, overwrite, least).children) ==
      if t.children == [] then {} else KeySet(t.children) + {e}
  {
    SameKeyOrderFacts(cs, t.children);
  }

  /** The visited children with the `Sapling` inserted under `e`. */
  function Graft(t: Node, cs: seq<Pair<Node>>, e: int, p: Option<real>, overwrite: bool, least: nat): (r: seq<Pair<Node>>)
    requires WellFormed(t, least) && t.depth >= 2 && (p.Some? ==> 0.0 < p.value < 1.0)
    requires Ordered(cs) && e !in KeySet(cs) && KeySet(cs) <= KeySet(t.children)
    requires forall c :: c in cs ==> WellFormed(c.value, least) && HeldEverywhere(c.value, e)
    ensures Ordered(r) && KeySet(r) == KeySet(cs) + {e}
    ensures forall c :: c in r ==> WellFormed(c.value, least) && HeldEverywhere(c.value, e)
    ensures var m := Added(t.probs, e, p, overwrite);
      WellFormed(t.(probs := m, children := r), least) && HeldEverywhere(t.(probs := m, children := r), e)
  {
    var g := Sapling(t, e, p, overwrite, least);
    InsertMembers(cs, e, g);
    var r := Insert(cs, e, g);
    var m := Added(t.probs, e, p, overwrite);
    Assemble(t, m, r, e, least);
    r
  }

  lemma Assemble(t: Node, m: ProbMap, cs: seq<Pair<Node>>, e: int, least: nat)
    requires Distribution(m) && |m| >= least && e in KeySet(m)
    requires Ordered(cs) && KeySet(cs) <= KeySet(m)
    requires forall c :: c in cs ==> WellFormed(c.value, least) && HeldEverywhere(c.value, e)
    ensures WellFormed(t.(probs := m, children := cs), least) && HeldEverywhere(t.(probs := m, children := cs), e)
  {
  }

  /** A tree whose counters are those of a complete tree: every node with children counts at least 2. */
  predicate Counted(t: Node)
    decreases t
  {
    t.depth >= 1 && (t.children != [] ==> t.depth >= 2) && forall c :: c in t.children ==> Counted(c.value)
  }

  /** On a tree whose counters are kept, `addToAll` never fails. */
  lemma {:induction false} CountedNotStuck(t: Node, e: int)
    requires Counted(t)
    ensures !Stuck(t, e)
    decreases t
  {
    forall c | c in t.children ensures !Stuck(c.value, e) {
      CountedNotStuck(c.value, e);
    }
  }

  /** Changing only the probabilities keeps the counters. */
  lemma {:induction false} CountedSameExceptProbs(a: Node, b: Node)
    requires SameExceptProbs(a, b) && Counted(b)
    ensures Counted(a)
    decreases a
  {
    forall c | c in a.children ensures Counted(c.value) {
      var i :| 0 <= i < |a.children| && a.children[i] == c;
      assert b.children[i] in b.children;
      CountedSameExceptProbs(a.children[i].value, b.children[i].value);
    }
  }

  /** Changing only the cursors keeps the counters. */
  lemma {:induction false} CountedSameExceptHistory(a: Node, b: Node)
    requires SameExceptHistory(a, b) && Counted(b)
    ensures Counted(a)
    decreases a
  {
    forall c | c in a.children ensures Counted(c.value) {
      var i :| 0 <= i < |a.children| && a.children[i] == c;
      assert b.children[i] in b.children;
      CountedSameExceptHistory(a.children[i].value, b.children[i].value);
    }
  }

  /** Taking entries and whole children away keeps the counters. */
  lemma {:induction false} CountedShrunk(a: Node, b: Node)
    requires Shrunk(a, b) && Counted(b)
    ensures Counted(a)
    decreases a
  {
    forall c | c in a.children ensures Counted(c.value) {
      var i := IndexOf(b.children, c.key).value;
      assert b.children[i] in b.children;
      CountedShrunk(c.value, b.children[i].value);
    }
    if a.children != [] {
      assert a.children[0] in a.children;
      assert b.children != [];
    }
  }

  /** `removeFromAll` keeps the counters. */
  lemma {:induction false} CountedRemoveFromAll(t: Node, e: int, least: nat)
    requires WellFormed(t, least) && least >= 1 && Counted(t)
    ensures Counted(RemoveFromAll(t, e, least))
    decreases t
  {
    var cs := seq(|t.children|, i requires 0 <= i < |t.children| =>
      Pair(t.children[i].key, RemoveFromAll(t.children[i].value, e, least)));
    forall i | 0 <= i < |cs| ensures Counted(cs[i].value) {
      assert t.children[i] in t.children;
      CountedRemoveFromAll(t.children[i].value, e, least);
    }
    SameKeyOrderFacts(cs, t.children);
    var t0 := t.(children := cs);
    assert forall c :: c in cs ==> WellFormed(c.value, least);
    var r := RemoveNode(t0, e, least);
    assert RemoveFromAll(t, e, least) == r.0;
    forall c | c in r.0.children ensures Counted(c.value) {
      assert c in cs;
    }
    if r.0.children != [] {
      assert r.0.children[0] in r.0.children;
      assert cs != [];
    }
  }

  /** The children of the step: the visited ones and, where one was hung, the `Sapling`. */
  lemma AddAtNodeChildren(t: Node, cs: seq<Pair<Node>>, e: int, p: Option<real>, overwrite: bool, least: nat)
    requires WellFormed(t, least) && (p.Some? ==> 0.0 < p.value < 1.0)
    requires SameKeyOrder(cs, t.children)
    requires forall c :: c in cs ==> WellFormed(c.value, least) && HeldEverywhere(c.value, e)
    requires t.children != [] && e !in KeySet(t.children) ==> t.depth >= 2
    ensures var r := AddAtNode(t, cs, e, p, overwrite, least);
      (r.children != [] ==> t.children != []) &&
      forall c :: c in r.children ==> c in cs || (t.depth >= 2 && c == Pair(e, Sapling(t, e, p, overwrite, least)))
  {
    SameKeyOrderFacts(cs, t.children);
    if t.children != [] && e !in KeySet(t.children) {
      InsertMembers(cs, e, Sapling(t, e, p, overwrite, least));
    }
  }

  /** Where `addToAll` succeeds it is the step applied to the visited children. */
  lemma AddToAllDownUnfold(t: Node, e: int, p: Option<real>, overwrite: bool, least: nat)
    requires WellFormed(t, least) && (p.Some? ==> 0.0 < p.value < 1.0)
    requires AddToAllDown(t, e, p, overwrite, least).Ok?
    ensures var rs := VisitDown(t, e, p, overwrite, least);
      (forall i :: 0 <= i < |rs| ==> rs[i].Ok?) &&
      (t.children != [] && e !in KeySet(t.children) ==> t.depth >= 2) &&
      AddToAllDown(t, e, p, overwrite, least).value ==
        AddAtNode(t, Visited(t, rs, e, least), e, p, overwrite, least)
  {
  }

  /** `addToAll` keeps the counters: the hung children count down from one below their parent. */
  lemma {:induction false} AddToAllDownCounted(t: Node, e: int, p: Option<real>, overwrite: bool, least: nat)
    requires WellFormed(t, least) && (p.Some? ==> 0.0 < p.value < 1.0) && Counted(t)
    ensures AddToAllDown(t, e, p, overwrite, least).Ok? ==> Counted(AddToAllDown(t, e, p, overwrite, least).value)
    decreases t
  {
    if AddToAllDown(t, e, p, overwrite, least).Ok? {
      AddToAllDownUnfold(t, e, p, overwrite, least);
      var rs := VisitDown(t, e, p, overwrite, least);
      var cs := Visited(t, rs, e, least);
      forall i | 0 <= i < |cs| ensures Counted(cs[i].value) {
        assert t.children[i] in t.children;
        assert rs[i] == AddToAllDown(t.children[i].value, e, p, overwrite, least);
        AddToAllDownCounted(t.children[i].value, e, p, overwrite, least);
        VisitedAt(t, rs, e, least, i);
      }
      AddAtNodeCounted(t, cs, e, p, overwrite, least);
    }
  }

  /** The step keeps the counters when the visited children kept theirs. */
  lemma AddAtNodeCounted(t: Node, cs: seq<Pair<Node>>, e: int, p: Option<real>, overwrite: bool, least: nat)
    requires WellFormed(t, least) && (p.Some? ==> 0.0 < p.value < 1.0) && Counted(t)
    requires SameKeyOrder(cs, t.children)
    requires forall c :: c in cs ==> WellFormed(c.value, least) && HeldEverywhere(c.value, e)
    requires t.children != [] && e !in KeySet(t.children) ==> t.depth >= 2
    requires forall i :: 0 <= i < |cs| ==> Counted(cs[i].value)
    ensures Counted(AddAtNode(t, cs, e, p, overwrite, least))
  {
    AddAtNodeChildren(t, cs, e, p, overwrite, least);
    var r := AddAtNode(t, cs, e, p, overwrite, least);
    if t.depth >= 2 {
      var g := Sapling(t, e, p, overwrite, least);
      CountedFrom(r, t, cs, Pair(e, g));
    } else {
      CountedFrom(r, t, cs, Pair(e, t));
    }
  }

  /** A node with the depth of `t` whose children are counted ones, non-empty only where `t` has children. */
  lemma CountedFrom(r: Node, t: Node, cs: seq<Pair<Node>>, extra: Pair<Node>)
    requires Counted(t) && Counted(extra.value) && r.depth == t.depth
    requires r.children != [] ==> t.children != []
    requires forall i :: 0 <= i < |cs| ==> Counted(cs[i].value)
    requires forall c :: c in r.children ==> c in cs || c == extra
    ensures Counted(r)
  {
    forall c | c in r.children ensures Counted(c.value) {
      if c in cs {
        var i :| 0 <= i < |cs| && cs[i] == c;
      }
    }
    if r.children != [] {
      assert t.children[0] in t.children;
    }
  }
}

=== FILE: tree_layers.dfy ===
/**
 * The tree of ProbabilityFunctionTree/src/tree/ProbFunTree.java, as values.
 * Each node carries the counter `layers` (the `depth` field): the number of
 * layers from that node down, which `addToAll` uses to build the child it
 * hangs and `fun()` uses to decide when its window of cursors is full.
 */
module LayerTree {
  import opened Wrappers
  import opened Assoc
  import opened ProbMaps
  import opened ProbScans
  import opened TreeNodes
  import opened CountdownTree
  import MainTree

  /**
   * `ProbFunTree(choices, layers)`: refused unless there is a choice and a
   * layer; otherwise a complete tree of `layers` layers, every node uniform
   * over the choices and counting the layers below it.
   */
  function Build(choices: seq<int>, layers: int): (r: Result<Node>)
    requires Increasing(choices)
    ensures r.Fail? <==> |choices| < 1 || layers < 1
    ensures r.Fail? ==> r.error == IllegalArgument
    ensures r.Ok? ==>
      WellFormed(r.value, 1) && Complete(r.value, layers) && MainTree.Filled(r.value, Uniform(choices)) &&
      Countdown(r.value, layers) && Counted(r.value) && NoHistory(r.value) &&
      MainTree.LinkedUp(r.value) && r.value.parent == Null
  {
    if |choices| < 1 || layers < 1 then Fail(IllegalArgument)
    else
      Ok(GrowDown(Uniform(choices), layers, Null, 1))
  }

  /**
   * `ProbFunTree(probMap, layers)`: refused for an empty map, fewer than one
   * layer or values not summing to 1; otherwise the same tree with the given
   * map at every node.
   */
  function BuildMap(m: ProbMap, layers: int): (r: Result<Node>)
    requires Ordered(m) && Positive(m)
    ensures r.Fail? <==> |m| < 1 || layers < 1 || Sum(m) != 1.0
    ensures r.Fail? ==> r.error == IllegalArgument
    ensures r.Ok? ==>
      WellFormed(r.value, 1) && Complete(r.value, layers) && MainTree.Filled(r.value, m) &&
      Countdown(r.value, layers) && Counted(r.value) && NoHistory(r.value) &&
      MainTree.LinkedUp(r.value) && r.value.parent == Null
  {
    if |m| < 1 || layers < 1 || Sum(m) != 1.0 then Fail(IllegalArgument)
    else
      Ok(GrowDown(FixProbSum(m), layers, Null, 1))
  }

  /** A tree of 3 layers over {0, 1} holds 2 + 4 + 8 = 14 entries. */
  lemma BuildSize(choices: seq<int>)
    requires choices == [0, 1]
    ensures Increasing(choices) && Build(choices, 3).Ok? && Size(Build(choices, 3).value) == 14
  {
    assert Increasing(choices);
    var m := Uniform(choices);
    assert |m| == |Keys(m)| == 2;
    var t := Build(choices, 3).value;
    MainTree.FilledAllOfSize(t, m);
    SizeComplete(t, 2, 3);
    assert LayerTotal(2, 3) == 14 by {
      assert LayerTotal(2, 1) == 2 by {
        assert LayerTotal(2, 0) == 0;
      }
    }
  }

  /** `incrementLayer()`: every node with children counts one layer more. */
  function IncrementLayer(t: Node): (r: Node)
    ensures SameMaps(r, t) && r.parent == t.parent && r.previous == t.previous
    ensures r.depth == if t.children == [] then t.depth else t.depth + 1
    decreases t
  {
    var cs := seq(|t.children|, i requires 0 <= i < |t.children| =>
      Pair(t.children[i].key, IncrementLayer(t.children[i].value)));
    t.(depth := if t.children == [] then t.depth else t.depth + 1, children := cs)
  }

  /**
   * `addLayer(this, m)` followed by `incrementLayer()`: every leaf below a
   * child of the root gets one single-layer child per key of its own map,
   * each holding `m` and counting 1, and the counters above them grow by one.
   */
  function AddLayerDown(t: Node, m: ProbMap): (r: Node)
    requires WellFormed(t, 1) && Distribution(m)
    ensures WellFormed(r, 1) && Keys(r.children) == Keys(t.children)
    ensures r.probs == t.probs && r.parent == t.parent && r.previous == t.previous
  {
    var a := MainTree.AddLayerAt(t, m, 0);
    var r := IncrementLayer(a);
    SameMapsWellFormed(r, a, 1);
    r
  }

  /** On a single-layer tree `addLayer` changes nothing: the root has no child to look under. */
  lemma AddLayerDownLeaf(t: Node, m: ProbMap)
    requires WellFormed(t, 1) && Distribution(m) && t.children == []
    ensures AddLayerDown(t, m) == t
  {
    assert MainTree.AddLayerAt(t, m, 0) == t;
  }

  /** The `i`-th child after `addLayer`: a sprouted leaf, or the child after `addLayer` itself. */
  lemma AddLayerDownChild(t: Node, m: ProbMap, i: nat)
    requires WellFormed(t, 1) && Distribution(m) && i < |t.children|
    ensures t.children[i] in t.children
    ensures var c := t.children[i].value;
      AddLayerDown(t, m).children[i].value ==
        if c.children == [] then IncrementLayer(MainTree.Sprout(c, m, 0)) else AddLayerDown(c, m)
  {
    assert t.children[i] in t.children;
    var a := MainTree.AddLayerAt(t, m, 0);
    var c := t.children[i].value;
    assert a.children[i].value == if c.children == [] then MainTree.Sprout(c, m, 0) else MainTree.AddLayerAt(c, m, 0);
  }

  /** `addLayer` keeps the counters of every node with children at 2 or more. */
  lemma {:induction false} AddLayerDownCounted(t: Node, m: ProbMap)
    requires WellFormed(t, 1) && Distribution(m) && Counted(t)
    ensures Counted(AddLayerDown(t, m))
    decreases t
  {
    var r := AddLayerDown(t, m);
    forall i | 0 <= i < |r.children| ensures Counted(r.children[i].value) {
      AddLayerDownChild(t, m, i);
      var c := t.children[i].value;
      if c.children == [] {
        SproutCounted(c, m);
      } else {
        AddLayerDownCounted(c, m);
      }
    }
    forall x | x in r.children ensures Counted(x.value) {
      var i :| 0 <= i < |r.children| && r.children[i] == x;
    }
    IncrementDepth(MainTree.AddLayerAt(t, m, 0));
  }

  /** The counter after `incrementLayer`, stated apart to keep the proofs that use it small. */
  lemma IncrementDepth(t: Node)
    ensures IncrementLayer(t).depth == if t.children == [] then t.depth else t.depth + 1
    ensures |IncrementLayer(t).children| == |t.children|
  {
  }

  /** A leaf given its new children counts 2, each new child 1. */
  lemma SproutCounted(c: Node, m: ProbMap)
    requires WellFormed(c, 1) && Distribution(m) && Counted(c) && c.children == []
    ensures Counted(IncrementLayer(MainTree.Sprout(c, m, 0)))
  {
    var s := MainTree.Sprout(c, m, 0);
    var r := IncrementLayer(s);
    assert |Keys(s.children)| == |Keys(c.probs)|;
    forall i | 0 <= i < |r.children| ensures Counted(r.children[i].value) {
      assert s.children[i] in s.children;
      assert r.children[i].value == s.children[i].value;
    }
    forall x | x in r.children ensures Counted(x.value) {
      var i :| 0 <= i < |r.children| && r.children[i] == x;
    }
  }

  /**
   * On a complete tree of `h` >= 2 layers whose counters count down from `h`,
   * `addLayer` gives a complete tree of `h + 1` layers counting down from
   * `h + 1`: the tree the constructor would build with one layer more.
   */
  lemma {:induction false} AddLayerDownGrows(t: Node, m: ProbMap, h: nat)
    requires WellFormed(t, 1) && Distribution(m) && Complete(t, h) && Countdown(t, h) && h >= 2
    ensures Complete(AddLayerDown(t, m), h + 1) && Countdown(AddLayerDown(t, m), h + 1)
    decreases t, 1
  {
    AddLayerDownComplete(t, m, h);
    var r := AddLayerDown(t, m);
    forall i | 0 <= i < |r.children| ensures Countdown(r.children[i].value, h) {
      AddLayerDownChildGrows(t, m, h, i);
    }
    forall x | x in r.children ensures Countdown(x.value, h) {
      var i :| 0 <= i < |r.children| && r.children[i] == x;
    }
    assert |Keys(t.children)| == |Keys(t.probs)|;
    IncrementDepth(MainTree.AddLayerAt(t, m, 0));
  }

  /** One child of the lemma above. */
  lemma {:induction false} AddLayerDownChildGrows(t: Node, m: ProbMap, h: nat, i: nat)
    requires WellFormed(t, 1) && Distribution(m) && Complete(t, h) && Countdown(t, h) && h >= 2
    requires i < |t.children| && i < |AddLayerDown(t, m).children|
    ensures Countdown(AddLayerDown(t, m).children[i].value, h)
    decreases t, 0
  {
    AddLayerDownChild(t, m, i);
    var c := t.children[i].value;
    if h == 2 {
      SproutCountdown(c, m);
    } else {
      AddLayerDownGrows(c, m, h - 1);
    }
  }

  /** The completeness half of the lemma above. */
  lemma AddLayerDownComplete(t: Node, m: ProbMap, h: nat)
    requires WellFormed(t, 1) && Distribution(m) && Complete(t, h) && h >= 2
    ensures Complete(AddLayerDown(t, m), h + 1)
  {
    MainTree.AddLayerComplete(t, m, 0, h);
    IncrementComplete(MainTree.AddLayerAt(t, m, 0), h + 1);
  }

  /** A leaf counting 1, given its new children, counts down from 2. */
  lemma SproutCountdown(c: Node, m: ProbMap)
    requires WellFormed(c, 1) && Distribution(m) && c.children == [] && c.depth == 1
    ensures Countdown(IncrementLayer(MainTree.Sprout(c, m, 0)), 2)
  {
    var s := MainTree.Sprout(c, m, 0);
    var r := IncrementLayer(s);
    assert |Keys(s.children)| == |Keys(c.probs)|;
    forall i | 0 <= i < |r.children| ensures Countdown(r.children[i].value, 1) {
      assert s.children[i] in s.children;
      assert r.children[i].value == s.children[i].value;
    }
    forall x | x in r.children ensures Countdown(x.value, 1) {
      var i :| 0 <= i < |r.children| && r.children[i] == x;
    }
  }

  /** Raising counters keeps a tree complete. */
  lemma {:induction false} IncrementComplete(t: Node, h: nat)
    requires Complete(t, h)
    ensures Complete(IncrementLayer(t), h)
    decreases t
  {
    var r := IncrementLayer(t);
    assert Keys(r.children) == Keys(t.children);
    forall x | x in r.children ensures Complete(x.value, h - 1) {
      var i :| 0 <= i < |r.children| && r.children[i] == x;
      assert t.children[i] in t.children;
      IncrementComplete(t.children[i].value, h - 1);
    }
  }

  /** `addLayer(choices)`: refused for no choices; otherwise the uniform layer. */
  function AddLayer(t: Node, choices: seq<int>): (r: Result<Node>)
    requires WellFormed(t, 1) && Increasing(choices)
    ensures r.Fail? <==> |choices| < 1
    ensures r.Fail? ==> r.error == IllegalArgument
    ensures r.Ok? ==> WellFormed(r.value, 1) && (Counted(t) ==> Counted(r.value))
  {
    if |choices| < 1 then Fail(IllegalArgument)
    else
      if Counted(t) then
        AddLayerDownCounted(t, Uniform(choices));
        Ok(AddLayerDown(t, Uniform(choices)))
      else Ok(AddLayerDown(t, Uniform(choices)))
  }

  /** `addLayer(probMap)`: refused for an empty map or values not summing to 1. */
  function AddLayerMap(t: Node, m: ProbMap): (r: Result<Node>)
    requires WellFormed(t, 1) && Ordered(m) && Positive(m)
    ensures r.Fail? <==> |m| < 1 || Sum(m) != 1.0
    ensures r.Fail? ==> r.error == IllegalArgument
    ensures r.Ok? ==> WellFormed(r.value, 1) && (Counted(t) ==> Counted(r.value))
  {
    if |m| < 1 || Sum(m) != 1.0 then Fail(IllegalArgument)
    else
      if Counted(t) then
        AddLayerDownCounted(t, m);
        Ok(AddLayerDown(t, m))
      else Ok(AddLayerDown(t, m))
  }

  /**
   * `addToAll(element)` and `addToAll(element, percent)` (`p` the percent):
   * a percent outside (0, 1) is refused before any change; otherwise the
   * element is added to every node without overwriting, and the call fails
   * exactly where some node is `Stuck`. On a tree whose counters are kept it
   * succeeds and keeps them.
   */
  function AddToAll(t: Node, e: int, p: Option<real>): (r: Result<Node>)
    requires WellFormed(t, 1)
    ensures r.Fail? <==> (p.Some? && (p.value <= 0.0 || p.value >= 1.0)) || Stuck(t, e)
    ensures r.Fail? ==> r.error == IllegalArgument
    ensures r.Ok? ==> WellFormed(r.value, 1) && HeldEverywhere(r.value, e)
    ensures r.Ok? ==> r.value.probs == Added(t.probs, e, p, false)
    ensures Counted(t) && (p.None? || 0.0 < p.value < 1.0) ==> r.Ok? && Counted(r.value)
  {
    if p.Some? && (p.value <= 0.0 || p.value >= 1.0) then Fail(IllegalArgument)
    else
      AddToAllDownFails(t, e, p, false, 1);
      if Counted(t) then
        CountedNotStuck(t, e);
        AddToAllDownCounted(t, e, p, false, 1);
        AddToAllDown(t, e, p, false, 1)
      else AddToAllDown(t, e, p, false, 1)
  }

  /** The first position whose visit threw. */
  function FirstThrown(rs: seq<(Node, bool)>): (j: Option<nat>)
    ensures j.Some? ==> j.value < |rs| && rs[j.value].1 && forall k :: 0 <= k < j.value ==> !rs[k].1
    ensures j.None? ==> forall k :: 0 <= k < |rs| ==> !rs[k].1
  {
    if rs == [] then None
    else if rs[0].1 then Some(0)
    else match FirstThrown(rs[1..])
      case None =>
        assert forall k :: 1 <= k < |rs| ==> rs[k] == rs[1..][k - 1];
        None
      case Some(j) =>
        assert forall k :: 1 <= k < |rs| ==> rs[k] == rs[1..][k - 1];
        Some(j + 1)
  }

  /**
   * `purge(percent)` at one node past the percent check: the tree left and
   * whether ConcurrentModificationException is thrown. Nothing happens for a
   * single entry or equal values; otherwise the for-each loop calls
   * `remove` on the first entry at the minimum, in key order, which takes
   * out that key and its child and rescales; the loop then ends when one
   * entry is left or that entry was the last one, and otherwise its next
   * step throws. The percent only enters the first test, which equal values
   * already meet.
   */
  function PurgeNode(t: Node, p: real): (r: (Node, bool))
    requires WellFormed(t, 1)
    ensures WellFormed(r.0, 1) && Shrunk(r.0, t)
    ensures r.0.parent == t.parent && r.0.previous == t.previous
    ensures forall c :: c in r.0.children ==> c in t.children
    ensures MinProb(t.probs) == MaxProb(t.probs) ==> r == (t, false)
    ensures MinProb(t.probs) < MaxProb(t.probs) ==>
      FirstAtMost(t.probs, MinProb(t.probs)).Some? &&
      var i := FirstAtMost(t.probs, MinProb(t.probs)).value;
      KeySet(r.0.probs) == KeySet(t.probs) - {t.probs[i].key} &&
      (r.1 <==> |t.probs| > 2 && i < |t.probs| - 1)
  {
    var lo := MinProb(t.probs);
    var hi := MaxProb(t.probs);
    ShrunkRefl(t, 1);
    if |t.probs| == 1 || (hi <= p && lo == hi) then (t, false)
    else if lo == hi then (t, false)
    else
      PurgeOnceSpec(t.probs, lo, 1);
      var (m, thrown) := PurgeOnce(t.probs, lo, 1);
      var r := KeepKeys(t, m, 1);
      ShrunkKeep(r, t, 1);
      (r, thrown)
  }

  /** `purge(percent)` does not depend on the percent. */
  lemma PurgeNodeIgnoresPercent(t: Node, p1: real, p2: real)
    requires WellFormed(t, 1)
    ensures PurgeNode(t, p1) == PurgeNode(t, p2)
  {
  }

  /**
   * `purgeAll(percent)` past the percent check: `purge(percent)` here unless
   * the map has one entry, then `purgeAll(percent)` in each remaining child,
   * in key order, until one throws. The result is the tree as the call leaves
   * it: the children before the one that threw are done, that one is left as
   * it was when it threw, the later ones are untouched.
   */
  function PurgeDown(t: Node, p: real): (r: (Node, bool))
    requires WellFormed(t, 1)
    ensures WellFormed(r.0, 1) && Shrunk(r.0, t)
    ensures r.0.parent == t.parent && r.0.previous == t.previous
    decreases t, 1
  {
    ShrunkRefl(t, 1);
    var n := if |t.probs| != 1 then PurgeNode(t, p) else (t, false);
    if n.1 then n
    else
      var rs := PurgeVisits(n.0, t, p);
      var j := FirstThrown(rs);
      var u := Splice(n.0, rs, j);
      ShrunkTrans(u, n.0, t);
      (u, j.Some?)
  }

  /** `purgeAll(percent)` in each child of `u`, whose children are children of `t`. */
  function PurgeVisits(u: Node, t: Node, p: real): (rs: seq<(Node, bool)>)
    requires WellFormed(u, 1) && forall c :: c in u.children ==> c in t.children
    ensures |rs| == |u.children|
    ensures forall i :: 0 <= i < |rs| ==>
      WellFormed(rs[i].0, 1) && Shrunk(rs[i].0, u.children[i].value) && rs[i].0.parent == u.children[i].value.parent
    decreases t, 0
  {
    seq(|u.children|, i requires 0 <= i < |u.children| =>
      assert u.children[i] in u.children && u.children[i] in t.children;
      PurgeDown(u.children[i].value, p))
  }

  /** The children of `u` replaced by their visits up to and including the first that threw. */
  function Splice(u: Node, rs: seq<(Node, bool)>, j: Option<nat>): (r: Node)
    requires WellFormed(u, 1) && |rs| == |u.children|
    requires forall i :: 0 <= i < |rs| ==> WellFormed(rs[i].0, 1) && Shrunk(rs[i].0, u.children[i].value)
    ensures WellFormed(r, 1) && Shrunk(r, u)
    ensures r.probs == u.probs && r.parent == u.parent && r.previous == u.previous
    ensures SameKeyOrder(r.children, u.children)
    ensures forall i :: 0 <= i < |rs| ==>
      r.children[i].value == if j.None? || i <= j.value then rs[i].0 else u.children[i].value
  {
    var cs := seq(|rs|, i requires 0 <= i < |rs| =>
      Pair(u.children[i].key, if j.None? || i <= j.value then rs[i].0 else u.children[i].value));
    SameKeyOrderFacts(cs, u.children);
    forall i | 0 <= i < |cs| ensures WellFormed(cs[i].value, 1) && Shrunk(cs[i].value, u.children[i].value) {
      assert u.children[i] in u.children;
      ShrunkRefl(u.children[i].value, 1);
    }
    forall c | c in cs ensures WellFormed(c.value, 1) {
      var i :| 0 <= i < |cs| && cs[i] == c;
    }
    var r := u.(children := cs);
    ShrunkPointwise(r, u);
    r
  }

  /**
   * `purgeAll(percent)`: the tree the call leaves and the exception it
   * throws, if any. A percent outside (0, 1) is refused before any change.
   */
  function PurgeAllPercent(t: Node, p: real): (r: (Node, Option<Exception>))
    requires WellFormed(t, 1)
    ensures WellFormed(r.0, 1) && Shrunk(r.0, t) && r.0.parent == t.parent
    ensures r.1 == Some(IllegalArgument) <==> p <= 0.0 || p >= 1.0
    ensures r.1 == Some(IllegalArgument) ==> r.0 == t
    ensures r.1.Some? ==> r.1 == Some(IllegalArgument) || r.1 == Some(ConcurrentModification)
  {
    if p >= 1.0 || p <= 0.0 then
      ShrunkRefl(t, 1);
      (t, Some(IllegalArgument))
    else
      var d := PurgeDown(t, p);
      (d.0, if d.1 then Some(ConcurrentModification) else None)
  }

  /** All values equal in a uniform map. */
  lemma UniformMinMax(m: ProbMap)
    requires |m| > 0 && forall i :: 0 <= i < |m| ==> m[i].value == 1.0 / |m| as real
    ensures MinProb(m) == MaxProb(m)
  {
  }

  /** A tree of uniform maps (one just built, or after `clearProbs()`) is left as it is. */
  lemma {:induction false} PurgeDownUniform(t: Node, p: real)
    requires WellFormed(t, 1) && AllUniform(t)
    ensures PurgeDown(t, p) == (t, false)
    decreases t
  {
    UniformMinMax(t.probs);
    assert (if |t.probs| != 1 then PurgeNode(t, p) else (t, false)) == (t, false);
    var rs := PurgeVisits(t, t, p);
    forall i | 0 <= i < |rs| ensures rs[i] == (t.children[i].value, false) {
      assert t.children[i] in t.children;
      PurgeDownUniform(t.children[i].value, p);
    }
    var j := FirstThrown(rs);
    assert j.None?;
    var u := Splice(t, rs, j);
    assert u.children == t.children;
  }

  /**
   * A leaf holding 0 and 1 at 1/4 and 2 at 1/2: `purgeAll(0.5)` removes 0,
   * and the loop's next step throws, leaving 1 and 2 at 1/3 and 2/3.
   */
  lemma PurgeAllPercentThrows(m: ProbMap, t: Node)
    requires m == [Pair(0, 0.25), Pair(1, 0.25), Pair(2, 0.5)] && t == Node(m, [], Null, None, 1)
    ensures WellFormed(t, 1) && PurgeAllPercent(t, 0.5).1 == Some(ConcurrentModification)
  {
    ThrowsMap(m);
    assert WellFormed(t, 1);
  }

  /** The map of the example above: a distribution whose least value 1/4 is first at key 0. */
  lemma ThrowsMap(m: ProbMap)
    requires m == [Pair(0, 0.25), Pair(1, 0.25), Pair(2, 0.5)]
    ensures Distribution(m) && MinProb(m) == 0.25 && MaxProb(m) == 0.5 && FirstAtMost(m, 0.25) == Some(0)
  {
    var m1 := m[1..];
    var m2 := m1[1..];
    assert m1 == [Pair(1, 0.25), Pair(2, 0.5)] && m2 == [Pair(2, 0.5)] && m2[1..] == [];
    assert Sum(m2) == 0.5;
    assert Sum(m1) == m1[0].value + Sum(m2) == 0.75;
    assert Sum(m) == m[0].value + Sum(m1) == 1.0;
    assert MinProb(m2) == 0.5 && MaxProb(m2) == 0.5;
  }

  /** The same counters and children keys at every node. */
  predicate SameCounters(a: Node, b: Node)
    decreases a
  {
    a.depth == b.depth && SameKeyOrder(a.children, b.children) &&
    forall i :: 0 <= i < |a.children| ==> SameCounters(a.children[i].value, b.children[i].value)
  }

  /**
   * `clone()` with the counter copied as well: the maps, children and
   * counters of the original, no cursors, each child linked to its copy of
   * the parent.
   */
  function CloneLayers(t: Node): (r: Node)
    ensures r.parent == Null && SameMaps(r, t) && SameCounters(r, t)
    ensures NoHistory(r) && MainTree.LinkedUp(r)
    decreases t
  {
    var cs := seq(|t.children|, i requires 0 <= i < |t.children| =>
      Pair(t.children[i].key, CloneLayers(t.children[i].value).(parent := Up(1))));
    assert forall c :: c in cs ==> NoHistory(c.value) && MainTree.LinkedUp(c.value);
    Node(t.probs, cs, Null, None, t.depth)
  }

  /** Trees with the same counters and children keys are `Stuck` at the same places. */
  lemma {:induction false} SameCountersStuck(a: Node, b: Node, e: int)
    requires SameCounters(a, b)
    ensures Stuck(a, e) <==> Stuck(b, e)
    decreases a
  {
    SameKeyOrderFacts(a.children, b.children);
    forall i | 0 <= i < |a.children| ensures Stuck(a.children[i].value, e) <==> Stuck(b.children[i].value, e) {
      assert a.children[i] in a.children;
      SameCountersStuck(a.children[i].value, b.children[i].value, e);
    }
    StuckPointwise(a, b, e);
    StuckPointwise(b, a, e);
  }

  /** One direction of the step above, from the children's equivalence. */
  lemma StuckPointwise(a: Node, b: Node, e: int)
    requires a.depth == b.depth && SameKeyOrder(a.children, b.children)
    requires forall i :: 0 <= i < |a.children| ==> (Stuck(a.children[i].value, e) <==> Stuck(b.children[i].value, e))
    ensures Stuck(a, e) ==> Stuck(b, e)
  {
    if Stuck(a, e) {
      if a.children != [] && e !in KeySet(a.children) && a.depth < 2 {
        SameKeyOrderFacts(a.children, b.children);
        assert b.children != [];
      } else {
        StuckAt(a, e);
        var i :| 0 <= i < |a.children| && Stuck(a.children[i].value, e);
        StuckChild(b, i, e);
      }
    }
  }

  /** A node `Stuck` below its own level has a `Stuck` child at some index. */
  lemma StuckAt(t: Node, e: int)
    requires Stuck(t, e) && !(t.children != [] && e !in KeySet(t.children) && t.depth < 2)
    ensures exists i :: 0 <= i < |t.children| && Stuck(t.children[i].value, e)
  {
    var c :| c in t.children && Stuck(c.value, e);
    var i :| 0 <= i < |t.children| && t.children[i] == c;
  }

  /** A node with a `Stuck` child is `Stuck`. */
  lemma StuckChild(t: Node, i: nat, e: int)
    requires i < |t.children| && Stuck(t.children[i].value, e)
    ensures Stuck(t, e)
  {
    assert t.children[i] in t.children;
  }

  /** Trees with the same counters and children keys have their counters kept alike. */
  lemma {:induction false} SameCountersCounted(a: Node, b: Node)
    requires SameCounters(a, b) && Counted(b)
    ensures Counted(a)
    decreases a
  {
    forall c | c in a.children ensures Counted(c.value) {
      var i :| 0 <= i < |a.children| && a.children[i] == c;
      assert b.children[i] in b.children;
      SameCountersCounted(a.children[i].value, b.children[i].value);
    }
  }

  /**
   * The copy with its counters keeps the invariant and the size, and
   * `addToAll` fails on it exactly where it fails on the original.
   */
  lemma CloneLayersKeeps(t: Node, e: int, p: Option<real>)
    requires WellFormed(t, 1)
    ensures WellFormed(CloneLayers(t), 1) && Size(CloneLayers(t)) == Size(t)
    ensures Counted(t) ==> Counted(CloneLayers(t))
    ensures AddToAll(CloneLayers(t), e, p).Fail? <==> AddToAll(t, e, p).Fail?
  {
    SameMapsWellFormed(CloneLayers(t), t, 1);
    SameMapsSize(CloneLayers(t), t);
    SameCountersStuck(CloneLayers(t), t, e);
    if Counted(t) {
      SameCountersCounted(CloneLayers(t), t);
    }
  }

  /**
   * The copy constructor as written leaves every counter at 0, so on the copy
   * of a two-layer tree over {0, 1} `addToAll(5)` throws
   * IllegalArgumentException, while on the original it succeeds.
   */
  lemma CloneLosesLayers()
    ensures Build([0, 1], 2).Ok?
    ensures AddToAll(Build([0, 1], 2).value, 5, None).Ok?
    ensures WellFormed(Clone(Build([0, 1], 2).value), 1)
    ensures AddToAll(Clone(Build([0, 1], 2).value), 5, None).Fail?
  {
    var t := Build([0, 1], 2).value;
    assert KeySet(t.children) == {0, 1} by {
      assert Keys(t.children) == Keys(t.probs) == [0, 1];
    }
    CloneStuck(t, 5);
  }

  /** The copy of a tree with children but not the key `e` is `Stuck` at its root. */
  lemma CloneStuck(t: Node, e: int)
    requires WellFormed(t, 1) && t.children != [] && e !in KeySet(t.children)
    ensures WellFormed(Clone(t), 1) && Stuck(Clone(t), e)
  {
    var c := Clone(t);
    SameKeyOrderFacts(c.children, t.children);
    CloneWellFormed(t, 1);
  }
}

=== FILE: tree_main.dfy ===
/**
 * ProbabilityFunctionTree/src/main/java/tree/ProbFunTree.java: the tree whose
 * nodes record their layer (0 at the root). Floor size 1: `remove` and
 * `prune` never empty a node. New children are hung only where the node
 * already has children, and `addLayer` grows every leaf reached from the
 * node it starts at.
 */
module MainTree {
  import opened Wrappers
  import opened Assoc
  import opened ProbMaps
  import opened ProbEdits
  import opened ProbScans
  import opened TreeNodes

  /** Every node of the tree holds the map `m`. */
  predicate Filled(t: Node, m: ProbMap)
    decreases t
  {
    t.probs == m && forall c :: c in t.children ==> Filled(c.value, m)
  }

  /** The node is on layer `cur` and every child one layer further down. */
  predicate Layered(t: Node, cur: int)
    decreases t
  {
    t.depth == cur && forall c :: c in t.children ==> Layered(c.value, cur + 1)
  }

  /** Every child points at the node it hangs from. */
  predicate LinkedUp(t: Node)
    decreases t
  {
    forall c :: c in t.children ==> c.value.parent == Up(1) && LinkedUp(c.value)
  }

  /**
   * The private constructor: the node on layer `cur` of a tree of `layers`
   * layers, holding `m`, with one child per key of `m` unless it is on the
   * last layer.
   */
  function Grow(m: ProbMap, layers: int, cur: int, parent: Link): (t: Node)
    requires Distribution(m) && cur < layers
    ensures WellFormed(t, 1) && Complete(t, layers - cur) && Filled(t, m)
    ensures Layered(t, cur) && NoHistory(t) && LinkedUp(t) && t.parent == parent
    decreases layers - cur
  {
    if cur + 1 == layers then Node(m, [], parent, None, cur)
    else
      var g := Grow(m, layers, cur + 1, Up(1));
      var cs := seq(|m|, i requires 0 <= i < |m| => Pair(m[i].key, g));
      SameKeyOrderFacts(cs, m);
      assert Keys(cs) == Keys(m);
      assert forall c :: c in cs ==> c.value == g;
      Node(m, cs, parent, None, cur)
  }

  /**
   * `ProbFunTree(choices, layers)`: refused unless there is a choice and a
   * layer; otherwise a complete tree of `layers` layers whose every node holds
   * every choice at 1/n, each node on its own layer and linked to its parent.
   */
  function Build(choices: seq<int>, layers: int): (r: Result<Node>)
    requires Increasing(choices)
    ensures r.Fail? <==> |choices| < 1 || layers < 1
    ensures r.Fail? ==> r.error == IllegalArgument
    ensures r.Ok? ==>
      WellFormed(r.value, 1) && Complete(r.value, layers) && Filled(r.value, Uniform(choices)) &&
      Layered(r.value, 0) && NoHistory(r.value) && LinkedUp(r.value) && r.value.parent == Null
  {
    if |choices| < 1 || layers < 1 then Fail(IllegalArgument)
    else Ok(Grow(Uniform(choices), layers, 0, Null))
  }

  /**
   * `ProbFunTree(probMap, layers)`: refused for an empty map, fewer than one
   * layer or values not summing to 1; otherwise the same complete tree with
   * the given map at every node.
   */
  function BuildMap(m: ProbMap, layers: int): (r: Result<Node>)
    requires Ordered(m) && Positive(m)
    ensures r.Fail? <==> |m| < 1 || layers < 1 || Sum(m) != 1.0
    ensures r.Fail? ==> r.error == IllegalArgument
    ensures r.Ok? ==>
      WellFormed(r.value, 1) && Complete(r.value, layers) && Filled(r.value, m) &&
      Layered(r.value, 0) && NoHistory(r.value) && LinkedUp(r.value) && r.value.parent == Null
  {
    if |m| < 1 || layers < 1 || Sum(m) != 1.0 then Fail(IllegalArgument)
    else Ok(Grow(FixProbSum(m), layers, 0, Null))
  }

  lemma {:induction false} FilledAllOfSize(t: Node, m: ProbMap)
    requires Filled(t, m)
    ensures AllOfSize(t, |m|)
    decreases t
  {
    forall c | c in t.children ensures AllOfSize(c.value, |m|) {
      FilledAllOfSize(c.value, m);
    }
  }

  /** A tree of 3 layers over {0, 1} holds 2 + 4 + 8 = 14 entries. */
  lemma BuildSize(choices: seq<int>)
    requires choices == [0, 1]
    ensures Increasing(choices) && Build(choices, 3).Ok? && Size(Build(choices, 3).value) == 14
  {
    assert Increasing(choices);
    var m := Uniform(choices);
    assert |m| == |Keys(m)| == 2;
    var t := Build(choices, 3).value;
    FilledAllOfSize(t, m);
    SizeComplete(t, 2, 3);
    assert LayerTotal(2, 3) == 14 by {
      assert LayerTotal(2, 1) == 2 by {
        assert LayerTotal(2, 0) == 0;
      }
    }
  }

  /** `add` hangs a new child exactly when the node has children, none under `e`, and `els` is not empty. */
  predicate Grows(t: Node, e: int, els: seq<int>) {
    t.children != [] && e !in KeySet(t.children) && els != []
  }

  /** The child hung under a new element: a single-layer node over `els` on the next layer. */
  function NewChild(t: Node, els: seq<int>): (c: Node)
    requires Increasing(els) && |els| > 0
    ensures WellFormed(c, 1) && c.children == [] && c.probs == Uniform(els)
    ensures c.depth == t.depth + 1 && c.parent == Up(1) && c.previous == None
  {
    Grow(Uniform(els), t.depth + 2, t.depth + 1, Up(1))
  }

  /** The children after `add` / `add` with percent: the new child inserted when `Grows`. */
  function Hang(t: Node, e: int, els: seq<int>): (cs: seq<Pair<Node>>)
    requires Ordered(t.children) && Increasing(els)
    ensures Ordered(cs)
    ensures Grows(t, e, els) ==> cs == Insert(t.children, e, NewChild(t, els))
    ensures !Grows(t, e, els) ==> cs == t.children
    ensures KeySet(cs) <= KeySet(t.children) + {e}
  {
    if Grows(t, e, els) then Insert(t.children, e, NewChild(t, els)) else t.children
  }

  lemma HangWellFormed(t: Node, e: int, els: seq<int>, m: ProbMap)
    requires WellFormed(t, 1) && Increasing(els) && Distribution(m)
    requires KeySet(m) == KeySet(t.probs) + {e}
    ensures WellFormed(t.(probs := m, children := Hang(t, e, els)), 1)
    ensures forall c :: c in Hang(t, e, els) ==> c in t.children || c.key == e
  {
    if Grows(t, e, els) {
      InsertMembers(t.children, e, NewChild(t, els));
    }
  }

  /**
   * `add(element, elements)`: the element enters at 1/(old size) only when
   * absent and the map is rescaled; then the child is hung when `Grows`.
   */
  function AddNode(t: Node, e: int, els: seq<int>): (r: Node)
    requires WellFormed(t, 1) && Increasing(els)
    ensures WellFormed(r, 1)
    ensures r.probs == AddUniform(t.probs, e, false) && r.children == Hang(t, e, els)
    ensures r.parent == t.parent && r.previous == t.previous && r.depth == t.depth
  {
    HangWellFormed(t, e, els, AddUniform(t.probs, e, false));
    t.(probs := AddUniform(t.probs, e, false), children := Hang(t, e, els))
  }

  /**
   * After `add(element, elements)` the element has a child exactly when it
   * had one or `Grows`, and a new child is the single-layer node over
   * `elements`.
   */
  lemma AddNodeChild(t: Node, e: int, els: seq<int>)
    requires WellFormed(t, 1) && Increasing(els)
    ensures e in KeySet(AddNode(t, e, els).children) <==> e in KeySet(t.children) || Grows(t, e, els)
    ensures Grows(t, e, els) ==> Get(AddNode(t, e, els).children, e) == Some(NewChild(t, els))
  {
    if Grows(t, e, els) {
      InsertGet(t.children, e, NewChild(t, els), e);
    }
  }

  /** `e` is a key of the node and, recursively, of every child not under `e`. */
  predicate HeldBelow(t: Node, e: int)
    decreases t
  {
    e in KeySet(t.probs) && forall c :: c in t.children && c.key != e ==> HeldBelow(c.value, e)
  }

  /**
   * `addToAll(element, elements)`: `add` at this node, then `addToAll` in
   * every child not under `element`. The children are visited first here:
   * `add` changes only this node's map and may hang a child under `element`,
   * which is not visited, so the result is the same.
   */
  function AddToAll(t: Node, e: int, els: seq<int>): (r: Node)
    requires WellFormed(t, 1) && Increasing(els)
    ensures WellFormed(r, 1) && HeldBelow(r, e)
    decreases t
  {
    var cs := seq(|t.children|, i requires 0 <= i < |t.children| =>
      if t.children[i].key == e then t.children[i]
      else Pair(t.children[i].key, AddToAll(t.children[i].value, e, els)));
    assert SameKeyOrder(cs, t.children);
    SameKeyOrderFacts(cs, t.children);
    forall c | c in cs ensures WellFormed(c.value, 1) && (c.key != e ==> HeldBelow(c.value, e)) {
      var i :| 0 <= i < |cs| && cs[i] == c;
      assert t.children[i] in t.children;
    }
    var t1 := t.(children := cs);
    HangWellFormed(t1, e, els, AddUniform(t.probs, e, false));
    AddNode(t1, e, els)
  }

  /**
   * `add(element, elements, percent)` past the percent check: every entry is
   * multiplied by 1 - percent, the element is put at percent (present or
   * not), the map is rescaled, and the child is hung when `Grows`.
   */
  function AddNodePercent(t: Node, e: int, els: seq<int>, p: real): (r: Node)
    requires WellFormed(t, 1) && Increasing(els) && 0.0 < p < 1.0
    ensures WellFormed(r, 1)
    ensures r.probs == AddPercent(t.probs, e, p, true) && r.children == Hang(t, e, els)
    ensures r.parent == t.parent && r.previous == t.previous && r.depth == t.depth
  {
    HangWellFormed(t, e, els, AddPercent(t.probs, e, p, true));
    t.(probs := AddPercent(t.probs, e, p, true), children := Hang(t, e, els))
  }

  /** A new element added with a percent holds exactly that percent; the old entries are scaled by 1 - percent. */
  lemma AddNodePercentSpec(t: Node, e: int, els: seq<int>, p: real)
    requires WellFormed(t, 1) && Increasing(els) && 0.0 < p < 1.0 && e !in KeySet(t.probs)
    ensures Get(AddNodePercent(t, e, els, p).probs, e) == Some(p)
    ensures ScaledFrom(AddNodePercent(t, e, els, p).probs, t.probs, e, Rest(p))
  {
    AddPercentNew(t.probs, e, p, true);
  }

  /** `addToAll(element, elements, percent)` past the percent check, children visited first as in `AddToAll`. */
  function AddToAllPercent(t: Node, e: int, els: seq<int>, p: real): (r: Node)
    requires WellFormed(t, 1) && Increasing(els) && 0.0 < p < 1.0
    ensures WellFormed(r, 1) && HeldBelow(r, e)
    decreases t
  {
    var cs := seq(|t.children|, i requires 0 <= i < |t.children| =>
      if t.children[i].key == e then t.children[i]
      else Pair(t.children[i].key, AddToAllPercent(t.children[i].value, e, els, p)));
    assert SameKeyOrder(cs, t.children);
    SameKeyOrderFacts(cs, t.children);
    forall c | c in cs ensures WellFormed(c.value, 1) && (c.key != e ==> HeldBelow(c.value, e)) {
      var i :| 0 <= i < |cs| && cs[i] == c;
      assert t.children[i] in t.children;
    }
    var t1 := t.(children := cs);
    HangWellFormed(t1, e, els, AddPercent(t.probs, e, p, true));
    AddNodePercent(t1, e, els, p)
  }

  /**
   * A leaf given by `addLayer` one new child per key of its map: each a
   * single-layer node holding `m` on layer `top + 1`, whose parent link is
   * the node two levels up (the `parent` argument of the call).
   */
  function Sprout(c: Node, m: ProbMap, top: int): (r: Node)
    requires WellFormed(c, 1) && Distribution(m)
    ensures WellFormed(r, 1) && Keys(r.children) == Keys(c.probs)
    ensures r.probs == c.probs && r.parent == c.parent && r.previous == c.previous && r.depth == c.depth
    ensures forall x :: x in r.children ==>
      x.value.children == [] && x.value.probs == m && x.value.depth == top + 1 && x.value.parent == Up(2)
  {
    var g := Grow(m, top + 2, top + 1, Up(2));
    var cs := seq(|c.probs|, i requires 0 <= i < |c.probs| => Pair(c.probs[i].key, g));
    assert SameKeyOrder(cs, c.probs);
    SameKeyOrderFacts(cs, c.probs);
    assert Keys(cs) == Keys(c.probs);
    assert forall x :: x in cs ==> x.value == g;
    c.(children := cs)
  }

  /**
   * `addLayer(parent, m)` called on a node of layer `top`: every child of
   * `parent` without children is sprouted, every other child is handled the
   * same way. A node without children is left unchanged.
   */
  function AddLayerAt(p: Node, m: ProbMap, top: int): (r: Node)
    requires WellFormed(p, 1) && Distribution(m)
    ensures WellFormed(r, 1) && SameKeyOrder(r.children, p.children)
    ensures r.probs == p.probs && r.parent == p.parent && r.previous == p.previous && r.depth == p.depth
    ensures p.children == [] ==> r == p
    decreases p
  {
    var cs := seq(|p.children|, i requires 0 <= i < |p.children| =>
      assert p.children[i] in p.children;
      var c := p.children[i].value;
      Pair(p.children[i].key, if c.children == [] then Sprout(c, m, top) else AddLayerAt(c, m, top)));
    SameKeyOrderFacts(cs, p.children);
    forall x | x in cs ensures WellFormed(x.value, 1) {
      var i :| 0 <= i < |cs| && cs[i] == x;
      assert p.children[i] in p.children;
    }
    p.(children := cs)
  }

  /**
   * What `addLayer` does to each node below the node it starts at: a node
   * reached by a non-empty path is reached by the same path afterwards and
   * keeps its map, parent link, cursor and layer; one that was a leaf is
   * sprouted, so it gets exactly one child per key of its map, each a leaf
   * holding `m` on layer `top + 1` and linked two levels up.
   */
  lemma {:induction false} AddLayerLeaves(p: Node, m: ProbMap, top: int, path: seq<int>)
    requires WellFormed(p, 1) && Distribution(m) && |path| >= 1 && Follow(p, path).Some?
    ensures WellFormed(Follow(p, path).value, 1) && Follow(AddLayerAt(p, m, top), path).Some?
    ensures var c := Follow(p, path).value;
      var c' := Follow(AddLayerAt(p, m, top), path).value;
      c'.probs == c.probs && c'.parent == c.parent && c'.previous == c.previous && c'.depth == c.depth &&
      (c.children == [] ==> c' == Sprout(c, m, top))
    decreases path
  {
    FollowWellFormed(p, path, 1);
    var r := AddLayerAt(p, m, top);
    var i := IndexOf(p.children, path[0]).value;
    assert p.children[i] in p.children;
    var c := p.children[i].value;
    SameKeyOrderFacts(r.children, p.children);
    assert r.children[i].key == path[0];
    assert IndexOf(r.children, path[0]) == Some(i);
    var c1 := r.children[i].value;
    if c.children == [] {
      assert c1 == Sprout(c, m, top);
    } else {
      assert c1 == AddLayerAt(c, m, top);
      if |path| > 1 {
        AddLayerLeaves(c, m, top, path[1..]);
      }
    }
  }

  /** `addLayer` makes a complete tree of `h` >= 2 layers complete with one layer more. */
  lemma {:induction false} AddLayerComplete(p: Node, m: ProbMap, top: int, h: nat)
    requires WellFormed(p, 1) && Distribution(m) && Complete(p, h) && h >= 2
    ensures Complete(AddLayerAt(p, m, top), h + 1)
    decreases p
  {
    var r := AddLayerAt(p, m, top);
    assert Keys(r.children) == Keys(p.children);
    forall x | x in r.children ensures Complete(x.value, h) {
      var i :| 0 <= i < |r.children| && r.children[i] == x;
      var c := p.children[i].value;
      assert p.children[i] in p.children;
      if h == 2 {
        assert c.children == [];
        var s := Sprout(c, m, top);
        assert x.value == s;
        assert forall y :: y in s.children ==> Complete(y.value, 1);
      } else {
        assert c.children != [] by {
          assert |Keys(c.children)| == |Keys(c.probs)|;
        }
        AddLayerComplete(c, m, top, h - 1);
      }
    }
  }

  /** `addLayer(choices)`: refused for no choices; otherwise every leaf below the node gets uniform children. */
  function AddLayer(t: Node, choices: seq<int>): (r: Result<Node>)
    requires WellFormed(t, 1) && Increasing(choices)
    ensures r.Fail? <==> |choices| < 1
    ensures r.Fail? ==> r.error == IllegalArgument
    ensures r.Ok? ==> WellFormed(r.value, 1) && SameKeyOrder(r.value.children, t.children)
  {
    if |choices| < 1 then Fail(IllegalArgument) else Ok(AddLayerAt(t, Uniform(choices), t.depth))
  }

  /** `addLayer(probMap)`: refused for an empty map or values not summing to 1. */
  function AddLayerMap(t: Node, m: ProbMap): (r: Result<Node>)
    requires WellFormed(t, 1) && Ordered(m) && Positive(m)
    ensures r.Fail? <==> |m| < 1 || Sum(m) != 1.0
    ensures r.Fail? ==> r.error == IllegalArgument
    ensures r.Ok? ==> WellFormed(r.value, 1) && SameKeyOrder(r.value.children, t.children)
  {
    if |m| < 1 || Sum(m) != 1.0 then Fail(IllegalArgument) else Ok(AddLayerAt(t, m, t.depth))
  }

  /**
   * `prune()`: nothing when every value is equal; otherwise the entries at the
   * minimum go, with their children, down to one entry, and the map is
   * rescaled.
   */
  function Prune(t: Node): (r: Node)
    requires WellFormed(t, 1)
    ensures WellFormed(r, 1) && Shrunk(r, t)
    ensures r.parent == t.parent && r.previous == t.previous && r.depth == t.depth
    ensures MinProb(t.probs) == MaxProb(t.probs) ==> r == t
    ensures MinProb(t.probs) < MaxProb(t.probs) ==>
      forall i :: 0 <= i < |t.probs| ==> (t.probs[i].key in KeySet(r.probs) <==> t.probs[i].value > MinProb(t.probs))
    ensures forall c :: c in r.children <==> c in t.children && c.key in KeySet(r.probs)
  {
    if MinProb(t.probs) == MaxProb(t.probs) then
      ShrunkRefl(t, 1);
      t
    else
      PruneRemovesMinima(t.probs);
      var r := KeepKeys(t, PruneProbs(t.probs), 1);
      ShrunkKeep(r, t, 1);
      r
  }

  /**
   * `pruneAll()`: `prune` here, then `pruneAll` in every remaining child.
   * The children are pruned first here; `prune` decides from this node's map
   * alone and drops whole children, so the result is the same.
   */
  function PruneAll(t: Node): (r: Node)
    requires WellFormed(t, 1)
    ensures WellFormed(r, 1) && Shrunk(r, t)
    decreases t, 1
  {
    var cs := PrunedChildren(t);
    SameKeyOrderFacts(cs, t.children);
    forall c | c in cs ensures WellFormed(c.value, 1) {
      var i :| 0 <= i < |cs| && cs[i] == c;
    }
    var t1 := t.(children := cs);
    ShrunkPointwise(t1, t);
    var r := Prune(t1);
    ShrunkTrans(r, t1, t);
    r
  }

  /** `pruneAll()` in each child, under the same keys. */
  function PrunedChildren(t: Node): (cs: seq<Pair<Node>>)
    requires WellFormed(t, 1)
    ensures SameKeyOrder(cs, t.children)
    ensures forall i :: 0 <= i < |cs| ==>
      WellFormed(cs[i].value, 1) && Shrunk(cs[i].value, t.children[i].value)
    decreases t, 0
  {
    seq(|t.children|, i requires 0 <= i < |t.children| =>
      assert t.children[i] in t.children;
      Pair(t.children[i].key, PruneAll(t.children[i].value)))
  }

  /**
   * `prune(percent)` past the percent check: nothing for one entry or equal
   * values at or below the percent; otherwise the scan of `prune()`.
   */
  function PruneNodePercent(t: Node, p: real): (r: Node)
    requires WellFormed(t, 1) && 0.0 < p < 1.0
    ensures r == Prune(t)
  {
    var lo := MinProb(t.probs);
    var hi := MaxProb(t.probs);
    PrunePercentSame(t.probs, p);
    if |t.probs| == 1 || (hi <= p && lo == hi) then t
    else if lo == hi then
      RestrictAll(t.children, KeySet(t.probs));
      KeepKeys(t, PrunePercent(t.probs, p), 1)
    else KeepKeys(t, PrunePercent(t.probs, p), 1)
  }

  /** `pruneAll(percent)` past the percent check: `prune(percent)` at every node, which is `pruneAll()`. */
  function PruneAllPercent(t: Node, p: real): (r: Node)
    requires WellFormed(t, 1) && 0.0 < p < 1.0
    ensures r == PruneAll(t)
    decreases t
  {
    var cs := seq(|t.children|, i requires 0 <= i < |t.children| =>
      assert t.children[i] in t.children;
      Pair(t.children[i].key, PruneAllPercent(t.children[i].value, p)));
    assert cs == PrunedChildren(t);
    SameKeyOrderFacts(cs, t.children);
    forall c | c in cs ensures WellFormed(c.value, 1) {
      var i :| 0 <= i < |cs| && cs[i] == c;
    }
    var t1 := t.(children := cs);
    if |t.probs| != 1 then PruneNodePercent(t1, p)
    else
      assert MinProb(t.probs) == MaxProb(t.probs);
      t1
  }

  /** A percent `add`, `addToAll`, `prune` and `pruneAll` accept: strictly between 0 and 1. */
  predicate PercentOk(p: real) {
    0.0 < p < 1.0
  }

  /**
   * `add(element, elements, percent)`: a percent outside (0, 1) throws
   * IllegalArgumentException before any change; otherwise the element is a
   * key of the map afterwards, which is the percent-add of the old one.
   */
  function AddWithPercent(t: Node, e: int, els: seq<int>, p: real): (r: Result<Node>)
    requires WellFormed(t, 1) && Increasing(els)
    ensures r.Fail? <==> !PercentOk(p)
    ensures r.Fail? ==> r.error == IllegalArgument
    ensures r.Ok? ==> WellFormed(r.value, 1) && e in KeySet(r.value.probs)
    ensures r.Ok? && e !in KeySet(t.probs) ==> Get(r.value.probs, e) == Some(p)
  {
    if !PercentOk(p) then Fail(IllegalArgument)
    else
      var n := AddNodePercent(t, e, els, p);
      assert e !in KeySet(t.probs) ==> Get(n.probs, e) == Some(p) by {
        if e !in KeySet(t.probs) {
          AddPercentNew(t.probs, e, p, true);
        }
      }
      Ok(n)
  }

  /** `addToAll(element, elements, percent)`: the same check, then the element below every node not under it. */
  function AddToAllWithPercent(t: Node, e: int, els: seq<int>, p: real): (r: Result<Node>)
    requires WellFormed(t, 1) && Increasing(els)
    ensures r.Fail? <==> !PercentOk(p)
    ensures r.Fail? ==> r.error == IllegalArgument
    ensures r.Ok? ==> WellFormed(r.value, 1) && HeldBelow(r.value, e)
  {
    if !PercentOk(p) then Fail(IllegalArgument) else Ok(AddToAllPercent(t, e, els, p))
  }

  /** `prune(percent)`: a percent outside (0, 1) throws; any other percent prunes as `prune()` does. */
  function PruneWithPercent(t: Node, p: real): (r: Result<Node>)
    requires WellFormed(t, 1)
    ensures r.Fail? <==> !PercentOk(p)
    ensures r.Fail? ==> r.error == IllegalArgument
    ensures r.Ok? ==> r.value == Prune(t)
  {
    if !PercentOk(p) then Fail(IllegalArgument) else Ok(PruneNodePercent(t, p))
  }

  /** `pruneAll(percent)`: a percent outside (0, 1) throws; any other percent prunes as `pruneAll()` does. */
  function PruneAllWithPercent(t: Node, p: real): (r: Result<Node>)
    requires WellFormed(t, 1)
    ensures r.Fail? <==> !PercentOk(p)
    ensures r.Fail? ==> r.error == IllegalArgument
    ensures r.Ok? ==> r.value == PruneAll(t)
  {
    if !PercentOk(p) then Fail(IllegalArgument) else Ok(PruneAllPercent(t, p))
  }

  /** The node `addIfPresent` creates: `new ProbFunTree({x}, 1)`, a lone root leaf holding x at 1. */
  function Leaf(x: int): (n: Node)
    ensures WellFormed(n, 1) && Sorted(n) && n.children == [] && KeySet(n.probs) == {x}
  {
    var m := [Pair(x, 1.0)];
    assert Sum(m) == 1.0 + Sum(m[1..]);
    assert KeySet(m) == {x} by {
      assert m[0].key == x;
    }
    Node(m, [], Null, None, 0)
  }

  /**
   * The last step of `addIfPresent` at the node found: a new leaf under
   * `last` unless a child is already there. With `checked`, the corrected
   * form, also only when `last` is a key of the node.
   */
  function Attach(n: Node, last: int, x: int, checked: bool): (r: Node)
    requires Sorted(n)
    ensures Sorted(r) && r.probs == n.probs
  {
    if last in KeySet(n.children) || (checked && last !in KeySet(n.probs)) then n
    else
      InsertMembers(n.children, last, Leaf(x));
      n.(children := Insert(n.children, last, Leaf(x)))
  }

  /**
   * The walk of `addIfPresent` below the first node: follow `rest`; when
   * only the last step is missing, the node reached so far is the one found;
   * when an earlier step is missing, nothing is found.
   */
  function Descend(n: Node, rest: seq<int>, last: int, x: int, checked: bool): (r: Node)
    requires Sorted(n)
    ensures Sorted(r)
    decreases n
  {
    if rest == [] then Attach(n, last, x, checked)
    else match IndexOf(n.children, rest[0])
      case Some(j) =>
        assert n.children[j] in n.children;
        ReplaceSorted(n, j, Descend(n.children[j].value, rest[1..], last, x, checked));
        Replace(n, j, Descend(n.children[j].value, rest[1..], last, x, checked))
      case None => if |rest| == 1 then Attach(n, last, x, checked) else n
  }

  /** `addIfPresent` from the child of `t` under the first element. */
  function Walk(t: Node, path: seq<int>, x: int, checked: bool): (r: Node)
    requires path != [] && Sorted(t)
    ensures Sorted(r)
  {
    match IndexOf(t.children, path[0])
    case None => t
    case Some(i) =>
      assert t.children[i] in t.children;
      ReplaceSorted(t, i, Descend(t.children[i].value, path[1..], path[|path| - 1], x, checked));
      Replace(t, i, Descend(t.children[i].value, path[1..], path[|path| - 1], x, checked))
  }

  /**
   * `addIfPresent(ifPresent, elementToAdd)` as written: refused for an empty
   * path; otherwise a new leaf holding the element goes under the last
   * element at the node found, whether or not that node holds the last
   * element.
   */
  function AddIfPresentAsWritten(t: Node, path: seq<int>, x: int): (r: Result<Node>)
    requires Sorted(t)
    ensures r.Fail? <==> path == []
    ensures r.Fail? ==> r.error == IllegalArgument
    ensures r.Ok? && IndexOf(t.children, path[0]).None? ==> r.value == t
  {
    if path == [] then Fail(IllegalArgument) else Ok(Walk(t, path, x, false))
  }

  /**
   * The path [0, 7] on the two-layer tree over {0, 1}: the child under 0 is
   * found (7 is missing only at the last step), and it is given a child under
   * 7, a key it does not hold, so the tree breaks the invariant that child
   * keys are keys of the node.
   */
  lemma AddIfPresentAddsForeignKey()
    ensures Build([0, 1], 2).Ok?
    ensures AddIfPresentAsWritten(Build([0, 1], 2).value, [0, 7], 5).Ok?
    ensures !WellFormed(AddIfPresentAsWritten(Build([0, 1], 2).value, [0, 7], 5).value, 1)
  {
    var t := Build([0, 1], 2).value;
    var u := Uniform([0, 1]);
    assert Keys(u) == [0, 1];
    assert Keys(t.children) == [0, 1];
    assert t.children[0].key == 0;
    assert IndexOf(t.children, 0) == Some(0);
    var c := t.children[0].value;
    assert t.children[0] in t.children;
    assert c.children == [] && c.probs == u;
    assert KeySet(u) == {0, 1} by {
      assert u[0].key == 0 && u[1].key == 1;
    }
    var d := Descend(c, [7], 7, 5, false);
    assert IndexOf(c.children, 7) == None;
    assert d == c.(children := Insert([], 7, Leaf(5)));
    var r := Walk(t, [0, 7], 5, false);
    assert r == Replace(t, 0, d);
    assert r.children[0].value == d;
    assert r.children[0] in r.children;
    assert 7 in KeySet(d.children) && 7 !in KeySet(d.probs);
  }

  /** The corrected walk keeps every child key among the node's keys. */
  lemma {:induction false} DescendWellFormed(n: Node, rest: seq<int>, last: int, x: int)
    requires WellFormed(n, 1) && Sorted(n)
    ensures WellFormed(Descend(n, rest, last, x, true), 1)
    decreases n
  {
    if rest == [] || IndexOf(n.children, rest[0]).None? {
      if last !in KeySet(n.children) && last in KeySet(n.probs) {
        InsertMembers(n.children, last, Leaf(x));
      }
    } else {
      var j := IndexOf(n.children, rest[0]).value;
      assert n.children[j] in n.children;
      DescendWellFormed(n.children[j].value, rest[1..], last, x);
      ReplaceWellFormed(n, j, Descend(n.children[j].value, rest[1..], last, x, true), 1);
    }
  }

  /**
   * `addIfPresent` as its documentation states it: the new leaf goes under
   * the last element only at a node that holds that element, so the tree
   * keeps its invariant; a path whose first element has no child changes
   * nothing.
   */
  function AddIfPresent(t: Node, path: seq<int>, x: int): (r: Result<Node>)
    requires WellFormed(t, 1)
    ensures r.Fail? <==> path == []
    ensures r.Fail? ==> r.error == IllegalArgument
    ensures r.Ok? ==> WellFormed(r.value, 1)
    ensures r.Ok? && IndexOf(t.children, path[0]).None? ==> r.value == t
  {
    if path == [] then Fail(IllegalArgument)
    else
      WellFormedSorted(t, 1);
      match IndexOf(t.children, path[0])
      case None => Ok(t)
      case Some(i) =>
        assert t.children[i] in t.children;
        DescendWellFormed(t.children[i].value, path[1..], path[|path| - 1], x);
        ReplaceWellFormed(t, i, Descend(t.children[i].value, path[1..], path[|path| - 1], x, true), 1);
        Ok(Walk(t, path, x, true))
  }

  /**
   * The last step of the corrected `addIfPresent`: nothing changes when a
   * child is already under `last` or the node does not hold `last`;
   * otherwise exactly one child is added, the leaf holding x, under `last`.
   */
  lemma AttachAdds(n: Node, last: int, x: int)
    requires Sorted(n)
    ensures last in KeySet(n.children) || last !in KeySet(n.probs) ==> Attach(n, last, x, true) == n
    ensures last !in KeySet(n.children) && last in KeySet(n.probs) ==>
      var r := Attach(n, last, x, true);
      r.probs == n.probs && r.parent == n.parent && r.previous == n.previous && r.depth == n.depth &&
      KeySet(r.children) == KeySet(n.children) + {last} &&
      forall k :: Get(r.children, k) == if k == last then Some(Leaf(x)) else Get(n.children, k)
  {
    if last !in KeySet(n.children) && last in KeySet(n.probs) {
      forall k ensures Get(Insert(n.children, last, Leaf(x)), k) == if k == last then Some(Leaf(x)) else Get(n.children, k) {
        InsertGet(n.children, last, Leaf(x), k);
      }
    }
  }

  /** The path without its last element. */
  function Init(path: seq<int>): seq<int>
    requires path != []
  {
    path[..|path| - 1]
  }

  /**
   * Where the walk below the first node attaches: at the end of `rest` when
   * the whole of it can be followed, at the end of all but its last element
   * when only the last step is missing, and nowhere (no change) otherwise.
   */
  lemma {:induction false} DescendFinds(n: Node, rest: seq<int>, last: int, x: int, checked: bool)
    requires Sorted(n)
    ensures forall q :: Follow(n, q).Some? ==> Sorted(Follow(n, q).value)
    ensures var d := Descend(n, rest, last, x, checked);
      (Follow(n, rest).Some? ==> Follow(d, rest) == Some(Attach(Follow(n, rest).value, last, x, checked))) &&
      (Follow(n, rest).None? && Follow(n, Init(rest)).Some? ==>
        Follow(d, Init(rest)) == Some(Attach(Follow(n, Init(rest)).value, last, x, checked))) &&
      (Follow(n, rest).None? && Follow(n, Init(rest)).None? ==> d == n)
    decreases n
  {
    forall q | Follow(n, q).Some? ensures Sorted(Follow(n, q).value) {
      FollowSorted(n, q);
    }
    if rest != [] {
      assert Init(rest) == [] || (Init(rest)[0] == rest[0] && Init(rest)[1..] == Init(rest[1..]));
      match IndexOf(n.children, rest[0])
      case Some(j) =>
        assert n.children[j] in n.children;
        var c := n.children[j].value;
        DescendFinds(c, rest[1..], last, x, checked);
        var d := Descend(n, rest, last, x, checked);
        SameKeyOrderFacts(d.children, n.children);
        assert IndexOf(d.children, rest[0]) == Some(j);
        if |rest| == 1 {
          assert Follow(c, rest[1..]) == Some(c);
        }
      case None =>
    }
  }

  /**
   * What the corrected `addIfPresent` adds: the node found is the one at
   * the end of the path, or, when only the last step is missing from a path
   * of two or more, the one at the end of all but the last element; it is
   * attached to as AttachAdds says. When no node is found nothing changes.
   */
  lemma AddIfPresentFinds(t: Node, path: seq<int>, x: int)
    requires WellFormed(t, 1) && path != []
    ensures forall q :: Follow(t, q).Some? ==> Sorted(Follow(t, q).value)
    ensures var r := AddIfPresent(t, path, x).value;
      var last := path[|path| - 1];
      (Follow(t, path).Some? ==> Follow(r, path) == Some(Attach(Follow(t, path).value, last, x, true))) &&
      (Follow(t, path).None? && |path| >= 2 && Follow(t, Init(path)).Some? ==>
        Follow(r, Init(path)) == Some(Attach(Follow(t, Init(path)).value, last, x, true))) &&
      (Follow(t, path).None? && (|path| == 1 || Follow(t, Init(path)).None?) ==> r == t)
  {
    WellFormedSorted(t, 1);
    forall q | Follow(t, q).Some? ensures Sorted(Follow(t, q).value) {
      FollowSorted(t, q);
    }
    var last := path[|path| - 1];
    assert |path| == 1 || (Init(path)[0] == path[0] && Init(path)[1..] == Init(path[1..]));
    match IndexOf(t.children, path[0])
    case None =>
    case Some(i) =>
      assert t.children[i] in t.children;
      var c := t.children[i].value;
      WellFormedSorted(c, 1);
      DescendFinds(c, path[1..], last, x, true);
      var r := AddIfPresent(t, path, x).value;
      SameKeyOrderFacts(r.children, t.children);
      assert IndexOf(r.children, path[0]) == Some(i);
      if |path| == 1 {
        assert Follow(c, path[1..]) == Some(c);
      }
  }

  /**
   * `addIfPresentToAll(ifPresent, elementToAdd)` as written: `addIfPresent`
   * at this node, then `addIfPresentToAll` in every child of the changed
   * node, new nodes included. `fuel` bounds the depth of the recursion the
   * way the Java stack does; running out is StackOverflow.
   */
  function AddIfPresentToAllFuel(t: Node, path: seq<int>, x: int, fuel: nat): (r: Result<Node>)
    requires Sorted(t)
    ensures r.Fail? && path == [] ==> r.error == IllegalArgument
    decreases fuel, 0
  {
    if path == [] then Fail(IllegalArgument)
    else if fuel == 0 then Fail(StackOverflow)
    else
      var t1 := Walk(t, path, x, false);
      var rs := VisitChildren(t1, path, x, fuel - 1);
      if exists i :: 0 <= i < |rs| && rs[i].Fail? then Fail(StackOverflow)
      else Ok(t1.(children := seq(|rs|, i requires 0 <= i < |rs| => Pair(t1.children[i].key, rs[i].value))))
  }

  /** The recursive calls of `addIfPresentToAll` on the children, one result per child. */
  function VisitChildren(t: Node, path: seq<int>, x: int, fuel: nat): (rs: seq<Result<Node>>)
    requires Sorted(t)
    ensures |rs| == |t.children|
    decreases fuel, 1
  {
    seq(|t.children|, i requires 0 <= i < |t.children| =>
      assert t.children[i] in t.children;
      AddIfPresentToAllFuel(t.children[i].value, path, x, fuel))
  }

  /**
   * With the path [0], a node whose child under 0 has no child under 0 never
   * finishes: that child is given one, and the visit of that child repeats
   * the step one level down.
   */
  lemma {:induction false} AddIfPresentToAllLoops(u: Node, x: int, fuel: nat)
    requires Sorted(u) && IndexOf(u.children, 0).Some?
    requires 0 !in KeySet(u.children[IndexOf(u.children, 0).value].value.children)
    ensures AddIfPresentToAllFuel(u, [0], x, fuel) == Fail(StackOverflow)
    decreases fuel
  {
    if fuel > 0 {
      var i := IndexOf(u.children, 0).value;
      var c := u.children[i].value;
      assert u.children[i] in u.children;
      var d := Descend(c, [], 0, x, false);
      assert d == c.(children := Insert(c.children, 0, Leaf(x)));
      var t1 := Walk(u, [0], x, false);
      assert t1 == Replace(u, i, d);
      assert t1.children[i].value == d;
      InsertGet(c.children, 0, Leaf(x), 0);
      var j := IndexOf(d.children, 0).value;
      assert d.children[j].value == Leaf(x);
      AddIfPresentToAllLoops(d, x, fuel - 1);
      var rs := VisitChildren(t1, [0], x, fuel - 1);
      assert rs[i] == AddIfPresentToAllFuel(d, [0], x, fuel - 1);
    }
  }

  /**
   * `addIfPresentToAll([0], 5)` on the two-layer tree over {0, 1} ends in
   * StackOverflow whatever the stack depth: it never finishes.
   */
  lemma AddIfPresentToAllNeverEnds(fuel: nat)
    ensures Build([0, 1], 2).Ok?
    ensures AddIfPresentToAllFuel(Build([0, 1], 2).value, [0], 5, fuel) == Fail(StackOverflow)
  {
    var t := Build([0, 1], 2).value;
    assert Keys(t.children) == [0, 1];
    assert t.children[0].key == 0;
    assert t.children[0] in t.children;
    WellFormedSorted(t, 1);
    AddIfPresentToAllLoops(t, 5, fuel);
  }

  /**
   * `addIfPresentToAll` visiting each node of the tree as it was once: the
   * children are handled first, then the corrected `addIfPresent` at this
   * node, whose new leaf is not visited. It always finishes and keeps the
   * invariant.
   */
  function AddIfPresentToAll(t: Node, path: seq<int>, x: int): (r: Result<Node>)
    requires WellFormed(t, 1)
    ensures r.Fail? <==> path == []
    ensures r.Fail? ==> r.error == IllegalArgument
    ensures r.Ok? ==> WellFormed(r.value, 1)
    decreases t
  {
    if path == [] then Fail(IllegalArgument)
    else
      var cs := seq(|t.children|, i requires 0 <= i < |t.children| =>
        assert t.children[i] in t.children;
        Pair(t.children[i].key, AddIfPresentToAll(t.children[i].value, path, x).value));
      SameKeyOrderFacts(cs, t.children);
      forall c | c in cs ensures WellFormed(c.value, 1) {
        var i :| 0 <= i < |cs| && cs[i] == c;
      }
      AddIfPresent(t.(children := cs), path, x)
  }
}

=== FILE: tree_markov.dfy ===
/**
 * The tree of GenerativeMarkovChain/src/markov/ProbFunTree.java, as values.
 * It keeps the counter `layers` of the src/tree generation (the `depth`
 * field), but every node holds at least two entries: the constructor wants
 * two choices, `remove` stops at two, and `add` overwrites a present
 * element instead of keeping it.
 */
module MarkovTree {
  import opened Wrappers
  import opened Assoc
  import opened ProbMaps
  import opened ProbScans
  import opened TreeNodes
  import opened CountdownTree
  import MainTree
  import LayerTree

  /**
   * `ProbFunTree(choices, layers)`: refused unless there are two choices and
   * a layer; otherwise the complete tree of `layers` layers, uniform at
   * every node, each counting the layers from it down.
   */
  function Build(choices: seq<int>, layers: int): (r: Result<Node>)
    requires Increasing(choices)
    ensures r.Fail? <==> |choices| < 2 || layers < 1
    ensures r.Fail? ==> r.error == IllegalArgument
    ensures r.Ok? ==>
      WellFormed(r.value, 2) && Complete(r.value, layers) && MainTree.Filled(r.value, Uniform(choices)) &&
      Countdown(r.value, layers) && Counted(r.value) && NoHistory(r.value) &&
      MainTree.LinkedUp(r.value) && r.value.parent == Null
  {
    if |choices| < 2 || layers < 1 then Fail(IllegalArgument)
    else
      Ok(GrowDown(Uniform(choices), layers, Null, 2))
  }

  /**
   * The example of the constructor's documentation: over {0, 1} with two
   * layers, a root of two entries and two children of two entries each.
   */
  lemma BuildExample()
    ensures Build([0, 1], 2).Ok?
    ensures var t := Build([0, 1], 2).value;
      Keys(t.probs) == [0, 1] && Keys(t.children) == [0, 1] &&
      t.children[0].value.children == [] && Keys(t.children[0].value.probs) == [0, 1] &&
      Size(t) == 6
  {
    var t := Build([0, 1], 2).value;
    MainTree.FilledAllOfSize(t, Uniform([0, 1]));
    SizeComplete(t, 2, 2);
    assert LayerTotal(2, 0) == 0;
    assert t.children[0] in t.children;
  }

  /**
   * `addToAll(element)` and `addToAll(element, percent)` (`p` the percent):
   * a percent outside (0, 1) is refused before any change; otherwise the
   * element is put in every node, over a value already there, and the call
   * fails exactly where some node is `Stuck`. On a tree whose counters are
   * kept it succeeds and keeps them.
   */
  function AddToAll(t: Node, e: int, p: Option<real>): (r: Result<Node>)
    requires WellFormed(t, 2)
    ensures r.Fail? <==> (p.Some? && (p.value <= 0.0 || p.value >= 1.0)) || Stuck(t, e)
    ensures r.Fail? ==> r.error == IllegalArgument
    ensures r.Ok? ==> WellFormed(r.value, 2) && HeldEverywhere(r.value, e)
    ensures r.Ok? ==> r.value.probs == Added(t.probs, e, p, true)
    ensures Counted(t) && (p.None? || 0.0 < p.value < 1.0) ==> r.Ok? && Counted(r.value)
  {
    if p.Some? && (p.value <= 0.0 || p.value >= 1.0) then Fail(IllegalArgument)
    else
      AddToAllDownFails(t, e, p, true, 2);
      if Counted(t) then
        CountedNotStuck(t, e);
        AddToAllDownCounted(t, e, p, true, 2);
        AddToAllDown(t, e, p, true, 2)
      else AddToAllDown(t, e, p, true, 2)
  }

  /**
   * `purge()` at one node: the entries at the minimum go, with their
   * children, in key order, until two are left, and the map is rescaled.
   */
  function PurgeNode(t: Node): (r: Node)
    requires WellFormed(t, 2)
    ensures WellFormed(r, 2) && Shrunk(r, t)
    ensures r.probs == PurgeMin(t.probs) && r.parent == t.parent && r.previous == t.previous
    ensures forall c :: c in r.children <==> c in t.children && c.key in KeySet(r.probs)
  {
    var r := KeepKeys(t, PurgeMin(t.probs), 2);
    ShrunkKeep(r, t, 2);
    r
  }

  /**
   * `purgeAll()`: `purge()` at every node. The children are purged first
   * here; `purge()` decides from this node's map alone and drops whole
   * children, so the result is the same.
   */
  function PurgeAll(t: Node): (r: Node)
    requires WellFormed(t, 2)
    ensures WellFormed(r, 2) && Shrunk(r, t)
    ensures r.probs == PurgeMin(t.probs) && r.parent == t.parent
    decreases t, 1
  {
    var cs := PurgedChildren(t);
    SameKeyOrderFacts(cs, t.children);
    forall c | c in cs ensures WellFormed(c.value, 2) {
      var i :| 0 <= i < |cs| && cs[i] == c;
    }
    var t1 := t.(children := cs);
    ShrunkPointwise(t1, t);
    var r := PurgeNode(t1);
    ShrunkTrans(r, t1, t);
    r
  }

  /** Every child after `purgeAll()`. */
  function PurgedChildren(t: Node): (cs: seq<Pair<Node>>)
    requires WellFormed(t, 2)
    ensures SameKeyOrder(cs, t.children)
    ensures forall i :: 0 <= i < |cs| ==> WellFormed(cs[i].value, 2) && Shrunk(cs[i].value, t.children[i].value)
    decreases t, 0
  {
    seq(|t.children|, i requires 0 <= i < |t.children| =>
      assert t.children[i] in t.children;
      Pair(t.children[i].key, PurgeAll(t.children[i].value)))
  }

  /**
   * `purge(percent)` at one node, past the percent check: nothing at two
   * entries; otherwise the entries at or below `percent`, lowest first, go
   * with their children until two are left.
   */
  function PurgeNodePercent(t: Node, p: real): (r: Node)
    requires WellFormed(t, 2)
    ensures WellFormed(r, 2) && Shrunk(r, t)
    ensures r.probs == PurgePercent(t.probs, p, 2) && r.parent == t.parent && r.previous == t.previous
    ensures forall c :: c in r.children <==> c in t.children && c.key in KeySet(r.probs)
  {
    var m := PurgePercent(t.probs, p, 2);
    assert |m| >= 2;
    var r := KeepKeys(t, m, 2);
    ShrunkKeep(r, t, 2);
    r
  }

  /**
   * `purgeAll(percent)`: a percent outside (0, 1) is refused before any
   * change; otherwise `purge(percent)` at every node.
   */
  function PurgeAllPercent(t: Node, p: real): (r: Result<Node>)
    requires WellFormed(t, 2)
    ensures r.Fail? <==> p <= 0.0 || p >= 1.0
    ensures r.Fail? ==> r.error == IllegalArgument
    ensures r.Ok? ==> WellFormed(r.value, 2) && Shrunk(r.value, t) && r.value.parent == t.parent
    ensures r.Ok? ==> r.value.probs == PurgePercent(t.probs, p, 2)
  {
    if p >= 1.0 || p <= 0.0 then Fail(IllegalArgument)
    else Ok(PurgeDownPercent(t, p))
  }

  /** `purgeAll(percent)` past the percent check. */
  function PurgeDownPercent(t: Node, p: real): (r: Node)
    requires WellFormed(t, 2)
    ensures WellFormed(r, 2) && Shrunk(r, t)
    ensures r.probs == PurgePercent(t.probs, p, 2) && r.parent == t.parent
    decreases t, 1
  {
    var cs := PercentChildren(t, p);
    SameKeyOrderFacts(cs, t.children);
    forall c | c in cs ensures WellFormed(c.value, 2) {
      var i :| 0 <= i < |cs| && cs[i] == c;
    }
    var t1 := t.(children := cs);
    ShrunkPointwise(t1, t);
    var r := PurgeNodePercent(t1, p);
    ShrunkTrans(r, t1, t);
    r
  }

  /** Every child after `purgeAll(percent)`. */
  function PercentChildren(t: Node, p: real): (cs: seq<Pair<Node>>)
    requires WellFormed(t, 2)
    ensures SameKeyOrder(cs, t.children)
    ensures forall i :: 0 <= i < |cs| ==> WellFormed(cs[i].value, 2) && Shrunk(cs[i].value, t.children[i].value)
    decreases t, 0
  {
    seq(|t.children|, i requires 0 <= i < |t.children| =>
      assert t.children[i] in t.children;
      Pair(t.children[i].key, PurgeDownPercent(t.children[i].value, p)))
  }

  /**
   * What `purgeAll(percent)` does at the root: the entries of lowest
   * probability at or below the percent go, lowest first and ties in key
   * order, until two are left; an entry above the percent always stays.
   */
  lemma PurgeAllPercentRoot(t: Node, p: real)
    requires WellFormed(t, 2) && 0.0 < p < 1.0
    ensures PurgeAllPercent(t, p).Ok?
    ensures forall i :: 0 <= i < |t.probs| && t.probs[i].value > p ==>
      t.probs[i].key in KeySet(PurgeAllPercent(t, p).value.probs)
    ensures |t.probs| == 2 ==> PurgeAllPercent(t, p).value.probs == t.probs
  {
    forall i | 0 <= i < |t.probs| && t.probs[i].value > p
      ensures t.probs[i].key in KeySet(PurgePercent(t.probs, p, 2))
    {
      PurgePercentKeepsAbove(t.probs, p, 2, i);
    }
  }

  /**
   * `clone()`, with the counter copied as well: the copy keeps the invariant
   * and the size, and `addToAll` fails on it exactly where it fails on the
   * original.
   */
  lemma CloneLayersKeeps(t: Node, e: int, p: Option<real>)
    requires WellFormed(t, 2)
    ensures WellFormed(LayerTree.CloneLayers(t), 2) && Size(LayerTree.CloneLayers(t)) == Size(t)
    ensures Counted(t) ==> Counted(LayerTree.CloneLayers(t))
    ensures AddToAll(LayerTree.CloneLayers(t), e, p).Fail? <==> AddToAll(t, e, p).Fail?
  {
    SameMapsWellFormed(LayerTree.CloneLayers(t), t, 2);
    SameMapsSize(LayerTree.CloneLayers(t), t);
    LayerTree.SameCountersStuck(LayerTree.CloneLayers(t), t, e);
    if Counted(t) {
      LayerTree.SameCountersCounted(LayerTree.CloneLayers(t), t);
    }
  }

  /**
   * The copy constructor as written leaves every counter at 0, so on the copy
   * of a two-layer tree over {0, 1} `addToAll(5)` throws
   * IllegalArgumentException, while on the original it succeeds.
   */
  lemma CloneLosesLayers()
    ensures Build([0, 1], 2).Ok?
    ensures AddToAll(Build([0, 1], 2).value, 5, None).Ok?
    ensures WellFormed(Clone(Build([0, 1], 2).value), 2)
    ensures AddToAll(Clone(Build([0, 1], 2).value), 5, None).Fail?
  {
    var t := Build([0, 1], 2).value;
    assert KeySet(t.children) == {0, 1} by {
      assert Keys(t.children) == Keys(t.probs) == [0, 1];
    }
    CloneWellFormed(t, 2);
    LayerTree.CloneStuck(t, 5);
  }
}

=== FILE: tree_nodes.dfy ===
/**
 * The node shared by the three ProbFunTree generations, as a value: the
 * probability map, the children keyed by element (both TreeMaps, so kept in
 * key order), the parent reference, the cursor `previousElement` and the
 * depth counter (`layer` in ProbabilityFunctionTree/src/main/java/tree,
 * `layers` in the two other generations). A parent reference is recorded as
 * the number of levels up to the node it points at, or Null.
 *
 * This module holds what the generations do alike: the invariant, `size`,
 * `clearHistory`, clearing the probabilities, `remove` / `removeFromAll`
 * with a floor size, dropping the children of removed keys, the
 * `good` / `bad` list forms, `nextValue` and `fun` with their cursor walk,
 * and `clone`.
 */
module TreeNodes {
  import opened Wrappers
  import opened Assoc
  import opened ProbMaps
  import opened ProbEdits

  /** A parent reference: none, or the ancestor that many levels up. */
  datatype Link = Null | Up(levels: nat)

  datatype Node = Node(
    probs: ProbMap,
    children: seq<Pair<Node>>,
    parent: Link,
    previous: Option<int>,
    depth: int)

  /**
   * The invariant of every node: its map is a distribution of at least
   * `least` entries (the floor size of the generation), and its children are
   * keyed, in order, by some of its own keys.
   */
  predicate WellFormed(t: Node, least: nat)
    decreases t
  {
    Distribution(t.probs) && |t.probs| >= least &&
    Ordered(t.children) && KeySet(t.children) <= KeySet(t.probs) &&
    forall c :: c in t.children ==> WellFormed(c.value, least)
  }

  /**
   * A complete tree of `h` layers: the last layer has no children; every
   * other node has exactly one child per key of its own map.
   */
  predicate Complete(t: Node, h: nat)
    decreases t
  {
    h >= 1 &&
    (h == 1 ==> t.children == []) &&
    (h > 1 ==>
      Keys(t.children) == Keys(t.probs) &&
      forall c :: c in t.children ==> Complete(c.value, h - 1))
  }

  /** Every node holds exactly `n` entries. */
  predicate AllOfSize(t: Node, n: nat)
    decreases t
  {
    |t.probs| == n && forall c :: c in t.children ==> AllOfSize(c.value, n)
  }

  /** `size()`: this node's entries plus the sizes of all children. */
  function Size(t: Node): nat
    decreases t, 1
  {
    |t.probs| + SizeFrom(t, 0)
  }

  /** The sizes of the children from position `i` on. */
  function SizeFrom(t: Node, i: nat): nat
    requires i <= |t.children|
    decreases t, 0, |t.children| - i
  {
    if i == |t.children| then 0 else Size(t.children[i].value) + SizeFrom(t, i + 1)
  }

  /** n + n^2 + ... + n^h: the entries of a complete tree of `h` layers over `n` elements. */
  function LayerTotal(n: nat, h: nat): nat {
    if h == 0 then 0 else n + n * LayerTotal(n, h - 1)
  }

  lemma {:induction false} SizeFromEqual(t: Node, i: nat, s: nat)
    requires i <= |t.children|
    requires forall c :: c in t.children ==> Size(c.value) == s
    ensures SizeFrom(t, i) == (|t.children| - i) * s
    decreases |t.children| - i
  {
    if i < |t.children| {
      SizeFromEqual(t, i + 1, s);
      assert t.children[i] in t.children;
      var k := |t.children| - i;
      assert k * s == s + (k - 1) * s;
    }
  }

  /** A complete tree of `h` layers whose nodes all hold `n` entries has n + n^2 + ... + n^h entries. */
  lemma {:induction false} SizeComplete(t: Node, n: nat, h: nat)
    requires Complete(t, h) && AllOfSize(t, n)
    ensures Size(t) == LayerTotal(n, h)
    decreases t
  {
    if h == 1 {
      assert LayerTotal(n, 0) == 0;
    } else {
      forall c | c in t.children ensures Size(c.value) == LayerTotal(n, h - 1) {
        SizeComplete(c.value, n, h - 1);
      }
      assert |t.children| == |Keys(t.children)| == |Keys(t.probs)| == n;
      SizeFromEqual(t, 0, LayerTotal(n, h - 1));
    }
  }

  /** Equal apart from the cursors: same maps, links, depths and children. */
  predicate SameExceptHistory(a: Node, b: Node)
    decreases a
  {
    a.probs == b.probs && a.parent == b.parent && a.depth == b.depth &&
    SameKeyOrder(a.children, b.children) &&
    forall i :: 0 <= i < |a.children| ==> SameExceptHistory(a.children[i].value, b.children[i].value)
  }

  /** No node has a cursor. */
  predicate NoHistory(t: Node)
    decreases t
  {
    t.previous.None? && forall c :: c in t.children ==> NoHistory(c.value)
  }

  /** Changing only cursors keeps the invariant. */
  lemma {:induction false} SameExceptHistoryWellFormed(a: Node, b: Node, least: nat)
    requires SameExceptHistory(a, b) && WellFormed(b, least)
    ensures WellFormed(a, least)
    decreases a
  {
    SameKeyOrderFacts(a.children, b.children);
    forall c | c in a.children ensures WellFormed(c.value, least) {
      var i :| 0 <= i < |a.children| && a.children[i] == c;
      assert b.children[i] in b.children;
      SameExceptHistoryWellFormed(a.children[i].value, b.children[i].value, least);
    }
  }

  /** `clearHistory()`: every cursor set to null, nothing else touched. */
  function ClearHistory(t: Node): (r: Node)
    ensures NoHistory(r) && SameExceptHistory(r, t)
    decreases t
  {
    var cs := seq(|t.children|, i requires 0 <= i < |t.children| =>
      Pair(t.children[i].key, ClearHistory(t.children[i].value)));
    assert forall c :: c in cs ==> NoHistory(c.value);
    t.(previous := None, children := cs)
  }

  /** Equal apart from the probability values: same keys in every map, same links, cursors and depths. */
  predicate SameExceptProbs(a: Node, b: Node)
    decreases a
  {
    SameKeyOrder(a.probs, b.probs) && a.parent == b.parent && a.previous == b.previous &&
    a.depth == b.depth && SameKeyOrder(a.children, b.children) &&
    forall i :: 0 <= i < |a.children| ==> SameExceptProbs(a.children[i].value, b.children[i].value)
  }

  /** Every map of the tree is uniform. */
  predicate AllUniform(t: Node)
    decreases t
  {
    (forall i :: 0 <= i < |t.probs| ==> t.probs[i].value == 1.0 / |t.probs| as real) &&
    forall c :: c in t.children ==> AllUniform(c.value)
  }

  /**
   * `clearAllProbs()` (and the recursive `clearProbs()` of the two other
   * generations): every map replaced by the uniform map over its own keys.
   */
  function ClearAllProbs(t: Node, least: nat): (r: Node)
    requires WellFormed(t, least)
    ensures WellFormed(r, least) && AllUniform(r) && SameExceptProbs(r, t)
    decreases t
  {
    var cs := seq(|t.children|, i requires 0 <= i < |t.children| =>
      Pair(t.children[i].key, ClearAllProbs(t.children[i].value, least)));
    SameKeyOrderFacts(cs, t.children);
    assert forall c :: c in cs ==> WellFormed(c.value, least) && AllUniform(c.value);
    SameKeyOrderFacts(ClearProbs(t.probs), t.probs);
    t.(probs := ClearProbs(t.probs), children := cs)
  }

  /**
   * `remove(element)` at one node: refused (false, nothing changed) when the
   * node is at its floor size or lacks the key; otherwise the key leaves both
   * the map and the children and the map is rescaled.
   */
  function RemoveNode(t: Node, e: int, least: nat): (r: (Node, bool))
    requires WellFormed(t, least) && least >= 1
    ensures WellFormed(r.0, least)
    ensures r.1 <==> |t.probs| > least && e in KeySet(t.probs)
    ensures !r.1 ==> r.0 == t
    ensures r.1 ==> KeySet(r.0.probs) == KeySet(t.probs) - {e}
    ensures r.1 ==> r.0.probs == RemoveEntry(t.probs, e)
    ensures r.1 ==> forall c :: c in r.0.children <==> c in t.children && c.key != e
    ensures r.0.parent == t.parent && r.0.previous == t.previous && r.0.depth == t.depth
  {
    if |t.probs| == least || e !in KeySet(t.probs) then (t, false)
    else
      RemovedWellFormed(t, e, least);
      (t.(probs := RemoveEntry(t.probs, e), children := Remove(t.children, e)), true)
  }

  lemma RemovedWellFormed(t: Node, e: int, least: nat)
    requires WellFormed(t, least) && |t.probs| > least && least >= 1
    ensures forall c :: c in Remove(t.children, e) <==> c in t.children && c.key != e
    ensures WellFormed(t.(probs := RemoveEntry(t.probs, e), children := Remove(t.children, e)), least)
  {
    RemoveMembers(t.children, e);
  }

  /**
   * `removeFromAll(element)`: `remove` at this node unless it is at its floor
   * size, then the same in every remaining child. The children are handled
   * first here; the child under `element` is dropped afterwards either way,
   * and the node's decision does not depend on its children, so the result is
   * the same.
   */
  function RemoveFromAll(t: Node, e: int, least: nat): (r: Node)
    requires WellFormed(t, least) && least >= 1
    ensures WellFormed(r, least)
    ensures OnlyAtFloor(r, e, least)
    decreases t
  {
    var cs := seq(|t.children|, i requires 0 <= i < |t.children| =>
      Pair(t.children[i].key, RemoveFromAll(t.children[i].value, e, least)));
    SameKeyOrderFacts(cs, t.children);
    assert forall c :: c in cs ==> WellFormed(c.value, least) && OnlyAtFloor(c.value, e, least);
    var t0 := t.(children := cs);
    var r := RemoveNode(t0, e, least);
    assert forall c :: c in r.0.children ==> c in cs;
    r.0
  }

  /** `e` is left only in maps that are at the floor size. */
  predicate OnlyAtFloor(t: Node, e: int, least: nat)
    decreases t
  {
    (e in KeySet(t.probs) ==> |t.probs| == least) &&
    forall c :: c in t.children ==> OnlyAtFloor(c.value, e, least)
  }

  /**
   * A node whose map is replaced by `m`, a sub-map of its own keys after
   * pruning, drops the children of the keys that are gone.
   */
  function KeepKeys(t: Node, m: ProbMap, least: nat): (r: Node)
    requires WellFormed(t, least) && Distribution(m) && |m| >= least
    ensures WellFormed(r, least)
    ensures r.probs == m && r.parent == t.parent && r.previous == t.previous && r.depth == t.depth
    ensures forall c :: c in r.children <==> c in t.children && c.key in KeySet(m)
  {
    RestrictOrdered(t.children, KeySet(m));
    RestrictKeys(t.children, KeySet(m));
    t.(probs := m, children := Restrict(t.children, KeySet(m)))
  }

  /** The node with its `i`-th child replaced by `n`, under the same key. */
  function Replace(t: Node, i: nat, n: Node): (r: Node)
    requires i < |t.children|
    ensures SameKeyOrder(r.children, t.children)
  {
    t.(children := t.children[i := Pair(t.children[i].key, n)])
  }

  lemma ReplaceWellFormed(t: Node, i: nat, n: Node, least: nat)
    requires WellFormed(t, least) && i < |t.children| && WellFormed(n, least)
    ensures WellFormed(Replace(t, i, n), least)
  {
    var r := Replace(t, i, n);
    SameKeyOrderFacts(r.children, t.children);
    forall c | c in r.children ensures WellFormed(c.value, least) {
      var j :| 0 <= j < |r.children| && r.children[j] == c;
      if j != i {
        assert t.children[j] in t.children;
      }
    }
  }

  /**
   * The path `es` can be followed: its first element is a key of this node,
   * and unless it is the last one this node has a child under it along which
   * the rest can be followed.
   */
  predicate PathOk(t: Node, es: seq<int>)
    decreases t
  {
    es != [] && es[0] in KeySet(t.probs) &&
    (|es| > 1 ==>
      match IndexOf(t.children, es[0])
      case None => false
      case Some(i) => PathOk(t.children[i].value, es[1..]))
  }

  /**
   * `good(list, percent)` (`good` set) and `bad(list, percent)`: the first
   * element is reinforced at this node, then the rest of the list at the child
   * under it. The result is the tree as the call leaves it together with the
   * exception it ends with, if any: an empty list or a percent outside (0, 1)
   * is refused before any change; a missing key or missing child throws
   * NullPointerException after the nodes above it were already changed.
   */
  function Reinforce(t: Node, es: seq<int>, p: real, good: bool, floor: real, least: nat): (r: (Node, Option<Exception>))
    requires WellFormed(t, least) && floor >= 0.0
    ensures WellFormed(r.0, least) && SameExceptProbs(r.0, t)
    ensures r.1.None? <==> 0.0 < p < 1.0 && PathOk(t, es)
    ensures r.1 == Some(IllegalArgument) <==> es == [] || p <= 0.0 || p >= 1.0
    ensures r.1.Some? ==> r.1 == Some(IllegalArgument) || r.1 == Some(NullPointer)
    ensures r.1 == Some(IllegalArgument) ==> r.0 == t
    decreases t
  {
    if es == [] || p >= 1.0 || p <= 0.0 then
      SameExceptProbsRefl(t);
      (t, Some(IllegalArgument))
    else
      var g := if good then Good(t.probs, es[0], p) else Bad(t.probs, es[0], p, floor);
      match g
      case Fail(err) =>
        SameExceptProbsRefl(t);
        (t, Some(err))
      case Ok(res) =>
        var t1 := t.(probs := res.0);
        SameKeyOrderFacts(res.0, t.probs);
        SameExceptProbsRefl(t);
        if |es| == 1 then (t1, None)
        else match IndexOf(t.children, es[0])
          case None => (t1, Some(NullPointer))
          case Some(i) =>
            assert t.children[i] in t.children;
            var sub := Reinforce(t.children[i].value, es[1..], p, good, floor, least);
            ReplaceWellFormed(t1, i, sub.0, least);
            SameExceptProbsReplace(t1, t, i, sub.0);
            (Replace(t1, i, sub.0), sub.1)
  }

  /**
   * What `good` / `bad` do at the node they start from, for a percent in
   * (0, 1) and a non-empty list: a missing first element throws
   * NullPointerException with nothing changed; otherwise this node's map
   * becomes the edited map, a one-element list stops there, and a longer
   * one goes on in the child under the first element (NullPointerException
   * when there is none) with every other child unchanged.
   */
  lemma ReinforceHead(t: Node, es: seq<int>, p: real, good: bool, floor: real, least: nat)
    requires WellFormed(t, least) && floor >= 0.0 && es != [] && 0.0 < p < 1.0
    ensures var g := if good then Good(t.probs, es[0], p) else Bad(t.probs, es[0], p, floor);
      var r := Reinforce(t, es, p, good, floor, least);
      (g.Fail? ==> r == (t, Some(NullPointer))) &&
      (g.Ok? && |es| == 1 ==> r == (t.(probs := g.value.0), None)) &&
      (g.Ok? && |es| > 1 && es[0] !in KeySet(t.children) ==> r == (t.(probs := g.value.0), Some(NullPointer))) &&
      (g.Ok? && |es| > 1 && es[0] in KeySet(t.children) ==>
        var i := IndexOf(t.children, es[0]).value;
        var sub := Reinforce(t.children[i].value, es[1..], p, good, floor, least);
        r.1 == sub.1 && r.0 == t.(probs := g.value.0, children := t.children[i := Pair(es[0], sub.0)]))
  {
    var g := if good then Good(t.probs, es[0], p) else Bad(t.probs, es[0], p, floor);
    if g.Ok? && |es| > 1 && es[0] in KeySet(t.children) {
      var i := IndexOf(t.children, es[0]).value;
      assert t.children[i] in t.children;
    }
  }

  lemma {:induction false} SameExceptProbsRefl(t: Node)
    ensures SameExceptProbs(t, t)
    decreases t
  {
    forall i | 0 <= i < |t.children| ensures SameExceptProbs(t.children[i].value, t.children[i].value) {
      SameExceptProbsRefl(t.children[i].value);
    }
  }

  lemma SameExceptProbsReplace(a: Node, b: Node, i: nat, n: Node)
    requires SameExceptProbs(a, b) && i < |a.children| && SameExceptProbs(n, b.children[i].value)
    ensures SameExceptProbs(Replace(a, i, n), b)
  {
  }

  /** `x` is a key of some node of the tree. */
  predicate HasKey(t: Node, x: int)
    decreases t
  {
    x in KeySet(t.probs) || exists c :: c in t.children && HasKey(c.value, x)
  }

  /**
   * `nextValue()` for a draw `rnd` in [0, 1): the key sampled from this
   * node's map becomes its cursor and is returned (None, Java's null, for the
   * draw 0).
   */
  function NextValue(t: Node, rnd: real, least: nat): (r: (Node, Option<int>))
    requires WellFormed(t, least) && 0.0 <= rnd < 1.0
    ensures WellFormed(r.0, least) && SameExceptHistory(r.0, t)
    ensures r.0.previous == r.1
    ensures r.1.None? <==> rnd == 0.0
    ensures r.1.Some? ==> r.1.value in KeySet(t.probs)
  {
    var x := Sample(t.probs, rnd);
    SameExceptHistoryRefl(t);
    (t.(previous := x), x)
  }

  lemma {:induction false} SameExceptHistoryRefl(t: Node)
    ensures SameExceptHistory(t, t)
    decreases t
  {
    forall i | 0 <= i < |t.children| ensures SameExceptHistory(t.children[i].value, t.children[i].value) {
      SameExceptHistoryRefl(t.children[i].value);
    }
  }

  lemma SameExceptHistoryReplace(a: Node, b: Node, i: nat, n: Node)
    requires SameExceptHistory(a, b) && i < |a.children| && SameExceptHistory(n, b.children[i].value)
    ensures SameExceptHistory(Replace(a, i, n), b)
  {
  }

  /**
   * The cursors read by `fun()` below the child it starts from: the chain of
   * `previousElement`s, each followed into the child under it, up to the first
   * node without a cursor or without children. A missing child on the way is
   * the NullPointerException of the Java loop.
   */
  function Collect(n: Node): (r: Result<seq<int>>)
    ensures r.Fail? ==> r.error == NullPointer
    decreases n
  {
    match n.previous
    case None => Ok([])
    case Some(c) =>
      if n.children == [] then Ok([c])
      else match IndexOf(n.children, c)
        case None => Fail(NullPointer)
        case Some(i) =>
          match Collect(n.children[i].value)
          case Fail(err) => Fail(err)
          case Ok(cs) => Ok([c] + cs)
  }

  /**
   * `fun()` for a draw `rnd` in [0, 1), returning the tree as the call leaves
   * it and the element or the exception. A node without a cursor or without
   * children samples its own map. Otherwise the cursors below the child under
   * its cursor are collected; when there are some (and, if `windowed`, exactly
   * depth - 1 of them) they move up one level, and the node the last one
   * leads to samples; otherwise the child under the cursor draws.
   */
  function Fun(t: Node, rnd: real, windowed: bool, least: nat): (r: (Node, Result<Option<int>>))
    requires WellFormed(t, least) && 0.0 <= rnd < 1.0
    ensures WellFormed(r.0, least) && SameExceptHistory(r.0, t)
    ensures r.1.Fail? ==> r.1.error == NullPointer
    ensures r.1.Ok? ==> (r.1.value.None? <==> rnd == 0.0)
    ensures r.1.Ok? && r.1.value.Some? ==> HasKey(t, r.1.value.value)
    decreases t, 0
  {
    if t.previous.None? || t.children == [] then
      var (t1, x) := NextValue(t, rnd, least);
      (t1, Ok(x))
    else match IndexOf(t.children, t.previous.value)
      case None =>
        SameExceptHistoryRefl(t);
        (t, Fail(NullPointer))
      case Some(i) =>
        assert t.children[i] in t.children;
        SameExceptHistoryRefl(t);
        match Collect(t.children[i].value)
        case Fail(err) => (t, Fail(err))
        case Ok(cs) =>
          if |cs| > 0 && (!windowed || |cs| == t.depth - 1) then
            var t1 := t.(previous := Some(cs[0]));
            match IndexOf(t.children, cs[0])
            case None => (t1, Fail(NullPointer))
            case Some(j) =>
              assert t.children[j] in t.children;
              var sub := Shift(t.children[j].value, cs[1..], rnd, windowed, least);
              ReplaceWellFormed(t1, j, sub.0, least);
              SameExceptHistoryReplace(t1, t, j, sub.0);
              (Replace(t1, j, sub.0), sub.1)
          else
            var sub := Fun(t.children[i].value, rnd, windowed, least);
            ReplaceWellFormed(t, i, sub.0, least);
            SameExceptHistoryReplace(t, t, i, sub.0);
            (Replace(t, i, sub.0), sub.1)
  }

  /**
   * The second loop of `fun()`: from node `n`, each remaining collected
   * element becomes the cursor of the node reached so far and leads on to the
   * child under it; the node reached last draws with `fun()`.
   */
  function Shift(n: Node, rest: seq<int>, rnd: real, windowed: bool, least: nat): (r: (Node, Result<Option<int>>))
    requires WellFormed(n, least) && 0.0 <= rnd < 1.0
    ensures WellFormed(r.0, least) && SameExceptHistory(r.0, n)
    ensures r.1.Fail? ==> r.1.error == NullPointer
    ensures r.1.Ok? ==> (r.1.value.None? <==> rnd == 0.0)
    ensures r.1.Ok? && r.1.value.Some? ==> HasKey(n, r.1.value.value)
    decreases n, 1
  {
    if rest == [] then Fun(n, rnd, windowed, least)
    else
      var n1 := n.(previous := Some(rest[0]));
      SameExceptHistoryRefl(n);
      match IndexOf(n.children, rest[0])
      case None => (n1, Fail(NullPointer))
      case Some(j) =>
        assert n.children[j] in n.children;
        var sub := Shift(n.children[j].value, rest[1..], rnd, windowed, least);
        ReplaceWellFormed(n1, j, sub.0, least);
        SameExceptHistoryReplace(n1, n, j, sub.0);
        (Replace(n1, j, sub.0), sub.1)
  }

  /** The node reached from n by following the children under the keys of path, if they all exist. */
  function Follow(n: Node, path: seq<int>): Option<Node>
    decreases path
  {
    if path == [] then Some(n)
    else match IndexOf(n.children, path[0])
      case None => None
      case Some(j) => Follow(n.children[j].value, path[1..])
  }

  /** Following path from n, each node on the way has the next key of path as its cursor. */
  predicate CursorsAlong(n: Node, path: seq<int>)
    decreases path
  {
    path == [] ||
    (n.previous == Some(path[0]) &&
     match IndexOf(n.children, path[0])
     case None => false
     case Some(j) => CursorsAlong(n.children[j].value, path[1..]))
  }

  /** Every node reached along a path of a well-formed tree is well formed. */
  lemma {:induction false} FollowWellFormed(n: Node, path: seq<int>, least: nat)
    requires WellFormed(n, least) && Follow(n, path).Some?
    ensures WellFormed(Follow(n, path).value, least)
    decreases path
  {
    if path != [] {
      var j := IndexOf(n.children, path[0]).value;
      assert n.children[j] in n.children;
      FollowWellFormed(n.children[j].value, path[1..], least);
    }
  }

  /**
   * The cursor shift of `fun()`: following `rest` from n, every node on the
   * way takes the next element as its cursor, and the node the path leads
   * to draws with `fun()`, which is a plain sample of its own map when it
   * has no cursor or no children. A key of the path without a child throws
   * NullPointerException.
   */
  lemma {:induction false} ShiftWalk(n: Node, rest: seq<int>, rnd: real, windowed: bool, least: nat)
    requires WellFormed(n, least) && 0.0 <= rnd < 1.0
    ensures Follow(n, rest).None? ==> Shift(n, rest, rnd, windowed, least).1 == Fail(NullPointer)
    ensures Follow(n, rest).Some? ==> WellFormed(Follow(n, rest).value, least)
    ensures Follow(n, rest).Some? ==>
      var m := Follow(n, rest).value;
      var r := Shift(n, rest, rnd, windowed, least);
      CursorsAlong(r.0, rest) && Follow(r.0, rest) == Some(Fun(m, rnd, windowed, least).0) &&
      r.1 == Fun(m, rnd, windowed, least).1 &&
      (m.previous.None? || m.children == [] ==> r.1 == Ok(Sample(m.probs, rnd)))
    decreases rest
  {
    if Follow(n, rest).Some? {
      FollowWellFormed(n, rest, least);
    }
    if rest != [] {
      match IndexOf(n.children, rest[0])
      case None =>
      case Some(j) =>
        assert n.children[j] in n.children;
        ShiftWalk(n.children[j].value, rest[1..], rnd, windowed, least);
        var r := Shift(n, rest, rnd, windowed, least);
        var sub := Shift(n.children[j].value, rest[1..], rnd, windowed, least);
        assert r.0.children[j] == Pair(rest[0], sub.0);
        assert IndexOf(r.0.children, rest[0]) == Some(j);
    }
  }

  /**
   * `fun()` on a node whose cursor leads to a child with collected cursors
   * cs that are accepted (some, and depth - 1 of them if `windowed`): the
   * result is the shift along cs from this node, so the cursors from the
   * root along cs become cs and the node cs leads to draws.
   */
  lemma FunShifts(t: Node, rnd: real, windowed: bool, least: nat, cs: seq<int>)
    requires WellFormed(t, least) && 0.0 <= rnd < 1.0
    requires t.previous.Some? && t.children != [] && t.previous.value in KeySet(t.children)
    requires Collect(t.children[IndexOf(t.children, t.previous.value).value].value) == Ok(cs)
    requires |cs| > 0 && (!windowed || |cs| == t.depth - 1)
    ensures Fun(t, rnd, windowed, least) == Shift(t, cs, rnd, windowed, least)
  {
  }

  /** On a tree without cursors `fun()` samples the root's map. */
  lemma FunFresh(t: Node, rnd: real, windowed: bool, least: nat)
    requires WellFormed(t, least) && NoHistory(t) && 0.0 <= rnd < 1.0
    ensures Fun(t, rnd, windowed, least) == (t.(previous := Sample(t.probs, rnd)), Ok(Sample(t.probs, rnd)))
  {
  }

  /**
   * The second draw from a fresh tree whose root has a child under the first
   * element: that child samples its own map, and only its cursor changes.
   */
  lemma FunSecond(t: Node, rnd1: real, rnd2: real, windowed: bool, least: nat, i: nat)
    requires WellFormed(t, least) && NoHistory(t) && 0.0 < rnd1 < 1.0 && 0.0 <= rnd2 < 1.0
    requires i < |t.children| && Sample(t.probs, rnd1) == Some(t.children[i].key)
    requires WellFormed(t.children[i].value, least)
    ensures var t1 := t.(previous := Sample(t.probs, rnd1));
      var c := t.children[i].value;
      Fun(t1, rnd2, windowed, least) ==
        (Replace(t1, i, c.(previous := Sample(c.probs, rnd2))), Ok(Sample(c.probs, rnd2)))
  {
    var t1 := t.(previous := Sample(t.probs, rnd1));
    var c := t.children[i].value;
    assert t.children[i] in t.children;
    assert IndexOf(t1.children, t.children[i].key) == Some(i);
    assert Collect(c) == Ok([]);
  }

  /**
   * `clone()`: the maps are copied and the children cloned, each child's
   * parent set to the copy; cursors, ids and the depth counter are not
   * copied, so the copy's cursors are null and its depths 0.
   */
  function Clone(t: Node): (r: Node)
    ensures r.parent == Null
    ensures SameMaps(r, t) && NoHistory(r) && ClonedLinks(r)
    decreases t
  {
    var cs := seq(|t.children|, i requires 0 <= i < |t.children| =>
      Pair(t.children[i].key, Clone(t.children[i].value).(parent := Up(1))));
    assert forall c :: c in cs ==> NoHistory(c.value) && ClonedLinks(c.value);
    Node(t.probs, cs, Null, None, 0)
  }

  /** The same maps and children keys at every node. */
  predicate SameMaps(a: Node, b: Node)
    decreases a
  {
    a.probs == b.probs && SameKeyOrder(a.children, b.children) &&
    forall i :: 0 <= i < |a.children| ==> SameMaps(a.children[i].value, b.children[i].value)
  }

  /** Every node below the root points at its own parent, and every depth counter is 0. */
  predicate ClonedLinks(t: Node)
    decreases t
  {
    t.depth == 0 && forall c :: c in t.children ==> c.value.parent == Up(1) && ClonedLinks(c.value)
  }

  /** A clone keeps the invariant and the size. */
  lemma {:induction false} CloneWellFormed(t: Node, least: nat)
    requires WellFormed(t, least)
    ensures WellFormed(Clone(t), least) && Size(Clone(t)) == Size(t)
    decreases t
  {
    SameMapsWellFormed(Clone(t), t, least);
    SameMapsSize(Clone(t), t);
  }

  lemma {:induction false} SameMapsWellFormed(a: Node, b: Node, least: nat)
    requires SameMaps(a, b) && WellFormed(b, least)
    ensures WellFormed(a, least)
    decreases a
  {
    SameKeyOrderFacts(a.children, b.children);
    forall c | c in a.children ensures WellFormed(c.value, least) {
      var i :| 0 <= i < |a.children| && a.children[i] == c;
      assert b.children[i] in b.children;
      SameMapsWellFormed(a.children[i].value, b.children[i].value, least);
    }
  }

  lemma {:induction false} SameMapsSize(a: Node, b: Node)
    requires SameMaps(a, b)
    ensures Size(a) == Size(b)
    decreases a, 1
  {
    SameMapsSizeFrom(a, b, 0);
  }

  lemma {:induction false} SameMapsSizeFrom(a: Node, b: Node, i: nat)
    requires SameMaps(a, b) && i <= |a.children|
    ensures SizeFrom(a, i) == SizeFrom(b, i)
    decreases a, 0, |a.children| - i
  {
    if i < |a.children| {
      SameMapsSize(a.children[i].value, b.children[i].value);
      SameMapsSizeFrom(a, b, i + 1);
    }
  }

  /**
   * `a` is `b` with entries and subtrees taken away: each map of `a` holds
   * only keys of the map at the same place in `b`, and the depths agree.
   */
  predicate Shrunk(a: Node, b: Node)
    decreases a
  {
    a.depth == b.depth && KeySet(a.probs) <= KeySet(b.probs) &&
    forall c :: c in a.children ==>
      Get(b.children, c.key).Some? && Shrunk(c.value, Get(b.children, c.key).value)
  }

  lemma {:induction false} ShrunkRefl(t: Node, least: nat)
    requires WellFormed(t, least)
    ensures Shrunk(t, t)
    decreases t
  {
    forall c | c in t.children
      ensures Get(t.children, c.key) == Some(c.value) && Shrunk(c.value, c.value)
    {
      var i :| 0 <= i < |t.children| && t.children[i] == c;
      GetAt(t.children, i);
      ShrunkRefl(c.value, least);
    }
  }

  /** Dropping entries and whole children keeps to the original. */
  lemma ShrunkKeep(a: Node, b: Node, least: nat)
    requires WellFormed(b, least) && a.depth == b.depth && KeySet(a.probs) <= KeySet(b.probs)
    requires forall c :: c in a.children ==> c in b.children
    ensures Shrunk(a, b)
  {
    forall c | c in a.children
      ensures Get(b.children, c.key) == Some(c.value) && Shrunk(c.value, c.value)
    {
      var i :| 0 <= i < |b.children| && b.children[i] == c;
      GetAt(b.children, i);
      ShrunkRefl(c.value, least);
    }
  }

  /** Children shrunk one by one, under the same keys. */
  lemma ShrunkPointwise(a: Node, b: Node)
    requires Ordered(b.children) && a.depth == b.depth && KeySet(a.probs) <= KeySet(b.probs)
    requires SameKeyOrder(a.children, b.children)
    requires forall i :: 0 <= i < |a.children| ==> Shrunk(a.children[i].value, b.children[i].value)
    ensures Shrunk(a, b)
  {
    forall c | c in a.children
      ensures Get(b.children, c.key).Some? && Shrunk(c.value, Get(b.children, c.key).value)
    {
      var i :| 0 <= i < |a.children| && a.children[i] == c;
      GetAt(b.children, i);
    }
  }

  lemma {:induction false} ShrunkTrans(a: Node, b: Node, c: Node)
    requires Shrunk(a, b) && Shrunk(b, c)
    ensures Shrunk(a, c)
    decreases a
  {
    forall x | x in a.children
      ensures Get(c.children, x.key).Some? && Shrunk(x.value, Get(c.children, x.key).value)
    {
      var bx := Get(b.children, x.key).value;
      var i := IndexOf(b.children, x.key).value;
      assert b.children[i] == Pair(x.key, bx);
      assert b.children[i] in b.children;
      ShrunkTrans(x.value, bx, Get(c.children, x.key).value);
    }
  }

  /** Every node's children are in key order. */
  predicate Sorted(t: Node)
    decreases t
  {
    Ordered(t.children) && forall c :: c in t.children ==> Sorted(c.value)
  }

  /** Every node reached along a path of a sorted tree is sorted. */
  lemma {:induction false} FollowSorted(n: Node, path: seq<int>)
    requires Sorted(n) && Follow(n, path).Some?
    ensures Sorted(Follow(n, path).value)
    decreases path
  {
    if path != [] {
      var j := IndexOf(n.children, path[0]).value;
      assert n.children[j] in n.children;
      FollowSorted(n.children[j].value, path[1..]);
    }
  }

  lemma {:induction false} WellFormedSorted(t: Node, least: nat)
    requires WellFormed(t, least)
    ensures Sorted(t)
    decreases t
  {
    forall c | c in t.children ensures Sorted(c.value) {
      WellFormedSorted(c.value, least);
    }
  }

  lemma ReplaceSorted(t: Node, i: nat, n: Node)
    requires Sorted(t) && i < |t.children| && Sorted(n)
    ensures Sorted(Replace(t, i, n))
  {
    var r := Replace(t, i, n);
    SameKeyOrderFacts(r.children, t.children);
    forall c | c in r.children ensures Sorted(c.value) {
      var j :| 0 <= j < |r.children| && r.children[j] == c;
      if j != i {
        assert t.children[j] in t.children;
      }
    }
  }
}

=== FILE: wrappers.dfy ===
/** Option and Result, and the Java exceptions the modelled classes throw. */
module Wrappers {

  datatype Option<T> = None | Some(value: T)

  /**
   * The unchecked Java exceptions raised by the modelled code, and
   * StackOverflow for the StackOverflowError of a recursion that never ends.
   */
  datatype Exception =
    | NullPointer
    | IllegalArgument
    | IllegalState
    | IndexOutOfBounds
    | ConcurrentModification
    | NoSuchElement
    | StackOverflow

  datatype Result<T> = Ok(value: T) | Fail(error: Exception)
}
